=== FILE: README.md ===
# AgroOptima core in Dafny

AgroOptima is a planning tool for Polish farm advisors. For each farmer (a
client, keyed by a nine-character producer number) it keeps parcels and their
per-year history of crops, crop parts and eco-schemes. From these it computes:

- area validation against the reference area;
- eco-scheme conflicts, points and estimated values;
- the entry condition;
- the basic payments.

Around that it provides:

- a CSV import of parcel and crop registers, driven by editable column templates;
- copying one campaign year into another;
- a keyword search over uploaded documents;
- a rule-graph editor with a cycle audit;
- a campaign hierarchy;
- the planner, operations log and semantic dictionary screens;
- a back end that stores a farmer's parcels.

This project models that core as pure functions over immutable datatypes and
proves what each operation promises. The modules follow the program:

| module | program part |
|---|---|
| `Wrappers`, `Seqs`, `Text` | shared helpers: option/result, sequence filters, updates, upserts, de-duplication, stable sort, and the JavaScript string operations the code relies on (`trim`, `toLowerCase`, `includes`, `indexOf`, `split`) |
| `FarmTypes` | parcels, history entries, crop parts, clients, documents, subsidy rates, and the history lookups and removals shared by the screens |
| `Backend` | `update_client_fields` in `backend/main.py` and its database tables |
| `Ledger`, `FarmLogic` | `analyzeFarmState` in `services/farmLogic.ts` |
| `Csv`, `YearHistory`, `FieldManager` | the CSV reading, header mapping, number and crop-name normalisation, copy-from-year and the parcel and crop import merge of `components/FieldManager.tsx` |
| `Rag` | the chunking, search and store of `services/ragEngine.ts` |
| `RuleGraph` | the graph editor and DFS cycle audit of `components/admin/RuleOrchestrator.tsx` |
| `Hierarchy` | `extractHierarchy` in `services/hierarchyEngine.ts` |
| `EcoSimulation`, `Dashboard`, `CropManager`, `ParcelManager`, `AdminPanel`, `FarmerList`, `AppState`, `FarmPlanner`, `OperationsLog`, `SemanticDictionary` | the state handlers and derived values of those screens |

Conventions:

- Areas, rates and points are exact `real`s.
- JavaScript truthiness on numbers (`x || d`) is written out as `x != 0.0`.
- `parseFloat` is a parameter `parse: string -> Option<real>`, where `None` means NaN.
- `localeCompare` is code-point order (`Text.StrLe`).
- `toLowerCase` and `toUpperCase` are modelled for ASCII and the Polish letters.
- Randomly drawn ids, `Date.now()`, today's date, `window.confirm` answers and server replies are all parameters of the operations that use them.

## Model

| member | source | states |
|---|---|---|
| Backend.Pack | backend/main.py:34-65 | the extended-data bag holds a key exactly for each payload value that is not `None`; an empty crop-part list is not stored |
| Backend.PackKeepsFalsy | backend/main.py:64-65 | falsy values that are not `None` (0, "", false) stay in the bag |
| Backend.HistoryRowOf | backend/main.py:67-75 | a history row keeps the entry's year, crop, schemes, liming date and pH under its parcel's id, with the packed bag |
| Backend.Unpack | backend/main.py:34-75 | the inverse of the packing: the fixed columns plus the bag's attributes give the entry back (the endpoint itself has no read path; it returns the submitted parcels) |
| Backend.UnpackPack | backend/main.py:34-75 | storing an entry and reading the row back gives the entry again, for every entry without an empty crop-part list |
| Backend.EmptyPartsReadBackAbsent | backend/main.py:38 | an empty crop-part list reads back as no list |
| Backend.FieldRowOf | backend/main.py:13-28 | a parcel row copies every submitted column, the location ones included, under the farmer's producer id |
| Backend.Undeclared | backend/models.py:61-87 | the first keyword argument a mapped class does not declare, which its default constructor rejects; none iff all are declared |
| Backend.UndeclaredAt | backend/models.py:61-87 | a keyword preceded only by declared ones and undeclared itself is the one rejected |
| Backend.ParcelClassRejects | backend/main.py:13-28 | the parcel class, declared without the location columns, rejects `voivodeship` |
| Backend.HistoryClassRejects | backend/main.py:67-75 | the history class, declared without `extended_data`, rejects that keyword |
| Backend.NewHistory | backend/main.py:32-76 | the inserted history rows are, parcel by parcel and entry by entry, the rows of the submitted entries |
| Backend.OtherFarmers | backend/main.py:9 | the bulk delete keeps exactly the parcel rows of other farmers, in table order |
| Backend.DropHistory | backend/main.py:9 | the corrected delete keeps exactly the history rows whose parcel is not among the deleted |
| Backend.RowsFor | backend/main.py:12-29 | one parcel row per submitted parcel, in order |
| Backend.UpdateClientFieldsAsWritten | backend/main.py:2-80 | as written against the declared classes: unknown farmer gives 404; every failure, including the constructor's rejection of an undeclared keyword, changes nothing; success only when no parcel is constructed or the parcel class declares every keyword, and then the other farmers' rows plus the new ones, with the new history appended to all old history rows, those of the deleted parcels included |
| Backend.NonEmptySubmissionFails | backend/main.py:12-30 | as written, every non-empty submission for a known farmer fails on `voivodeship` and changes nothing |
| Backend.StaleHistoryCounterexample | backend/main.py:9 | as written, an empty submission deletes the farmer's parcel but keeps its history row, which then belongs to no stored parcel; the corrected replace removes it |
| Backend.UpdateClientFields | backend/main.py:2-80 | the corrected endpoint of both backend findings (declared columns, history deleted with its parcels): 404 for an unknown farmer; success iff the new ids are insertable; other farmers' parcels untouched; the farmer's parcels are exactly the submitted ones; old history of the farmer's parcels gone, others kept, submitted history added |
| Backend.UpdateStoresSubmission | backend/main.py:12-79 | the corrected endpoint accepts an insertable submission and stores each parcel's row, location included, and a history row per entry |
| Backend.UpdateReplacesHistory | backend/main.py:9-76 | on a linked database the history under the submitted ids is exactly the submitted history |
| Backend.SurvivorNotSubmitted | backend/main.py:9 | a surviving history row of another farmer carries no submitted id |
| Backend.UpdateKeepsLinked | backend/main.py:9-79 | the corrected replace keeps every history row attached to a stored parcel |
| Backend.UpdateIdempotent | backend/main.py:2-80 | sending the same parcels twice leaves the database as the first call did |
| Backend.ReplacedKeepsOthers | backend/main.py:9 | the replace keeps every other farmer's parcel row |
| Backend.ReplacedOwned | backend/main.py:9-29 | after the replace the farmer owns exactly the submitted ids |
| Backend.AddedAllSubmitted | backend/main.py:32-76 | every inserted history row carries a submitted parcel id |
| Backend.ReplaceTwice | backend/main.py:2-80 | replacing twice with the same parcels equals replacing once |
| Ledger.Lookup | services/farmLogic.ts:99-106 | the record of a code is found iff some record carries the code, and it is the first such |
| Ledger.Credit | services/farmLogic.ts:99-118 | crediting a use adds its area, points and value to its code's record, creating a zero record for a new code; no other record changes and the totals grow by the credited amounts |
| FarmLogic.ReferenceArea | services/farmLogic.ts:44 | the reference area follows the fallback chain: entry eligible area, parcel eligible area, entry area, parcel area, 0 |
| FarmLogic.AreaCheck | services/farmLogic.ts:46-65 | no issue unless the excess is over 0.001; an error when it also exceeds 3% of the reference, a warning otherwise |
| FarmLogic.WithinReferenceNoIssue | services/farmLogic.ts:44-65 | a parcel declared within its reference area raises no area issue |
| FarmLogic.PartsToAnalyze | services/farmLogic.ts:68-73 | a present crop-part list (even empty) is used as it is; a missing one becomes one main part with the entry's area or the parcel's |
| FarmLogic.PairsWith | services/farmLogic.ts:82-92 | a conflict for each excluded code the part also carries |
| FarmLogic.ConflictsOf | services/farmLogic.ts:79-94 | a conflict issue for each ordered pair (a, b) where a's rate excludes b and the part carries b |
| FarmLogic.PartConflicts | services/farmLogic.ts:76-94 | a part without schemes raises no conflict |
| FarmLogic.PartUses | services/farmLogic.ts:96-108 | one use per scheme code of the part, each with the part's area |
| FarmLogic.Tally | services/farmLogic.ts:96-121 | one record per code named by some use; the total points are the sum over the uses |
| FarmLogic.TallyTracks | services/farmLogic.ts:96-121 | a record exists for exactly the codes some use names, holding the summed area of that code's uses |
| FarmLogic.Analyze | services/farmLogic.ts:18-136 | required points are 1.25 × area; the entry condition holds iff total points reach them; the total value is the sum of the records' values |
| FarmLogic.IssuesOfAppend | services/farmLogic.ts:29-125 | the issues of two parcel lists are the issues of each, concatenated |
| FarmLogic.UsesOfAppend | services/farmLogic.ts:29-125 | the scheme uses of two parcel lists are those of each, concatenated |
| FarmLogic.AnalyzeSchemeArea | services/farmLogic.ts:96-131 | the report's scheme records follow the parcels' crop-part uses |
| FarmLogic.NoEntryNoEffect | services/farmLogic.ts:30-32 | a parcel without an entry for the year changes nothing in the report, wherever it stands |
| FarmLogic.EmptyPartsNoSchemes | services/farmLogic.ts:68-76 | a present but empty crop-part list takes part in no scheme check and no total |
| FarmLogic.UnpricedUseOnlyArea | services/farmLogic.ts:108-120 | a use whose code has no rate adds its area but no points and no value |
| FarmLogic.AreaOfAppend | services/farmLogic.ts:108 | each use credits exactly its part's area to its code |
| Text.Trim | components/FieldManager.tsx:92 | the result is trimmed and is the input with its leading and trailing white space removed |
| Text.TrimOfTrimmed | components/FieldManager.tsx:92 | a trimmed string is left as it is |
| Text.Lower | components/FieldManager.tsx:59 | same length, each character lower-cased |
| Text.IndexOf | services/ragEngine.ts:70 | the first position where the text occurs, or -1 exactly when it occurs nowhere |
| Text.ContainsIff | services/ragEngine.ts:67 | `includes` holds iff the text occurs at some position |
| Text.SplitOn | components/FieldManager.tsx:242 | at least one piece; no piece holds the separator |
| Text.JoinSplitOn | components/FieldManager.tsx:242 | joining the pieces with the separator gives the text back |
| Text.CommaList | components/FieldManager.tsx:371 | the pieces are non-empty, trimmed and free of commas |
| Text.CommaListMembers | components/FieldManager.tsx:371 | a code is listed iff it is a non-empty trimmed piece between the commas |
| Text.NatToString | services/ragEngine.ts:33 | decimal digits only, at least one |
| Text.NatToStringValue | services/ragEngine.ts:33 | the digits denote the number, so distinct numbers render differently |
| Seqs.Upsert | App.tsx:225-231 | with a match, every element with the key is replaced in place; without, the element is appended |
| Seqs.UpsertThenFind | App.tsx:225-231 | after an upsert, `find` by the key returns the upserted element |
| Seqs.UpsertIdempotent | App.tsx:225-231 | upserting the same element twice is upserting it once |
| Seqs.Dedup | components/FieldManager.tsx:536 | `Array.from(new Set(...))`: the same elements, each once |
| Seqs.DedupOrder | components/FieldManager.tsx:536 | elements are listed in the order of their first occurrence |
| Seqs.SortBy | components/FieldManager.tsx:151 | a permutation of the input |
| Seqs.SortBySorted | components/FieldManager.tsx:151 | under a total preorder the result is ordered |
| Seqs.SortByStable | components/FieldManager.tsx:151 | the sort is stable: the elements ranked equal to any element keep their input order |
| FarmTypes.FindYear | components/FieldManager.tsx:118 | none iff no entry has the year; otherwise the first entry of that year |
| FarmTypes.SortHistory | components/FieldManager.tsx:151 | a permutation of the history, newest year first |
| FarmTypes.SortHistoryKeeps | components/FieldManager.tsx:151 | sorting keeps exactly the entries |
| FarmTypes.NewestFirstHead | components/FieldManager.tsx:449 | after the sort the head carries the newest year |
| FarmTypes.RemoveKey | App.tsx:234 | `filter(x => key(x) !== k)`: exactly the elements with another key |
| FarmTypes.RemoveKeyFresh | App.tsx:218 | removing a key no element has, after prepending an element with it, gives the list back |
| Csv.Pieces | components/FieldManager.tsx:83-99 | no piece holds a quote |
| Csv.SplitLine | components/FieldManager.tsx:83-100 | each field is a collected piece, cleaned |
| Csv.SplitCsv | components/FieldManager.tsx:83-100 | the character loop with the quote flag returns exactly `SplitLine` |
| Csv.PiecesCount | components/FieldManager.tsx:87-98 | one field more than there are separators outside quotes |
| Csv.SplitLineCount | components/FieldManager.tsx:83-100 | the number of fields is one more than the unquoted separators |
| Csv.QuotedFieldKeepsSeparators | components/FieldManager.tsx:89-96 | a quoted field keeps every separator inside it and loses its quotes |
| Csv.PiecesNoQuotes | components/FieldManager.tsx:87-98 | without quotes the splitter is `split(separator)` |
| Csv.SplitLineJoin | components/FieldManager.tsx:83-100 | trimmed fields free of quotes and of the separator, joined by the separator, are read back unchanged |
| Csv.StripEndQuotes | components/FieldManager.tsx:92 | one leading and one trailing quote removed, nothing else |
| Csv.CleanPiece | components/FieldManager.tsx:92 | a piece without quotes is only trimmed |
| Csv.StripBom | components/FieldManager.tsx:229-231 | a leading byte-order mark is dropped, and nothing else changes |
| Csv.FirstLine | components/FieldManager.tsx:233 | the text up to the first line feed, which it does not hold |
| Csv.DetectSeparator | components/FieldManager.tsx:233-240 | ';' iff more semicolons than commas, ',' iff more commas, the template's separator on a tie |
| Csv.NormalizeNewlines | components/FieldManager.tsx:242 | no carriage return is left |
| Csv.NormalizeNewlinesNoCr | components/FieldManager.tsx:242 | text without carriage returns is left as it is |
| Csv.Lines | components/FieldManager.tsx:242 | the non-blank lines, none holding a line break |
| Csv.ReadSheet | components/FieldManager.tsx:226-249 | empty file and fewer than two non-blank lines are refused; otherwise the header and the rows are split with the detected separator |
| Csv.CleanNumber | components/FieldManager.tsx:49-51 | no white space and no comma is left |
| Csv.CleanNumberIsFilterMap | components/FieldManager.tsx:49-51 | the cleaned text is the input without white space, each comma turned into a dot |
| Csv.CleanNumberIdempotent | components/FieldManager.tsx:49-51 | cleaning twice is cleaning once |
| Csv.ParsePolishNumber | components/FieldManager.tsx:47-54 | 0 for empty text and for text the reader rejects, else the reading of the cleaned text |
| Csv.ParsePolishNumberClean | components/FieldManager.tsx:47-54 | spaces anywhere and a decimal comma read the same as the compact dotted text |
| Csv.MatchRule | components/FieldManager.tsx:62-71 | the first keyword rule the name mentions, or -1 when none does |
| Csv.NormalizeCropName | components/FieldManager.tsx:57-80 | the result is a known crop, "Nieznana", or the capitalised trimmed input longer than two characters |
| Csv.CropTypesNonEmpty | constants.ts:6-17 | every known crop name is non-empty |
| Csv.NormalizeNonEmpty | components/FieldManager.tsx:57-80 | the normalised name is never empty |
| Csv.NormalizeRuleWins | components/FieldManager.tsx:62-71 | a matching keyword rule decides the name |
| Csv.NormalizeCaseInsensitive | components/FieldManager.tsx:59-71 | when a rule decides, the name depends only on the lower-cased, trimmed input |
| Csv.NormalizeFallbackStable | components/FieldManager.tsx:78 | a name kept as typed normalises to itself again |
| Csv.CapitalizeTwice | components/FieldManager.tsx:78 | capitalising twice is capitalising once |
| Csv.TrimLowerCommute | components/FieldManager.tsx:59 | lower-casing commutes with trimming |
| Csv.CollapseSpace | components/FieldManager.tsx:254 | no two white-space characters in a row remain |
| Csv.DropQuotes | components/FieldManager.tsx:254 | no quote mark is left, and every other character is kept |
| Csv.CleanHeader | components/FieldManager.tsx:254 | lower case, no quote marks, trimmed |
| Csv.ColumnOf | components/FieldManager.tsx:257-261 | a column index of the file, or -1 |
| Csv.ColumnOfFirst | components/FieldManager.tsx:257-261 | the found column's cleaned header contains the cleaned name, no earlier one does, and -1 means none does |
| Csv.HeaderColumns | components/FieldManager.tsx:256-262 | the column of each template entry's header, or -1 |
| Csv.ColumnMap | components/FieldManager.tsx:256-269 | a key is mapped iff some entry for it names a header the file has |
| Csv.ColumnMapHas | components/FieldManager.tsx:263-264 | a key has a column exactly when some entry for it finds a header |
| Csv.ColumnMapDistinct | components/FieldManager.tsx:263-264 | without repeated keys, each found key maps to its own header's column |
| Csv.GetVal | components/FieldManager.tsx:279-283 | the cell of a mapped column inside the row, else "" |
| Csv.MissingRequired | components/FieldManager.tsx:265-268 | exactly the template headers of the required keys that no file header matches |
| Csv.MissingRequiredInOrder | components/FieldManager.tsx:265-268 | those headers come in template order: the headers of the template's missing pairs, kept in place |
| YearHistory.PutYear | components/FieldManager.tsx:123-150 | the first entry of the year is rewritten, or the new entry appended |
| YearHistory.PutYearOthers | components/FieldManager.tsx:144-150 | afterwards the year has an entry, and no entry of another year is added, removed or changed |
| YearHistory.PutYearSorted | components/FieldManager.tsx:144-151 | the edit followed by the newest-first sort |
| YearHistory.PutYearSortedOthers | components/FieldManager.tsx:144-151 | the sorted edit keeps the same entries of other years |
| YearHistory.PutYearHolds | components/FieldManager.tsx:144-151 | the rewritten or added entry is in the result |
| FieldManager.Overlay | components/FieldManager.tsx:147 | every attribute the patch carries replaces the existing one; the rest is kept |
| FieldManager.CopiedEntry | components/FieldManager.tsx:126-142 | parcel mode: source areas with parcel fallbacks, crop reset, no schemes, no parts; crop mode: the whole source entry under the new year |
| FieldManager.CopyFieldFromYear | components/FieldManager.tsx:117-153 | a parcel without a source-year entry is unchanged |
| FieldManager.CopyFromYear | components/FieldManager.tsx:111-156 | after confirmation each parcel is copied on its own, in order, one out per one in; a refused confirmation changes nothing |
| FieldManager.CopyFieldResult | components/FieldManager.tsx:117-153 | a parcel with a source entry ends newest-first with an entry for the target year, and no other year's entry changes |
| FieldManager.CopyParcelsResets | components/FieldManager.tsx:126-135 | in parcel mode the target entry has the crop reset, no schemes and no parts |
| FieldManager.ImportYear | components/FieldManager.tsx:369 | the template's year, or the selected year when it has none |
| FieldManager.RegKey | components/FieldManager.tsx:422 | no white space and lower case |
| FieldManager.ParcelItemOf | components/FieldManager.tsx:297-311 | none iff the row has neither name nor number; placeholders for the missing one; eligible area falls back to the area |
| FieldManager.BatchIndex | components/FieldManager.tsx:316-319 | the first entry with the same name, or unnamed with the same number |
| FieldManager.AddToBatch | components/FieldManager.tsx:316-343 | a duplicate row adds its areas to the batch entry; any other row is appended |
| FieldManager.AddToBatchArea | components/FieldManager.tsx:321-324 | the row's areas are added to its name's totals and to no other name's |
| FieldManager.AcceptedParcels | components/FieldManager.tsx:290-304 | the accepted rows in file order; rows with fewer than two cells and rows without name and number are passed over |
| FieldManager.ParcelRows | components/FieldManager.tsx:290-344 | the rows folded into the batch, and the count of skipped rows |
| FieldManager.BatchEntrySums | components/FieldManager.tsx:313-343 | the batch entry of a name carries the summed areas of every accepted row with that name |
| FieldManager.DistinctNameArea | components/FieldManager.tsx:313-343 | in a batch without repeated names a name's total is its one entry's area |
| FieldManager.ParcelEntry | components/FieldManager.tsx:425-431 | the new entry: import year, crop "Nieznana", no schemes, the row's areas |
| FieldManager.UpdateParcel | components/FieldManager.tsx:433-465 | the year's entry takes the row's areas; name and areas follow the row only when no year is newer; the location is always replaced |
| FieldManager.NewestIff | components/FieldManager.tsx:447-450 | `importYear >= history[0].year` after the sort iff no entry before the edit is newer |
| FieldManager.UpdateParcelHistory | components/FieldManager.tsx:435-447 | the year's entry carries the row's areas with its other attributes kept; no other year's entry changes |
| FieldManager.NewParcel | components/FieldManager.tsx:466-469 | a new parcel holds one entry of the import year |
| FieldManager.ApplyParcel | components/FieldManager.tsx:416-470 | the first matching parcel is updated and nothing else changes; without a match the row is appended as a new parcel |
| FieldManager.ApplyParcels | components/FieldManager.tsx:416-471 | the rows applied in order, each counted as a success |
| FieldManager.AttrValue | components/FieldManager.tsx:374-396 | numeric attributes are parsed as Polish numbers; the others keep the cell text |
| FieldManager.RowArea | components/FieldManager.tsx:360-365 | the specific area when positive, else the general area |
| FieldManager.SchemeCell | components/FieldManager.tsx:371 | an empty cell gives no schemes, else the trimmed non-empty comma pieces |
| FieldManager.CropItemOf | components/FieldManager.tsx:347-405 | none iff no registration number; crop normalised; area by `RowArea`; the part stored under the designation or "A" |
| FieldManager.OrStr | components/FieldManager.tsx:506 | `s \|\| d` on strings |
| FieldManager.CropRows | components/FieldManager.tsx:290-407 | the crop rows of the file and the count of rows without a number |
| FieldManager.OptStrOr | components/FieldManager.tsx:537 | the new payment list unless empty, else the old one |
| FieldManager.MergeInto | components/FieldManager.tsx:532-538 | areas add up, the schemes are united, each once |
| FieldManager.PartIndex | components/FieldManager.tsx:528 | the first part with the designation, or -1 |
| FieldManager.MergeRow | components/FieldManager.tsx:528-541 | merged into the first part with the key, every other part kept, or appended when no part has the key |
| FieldManager.MergeRowDistinct | components/FieldManager.tsx:528-541 | merging under the part's own designation keeps designations distinct |
| FieldManager.MergeRowKeeps | components/FieldManager.tsx:528-541 | no designation is lost, and the row's own is added |
| FieldManager.RowEntry | components/FieldManager.tsx:515-556 | parts restart the first time a parcel is touched; "Mieszana" for more than one part; schemes are the union |
| FieldManager.CropParcel | components/FieldManager.tsx:570-594 | the parcel created from a row: its one entry holds the row's part; crop as in the plan year or "Nieznana" |
| FieldManager.ParcelCrop | components/FieldManager.tsx:559-567 | in the plan year or when newest, "Mieszana" if the head entry has parts, else the row's crop; otherwise kept |
| FieldManager.UpdateCropParcel | components/FieldManager.tsx:500-568 | the matched parcel gets the updated entry of the row's year, newest first |
| FieldManager.ApplyCropStep | components/FieldManager.tsx:474-597 | the first matching parcel is updated, or a new one appended; the touched set grows by that parcel |
| FieldManager.ApplyCropAsWritten | components/FieldManager.tsx:474-597 | parts matched on the raw designation; a created parcel is not marked touched |
| FieldManager.ApplyCrop | components/FieldManager.tsx:474-597 | parts matched on the stored designation; a created parcel is marked touched |
| FieldManager.ApplyCrops | components/FieldManager.tsx:474-597 | the rows applied in order with the step as written; the first parcels keep their ids, and at most one parcel is added per row |
| FieldManager.ApplyCropsIntended | components/FieldManager.tsx:474-597 | the rows applied in order with the intended step of both FieldManager findings |
| FieldManager.ApplyCropsCover | components/FieldManager.tsx:518-526 | under the intended fold, every parcel is one the import started from or one it touched, so a reset only discards parts from before the import |
| FieldManager.BlankDesignationDuplicates | components/FieldManager.tsx:506-528 | as written, two blank-designation rows for one entry end in two parts both called "A" |
| FieldManager.BlankDesignationMerged | components/FieldManager.tsx:506-528 | as intended, the same rows end in one part "A" holding both areas |
| FieldManager.RowEntryDistinct | components/FieldManager.tsx:528-541 | as intended, an entry's parts keep distinct designations |
| FieldManager.NewParcelLosesPart | components/FieldManager.tsx:583-594 | as written, a second row for a parcel created in the same import wipes the first row's part |
| FieldManager.NewParcelKeepsParts | components/FieldManager.tsx:583-594 | as intended, both parts are kept |
| FieldManager.ImportFile | components/FieldManager.tsx:224-626 | unreadable files and missing required columns are refused with no change; otherwise the rows of the template's kind are applied for the import year, which becomes the selected year; the warning flag is set iff the analysis finds issues |
| FieldManager.ImportFileApplies | components/FieldManager.tsx:224-626 | an accepted parcel file applies its batched parcel rows, and a crop file its crop rows as written; the report counts applied and skipped rows |
| Rag.DetectSection | services/ragEngine.ts:84-90 | the first keyword group the lower-cased text mentions decides the section, else "Dane ogólne" |
| Rag.Window | services/ragEngine.ts:28-29 | `substring(start, start + 1000)`: at most 1000 characters, starting at `start` |
| Rag.WindowsFrom | services/ragEngine.ts:27-47 | one window per 800-character stride while the start is inside the text |
| Rag.WindowCount | services/ragEngine.ts:27-46 | the number of windows is the ceiling of the remaining length over 800 |
| Rag.WindowsCover | services/ragEngine.ts:27-46 | every character lies in window `p / 800` at offset `p % 800` |
| Rag.WindowsOverlap | services/ragEngine.ts:9-46 | successive full windows share 200 characters |
| Rag.NonBlankTrim | services/ragEngine.ts:31 | `trim().length > 0` iff some character is not white space |
| Rag.Tokens | services/ragEngine.ts:42 | `Math.ceil(length / 4)` |
| Rag.ChunksOfKept | services/ragEngine.ts:27-47 | the chunks are the non-blank windows, in order, numbered from 0 |
| Rag.IndexDocument | services/ragEngine.ts:18-51 | blank text leaves the store alone; otherwise the document's old chunks go and one chunk per non-blank window is appended |
| Rag.ChunkIdInjective | services/ragEngine.ts:33 | distinct chunk numbers give distinct ids |
| Rag.ChunkIdsDistinct | services/ragEngine.ts:32-43 | the chunk ids of one indexing are pairwise distinct |
| Rag.ChunkContentBound | services/ragEngine.ts:28-29 | every chunk's content is at most 1000 characters |
| Rag.ReindexContents | services/ragEngine.ts:18-49 | after indexing, the document's chunks are exactly those of the text's windows; other documents' chunks are untouched |
| Rag.ReindexIdempotent | services/ragEngine.ts:18-49 | indexing the same text again gives the same store |
| Rag.Terms | services/ragEngine.ts:59 | the lower-cased query words longer than three characters, none holding white space |
| Rag.TermScore | services/ragEngine.ts:66-71 | 0, 1 or 1.5; positive iff the text contains the term |
| Rag.ScorePositive | services/ragEngine.ts:62-78 | a chunk scores above zero iff its lower-cased text contains one of the terms |
| Rag.Search | services/ragEngine.ts:56-82 | empty query or store gives nothing; at most `limit` chunks of the store, each scoring above zero |
| Rag.SearchSound | services/ragEngine.ts:77-81 | every result comes from the store and matches a term; results are in non-increasing score order |
| Rag.SearchTopK | services/ragEngine.ts:77-81 | a matching chunk left out means the limit was filled by chunks scoring at least as high |
| Rag.ClearStore | services/ragEngine.ts:96-98 | the store is empty, so every search afterwards returns nothing |
| RuleGraph.InitialGraph | components/admin/RuleOrchestrator.tsx:20-23 | the start node alone, no edges |
| RuleGraph.AddNode | components/admin/RuleOrchestrator.tsx:44-55 | the node is appended with its kind's default label, placed at 200 + 100 · draw (so within [200, 300) on each axis), and selected; the edges stay |
| RuleGraph.DeleteNode | components/admin/RuleOrchestrator.tsx:57-64 | "start" is never deleted; otherwise the nodes with the id and every edge touching it go, and the selection clears |
| RuleGraph.DeleteKeepsOrder | components/admin/RuleOrchestrator.tsx:59-62 | what remains keeps its order |
| RuleGraph.AddThenDelete | components/admin/RuleOrchestrator.tsx:44-64 | adding a node under an unused id and deleting it restores the graph |
| RuleGraph.Drag | components/admin/RuleOrchestrator.tsx:117-119 | the nodes with the id are shifted and no other changes |
| RuleGraph.DragBack | components/admin/RuleOrchestrator.tsx:117-119 | dragging back by the opposite offset undoes a drag |
| RuleGraph.StartConnect | components/admin/RuleOrchestrator.tsx:237 | the clicked node becomes the connect source; the graph is unchanged |
| RuleGraph.NodeClick | components/admin/RuleOrchestrator.tsx:124-139 | outside connect mode the node is selected; in connect mode a click on another node appends one edge from the source and ends connect mode |
| RuleGraph.NoSelfLoops | components/admin/RuleOrchestrator.tsx:125-135 | no click creates an edge from a node to itself |
| RuleGraph.Children | components/admin/RuleOrchestrator.tsx:72-76 | the targets of the edges leaving a node, in edge order |
| RuleGraph.Dfs | components/admin/RuleOrchestrator.tsx:82-96 | a reported cycle is reachable from the root; otherwise every newly finished node's children finished first |
| RuleGraph.BackEdge | components/admin/RuleOrchestrator.tsx:90-91 | an edge from the top of the stack into the stack closes a cycle reachable from the root |
| RuleGraph.NoCycleFromRanked | components/admin/RuleOrchestrator.tsx:82-96 | no cycle is reachable from a node finished without finding a back edge |
| RuleGraph.ValidateGraph | components/admin/RuleOrchestrator.tsx:67-105 | the graph is reported cyclic iff some listed node reaches a cycle |
| RuleGraph.Audit | components/admin/RuleOrchestrator.tsx:107-113 | the status is Invalid iff a listed node reaches a cycle, Valid otherwise; the graph is unchanged |
| Hierarchy.Underscored | services/hierarchyEngine.ts:51 | same length; white space becomes '_', other characters kept |
| Hierarchy.RateFor | services/hierarchyEngine.ts:114 | the first rate with the short name and year, none iff there is no such rate |
| Hierarchy.SchemeNode | services/hierarchyEngine.ts:113-130 | a scheme leaf is valid iff a rate of its short name exists for the year, an error otherwise |
| Hierarchy.SchemeNodes | services/hierarchyEngine.ts:113-131 | closed, and holds each code's scheme id |
| Hierarchy.AgriTree | services/hierarchyEngine.ts:96-131 | the part node is valid and lists exactly its scheme ids; the subtree is closed |
| Hierarchy.AgriForest | services/hierarchyEngine.ts:95-132 | closed, and holds the ids of all numbered parts |
| Hierarchy.AgriIds | services/hierarchyEngine.ts:96 | part k of n is `agri_<field>_<idx + k>_<campaign>` |
| Hierarchy.ParcelStatus | services/hierarchyEngine.ts:80 | valid iff the entry's eligible area is positive, else a warning, never an error |
| Hierarchy.ParcelTree | services/hierarchyEngine.ts:71-132 | the parcel node lists its parts (the crop parts, or one part "A" without any); closed |
| Hierarchy.ParcelIds | services/hierarchyEngine.ts:70-74 | the parcel ids of the fields with an entry for the year, in order |
| Hierarchy.ParcelForest | services/hierarchyEngine.ts:70-133 | closed, holding every parcel id of the declared fields |
| Hierarchy.Communes | services/hierarchyEngine.ts:48 | the distinct communes ("Nieprzypisane" for none), each once |
| Hierarchy.CommunesOrder | services/hierarchyEngine.ts:48 | the communes are listed in the order their first field appears |
| Hierarchy.InCommune | services/hierarchyEngine.ts:52 | exactly the fields of that commune |
| Hierarchy.CommuneTree | services/hierarchyEngine.ts:51-69 | the commune node is valid and lists the parcel ids of its declared fields; closed |
| Hierarchy.CommuneForest | services/hierarchyEngine.ts:50-134 | closed, holding every commune's id |
| Hierarchy.Application | services/hierarchyEngine.ts:30 | the first application of the year, none iff there is none |
| Hierarchy.Extract | services/hierarchyEngine.ts:8-137 | the root is first and lists the document node and one node per commune; the document node is valid iff an application exists |
| Hierarchy.ExtractClosed | services/hierarchyEngine.ts:8-137 | every child id in the tree is the id of one of its nodes |
| Hierarchy.ParcelUnderCommune | services/hierarchyEngine.ts:50-89 | a field gets a parcel node under a commune iff the commune is its own and it has an entry for the year |
| Hierarchy.ParcelIdInjective | services/hierarchyEngine.ts:74 | different field ids give different parcel ids |
| EcoSimulation.ActiveRates | components/EcoSimulation.tsx:22-24 | the 2026 table for 2026, the 2025 table for every other year |
| EcoSimulation.Offered | components/EcoSimulation.tsx:26-28 | exactly the eco-scheme rates with a short name |
| EcoSimulation.SimRate | components/EcoSimulation.tsx:45 | the first rate with the short name, none iff there is none |
| EcoSimulation.Tally | components/EcoSimulation.tsx:43-65 | unrated uses are skipped; each rated use credits its code |
| EcoSimulation.TallyTotals | components/EcoSimulation.tsx:53-63 | the total points and value are those of all uses |
| EcoSimulation.TallyHas | components/EcoSimulation.tsx:46-48 | a record exists for exactly the rated codes some use names |
| EcoSimulation.TallyArea | components/EcoSimulation.tsx:50-51 | a rated code's record holds the summed area of its uses |
| EcoSimulation.TallyRecord | components/EcoSimulation.tsx:50-63 | with a points rate: points on the code's area at 100 PLN a point; otherwise no points and area × rate |
| EcoSimulation.ComputeStats | components/EcoSimulation.tsx:30-77 | required points are 1.25 × area; met iff total points reach them; the records are the tally's |
| EcoSimulation.UnratedIgnored | components/EcoSimulation.tsx:45-46 | a code no rate prices changes no total and gets no record |
| EcoSimulation.Toggled | components/EcoSimulation.tsx:98-103 | the code is removed if present, else appended |
| EcoSimulation.EditableParts | components/EcoSimulation.tsx:89-96 | the crop parts when listed, else one part "A" with the entry's crop, area and schemes |
| EcoSimulation.SchemesOfParts | components/EcoSimulation.tsx:106-108 | every scheme of every part, each once |
| EcoSimulation.ToggleEntry | components/EcoSimulation.tsx:88-108 | only part `partIdx` changes, by the toggle; the entry's schemes are re-derived from the parts; an index outside the parts is an error |
| EcoSimulation.ToggleScheme | components/EcoSimulation.tsx:79-112 | an unknown parcel or missing year leaves the fields alone |
| EcoSimulation.NoEntryUnchanged | components/EcoSimulation.tsx:85-86 | a parcel without an entry for the year is left as it is |
| EcoSimulation.ToggleTarget | components/EcoSimulation.tsx:82-108 | the first parcel with the id shows the switched entry; the switch fails iff that entry lacks the part |
| EcoSimulation.ToggleTwice | components/EcoSimulation.tsx:98-108 | switching twice gives each part its schemes back, as a set |
| Dashboard.DeclaredFields | components/Dashboard.tsx:64-68 | the parcels with an entry for the year, in order |
| Dashboard.TotalAreaDeclared | components/Dashboard.tsx:68-71 | parcels without an entry add nothing to the area |
| Dashboard.Registry | components/Dashboard.tsx:73-126 | the registered parcels (positive eligible area), each as often as listed, ordered by registration number |
| Dashboard.EntryShares | components/Dashboard.tsx:77-91 | each crop part's area to its crop when there are parts, else the entry's (or parcel's) area to its crop |
| Dashboard.Summarize | components/Dashboard.tsx:77-91 | unlisted crops ("Nieznana", "Brak danych") get no key |
| Dashboard.SummarizeTracks | components/Dashboard.tsx:77-91 | the summary has a key for exactly the listed crops some share names, holding their summed area |
| Dashboard.PaymentRate | components/Dashboard.tsx:103-109 | the rate of the first matching top-up, or 0 when none matches |
| Dashboard.BasicPayments | components/Dashboard.tsx:111-120 | BWS and UPP on the whole area, the redistributive payment on at most 30 ha |
| Dashboard.ApplicationDoc | components/Dashboard.tsx:96-99 | none iff no document is an application or PDF of the year; otherwise such a document, with none before it |
| Dashboard.Compute | components/Dashboard.tsx:57-139 | the area is the summed eligible area; the analysis is the farm analysis with that area as the farm area; the application document is the year's; "data in other years" iff some other year has an entry and the area is 0 |
| Dashboard.GrandTotal | components/Dashboard.tsx:111-124 | the basic total is the three payments on the area; the grand total adds the analysis's eco-scheme value |
| Dashboard.DeadlineInfo | components/Dashboard.tsx:204-208 | open in 2026, closed in 2025, archive otherwise |
| CropManager.CropDataForYear | components/CropManager.tsx:24-44 | in the plan year the parcel's crop with no schemes; otherwise the year's first entry; none for "Nieznana" or no entry |
| CropManager.StartEditing | components/CropManager.tsx:46-53 | the form holds the crop data, schemes joined by ", ", or "Mieszanka" and no schemes |
| CropManager.EditFormRoundTrip | components/CropManager.tsx:46-59 | reading the form's scheme text back gives the parcel's clean schemes again |
| CropManager.SaveField | components/CropManager.tsx:56-80 | plan year: only the crop changes; otherwise the year's first entry takes crop and schemes, or a new entry is added and sorted |
| CropManager.SaveThenRead | components/CropManager.tsx:55-80 | reading the crop data back after a save gives the form's crop, and outside the plan year its parsed schemes |
| CropManager.SaveKeepsOtherYears | components/CropManager.tsx:66-78 | a save keeps every entry of every other year |
| CropManager.SaveEditing | components/CropManager.tsx:55-84 | every parcel with the id is saved and no other changes |
| CropManager.RemoveHistoryEntry | components/CropManager.tsx:86-95 | after confirmation the parcel loses exactly the entries of the year; other parcels untouched; a refused confirmation changes nothing |
| CropManager.RemoveField | components/CropManager.tsx:97-101 | after confirmation exactly the parcels with the id are removed; a refused confirmation changes nothing |
| CropManager.VisibleFields | components/CropManager.tsx:108-113 | all parcels with "show all", else exactly those with crop data for the year |
| ParcelManager.FirstDotToComma | components/ParcelManager.tsx:43-44 | the first dot becomes a comma, nothing else changes |
| ParcelManager.StartEditing | components/ParcelManager.tsx:38-52 | the name, the registration number and the six location texts, each missing one shown empty; areas with a decimal comma |
| ParcelManager.SaveField | components/ParcelManager.tsx:56-69 | the form's name, registration number and six location texts, all present, and its parsed areas; an eligible area of 0 replaced by the area; id, crop and history kept |
| ParcelManager.EditUnchanged | components/ParcelManager.tsx:38-73 | opening and saving unchanged leaves a parcel with present texts, readable numbers and non-zero eligible area as it was |
| ParcelManager.SaveEditing | components/ParcelManager.tsx:54-73 | every parcel with the id is saved, no other changes |
| ParcelManager.RemoveField | components/ParcelManager.tsx:75-79 | after confirmation exactly the parcels with the id are removed; a refused confirmation changes nothing |
| ParcelManager.VisibleFields | components/ParcelManager.tsx:82-86 | all parcels with "show all", else exactly those with an entry for the year |
| AdminPanel.SystemFields | constants.ts:135-147 | four system columns per kind, with the declared keys, captions and required flags |
| AdminPanel.SystemKeys | constants.ts:135-147 | the keys of the system columns, in order |
| AdminPanel.HeaderOf | components/AdminPanel.tsx:72 | none iff the key is not mapped, else a header mapped to it |
| AdminPanel.Put | components/AdminPanel.tsx:134 | the key then maps to the header; every other key keeps its lookup |
| AdminPanel.PutDistinct | components/AdminPanel.tsx:134 | a put keeps the keys distinct |
| AdminPanel.CustomRows | components/AdminPanel.tsx:80-90 | a custom row for each mapping whose key is not a system key, and no other |
| AdminPanel.CustomRowsInOrder | components/AdminPanel.tsx:80-90 | the custom rows come in the template's order: the non-system pairs, each as its row |
| AdminPanel.InitializeRows | components/AdminPanel.tsx:63-93 | the system columns first, in order, with their mapped header or "", then the custom rows |
| AdminPanel.AddCustomRow | components/AdminPanel.tsx:111-116 | one empty custom row "Nowa Kolumna" appended |
| AdminPanel.RemoveRow | components/AdminPanel.tsx:118-120 | the row at the index is removed, the rest kept in order |
| AdminPanel.UpdateRow | components/AdminPanel.tsx:122-127 | only the row at the index changes, and only in the named attribute |
| AdminPanel.Collect | components/AdminPanel.tsx:131-136 | the keys are distinct and exactly the non-empty keys of the rows |
| AdminPanel.CollectLastWins | components/AdminPanel.tsx:132-135 | a key ends up with the value of the last row that has it |
| AdminPanel.SubmitMappings | components/AdminPanel.tsx:131-136 | distinct keys; a key is stored iff some row has it as its trimmed non-empty key |
| AdminPanel.SubmitLastWins | components/AdminPanel.tsx:132-135 | a stored key's header is the trimmed header of the last row with it |
| AdminPanel.HeaderOfDistinct | components/AdminPanel.tsx:72 | in a mapping without repeated keys, a pair's header is its key's lookup |
| AdminPanel.SystemKeysTrimmed | constants.ts:135-147 | system keys are non-empty and trimmed |
| AdminPanel.SystemKeysDistinct | constants.ts:135-147 | no system key repeats |
| AdminPanel.ReopenSubmit | components/AdminPanel.tsx:63-136 | reopening a clean mapping and submitting it unchanged stores every mapped key with its header, every missing system key with "", and nothing else |
| AdminPanel.SubmitTemplate | components/AdminPanel.tsx:138-148 | an edit keeps id and kind; a new template gets the new id and the tab's kind; an empty name becomes "Bez nazwy"; the saved template carries no year (0, the unset year), so an edited template loses its year |
| AdminPanel.FetchRates | components/AdminPanel.tsx:49-59 | the stored rates, or when none are stored the 2026 and 2025 tables tagged with their years |
| AdminPanel.SaveRate | components/AdminPanel.tsx:185-201 | nothing is saved without a name or id; otherwise `find` by id gives the rate, others kept |
| AdminPanel.DeleteRate | components/AdminPanel.tsx:203-212 | after confirmation exactly the rates with the id go; the editor closes iff it held that id; refused confirmation changes nothing |
| AdminPanel.RatesOfYear | components/AdminPanel.tsx:215 | exactly the rates of the year |
| AdminPanel.TemplatesOfKind | components/AdminPanel.tsx:216 | exactly the templates of the kind |
| FarmerList.OpenForm | components/FarmerList.tsx:39-61 | the client's values, or empty texts, area 0 and status active |
| FarmerList.SafeArea | components/FarmerList.tsx:82 | the area when a number other than 0, else 0 |
| FarmerList.FarmName | components/FarmerList.tsx:85 | the last name, a space, the first name, then " Farm" |
| FarmerList.SaveClient | components/FarmerList.tsx:63-97 | refused iff the number is not 9 long, or (new client) iff taken; an edit keeps last contact and documents, a new client gets today and none |
| FarmerList.EditUnchanged | components/FarmerList.tsx:39-97 | opening on a valid client and saving unchanged gives it back with the farm name rebuilt |
| FarmerList.NoDuplicateAdd | components/FarmerList.tsx:72-79 | a new producer number can be added once only |
| FarmerList.Search | components/FarmerList.tsx:33-37 | exactly the clients whose full name or number holds the term |
| FarmerList.SearchEmpty | components/FarmerList.tsx:33-37 | an empty search keeps every client |
| FarmerList.SearchFindsProducerId | components/FarmerList.tsx:33-37 | searching a client's digit-only number finds it |
| FarmerList.DigitsOnly | components/FarmerList.tsx:272 | only digits, exactly the input's digits; identity on digit strings |
| FarmerList.DigitsOnlyIdempotent | components/FarmerList.tsx:272 | cleaning twice is cleaning once |
| AppState.SaveTemplate | App.tsx:225-231 | `find` by id then gives the template; others kept; the list grows by at most one |
| AppState.DeleteTemplate | App.tsx:233-235 | exactly the templates with the id are removed |
| AppState.SaveTemplateTwice | App.tsx:225-231 | saving twice equals saving once |
| AppState.AddDocument | App.tsx:177-207 | the selected client gets the document prepended, and for an application the new area; others untouched; no selection, no change |
| AppState.RemoveDocument | App.tsx:209-222 | the selected client loses exactly the documents with the id; others untouched |
| AppState.AddRemoveDocument | App.tsx:177-222 | adding a non-application document under a new id and removing it restores each client's documents |
| AppState.AddClient | App.tsx:239-253 | stored: appended; refused: every client with the number removed |
| AppState.AddRollbackRestores | App.tsx:247-251 | a refused add of an unused number restores the list |
| AppState.UpdateClient | App.tsx:255-272 | stored: clients with the number replaced in place; refused: the snapshot |
| AppState.DeleteClient | App.tsx:274-297 | refused confirmation: no change; the client leaves the list unless refused, then restored; a selected client is deselected and the list view shown |
| AppState.Round2 | App.tsx:86-96 | `toFixed(2)` on exact numbers: within half a hundredth |
| AppState.LoadFarm | App.tsx:82-99 | an application keeps the stored area; otherwise the rounded parcel sum, or the stored area without parcels; entry points are the rounded required points |
| AppState.EntryPointsClose | App.tsx:96 | the entry points are within 0.005 of 1.25 × area |
| FarmPlanner.Flip | components/FarmPlanner.tsx:28 | the other status |
| FarmPlanner.ToggleStatus | components/FarmPlanner.tsx:27-29 | the tasks with the id flip status, nothing else changes |
| FarmPlanner.ToggleTwice | components/FarmPlanner.tsx:27-29 | toggling twice restores the list |
| FarmPlanner.AddTask | components/FarmPlanner.tsx:31-51 | no title or date adds nothing; otherwise a pending task is appended, named after the parcel iff one has the id |
| FarmPlanner.ByDateTotal | components/FarmPlanner.tsx:57 | the date order is a total preorder |
| FarmPlanner.Selected | components/FarmPlanner.tsx:53-56 | exactly the tasks the filter shows |
| FarmPlanner.Listed | components/FarmPlanner.tsx:53-57 | the shown tasks, each as often as listed, earliest first |
| FarmPlanner.FiltersSplit | components/FarmPlanner.tsx:53-57 | "all" lists every task, and "pending" and "done" split them |
| FarmPlanner.SelectAll | components/FarmPlanner.tsx:56 | the "all" filter keeps the list |
| FarmPlanner.FilterSplit | components/FarmPlanner.tsx:54-55 | the pending and done selections partition the list |
| OperationsLog.Submit | components/OperationsLog.tsx:58-78 | none iff no parcel has the form's id; otherwise the operation copies that parcel's id and name and the form's values, relevance false unless ticked |
| OperationsLog.Selected | components/OperationsLog.tsx:100-102 | exactly the operations whose parcel or product name holds the term |
| OperationsLog.NewerFirstTotal | components/OperationsLog.tsx:103 | the newest-first order is a total preorder |
| OperationsLog.Listed | components/OperationsLog.tsx:100-103 | the matching operations, each as often as listed, latest date first |
| OperationsLog.EmptyTermMatchesAll | components/OperationsLog.tsx:100-103 | an empty term lists every operation |
| OperationsLog.SubmittedIsListed | components/OperationsLog.tsx:58-103 | a recorded operation is on the form's parcel, and once stored it is listed again under a search for its parcel's name or its product |
| OperationsLog.TypeColor | components/OperationsLog.tsx:80-88 | the default colour iff the type is unknown |
| OperationsLog.TypeColorsDistinct | components/OperationsLog.tsx:80-88 | different known types get different colours |
| SemanticDictionary.PatchOf | components/admin/SemanticDictionary.tsx:61 | applied over any term, the patch gives the term back, except that a term without a description keeps the other term's description; over a term without a description, or when the term has one, the result is the term |
| SemanticDictionary.Apply | components/admin/SemanticDictionary.tsx:71 | the patch's attributes win, the term's are kept where absent |
| SemanticDictionary.StartEdit | components/admin/SemanticDictionary.tsx:59-62 | the editor opens on the term with its full patch |
| SemanticDictionary.CancelEdit | components/admin/SemanticDictionary.tsx:64-67 | the editor closes, terms unchanged |
| SemanticDictionary.Add | components/admin/SemanticDictionary.tsx:40-51 | the default term is prepended and opened for editing |
| SemanticDictionary.Delete | components/admin/SemanticDictionary.tsx:53-57 | after confirmation exactly the terms with the id go |
| SemanticDictionary.AddThenDelete | components/admin/SemanticDictionary.tsx:40-57 | adding under a new id and deleting it restores the terms |
| SemanticDictionary.SaveEdit | components/admin/SemanticDictionary.tsx:69-75 | nothing without an edit; otherwise the terms with the id take the patch, others kept, editor closed |
| SemanticDictionary.EditUnchanged | components/admin/SemanticDictionary.tsx:59-75 | with unique ids, saving an unchanged form keeps the terms |
| SemanticDictionary.Search | components/admin/SemanticDictionary.tsx:77-81 | exactly the terms one of whose three names holds the search text |
| SemanticDictionary.SearchFindsOptimizerName | components/admin/SemanticDictionary.tsx:77-81 | searching a term's own optimiser name finds it |

## Left out

- I/O is outside the model: `localStorage`, the REST client, file reading, the alerts and the rendering. Server replies and `window.confirm` answers are boolean parameters.
- Randomness and clocks are parameters: the random ids, `Date.now()`, `new Date()` and the random node positions.
- The AI services (`services/geminiService.ts`, the chat, the optimiser, the smart parse of operations) and the screens not named above. They call code that is not part of this model.
- `Csv.ParsePolishNumber`: JavaScript's `parseFloat` is a parameter, not a model of its prefix parsing.
- `AppState.Round2`: `toFixed(2)` on binary floating point is modelled as rounding exact reals half up. The contract bounds the error instead of pinning the float result.
- `AppState.AddDocument`: the area drawn at random around the parcel sum is the parameter `extractedArea`.
- `AppState.LoadFarm`: the offline fallback to the demo parcels is left out, because the parcels are a parameter.
- `AppState.UpdateClient`: the rollback restores the snapshot taken before the call. Changes made concurrently in between are not modelled.
- `AppState.DeleteClient`: the same snapshot simplification applies.
- `EcoSimulation.ToggleScheme`: the source mutates the shared history objects in place. The model returns new values.
- `EcoSimulation.ToggleScheme`: `resetSimulation` (a deep copy of the farm's parcels) is left out.
- `CropManager.SaveField`: the source mutates the history array of the parcel it copied shallowly. The model returns a new parcel, which matches what is saved.
- `Dashboard.Registry`: `localeCompare` is code-point order.
- `FarmLogic.ConflictsOf`: the contract states which conflict issues occur, not how often; a code listed twice yields its issues twice, as the nested loops push them.
- `OperationsLog.Listed`: `localeCompare` is code-point order too.
- `OperationsLog.Submit`: the component that stores the operation passed to `onAddOperation` is not part of this model, so where it enters the log is left open; `OperationsLog.SubmittedIsListed` holds for any position.
- `Text.Lower`: covers ASCII and the Polish letters only.
- `FarmPlanner.Listed`: `new Date(date).getTime()` is a parameter `stamp: string -> int`. Dates that parse to NaN are not modelled.
- `AdminPanel.SubmitTemplate`: the separator is one character.
- `AdminPanel.SubmitTemplate`: the new id is `tpl_<time>_<random>` passed in.
- `Rag.IndexDocument`: the chunk timestamp and the log line are left out.
- `Rag.IndexDocument`: the search is synchronous, not `async`.
- `Hierarchy.Extract`: node labels, values and evidence texts (which hold timestamps and formatted numbers) are left out. Ids, kinds, statuses and child lists are modelled.
- `RuleGraph.AddNode`: the random position is `200 + 100 * r` for draws `r` in [0, 1), which are passed in.
- `Backend.UpdateClientFields`: SQLAlchemy sessions and flush order are not modelled; the transaction is one step.
- `Backend.UpdateClientFieldsAsWritten`: the history class's rejection of `extended_data` (main.py:74) is never reached, because the parcel class already rejects the first parcel. `Backend.HistoryClassRejects` states it on its own.
- `Backend.UpdateClientFieldsAsWritten`: the columns of `backend/models.py` that the endpoint does not write are not modelled. The corrected endpoint's rows hold the columns the endpoint writes.
- `FieldManager.ImportFile`: crop files are applied as the program does it, with both crop-import defects under "## Findings". The corrected fold is `FieldManager.ApplyCropsIntended`; the import does not use it.
- `FieldManager.ImportFile`: the year guessed from the file name is left out, because it only preselects a template in the UI.
- `FieldManager.ImportFile`: the import report's text messages are left out. The success and skip counts and the warning flag are kept.
- `FarmLogic.Analyze`: the rate table for a year (`getRatesForYear`) is a parameter. The 2024 table is imported by the source but not defined in `constants.ts`.
- The amounts in the rate tables of `constants.ts` are not copied into the model.

## Findings

| source | as written | input that shows it | evidently intended | confidence | as-written member | corrected member |
|---|---|---|---|---|---|---|
| backend/main.py:9 | the bulk `delete(synchronize_session=False)` of the farmer's parcel rows bypasses the ORM's delete-orphan cascade declared in `backend/models.py:73`. The parcels' history rows stay in the table without their parcel | farmer "p" with parcel "f1" and one 2024 history row; submit an empty parcel list | the farmer's old history goes with the old parcels, so every history row keeps its parcel | not executed | Backend.StaleHistoryCounterexample | Backend.UpdateKeepsLinked |
| backend/main.py:13-28 | the endpoint passes the location columns (`voivodeship` … `map_sheet`) to `models.Field` and `extended_data` to `models.FieldHistory`, but `backend/models.py:61-87` declares none of them. The declarative constructor raises `TypeError`, so every non-empty submission fails and is rolled back | a known farmer submitting one parcel | the parcels and their history are stored with the columns the endpoint writes | not executed | Backend.NonEmptySubmissionFails | Backend.UpdateStoresSubmission |
| components/FieldManager.tsx:583-594 | a parcel created from a crop row is never added to `touchedFieldIds`. The next row for the same parcel and year resets its crop parts, and the first row's part is lost | two crop rows for an unknown registration number, same year, designations "A" and "B" | later rows of the same import add to the created parcel's parts | not executed | FieldManager.NewParcelLosesPart | FieldManager.NewParcelKeepsParts |
| components/FieldManager.tsx:528 | the part lookup uses the raw designation cell, while parts are stored under `designation \|\| 'A'`. Rows with a blank designation never match the stored "A" part | two crop rows for one parcel and year, both with a blank designation | both rows merge into one part "A" holding both areas | not executed | FieldManager.BlankDesignationDuplicates | FieldManager.BlankDesignationMerged |

=== FILE: admin_panel.dfy ===
/**
 The administration screen: the editor of import templates (one row per
 system column of the template's kind, then the custom columns, each mapped
 to a file header) and the editor of the subsidy rate list.
 */
module AdminPanel {
  import opened Wrappers
  import opened Seqs
  import opened Text
  import opened FarmTypes
  import opened Csv

  /** The caption of a mapping that is not one of the kind's system columns. */
  const CustomLabel := "Pole Niestandardowe"
  /** The caption of a row added by hand. */
  const NewColumnLabel := "Nowa Kolumna"
  /** The name a template saved without one gets. */
  const UnnamedTemplate := "Bez nazwy"

  /** A system column of an import kind: its key, its caption, and whether a file must have it. */
  datatype SystemField = SystemField(key: string, caption: string, required: bool)

  function SystemFields(kind: ImportKind): (r: seq<SystemField>)
    ensures |r| == 4
  {
    match kind
    case Parcels => [
      SystemField("name", "Identyfikator działki ewidencyjnej", true),
      SystemField("registrationNumber", "Nr Ewidencyjny", true),
      SystemField("area", "Powierzchnia Całkowita [ha]", true),
      SystemField("eligibleArea", "Powierzchnia Kwalifikowana [ha]", false)]
    case Crops => [
      SystemField("registrationNumber", "Nr Ewidencyjny (Klucz)", true),
      SystemField("year", "Rok Uprawy", true),
      SystemField("crop", "Roślina", true),
      SystemField("ecoSchemes", "Ekoschematy (po przecinku)", false)]
  }

  function SystemKeys(kind: ImportKind): (r: seq<string>)
    ensures |r| == |SystemFields(kind)|
    ensures forall i :: 0 <= i < |r| ==> r[i] == SystemFields(kind)[i].key && r[i] != []
  {
    match kind
    case Parcels => ["name", "registrationNumber", "area", "eligibleArea"]
    case Crops => ["registrationNumber", "year", "crop", "ecoSchemes"]
  }

  // ----- Key-to-header mappings -----

  /** The keys of a mapping list, in order. */
  function KeysOf(mappings: seq<(string, string)>): (r: seq<string>)
    ensures |r| == |mappings|
    ensures forall i :: 0 <= i < |mappings| ==> r[i] == mappings[i].0
  {
    if mappings == [] then [] else [mappings[0].0] + KeysOf(mappings[1..])
  }

  /** No key is mapped twice, as in an object. */
  ghost predicate Distinct(mappings: seq<(string, string)>) {
    forall i, j :: 0 <= i < j < |mappings| ==> mappings[i].0 != mappings[j].0
  }

  /** The header mapped to `key`, as the object lookup `mappings[key]` gives it. */
  function HeaderOf(mappings: seq<(string, string)>, key: string): (r: Option<string>)
    ensures r.None? <==> key !in KeysOf(mappings)
    ensures r.Some? ==> (key, r.value) in mappings
  {
    if mappings == [] then None
    else if mappings[0].0 == key then Some(mappings[0].1)
    else
      var r := HeaderOf(mappings[1..], key);
      assert KeysOf(mappings) == [mappings[0].0] + KeysOf(mappings[1..]);
      assert r.Some? ==> (key, r.value) in mappings[1..];
      r
  }

  /** `mappings[key] = header`: overwritten in place when present, appended otherwise. */
  function Put(mappings: seq<(string, string)>, key: string, header: string): (r: seq<(string, string)>)
    ensures HeaderOf(r, key) == Some(header)
    ensures forall k :: k != key ==> HeaderOf(r, k) == HeaderOf(mappings, k)
    ensures forall k :: k in KeysOf(r) <==> k == key || k in KeysOf(mappings)
  {
    if mappings == [] then [(key, header)]
    else if mappings[0].0 == key then
      var r := [(key, header)] + mappings[1..];
      assert KeysOf(r) == KeysOf(mappings);
      r
    else
      var rest := Put(mappings[1..], key, header);
      var r := [mappings[0]] + rest;
      assert KeysOf(r) == [mappings[0].0] + KeysOf(rest);
      assert KeysOf(mappings) == [mappings[0].0] + KeysOf(mappings[1..]);
      r
  }

  /** A put keeps the keys distinct. */
  lemma {:induction false} PutDistinct(mappings: seq<(string, string)>, key: string, header: string)
    requires Distinct(mappings)
    ensures Distinct(Put(mappings, key, header))
  {
    if mappings != [] && mappings[0].0 != key {
      var rest := Put(mappings[1..], key, header);
      var r := Put(mappings, key, header);
      assert r == [mappings[0]] + rest;
      assert Distinct(mappings[1..]);
      PutDistinct(mappings[1..], key, header);
      assert KeysOf(mappings) == [mappings[0].0] + KeysOf(mappings[1..]);
      assert mappings[0].0 !in KeysOf(mappings[1..]);
      assert mappings[0].0 !in KeysOf(rest);
      forall i, j | 0 <= i < j < |r| ensures r[i].0 != r[j].0 {
        if i == 0 {
          assert r[j].0 == KeysOf(rest)[j - 1];
        } else {
          assert r[i] == rest[i - 1] && r[j] == rest[j - 1];
        }
      }
    }
  }

  // ----- Mapping rows -----

  /** One row of the template editor. */
  datatype MappingRow = MappingRow(systemKey: string, csvHeader: string, caption: string, isSystem: bool, required: bool)

  /** The custom rows: the mappings of keys that are not system columns, in order. */
  function CustomRows(mappings: seq<(string, string)>, kind: ImportKind): (r: seq<MappingRow>)
    ensures forall i :: 0 <= i < |r| ==> (!r[i].isSystem && !r[i].required && r[i].caption == CustomLabel &&
      r[i].systemKey !in SystemKeys(kind) && (r[i].systemKey, r[i].csvHeader) in mappings)
    ensures forall p :: p in mappings && p.0 !in SystemKeys(kind) ==> MappingRow(p.0, p.1, CustomLabel, false, false) in r
  {
    if mappings == [] then []
    else
      var rest := CustomRows(mappings[1..], kind);
      var p := mappings[0];
      assert forall q :: q in mappings[1..] ==> q in mappings;
      if p.0 in SystemKeys(kind) then rest else [MappingRow(p.0, p.1, CustomLabel, false, false)] + rest
  }

  /** Whether a mapping's key is not a system column of the kind. */
  function IsCustom(kind: ImportKind): ((string, string)) -> bool {
    (p: (string, string)) => p.0 !in SystemKeys(kind)
  }

  /** The custom row a mapping pair opens as. */
  function CustomRowOf(p: (string, string)): MappingRow {
    MappingRow(p.0, p.1, CustomLabel, false, false)
  }

  /** The custom rows keep the template's order: the non-system pairs, each as its row. */
  lemma {:induction false} CustomRowsInOrder(mappings: seq<(string, string)>, kind: ImportKind)
    ensures CustomRows(mappings, kind) == Map(Filter(mappings, IsCustom(kind)), CustomRowOf)
  {
    if mappings != [] {
      CustomRowsInOrder(mappings[1..], kind);
      MapFilterCons(mappings, IsCustom(kind), CustomRowOf);
      CustomRowsUnfold(mappings, kind);
    }
  }

  /** One step of `CustomRows`: the first pair's row unless its key is a system column, then the rest. */
  lemma CustomRowsUnfold(mappings: seq<(string, string)>, kind: ImportKind)
    requires mappings != []
    ensures CustomRows(mappings, kind) ==
      (if mappings[0].0 !in SystemKeys(kind) then [CustomRowOf(mappings[0])] else []) + CustomRows(mappings[1..], kind)
  {
  }

  /**
   The rows the editor opens with: each system column of the kind in its
   declared order with its mapped header (or none), then the other mappings
   as custom rows.
   */
  function InitializeRows(kind: ImportKind, mappings: seq<(string, string)>): (r: seq<MappingRow>)
    ensures |r| >= |SystemFields(kind)|
    ensures forall i :: 0 <= i < |SystemFields(kind)| ==> var f := SystemFields(kind)[i];
      r[i] == MappingRow(f.key, HeaderOf(mappings, f.key).GetOr(""), f.caption, true, f.required)
    ensures forall i :: |SystemFields(kind)| <= i < |r| ==> (!r[i].isSystem && !r[i].required &&
      r[i].systemKey !in SystemKeys(kind) && (r[i].systemKey, r[i].csvHeader) in mappings)
    ensures forall p :: p in mappings && p.0 !in SystemKeys(kind) ==>
      MappingRow(p.0, p.1, CustomLabel, false, false) in r[|SystemFields(kind)|..]
  {
    var sys := Map(SystemFields(kind), (f: SystemField) =>
      MappingRow(f.key, HeaderOf(mappings, f.key).GetOr(""), f.caption, true, f.required));
    var custom := CustomRows(mappings, kind);
    assert (sys + custom)[|sys|..] == custom;
    sys + custom
  }

  /** `{ systemKey: '', csvHeader: '', caption: 'Nowa Kolumna', ... }` appended. */
  function AddCustomRow(rows: seq<MappingRow>): (r: seq<MappingRow>)
    ensures |r| == |rows| + 1 && r[..|rows|] == rows
    ensures r[|rows|] == MappingRow("", "", NewColumnLabel, false, false)
  {
    rows + [MappingRow("", "", NewColumnLabel, false, false)]
  }

  /** `rows.filter((_, i) => i !== index)`. */
  function RemoveRow(rows: seq<MappingRow>, index: int): (r: seq<MappingRow>)
    ensures 0 <= index < |rows| ==> (|r| == |rows| - 1 &&
      (forall i :: 0 <= i < index ==> r[i] == rows[i]) && (forall i :: index < i < |rows| ==> r[i - 1] == rows[i]))
    ensures !(0 <= index < |rows|) ==> r == rows
  {
    if 0 <= index < |rows| then rows[..index] + rows[index + 1..] else rows
  }

  /** The row attribute an edit writes. */
  datatype RowField = SystemKey | CsvHeader | Label

  /** Writes `value` into one attribute of the row at `index`. */
  function UpdateRow(rows: seq<MappingRow>, index: int, field: RowField, value: string): (r: seq<MappingRow>)
    ensures |r| == |rows|
    ensures forall i :: 0 <= i < |rows| && i != index ==> r[i] == rows[i]
    ensures 0 <= index < |rows| ==> r[index].isSystem == rows[index].isSystem && r[index].required == rows[index].required
    ensures 0 <= index < |rows| && field == SystemKey ==> r[index] == rows[index].(systemKey := value)
    ensures 0 <= index < |rows| && field == CsvHeader ==> r[index] == rows[index].(csvHeader := value)
  {
    if 0 <= index < |rows| then
      var row := rows[index];
      rows[index := match field
        case SystemKey => row.(systemKey := value)
        case CsvHeader => row.(csvHeader := value)
        case Label => row.(caption := value)]
    else rows
  }

  /** The key a row is stored under: its trimmed key. */
  function KeyOf(row: MappingRow): string {
    Trim(row.systemKey)
  }

  /** The header a row is stored with: its trimmed header. */
  function HeaderText(row: MappingRow): string {
    Trim(row.csvHeader)
  }

  /** A row whose trimmed key is not empty is submitted. */
  predicate Submitted(row: MappingRow) {
    KeyOf(row) != []
  }

  /** The non-empty keys `key` gives the rows, in row order. */
  function NonEmptyKeys<T>(rows: seq<T>, key: T -> string): (r: seq<string>)
    ensures forall k :: k in r <==> exists j :: 0 <= j < |rows| && key(rows[j]) != [] && key(rows[j]) == k
  {
    if rows == [] then []
    else
      var init := rows[..|rows| - 1];
      var last := rows[|rows| - 1];
      var prev := NonEmptyKeys(init, key);
      var r := prev + if key(last) != [] then [key(last)] else [];
      forall k ensures k in r <==> exists j :: 0 <= j < |rows| && key(rows[j]) != [] && key(rows[j]) == k {
        if k in prev {
          var j :| 0 <= j < |init| && key(init[j]) != [] && key(init[j]) == k;
          assert rows[j] == init[j];
        }
        if exists j :: 0 <= j < |rows| && key(rows[j]) != [] && key(rows[j]) == k {
          var j :| 0 <= j < |rows| && key(rows[j]) != [] && key(rows[j]) == k;
          if j < |init| {
            assert init[j] == rows[j];
          }
        }
      }
      r
  }

  /**
   The object built by assigning, for every row in order whose key is not
   empty, its value to its key: a later row overwrites an earlier one.
   */
  function Collect<T>(rows: seq<T>, key: T -> string, val: T -> string): (r: seq<(string, string)>)
    ensures Distinct(r)
    ensures forall k :: k in KeysOf(r) <==> k in NonEmptyKeys(rows, key)
  {
    if rows == [] then []
    else
      var init := rows[..|rows| - 1];
      var prev := Collect(init, key, val);
      var row := rows[|rows| - 1];
      if key(row) != [] then
        PutDistinct(prev, key(row), val(row));
        Put(prev, key(row), val(row))
      else prev
  }

  /** A key ends up with the value of the last row that has it. */
  lemma {:induction false} CollectLastWins<T>(rows: seq<T>, key: T -> string, val: T -> string, j: int)
    requires 0 <= j < |rows| && key(rows[j]) != []
    requires forall i :: j < i < |rows| ==> key(rows[i]) != key(rows[j])
    ensures HeaderOf(Collect(rows, key, val), key(rows[j])) == Some(val(rows[j]))
  {
    if j < |rows| - 1 {
      var init := rows[..|rows| - 1];
      assert init[j] == rows[j];
      CollectLastWins(init, key, val, j);
    }
  }

  /** When every row with key `k` has value `h`, and one does, `k` ends up with `h`. */
  lemma {:induction false} CollectAgreeing<T>(rows: seq<T>, key: T -> string, val: T -> string, k: string, h: string)
    requires k != [] && exists j :: 0 <= j < |rows| && key(rows[j]) == k
    requires forall j :: 0 <= j < |rows| && key(rows[j]) == k ==> val(rows[j]) == h
    ensures HeaderOf(Collect(rows, key, val), k) == Some(h)
  {
    var j :| 0 <= j < |rows| && key(rows[j]) == k;
    var last := |rows| - 1;
    if key(rows[last]) != k {
      var init := rows[..last];
      assert init[j] == rows[j];
      assert forall i :: 0 <= i < |init| ==> init[i] == rows[i];
      CollectAgreeing(init, key, val, k, h);
    }
  }

  /** The trimmed keys of the submitted rows, in row order. */
  function SubmittedKeys(rows: seq<MappingRow>): seq<string> {
    NonEmptyKeys(rows, KeyOf)
  }

  /**
   The mappings a submit stores: for every submitted row in order, its
   trimmed key mapped to its trimmed header, a later row overwriting an
   earlier one with the same key.
   */
  function SubmitMappings(rows: seq<MappingRow>): (r: seq<(string, string)>)
    ensures Distinct(r)
    ensures forall k :: k in KeysOf(r) <==> exists j :: 0 <= j < |rows| && Submitted(rows[j]) && KeyOf(rows[j]) == k
  {
    Collect(rows, KeyOf, HeaderText)
  }

  /** The header a submitted key ends up with is the trimmed header of the last row with that key. */
  lemma SubmitLastWins(rows: seq<MappingRow>, j: int)
    requires 0 <= j < |rows| && Submitted(rows[j])
    requires forall i :: j < i < |rows| ==> KeyOf(rows[i]) != KeyOf(rows[j])
    ensures HeaderOf(SubmitMappings(rows), KeyOf(rows[j])) == Some(HeaderText(rows[j]))
  {
    CollectLastWins(rows, KeyOf, HeaderText, j);
  }

  /** A mapping as a saved template holds it: distinct non-empty keys, keys and headers without surrounding blanks. */
  ghost predicate CleanMappings(m: seq<(string, string)>) {
    Distinct(m) && forall i :: 0 <= i < |m| ==> m[i].0 != [] && IsTrimmed(m[i].0) && IsTrimmed(m[i].1)
  }

  /** In a mapping without repeated keys, a pair's header is the one its key looks up. */
  lemma {:induction false} HeaderOfDistinct(m: seq<(string, string)>, k: string, h: string)
    requires Distinct(m) && (k, h) in m
    ensures HeaderOf(m, k) == Some(h)
  {
    if m[0] != (k, h) {
      assert m[0].0 != k by {
        var i :| 0 <= i < |m| && m[i] == (k, h);
        assert i != 0;
      }
      assert (k, h) in m[1..];
      HeaderOfDistinct(m[1..], k, h);
    }
  }

  /** The system keys are non-empty and without surrounding blanks. */
  lemma SystemKeysTrimmed(kind: ImportKind)
    ensures forall i :: 0 <= i < |SystemKeys(kind)| ==> Trim(SystemKeys(kind)[i]) == SystemKeys(kind)[i] != []
  {
    var ks := SystemKeys(kind);
    forall i | 0 <= i < |ks| ensures Trim(ks[i]) == ks[i] != [] {
      assert ks[i] != [] && !IsSpace(ks[i][0]) && !IsSpace(ks[i][|ks[i]| - 1]);
      TrimOfTrimmed(ks[i]);
    }
  }

  /** No system key appears twice. */
  lemma SystemKeysDistinct(kind: ImportKind)
    ensures forall i, j :: 0 <= i < j < |SystemKeys(kind)| ==> SystemKeys(kind)[i] != SystemKeys(kind)[j]
  {
    var ks := SystemKeys(kind);
    forall i, j | 0 <= i < j < |ks| ensures ks[i] != ks[j] {
      assert |ks[i]| != |ks[j]| || ks[i][0] != ks[j][0];
    }
  }

  /** The stored keys and headers of the rows the editor opens a clean mapping with. */
  lemma InitRowKeys(kind: ImportKind, m: seq<(string, string)>)
    requires CleanMappings(m)
    ensures var rows := InitializeRows(kind, m);
      forall i :: 0 <= i < |SystemFields(kind)| ==>
        KeyOf(rows[i]) == SystemKeys(kind)[i] && HeaderText(rows[i]) == HeaderOf(m, SystemKeys(kind)[i]).GetOr("")
    ensures var rows := InitializeRows(kind, m);
      forall i :: |SystemFields(kind)| <= i < |rows| ==>
        (KeyOf(rows[i]) == rows[i].systemKey != [] && rows[i].systemKey !in SystemKeys(kind) &&
         HeaderOf(m, rows[i].systemKey) == Some(HeaderText(rows[i])))
  {
    var rows := InitializeRows(kind, m);
    var ks := SystemKeys(kind);
    SystemKeysTrimmed(kind);
    TrimOfTrimmed("");
    forall i | 0 <= i < |SystemFields(kind)|
      ensures KeyOf(rows[i]) == ks[i] && HeaderText(rows[i]) == HeaderOf(m, ks[i]).GetOr("")
    {
      var o := HeaderOf(m, ks[i]);
      if o.Some? {
        var q :| 0 <= q < |m| && m[q] == (ks[i], o.value);
        TrimOfTrimmed(o.value);
      }
    }
    forall i | |SystemFields(kind)| <= i < |rows|
      ensures KeyOf(rows[i]) == rows[i].systemKey != [] && rows[i].systemKey !in ks &&
        HeaderOf(m, rows[i].systemKey) == Some(HeaderText(rows[i]))
    {
      var p := (rows[i].systemKey, rows[i].csvHeader);
      var q :| 0 <= q < |m| && m[q] == p;
      TrimOfTrimmed(p.0);
      TrimOfTrimmed(p.1);
      HeaderOfDistinct(m, p.0, p.1);
    }
  }

  /** Every row the editor opens a clean mapping with stores, under its key, the header the mapping gives that key. */
  lemma ReopenRowsAgree(kind: ImportKind, m: seq<(string, string)>, k: string)
    requires CleanMappings(m)
    ensures var rows := InitializeRows(kind, m);
      forall j :: 0 <= j < |rows| && KeyOf(rows[j]) == k ==> HeaderText(rows[j]) == HeaderOf(m, k).GetOr("")
  {
    InitRowKeys(kind, m);
    SystemKeysDistinct(kind);
  }

  /** A system key is the key of its system row. */
  lemma ReopenSystemRow(kind: ImportKind, m: seq<(string, string)>, k: string)
    requires CleanMappings(m) && k in SystemKeys(kind)
    ensures k != [] && exists j :: 0 <= j < |InitializeRows(kind, m)| && KeyOf(InitializeRows(kind, m)[j]) == k
  {
    var ks := SystemKeys(kind);
    var s :| 0 <= s < |ks| && ks[s] == k;
    InitSystemKey(kind, m, s);
  }

  /** The `s`-th row the editor opens is stored under the `s`-th system key. */
  lemma InitSystemKey(kind: ImportKind, m: seq<(string, string)>, s: int)
    requires CleanMappings(m) && 0 <= s < |SystemFields(kind)|
    ensures KeyOf(InitializeRows(kind, m)[s]) == SystemKeys(kind)[s]
  {
    InitRowKeys(kind, m);
  }

  /** A mapped key that is not a system key is the key of its custom row. */
  lemma ReopenCustomRow(kind: ImportKind, m: seq<(string, string)>, k: string)
    requires CleanMappings(m) && k in KeysOf(m) && k !in SystemKeys(kind)
    ensures k != [] && exists j :: 0 <= j < |InitializeRows(kind, m)| && KeyOf(InitializeRows(kind, m)[j]) == k
  {
    var rows := InitializeRows(kind, m);
    var n := |SystemFields(kind)|;
    var q :| 0 <= q < |m| && KeysOf(m)[q] == k;
    var row := MappingRow(m[q].0, m[q].1, CustomLabel, false, false);
    assert m[q] in m && m[q].0 == k && k != [];
    assert row in rows[n..];
    var j :| n <= j < |rows| && rows[j] == row;
    InitRowKeys(kind, m);
    assert KeyOf(rows[j]) == k;
  }

  /** A mapped key or a system key is stored with the mapping's header for it, or an empty one. */
  lemma ReopenPresent(kind: ImportKind, m: seq<(string, string)>, k: string)
    requires CleanMappings(m)
    requires k in KeysOf(m) || k in SystemKeys(kind)
    ensures HeaderOf(SubmitMappings(InitializeRows(kind, m)), k) == Some(HeaderOf(m, k).GetOr(""))
  {
    ReopenRowsAgree(kind, m, k);
    if k in SystemKeys(kind) {
      ReopenSystemRow(kind, m, k);
    } else {
      ReopenCustomRow(kind, m, k);
    }
    CollectAgreeing(InitializeRows(kind, m), KeyOf, HeaderText, k, HeaderOf(m, k).GetOr(""));
  }

  /** A key neither mapped nor a system key is not stored by the rows the editor opens with. */
  lemma ReopenAbsent(kind: ImportKind, m: seq<(string, string)>, k: string)
    requires CleanMappings(m)
    requires k !in KeysOf(m) && k !in SystemKeys(kind)
    ensures HeaderOf(SubmitMappings(InitializeRows(kind, m)), k).None?
  {
    var rows := InitializeRows(kind, m);
    InitRowKeys(kind, m);
    forall j | 0 <= j < |rows| && Submitted(rows[j]) ensures KeyOf(rows[j]) != k {
      if j >= |SystemFields(kind)| {
        assert HeaderOf(m, rows[j].systemKey).Some?;
      }
    }
  }

  /**
   Opening a clean mapping in the editor and submitting it unchanged stores
   every mapped key with its header again, every system column the mapping
   lacked with an empty header, and nothing else.
   */
  lemma ReopenSubmit(kind: ImportKind, m: seq<(string, string)>, k: string)
    requires CleanMappings(m)
    ensures k in KeysOf(m) ==> HeaderOf(SubmitMappings(InitializeRows(kind, m)), k) == HeaderOf(m, k)
    ensures k !in KeysOf(m) && k in SystemKeys(kind) ==> HeaderOf(SubmitMappings(InitializeRows(kind, m)), k) == Some("")
    ensures k !in KeysOf(m) && k !in SystemKeys(kind) ==> HeaderOf(SubmitMappings(InitializeRows(kind, m)), k).None?
  {
    if k in KeysOf(m) || k in SystemKeys(kind) {
      ReopenPresent(kind, m, k);
    } else {
      ReopenAbsent(kind, m, k);
    }
  }

  /**
   The template a submit saves: an edited template keeps its id and kind, a
   new one gets `newId` and the active tab's kind; an empty name becomes "Bez nazwy".
   */
  function SubmitTemplate(editing: Option<CsvTemplate>, activeKind: ImportKind, newId: string, name: string,
                          separator: char, rows: seq<MappingRow>): (r: CsvTemplate)
    ensures editing.Some? ==> r.id == editing.value.id && r.kind == editing.value.kind
    ensures editing.None? ==> r.id == newId && r.kind == activeKind
    ensures name != [] ==> r.name == name
    ensures name == [] ==> r.name == UnnamedTemplate
    ensures r.separator == separator && r.mappings == SubmitMappings(rows)
    ensures r.year == 0
  {
    CsvTemplate(
      if editing.Some? then editing.value.id else newId,
      if name != [] then name else UnnamedTemplate,
      if editing.Some? then editing.value.kind else activeKind,
      SubmitMappings(rows), separator, 0)
  }

  // ----- Rates -----

  /** The stored rates, or when none are stored the 2026 and 2025 tables tagged with their years. */
  function FetchRates(stored: seq<SubsidyRate>, rates2026: seq<SubsidyRate>, rates2025: seq<SubsidyRate>): (r: seq<SubsidyRate>)
    ensures stored != [] ==> r == stored
    ensures stored == [] ==> (|r| == |rates2026| + |rates2025| &&
      (forall i :: 0 <= i < |rates2026| ==> r[i] == rates2026[i].(year := 2026)) &&
      (forall i :: 0 <= i < |rates2025| ==> r[|rates2026| + i] == rates2025[i].(year := 2025)))
  {
    if stored != [] then stored
    else
      Map(rates2026, (x: SubsidyRate) => x.(year := 2026)) + Map(rates2025, (x: SubsidyRate) => x.(year := 2025))
  }

  /**
   A rate with a name and an id replaces every rate with its id in place, or
   is appended; a rate without either is not saved.
   */
  function SaveRate(rates: seq<SubsidyRate>, form: SubsidyRate): (r: seq<SubsidyRate>)
    ensures form.name == [] || form.id == [] ==> r == rates
    ensures form.name != [] && form.id != [] ==> Find(r, (x: SubsidyRate) => x.id == form.id) == Some(form)
    ensures form.name != [] && form.id != [] ==> forall x :: x in rates && x.id != form.id ==> x in r
    ensures form.name != [] && form.id != [] ==> forall x :: x in r ==> x == form || (x in rates && x.id != form.id)
  {
    if form.name == [] || form.id == [] then rates
    else
      var r := Upsert(rates, form, (x: SubsidyRate) => x.id);
      UpsertThenFind(rates, form, (x: SubsidyRate) => x.id);
      assert forall x :: x in rates && x.id != form.id ==> x in r by {
        forall x | x in rates && x.id != form.id ensures x in r {
          var i :| 0 <= i < |rates| && rates[i] == x;
          if Any(rates, (y: SubsidyRate) => y.id == form.id) {
            assert r[i] == x;
          } else {
            assert r[i] == x;
          }
        }
      }
      assert forall x :: x in r ==> x == form || (x in rates && x.id != form.id) by {
        forall x | x in r ensures x == form || (x in rates && x.id != form.id) {
          var i :| 0 <= i < |r| && r[i] == x;
          if !Any(rates, (y: SubsidyRate) => y.id == form.id) && i < |rates| {
            assert rates[i].id != form.id;
          }
        }
      }
      r
  }

  /** The rate list and the rate open in the editor after deleting the rate `id`. */
  datatype RateEditor = RateEditor(rates: seq<SubsidyRate>, editing: Option<SubsidyRate>)

  /**
   After confirmation, removes the rates with the id and closes the editor when
   it holds one of them. A refused confirmation changes nothing.
   */
  function DeleteRate(ed: RateEditor, id: string, confirmed: bool): (r: RateEditor)
    ensures !confirmed ==> r == ed
    ensures confirmed ==> forall x :: x in r.rates <==> x in ed.rates && x.id != id
    ensures confirmed && ed.editing.Some? && ed.editing.value.id == id ==> r.editing.None?
    ensures !(ed.editing.Some? && ed.editing.value.id == id) ==> r.editing == ed.editing
  {
    if !confirmed then ed
    else
      RateEditor(RemoveKey(ed.rates, (x: SubsidyRate) => x.id, id),
        if ed.editing.Some? && ed.editing.value.id == id then None else ed.editing)
  }

  /** The rates of the selected year. */
  function RatesOfYear(rates: seq<SubsidyRate>, year: int): (r: seq<SubsidyRate>)
    ensures forall x :: x in r <==> x in rates && x.year == year
  {
    Filter(rates, (x: SubsidyRate) => x.year == year)
  }

  /** The templates of the active tab's kind. */
  function TemplatesOfKind(templates: seq<CsvTemplate>, kind: ImportKind): (r: seq<CsvTemplate>)
    ensures forall t :: t in r <==> t in templates && t.kind == kind
  {
    Filter(templates, (t: CsvTemplate) => t.kind == kind)
  }
}

=== FILE: app_state.dfy ===
/**
 The application shell's state handlers: import templates, the selected
 client's documents, the optimistic client add, update and delete with their
 rollbacks, and the farm loaded for a client (its area and entry-condition
 points).

 The server's answer to a save or delete is the parameter `stored`: true
 when the call succeeded or the app is offline (no call is made then).
 */
module AppState {
  import opened Wrappers
  import opened Seqs
  import opened FarmTypes
  import opened Csv
  import FarmLogic

  // ----- Templates -----

  /** A template replaces every template with its id, in place, or is appended. */
  function SaveTemplate(templates: seq<CsvTemplate>, t: CsvTemplate): (r: seq<CsvTemplate>)
    ensures Find(r, (x: CsvTemplate) => x.id == t.id) == Some(t)
    ensures forall x :: x in templates && x.id != t.id ==> x in r
    ensures forall x :: x in r ==> x == t || (x in templates && x.id != t.id)
    ensures |r| == |templates| || r == templates + [t]
  {
    var r := Upsert(templates, t, (x: CsvTemplate) => x.id);
    UpsertThenFind(templates, t, (x: CsvTemplate) => x.id);
    assert forall x :: x in templates && x.id != t.id ==> x in r by {
      forall x | x in templates && x.id != t.id ensures x in r {
        var i :| 0 <= i < |templates| && templates[i] == x;
        assert r[i] == x;
      }
    }
    assert forall x :: x in r ==> x == t || (x in templates && x.id != t.id) by {
      forall x | x in r ensures x == t || (x in templates && x.id != t.id) {
        var i :| 0 <= i < |r| && r[i] == x;
        if !Any(templates, (y: CsvTemplate) => y.id == t.id) && i < |templates| {
          assert templates[i].id != t.id;
        }
      }
    }
    r
  }

  /** Removes exactly the templates with the id. */
  function DeleteTemplate(templates: seq<CsvTemplate>, id: string): (r: seq<CsvTemplate>)
    ensures forall x :: x in r <==> x in templates && x.id != id
  {
    RemoveKey(templates, (x: CsvTemplate) => x.id, id)
  }

  /** Saving a template twice is saving it once. */
  lemma SaveTemplateTwice(templates: seq<CsvTemplate>, t: CsvTemplate)
    ensures SaveTemplate(SaveTemplate(templates, t), t) == SaveTemplate(templates, t)
  {
    UpsertIdempotent(templates, t, (x: CsvTemplate) => x.id);
  }

  // ----- Documents -----

  /**
   Adds a document to the selected client: prepended to its list, and for an
   application the client's area replaced by `extractedArea`. Nothing changes
   without a selection.
   */
  function AddDocument(clients: seq<Client>, selected: Option<string>, doc: Document, extractedArea: real): (r: seq<Client>)
    ensures selected.None? ==> r == clients
    ensures |r| == |clients|
    ensures selected.Some? ==> forall i :: 0 <= i < |clients| && clients[i].producerId != selected.value ==> r[i] == clients[i]
    ensures selected.Some? ==> forall i :: 0 <= i < |clients| && clients[i].producerId == selected.value ==>
      (r[i].documents == [doc] + clients[i].documents &&
       r[i].totalArea == (if doc.category == Wniosek then extractedArea else clients[i].totalArea) &&
       r[i] == clients[i].(documents := r[i].documents, totalArea := r[i].totalArea))
  {
    match selected
    case None => clients
    case Some(id) =>
      MapIf(clients, (c: Client) => c.producerId == id,
        (c: Client) => c.(documents := [doc] + c.documents,
                          totalArea := if doc.category == Wniosek then extractedArea else c.totalArea))
  }

  /** Removes the documents with the id from the selected client; nothing changes without a selection. */
  function RemoveDocument(clients: seq<Client>, selected: Option<string>, docId: string): (r: seq<Client>)
    ensures selected.None? ==> r == clients
    ensures |r| == |clients|
    ensures selected.Some? ==> forall i :: 0 <= i < |clients| && clients[i].producerId != selected.value ==> r[i] == clients[i]
    ensures selected.Some? ==> forall i :: 0 <= i < |clients| && clients[i].producerId == selected.value ==>
      (r[i] == clients[i].(documents := r[i].documents) &&
       forall d :: d in r[i].documents <==> d in clients[i].documents && d.id != docId)
  {
    match selected
    case None => clients
    case Some(id) =>
      MapIf(clients, (c: Client) => c.producerId == id,
        (c: Client) => c.(documents := RemoveKey(c.documents, (d: Document) => d.id, docId)))
  }

  /** Adding a document other than an application and removing it again restores the client list, when its id is new. */
  lemma AddRemoveDocument(clients: seq<Client>, selected: Option<string>, doc: Document, extractedArea: real)
    requires doc.category != Wniosek
    requires forall c :: c in clients ==> forall d :: d in c.documents ==> d.id != doc.id
    ensures |RemoveDocument(AddDocument(clients, selected, doc, extractedArea), selected, doc.id)| == |clients|
    ensures forall i :: 0 <= i < |clients| ==>
      var c := RemoveDocument(AddDocument(clients, selected, doc, extractedArea), selected, doc.id)[i];
      c == clients[i].(documents := c.documents) && multiset(c.documents) == multiset(clients[i].documents)
  {
    var added := AddDocument(clients, selected, doc, extractedArea);
    var r := RemoveDocument(added, selected, doc.id);
    if selected.Some? {
      forall i | 0 <= i < |clients| ensures r[i] == clients[i].(documents := r[i].documents) &&
        multiset(r[i].documents) == multiset(clients[i].documents) {
        if clients[i].producerId == selected.value {
          var ds := clients[i].documents;
          assert clients[i] in clients;
          assert forall d :: d in ds ==> d.id != doc.id;
          RemoveKeyFresh(doc, ds, (d: Document) => d.id);
        }
      }
    }
  }

  // ----- Optimistic client changes -----

  /** Appends the new client; if the server refuses it, every client with its producer number is removed. */
  function AddClient(clients: seq<Client>, c: Client, stored: bool): (r: seq<Client>)
    ensures stored ==> r == clients + [c]
    ensures !stored ==> forall x :: x in r <==> x in clients && x.producerId != c.producerId
  {
    var optimistic := clients + [c];
    if stored then optimistic else Filter(optimistic, (x: Client) => x.producerId != c.producerId)
  }

  /** A refused new client whose producer number was not yet used leaves the list as it was. */
  lemma AddRollbackRestores(clients: seq<Client>, c: Client)
    requires forall x :: x in clients ==> x.producerId != c.producerId
    ensures AddClient(clients, c, false) == clients
  {
    var p := (x: Client) => x.producerId != c.producerId;
    FilterAppend(clients, [c], p);
    FilterAll(clients, p);
    assert Filter([c], p) == [];
  }

  /** Replaces the clients with the updated client's producer number; if the server refuses, the list is as before. */
  function UpdateClient(clients: seq<Client>, c: Client, stored: bool): (r: seq<Client>)
    ensures !stored ==> r == clients
    ensures stored ==> (|r| == |clients| &&
      forall i :: 0 <= i < |clients| ==> r[i] == (if clients[i].producerId == c.producerId then c else clients[i]))
  {
    var optimistic := MapIf(clients, (x: Client) => x.producerId == c.producerId, _ => c);
    if stored then optimistic else clients
  }

  /** The screens the shell switches between, as far as client deletion is concerned. */
  datatype View = FarmersList | OtherView

  /** The client list, the selected client and the visible screen. */
  datatype Shell = Shell(clients: seq<Client>, selected: Option<string>, view: View)

  /**
   Deletes the client after confirmation: its entries leave the list, and if
   it was selected the selection clears and the client list shows. A refused
   delete restores the list, but not the selection.
   */
  function DeleteClient(s: Shell, producerId: string, confirmed: bool, stored: bool): (r: Shell)
    ensures !confirmed ==> r == s
    ensures confirmed && stored ==> forall x :: x in r.clients <==> x in s.clients && x.producerId != producerId
    ensures confirmed && !stored ==> r.clients == s.clients
    ensures confirmed && s.selected == Some(producerId) ==> r.selected.None? && r.view == FarmersList
    ensures confirmed && s.selected != Some(producerId) ==> r.selected == s.selected && r.view == s.view
  {
    if !confirmed then s
    else
      var clients := if stored then RemoveKey(s.clients, (x: Client) => x.producerId, producerId) else s.clients;
      if s.selected == Some(producerId) then Shell(clients, None, FarmersList)
      else s.(clients := clients)
  }

  // ----- Farm loading -----

  /** `parseFloat(x.toFixed(2))` on exact numbers: to the nearest hundredth, halves rounded up. */
  function Round2(x: real): (r: real)
    ensures x - 0.005 < r <= x + 0.005
  {
    ((x * 100.0 + 0.5).Floor as real) / 100.0
  }

  /** The sum of the parcel areas. */
  function FieldAreaSum(fields: seq<Field>): real {
    SumOf(fields, (f: Field) => f.area)
  }

  /** A loaded farm and its entry-condition points. */
  datatype LoadedFarm = LoadedFarm(farm: Farm, entryConditionPoints: real)

  /**
   The farm shown for a client: a client with an application document keeps
   its stored area; otherwise the area is the rounded sum of its parcel areas,
   or its stored area when it has no parcels.
   */
  function LoadFarm(c: Client, fields: seq<Field>): (r: LoadedFarm)
    ensures Find(c.documents, (d: Document) => d.category == Wniosek).Some? ==> r.farm.totalAreaUR == c.totalArea
    ensures Find(c.documents, (d: Document) => d.category == Wniosek).None? && fields == [] ==>
      r.farm.totalAreaUR == c.totalArea
    ensures Find(c.documents, (d: Document) => d.category == Wniosek).None? && fields != [] ==>
      FieldAreaSum(fields) - 0.005 < r.farm.totalAreaUR <= FieldAreaSum(fields) + 0.005
    ensures r.farm.producerId == c.producerId && r.farm.fields == fields
    ensures r.farm.farmName == c.lastName + " " + c.firstName
    ensures r.entryConditionPoints == Round2(FarmLogic.RequiredPoints(r.farm.totalAreaUR))
  {
    var hasApplication := Find(c.documents, (d: Document) => d.category == Wniosek).Some?;
    var area := if hasApplication then c.totalArea else if fields != [] then Round2(FieldAreaSum(fields)) else c.totalArea;
    LoadedFarm(Farm(c.lastName + " " + c.firstName, c.producerId, area, fields), Round2(area * 0.25 * 5.0))
  }

  /** The entry-condition points are within half a hundredth of a quarter of the area's basic points. */
  lemma EntryPointsClose(c: Client, fields: seq<Field>)
    ensures var r := LoadFarm(c, fields);
      r.farm.totalAreaUR * 1.25 - 0.005 < r.entryConditionPoints <= r.farm.totalAreaUR * 1.25 + 0.005
  {
  }
}

=== FILE: backend.dfy ===
/**
 The back end's "save a farmer's parcels" endpoint: the parcels of one farmer
 are replaced, in one transaction, by the submitted list, and every history
 entry is stored as fixed columns plus a sparse bag of extended attributes.

 The database is three tables: the farmers (by producer id), the parcel rows
 and the history rows. A transaction that fails leaves the database as it was.
 */
module Backend {
  import opened Wrappers
  import opened Seqs
  import opened FarmTypes

  /** A value of the extended-attribute bag: a plain value or a list of crop-part records. */
  datatype BagValue = Plain(v: Scalar) | Parts(parts: seq<CropPart>)

  datatype FieldRow = FieldRow(
    id: string,
    farmerId: string,
    name: string,
    registrationNumber: Option<string>,
    area: real,
    eligibleArea: real,
    crop: string,
    voivodeship: Option<string>,
    district: Option<string>,
    commune: Option<string>,
    precinctName: Option<string>,
    precinctNumber: Option<string>,
    mapSheet: Option<string>)

  datatype HistoryRow = HistoryRow(
    fieldId: string,
    year: int,
    crop: string,
    appliedEcoSchemes: seq<string>,
    limingDate: Option<string>,
    soilPh: Option<real>,
    extendedData: map<Key, BagValue>)

  datatype Db = Db(farmers: set<string>, fields: seq<FieldRow>, history: seq<HistoryRow>)

  datatype Failure =
    | NotFound                    // HTTP 404 "Farmer not found"
    | IntegrityError              // an inserted parcel id is taken: the transaction is rolled back
    | InvalidKeyword(name: string) // a mapped class's constructor raises TypeError: HTTP 500, rolled back

  /** The database after the request, and the response body. */
  datatype Reply = Reply(db: Db, body: Result<seq<Field>, Failure>)

  /** The keys of the extended payload: area, eligible area, crop parts and every extra attribute. */
  datatype Key = AreaKey | EligibleAreaKey | CropPartsKey | ExtraKey(attr: Attr)

  /** The extended-data bag of one entry: the payload with every `None` value dropped. */
  function Pack(h: HistoryEntry): (bag: map<Key, BagValue>)
    ensures AreaKey in bag <==> h.area.Some?
    ensures h.area.Some? ==> bag[AreaKey] == Plain(Num(h.area.value))
    ensures EligibleAreaKey in bag <==> h.eligibleArea.Some?
    ensures h.eligibleArea.Some? ==> bag[EligibleAreaKey] == Plain(Num(h.eligibleArea.value))
    ensures CropPartsKey in bag <==> h.cropParts.Some? && h.cropParts.value != []
    ensures CropPartsKey in bag ==> bag[CropPartsKey] == Parts(h.cropParts.value)
    ensures forall a :: ExtraKey(a) in bag <==> a in h.attrs
    ensures forall a :: a in h.attrs ==> bag[ExtraKey(a)] == Plain(h.attrs[a])
  {
    var extras := map k | k in ExtraKeys(h.attrs) :: Plain(h.attrs[k.attr]);
    extras
      + (if h.area.Some? then map[AreaKey := Plain(Num(h.area.value))] else map[])
      + (if h.eligibleArea.Some? then map[EligibleAreaKey := Plain(Num(h.eligibleArea.value))] else map[])
      + (if h.cropParts.Some? && h.cropParts.value != [] then map[CropPartsKey := Parts(h.cropParts.value)] else map[])
  }

  function ExtraKeys(attrs: map<Attr, Scalar>): (ks: set<Key>)
    ensures forall k :: k in ks <==> k.ExtraKey? && k.attr in attrs
  {
    set a | a in attrs :: ExtraKey(a)
  }

  /** Values that are falsy but not `None`, such as 0 or "", stay in the bag. */
  lemma PackKeepsFalsy(h: HistoryEntry, a: Attr)
    requires a in h.attrs && h.attrs[a] in {Num(0.0), Str(""), Flag(false)}
    ensures ExtraKey(a) in Pack(h) && Pack(h)[ExtraKey(a)] == Plain(h.attrs[a])
  {
  }

  function HistoryRowOf(fieldId: string, h: HistoryEntry): (r: HistoryRow)
    ensures r.fieldId == fieldId && r.year == h.year && r.crop == h.crop
    ensures r.appliedEcoSchemes == h.appliedEcoSchemes
    ensures r.limingDate == h.limingDate && r.soilPh == h.soilPh
  {
    HistoryRow(fieldId, h.year, h.crop, h.appliedEcoSchemes, h.limingDate, h.soilPh, Pack(h))
  }

  // ----- Reading a stored entry back -----

  function NumIn(bag: map<Key, BagValue>, k: Key): Option<real> {
    if k in bag && bag[k].Plain? && bag[k].v.Num? then Some(bag[k].v.n) else None
  }

  /** The entry a history row describes: fixed columns plus the bag's attributes. */
  function Unpack(row: HistoryRow): (h: HistoryEntry)
    ensures h.year == row.year && h.crop == row.crop && h.appliedEcoSchemes == row.appliedEcoSchemes
    ensures forall a :: a in h.attrs ==> ExtraKey(a) in row.extendedData
  {
    var bag := row.extendedData;
    HistoryEntry(
      row.year, row.crop, row.appliedEcoSchemes, row.limingDate, row.soilPh,
      NumIn(bag, AreaKey), NumIn(bag, EligibleAreaKey),
      if CropPartsKey in bag && bag[CropPartsKey].Parts? then Some(bag[CropPartsKey].parts) else None,
      map a | ExtraKey(a) in bag && bag[ExtraKey(a)].Plain? :: bag[ExtraKey(a)].v)
  }

  /** An entry the bag can carry without loss: it has no empty crop-part list. */
  ghost predicate Storable(h: HistoryEntry) {
    h.cropParts != Some([])
  }

  /** Storing an entry and reading the row back gives the entry again. */
  lemma UnpackPack(fieldId: string, h: HistoryEntry)
    requires Storable(h)
    ensures Unpack(HistoryRowOf(fieldId, h)) == h
  {
    var u := Unpack(HistoryRowOf(fieldId, h));
    assert u.attrs == h.attrs;
  }

  /** An empty crop-part list is stored as no list at all, so it reads back as absent. */
  lemma EmptyPartsReadBackAbsent(fieldId: string, h: HistoryEntry)
    requires h.cropParts == Some([])
    ensures Unpack(HistoryRowOf(fieldId, h)).cropParts == None
  {
  }

  // ----- The mapped classes -----

  /** The attributes the parcel class declares: its columns and its two relationships. */
  const FieldAttributes: set<string> :=
    {"id", "farmer_id", "name", "registration_number", "area", "eligible_area", "crop", "farmer", "history"}

  /** The keyword arguments the endpoint passes to the parcel class, in call order. */
  const FieldKeywords: seq<string> :=
    ["id", "farmer_id", "name", "registration_number", "area", "eligible_area", "crop",
     "voivodeship", "district", "commune", "precinct_name", "precinct_number", "map_sheet"]

  /** The attributes the history class declares: its columns and its relationship. */
  const HistoryAttributes: set<string> :=
    {"id", "field_id", "year", "crop", "applied_eco_schemes", "liming_date", "soil_ph", "field"}

  /** The keyword arguments the endpoint passes to the history class, in call order. */
  const HistoryKeywords: seq<string> :=
    ["field_id", "year", "crop", "applied_eco_schemes", "liming_date", "soil_ph", "extended_data"]

  /**
   The first keyword argument that a mapped class does not declare, which its
   default declarative constructor rejects with `TypeError`; none if all are declared.
   */
  function Undeclared(attributes: set<string>, keywords: seq<string>): (r: Option<string>)
    ensures r.None? <==> forall k :: k in keywords ==> k in attributes
    ensures r.Some? ==> r.value in keywords && r.value !in attributes
    ensures r.Some? ==> exists i :: 0 <= i < |keywords| && keywords[i] == r.value && DeclaredBefore(attributes, keywords, i)
  {
    if keywords == [] then None
    else if keywords[0] !in attributes then
      assert DeclaredBefore(attributes, keywords, 0);
      Some(keywords[0])
    else
      var r := Undeclared(attributes, keywords[1..]);
      UndeclaredCons(attributes, keywords, r);
      r
  }

  /** A keyword found past a declared first one keeps only declared ones before it. */
  lemma UndeclaredCons(attributes: set<string>, keywords: seq<string>, r: Option<string>)
    requires keywords != [] && keywords[0] in attributes
    requires r.Some? ==> exists i :: 0 <= i < |keywords[1..]| && keywords[1..][i] == r.value && DeclaredBefore(attributes, keywords[1..], i)
    ensures r.Some? ==> exists i :: 0 <= i < |keywords| && keywords[i] == r.value && DeclaredBefore(attributes, keywords, i)
  {
    if r.Some? {
      var i :| 0 <= i < |keywords[1..]| && keywords[1..][i] == r.value && DeclaredBefore(attributes, keywords[1..], i);
      assert keywords[i + 1] == r.value && DeclaredBefore(attributes, keywords, i + 1);
    }
  }

  /** Every keyword before position `i` is declared. */
  predicate DeclaredBefore(attributes: set<string>, keywords: seq<string>, i: int)
    requires 0 <= i <= |keywords|
  {
    forall j :: 0 <= j < i ==> keywords[j] in attributes
  }

  /** A keyword preceded by declared ones only, and not declared itself, is the one rejected. */
  lemma {:induction false} UndeclaredAt(attributes: set<string>, keywords: seq<string>, i: int)
    requires 0 <= i < |keywords| && DeclaredBefore(attributes, keywords, i) && keywords[i] !in attributes
    ensures Undeclared(attributes, keywords) == Some(keywords[i])
  {
    if i > 0 {
      assert keywords[0] in attributes;
      assert DeclaredBefore(attributes, keywords[1..], i - 1) by {
        forall j | 0 <= j < i - 1 ensures keywords[1..][j] in attributes {
          assert keywords[1..][j] == keywords[j + 1];
        }
      }
      UndeclaredAt(attributes, keywords[1..], i - 1);
    }
  }

  // ----- Parcel rows -----

  function FieldRowOf(producerId: string, f: Field): (r: FieldRow)
    ensures r.id == f.id && r.farmerId == producerId && r.name == f.name
    ensures r.area == f.area && r.eligibleArea == f.eligibleArea && r.crop == f.crop
    ensures r.registrationNumber == f.registrationNumber
    ensures r.voivodeship == f.voivodeship && r.district == f.district && r.commune == f.commune
    ensures r.precinctName == f.precinctName && r.precinctNumber == f.precinctNumber && r.mapSheet == f.mapSheet
  {
    FieldRow(f.id, producerId, f.name, f.registrationNumber, f.area, f.eligibleArea, f.crop,
      f.voivodeship, f.district, f.commune, f.precinctName, f.precinctNumber, f.mapSheet)
  }

  /** The history rows inserted for the submitted parcels, parcel by parcel, entry by entry. */
  function NewHistory(fields: seq<Field>): (r: seq<HistoryRow>)
    ensures forall row :: row in r ==>
      exists i :: 0 <= i < |fields| && row.fieldId == fields[i].id && NestedIn(row, fields[i])
    ensures forall i, j :: 0 <= i < |fields| && 0 <= j < |fields[i].history| ==>
      HistoryRowOf(fields[i].id, fields[i].history[j]) in r
  {
    if fields == [] then []
    else
      var head := Map(fields[0].history, (h: HistoryEntry) => HistoryRowOf(fields[0].id, h));
      var rest := NewHistory(fields[1..]);
      NewHistoryStep(fields, head, rest);
      head + rest
  }

  /** The step of `NewHistory`: the first parcel's rows in front of the rest's keep both directions. */
  lemma NewHistoryStep(fields: seq<Field>, head: seq<HistoryRow>, rest: seq<HistoryRow>)
    requires fields != []
    requires head == Map(fields[0].history, (h: HistoryEntry) => HistoryRowOf(fields[0].id, h))
    requires forall row :: row in rest ==>
      exists i :: 0 <= i < |fields[1..]| && row.fieldId == fields[1..][i].id && NestedIn(row, fields[1..][i])
    requires forall i, j :: 0 <= i < |fields[1..]| && 0 <= j < |fields[1..][i].history| ==>
      HistoryRowOf(fields[1..][i].id, fields[1..][i].history[j]) in rest
    ensures forall row :: row in head + rest ==>
      exists i :: 0 <= i < |fields| && row.fieldId == fields[i].id && NestedIn(row, fields[i])
    ensures forall i, j :: 0 <= i < |fields| && 0 <= j < |fields[i].history| ==>
      HistoryRowOf(fields[i].id, fields[i].history[j]) in head + rest
  {
    NewHistoryNested(fields, head, rest);
    NewHistoryCovers(fields, head, rest);
  }

  /** Every row of the step stores an entry of the parcel it names. */
  lemma NewHistoryNested(fields: seq<Field>, head: seq<HistoryRow>, rest: seq<HistoryRow>)
    requires fields != []
    requires head == Map(fields[0].history, (h: HistoryEntry) => HistoryRowOf(fields[0].id, h))
    requires forall row :: row in rest ==>
      exists i :: 0 <= i < |fields[1..]| && row.fieldId == fields[1..][i].id && NestedIn(row, fields[1..][i])
    ensures forall row :: row in head + rest ==>
      exists i :: 0 <= i < |fields| && row.fieldId == fields[i].id && NestedIn(row, fields[i])
  {
    forall row | row in head + rest
      ensures exists i :: 0 <= i < |fields| && row.fieldId == fields[i].id && NestedIn(row, fields[i])
    {
      if row in head {
        var j :| 0 <= j < |head| && head[j] == row;
        assert fields[0].history[j] in fields[0].history;
        assert NestedIn(row, fields[0]);
      } else {
        var i :| 0 <= i < |fields[1..]| && row.fieldId == fields[1..][i].id && NestedIn(row, fields[1..][i]);
        assert fields[i + 1] == fields[1..][i];
      }
    }
  }

  /** Every entry of every parcel has its row in the step. */
  lemma NewHistoryCovers(fields: seq<Field>, head: seq<HistoryRow>, rest: seq<HistoryRow>)
    requires fields != []
    requires head == Map(fields[0].history, (h: HistoryEntry) => HistoryRowOf(fields[0].id, h))
    requires forall i, j :: 0 <= i < |fields[1..]| && 0 <= j < |fields[1..][i].history| ==>
      HistoryRowOf(fields[1..][i].id, fields[1..][i].history[j]) in rest
    ensures forall i, j :: 0 <= i < |fields| && 0 <= j < |fields[i].history| ==>
      HistoryRowOf(fields[i].id, fields[i].history[j]) in head + rest
  {
    forall i, j | 0 <= i < |fields| && 0 <= j < |fields[i].history|
      ensures HistoryRowOf(fields[i].id, fields[i].history[j]) in head + rest
    {
      if i == 0 {
        assert head[j] == HistoryRowOf(fields[0].id, fields[0].history[j]);
      } else {
        assert fields[1..][i - 1] == fields[i];
      }
    }
  }

  /** `row` stores one of the entries of parcel `f`, under `f`'s id. */
  ghost predicate NestedIn(row: HistoryRow, f: Field) {
    row.fieldId == f.id && exists h :: h in f.history && row == HistoryRowOf(f.id, h)
  }

  function SubmittedIds(fields: seq<Field>): set<string> {
    set f | f in fields :: f.id
  }

  /** The ids of the parcels that belong to `producerId`, i.e. the rows the bulk delete removes. */
  function OwnedIds(db: Db, producerId: string): set<string> {
    set row | row in db.fields && row.farmerId == producerId :: row.id
  }

  /** A parcel row of some other farmer. */
  function NotOwnedBy(producerId: string): FieldRow -> bool {
    (row: FieldRow) => row.farmerId != producerId
  }

  /** The parcel rows the bulk delete leaves: those of other farmers, in table order. */
  function OtherFarmers(rows: seq<FieldRow>, producerId: string): (r: seq<FieldRow>)
    ensures forall row :: row in r <==> row in rows && row.farmerId != producerId
  {
    Filter(rows, NotOwnedBy(producerId))
  }

  lemma OtherFarmersAppend(a: seq<FieldRow>, b: seq<FieldRow>, producerId: string)
    ensures OtherFarmers(a + b, producerId) == OtherFarmers(a, producerId) + OtherFarmers(b, producerId)
  {
    FilterAppend(a, b, NotOwnedBy(producerId));
  }

  lemma OtherFarmersStable(rows: seq<FieldRow>, producerId: string)
    requires forall row :: row in rows ==> row.farmerId != producerId
    ensures OtherFarmers(rows, producerId) == rows
  {
    assert forall i :: 0 <= i < |rows| ==> rows[i] in rows;
    FilterAll(rows, NotOwnedBy(producerId));
  }

  lemma OtherFarmersNone(rows: seq<FieldRow>, producerId: string)
    requires forall row :: row in rows ==> row.farmerId == producerId
    ensures OtherFarmers(rows, producerId) == []
  {
    FilterNone(rows, NotOwnedBy(producerId));
  }

  /** A history row whose parcel is not in `gone`. */
  function Outside(gone: set<string>): HistoryRow -> bool {
    (row: HistoryRow) => row.fieldId !in gone
  }

  /** The history rows whose parcel id is not in `gone`, in table order. */
  function DropHistory(history: seq<HistoryRow>, gone: set<string>): (r: seq<HistoryRow>)
    ensures forall row :: row in r <==> row in history && row.fieldId !in gone
  {
    Filter(history, Outside(gone))
  }

  lemma DropHistoryAppend(a: seq<HistoryRow>, b: seq<HistoryRow>, gone: set<string>)
    ensures DropHistory(a + b, gone) == DropHistory(a, gone) + DropHistory(b, gone)
  {
    FilterAppend(a, b, Outside(gone));
  }

  lemma DropHistoryStable(history: seq<HistoryRow>, gone: set<string>)
    requires forall row :: row in history ==> row.fieldId !in gone
    ensures DropHistory(history, gone) == history
  {
    assert forall i :: 0 <= i < |history| ==> history[i] in history;
    FilterAll(history, Outside(gone));
  }

  lemma DropHistoryNone(history: seq<HistoryRow>, gone: set<string>)
    requires forall row :: row in history ==> row.fieldId in gone
    ensures DropHistory(history, gone) == []
  {
    FilterNone(history, Outside(gone));
  }

  /** The inserts succeed: the submitted ids are pairwise distinct and not held by a remaining row. */
  predicate Insertable(kept: seq<FieldRow>, fields: seq<Field>) {
    && (forall i, j :: 0 <= i < j < |fields| ==> fields[i].id != fields[j].id)
    && (forall i, k :: 0 <= i < |fields| && 0 <= k < |kept| ==> fields[i].id != kept[k].id)
  }

  function RowsFor(producerId: string, fields: seq<Field>): (r: seq<FieldRow>)
    ensures |r| == |fields|
    ensures forall i :: 0 <= i < |fields| ==> r[i] == FieldRowOf(producerId, fields[i])
  {
    Map(fields, (f: Field) => FieldRowOf(producerId, f))
  }

  /** The tables after the corrected replace: the farmer's parcels and their history swapped for the submitted ones. */
  function Replaced(db: Db, producerId: string, fields: seq<Field>): Db {
    Db(db.farmers,
       OtherFarmers(db.fields, producerId) + RowsFor(producerId, fields),
       DropHistory(db.history, OwnedIds(db, producerId)) + NewHistory(fields))
  }

  /**
   The endpoint as written, against the mapped classes as declared. The parcel
   class rejects the location keywords, so the first submitted parcel raises
   and the whole transaction, bulk delete included, is rolled back. Only an
   empty submission commits, and its bulk delete of the farmer's parcel rows
   does not reach their history rows, which stay in the table.
   */
  function UpdateClientFieldsAsWritten(db: Db, producerId: string, fields: seq<Field>): (r: Reply)
    ensures producerId !in db.farmers ==> r == Reply(db, Err(NotFound))
    ensures r.body.Err? ==> r.db == db
    ensures r.body.Ok? <==> (
      && producerId in db.farmers
      && (fields == [] || Undeclared(FieldAttributes, FieldKeywords).None?)
      && Insertable(OtherFarmers(db.fields, producerId), fields))
    ensures r.body.Ok? ==> r.body.value == fields && r.db.farmers == db.farmers
    ensures r.body.Ok? ==> r.db.fields == OtherFarmers(db.fields, producerId) + RowsFor(producerId, fields)
    ensures r.body.Ok? ==> r.db.history == db.history + NewHistory(fields)
  {
    if producerId !in db.farmers then Reply(db, Err(NotFound))
    else if fields != [] && Undeclared(FieldAttributes, FieldKeywords).Some? then
      Reply(db, Err(InvalidKeyword(Undeclared(FieldAttributes, FieldKeywords).value)))
    else
      var kept := OtherFarmers(db.fields, producerId);
      if !Insertable(kept, fields) then Reply(db, Err(IntegrityError))
      else Reply(Db(db.farmers, kept + RowsFor(producerId, fields), db.history + NewHistory(fields)), Ok(fields))
  }

  /** The parcel class rejects the first location column the endpoint writes. */
  lemma ParcelClassRejects()
    ensures Undeclared(FieldAttributes, FieldKeywords) == Some("voivodeship")
  {
    assert FieldKeywords[7] == "voivodeship";
    UndeclaredAt(FieldAttributes, FieldKeywords, 7);
  }

  /** The history class rejects the extended-data bag the endpoint writes. */
  lemma HistoryClassRejects()
    ensures Undeclared(HistoryAttributes, HistoryKeywords) == Some("extended_data")
  {
    assert HistoryKeywords[6] == "extended_data";
    UndeclaredAt(HistoryAttributes, HistoryKeywords, 6);
  }

  /** As written, every non-empty submission for a known farmer fails at the parcel class and changes nothing. */
  lemma NonEmptySubmissionFails(db: Db, producerId: string, fields: seq<Field>)
    requires producerId in db.farmers && fields != []
    ensures UpdateClientFieldsAsWritten(db, producerId, fields) == Reply(db, Err(InvalidKeyword("voivodeship")))
  {
    ParcelClassRejects();
  }

  /**
   As written, an empty submission for a farmer with one parcel deletes the
   parcel but leaves its history row behind, attached to no parcel; the
   corrected replace removes the row too.
   */
  lemma StaleHistoryCounterexample()
    ensures var db := Db({"p"}, [FieldRow("f1", "p", "A", None, 1.0, 1.0, "Pszenica", None, None, None, None, None, None)],
                         [HistoryRow("f1", 2024, "Pszenica", [], None, None, map[])]);
            var r := UpdateClientFieldsAsWritten(db, "p", []);
            && Linked(db)
            && r.body == Ok([]) && r.db.fields == [] && r.db.history == db.history
            && !Linked(r.db)
            && UpdateClientFields(db, "p", []).db.history == []
  {
    var row := FieldRow("f1", "p", "A", None, 1.0, 1.0, "Pszenica", None, None, None, None, None, None);
    var db := Db({"p"}, [row], [HistoryRow("f1", 2024, "Pszenica", [], None, None, map[])]);
    assert row in db.fields;
    assert OtherFarmers(db.fields, "p") == [];
    assert NewHistory([]) == [];
    assert "f1" in OwnedIds(db, "p");
    assert DropHistory(db.history, OwnedIds(db, "p")) == [];
    assert db.history[0] in UpdateClientFieldsAsWritten(db, "p", []).db.history;
  }

  /**
   The endpoint with both defects corrected: the mapped classes declare every
   column it writes, and the replace reaches the history too, so the history
   rows of the farmer's old parcels go with them, as the parcel-to-history
   relationship declares (delete-orphan).
   */
  function UpdateClientFields(db: Db, producerId: string, fields: seq<Field>): (r: Reply)
    ensures producerId !in db.farmers ==> r == Reply(db, Err(NotFound))
    ensures r.body.Ok? <==> producerId in db.farmers && Insertable(OtherFarmers(db.fields, producerId), fields)
    ensures r.body.Err? ==> r.db == db
    ensures r.body.Ok? ==> r.body.value == fields && r.db.farmers == db.farmers
    // other farmers' parcels are untouched
    ensures r.body.Ok? ==> forall row :: row in r.db.fields && row.farmerId != producerId <==>
      row in db.fields && row.farmerId != producerId
    // the farmer's parcels are exactly the submitted ones
    ensures r.body.Ok? ==> forall row :: row in r.db.fields && row.farmerId == producerId <==>
      exists f :: f in fields && row == FieldRowOf(producerId, f)
    // the history rows of the farmer's old parcels are gone; all others stay; the submitted ones are added
    ensures r.body.Ok? ==> forall row :: row in r.db.history <==>
      (row in db.history && row.fieldId !in OwnedIds(db, producerId)) || row in NewHistory(fields)
  {
    if producerId !in db.farmers then Reply(db, Err(NotFound))
    else
      var kept := OtherFarmers(db.fields, producerId);
      if !Insertable(kept, fields) then Reply(db, Err(IntegrityError))
      else
        var rows := RowsFor(producerId, fields);
        var r := Reply(Replaced(db, producerId, fields), Ok(fields));
        assert forall row :: row in kept + rows && row.farmerId == producerId <==>
          exists f :: f in fields && row == FieldRowOf(producerId, f) by {
          forall row | row in kept + rows && row.farmerId == producerId
            ensures exists f :: f in fields && row == FieldRowOf(producerId, f)
          {
            var i :| 0 <= i < |rows| && rows[i] == row;
            assert fields[i] in fields;
          }
          forall f | f in fields ensures FieldRowOf(producerId, f) in rows {
            var i :| 0 <= i < |fields| && fields[i] == f;
            assert rows[i] == FieldRowOf(producerId, f);
          }
        }
        r
  }

  /**
   The corrected endpoint stores every submitted parcel with all its columns,
   the location included, and a history row for every entry of it.
   */
  lemma UpdateStoresSubmission(db: Db, producerId: string, fields: seq<Field>, i: int)
    requires producerId in db.farmers && Insertable(OtherFarmers(db.fields, producerId), fields)
    requires 0 <= i < |fields|
    ensures var r := UpdateClientFields(db, producerId, fields);
      && r.body == Ok(fields)
      && FieldRowOf(producerId, fields[i]) in r.db.fields
      && forall j :: 0 <= j < |fields[i].history| ==> HistoryRowOf(fields[i].id, fields[i].history[j]) in r.db.history
  {
    assert fields[i] in fields;
  }

  /** Every history row refers to a stored parcel row. */
  ghost predicate Linked(db: Db) {
    forall row :: row in db.history ==> exists f :: f in db.fields && f.id == row.fieldId
  }

  /** On a linked database, the history stored under the submitted ids is exactly the submitted history. */
  lemma {:induction false} UpdateReplacesHistory(db: Db, producerId: string, fields: seq<Field>)
    requires Linked(db)
    requires UpdateClientFields(db, producerId, fields).body.Ok?
    ensures forall row :: row in UpdateClientFields(db, producerId, fields).db.history && row.fieldId in SubmittedIds(fields) <==>
      row in NewHistory(fields)
  {
    var r := UpdateClientFields(db, producerId, fields);
    forall row | row in r.db.history && row !in NewHistory(fields) ensures row.fieldId !in SubmittedIds(fields) {
      SurvivorNotSubmitted(db, producerId, fields, row);
    }
    forall row | row in NewHistory(fields) ensures row.fieldId in SubmittedIds(fields) {
      var i :| 0 <= i < |fields| && row.fieldId == fields[i].id && NestedIn(row, fields[i]);
      assert fields[i] in fields;
    }
  }

  /** A history row of another farmer's parcel carries no submitted id. */
  lemma SurvivorNotSubmitted(db: Db, producerId: string, fields: seq<Field>, row: HistoryRow)
    requires Linked(db)
    requires Insertable(OtherFarmers(db.fields, producerId), fields)
    requires row in db.history && row.fieldId !in OwnedIds(db, producerId)
    ensures row.fieldId !in SubmittedIds(fields)
  {
    var fr :| fr in db.fields && fr.id == row.fieldId;
    assert fr.farmerId != producerId;
    var kept := OtherFarmers(db.fields, producerId);
    assert fr in kept;
    var i :| 0 <= i < |kept| && kept[i] == fr;
    forall f | f in fields ensures f.id != row.fieldId {
      var j :| 0 <= j < |fields| && fields[j] == f;
      assert fields[j].id != kept[i].id;
    }
  }

  /** The corrected replace keeps every history row attached to a stored parcel. */
  lemma {:induction false} UpdateKeepsLinked(db: Db, producerId: string, fields: seq<Field>)
    requires Linked(db)
    ensures Linked(UpdateClientFields(db, producerId, fields).db)
  {
    var r := UpdateClientFields(db, producerId, fields);
    if r.body.Ok? {
      forall row | row in r.db.history ensures exists f :: f in r.db.fields && f.id == row.fieldId {
        if row in NewHistory(fields) {
          var i :| 0 <= i < |fields| && row.fieldId == fields[i].id && NestedIn(row, fields[i]);
          assert fields[i] in fields;
          assert FieldRowOf(producerId, fields[i]) in r.db.fields;
        } else {
          var fr :| fr in db.fields && fr.id == row.fieldId;
          assert fr.farmerId != producerId;
          assert fr in r.db.fields;
        }
      }
    }
  }

  /** On a linked database, sending the same parcels twice leaves the database as the first call did. */
  lemma UpdateIdempotent(db: Db, producerId: string, fields: seq<Field>)
    requires Linked(db)
    requires UpdateClientFields(db, producerId, fields).body.Ok?
    ensures var once := UpdateClientFields(db, producerId, fields);
            UpdateClientFields(once.db, producerId, fields) == once
  {
    var once := UpdateClientFields(db, producerId, fields);
    assert once.db == Replaced(db, producerId, fields);
    ReplacedKeepsOthers(db, producerId, fields);
    ReplaceTwice(db, producerId, fields);
  }

  lemma ReplacedKeepsOthers(db: Db, producerId: string, fields: seq<Field>)
    ensures OtherFarmers(Replaced(db, producerId, fields).fields, producerId) == OtherFarmers(db.fields, producerId)
  {
    var kept := OtherFarmers(db.fields, producerId);
    var rows := RowsFor(producerId, fields);
    OtherFarmersAppend(kept, rows, producerId);
    OtherFarmersStable(kept, producerId);
    OtherFarmersNone(rows, producerId);
  }

  lemma ReplacedOwned(db: Db, producerId: string, fields: seq<Field>)
    ensures OwnedIds(Replaced(db, producerId, fields), producerId) == SubmittedIds(fields)
  {
    var once := Replaced(db, producerId, fields);
    var rows := RowsFor(producerId, fields);
    forall id | id in SubmittedIds(fields) ensures id in OwnedIds(once, producerId) {
      var f :| f in fields && f.id == id;
      var i :| 0 <= i < |fields| && fields[i] == f;
      assert rows[i] in once.fields;
    }
    forall id | id in OwnedIds(once, producerId) ensures id in SubmittedIds(fields) {
      var row :| row in once.fields && row.farmerId == producerId && row.id == id;
      var i :| 0 <= i < |rows| && rows[i] == row;
      assert fields[i] in fields;
    }
  }

  lemma AddedAllSubmitted(fields: seq<Field>)
    ensures DropHistory(NewHistory(fields), SubmittedIds(fields)) == []
  {
    var added := NewHistory(fields);
    forall row | row in added ensures row.fieldId in SubmittedIds(fields) {
      var i :| 0 <= i < |fields| && row.fieldId == fields[i].id && NestedIn(row, fields[i]);
      assert fields[i] in fields;
    }
    DropHistoryNone(added, SubmittedIds(fields));
  }

  lemma ReplaceTwice(db: Db, producerId: string, fields: seq<Field>)
    requires Linked(db)
    requires Insertable(OtherFarmers(db.fields, producerId), fields)
    ensures Replaced(Replaced(db, producerId, fields), producerId, fields) == Replaced(db, producerId, fields)
  {
    var once := Replaced(db, producerId, fields);
    var twice := Replaced(once, producerId, fields);
    ReplacedKeepsOthers(db, producerId, fields);
    assert twice.fields == once.fields;
    ReplacedOwned(db, producerId, fields);
    var ids := SubmittedIds(fields);
    var survivors := DropHistory(db.history, OwnedIds(db, producerId));
    var added := NewHistory(fields);
    assert once.history == survivors + added;
    DropHistoryAppend(survivors, added, ids);
    forall row | row in survivors ensures row.fieldId !in ids {
      SurvivorNotSubmitted(db, producerId, fields, row);
    }
    DropHistoryStable(survivors, ids);
    AddedAllSubmitted(fields);
    assert DropHistory(once.history, ids) == survivors;
    assert twice.history == once.history;
  }
}

=== FILE: crop_manager.dfy ===
/**
 The crop screen: what each parcel grows in the selected year (for the plan
 year 2026 the parcel's own crop, for earlier years the crop and eco-schemes
 of that year's entry), the edit form that changes it, and the removal of a
 year's entry or of a whole parcel.
 */
module CropManager {
  import opened Wrappers
  import opened Seqs
  import opened Text
  import opened FarmTypes
  import opened YearHistory

  /** The campaign being planned: its crop lives on the parcel, not in the history. */
  const PlanYear := 2026
  /** The crop the edit form starts with when the parcel has no crop data. */
  const DefaultCrop := "Mieszanka"

  /** A parcel's crop data for one year; `isMain` marks the plan year's crop. */
  datatype CropData = CropData(crop: string, ecoSchemes: seq<string>, isMain: bool)

  /** The crop data of `f` in `year`, or none when its crop is unknown or it has no entry. */
  function CropDataForYear(f: Field, year: int): (r: Option<CropData>)
    ensures year == PlanYear ==> (r.None? <==> f.crop == UnknownCrop)
    ensures year == PlanYear && r.Some? ==> r.value == CropData(f.crop, [], true)
    ensures year != PlanYear ==> (r.None? <==> !HasYear(f.history, year) || FindYear(f.history, year).value.crop == UnknownCrop)
    ensures year != PlanYear && r.Some? ==> exists i :: (0 <= i < |f.history| && FirstInYear(f.history, year, i) &&
      f.history[i].year == year && r.value == CropData(f.history[i].crop, f.history[i].appliedEcoSchemes, false))
  {
    if year == PlanYear then
      if f.crop == UnknownCrop then None else Some(CropData(f.crop, [], true))
    else
      match FindYear(f.history, year)
      case None => None
      case Some(h) => if h.crop == UnknownCrop then None else Some(CropData(h.crop, h.appliedEcoSchemes, false))
  }

  // ----- Editing -----

  /** The edit form: a crop and the eco-schemes as comma-separated text. */
  datatype EditForm = EditForm(crop: string, ecoSchemes: string)

  /** The form opened on a parcel: its crop data, or the default crop and no schemes. */
  function StartEditing(f: Field, year: int): (r: EditForm)
    ensures CropDataForYear(f, year).None? ==> r == EditForm(DefaultCrop, [])
    ensures CropDataForYear(f, year).Some? ==> r.crop == CropDataForYear(f, year).value.crop
    ensures CropDataForYear(f, year).Some? ==> r.ecoSchemes == Join(CropDataForYear(f, year).value.ecoSchemes, ", ")
  {
    match CropDataForYear(f, year)
    case None => EditForm(DefaultCrop, [])
    case Some(d) => EditForm(d.crop, Join(d.ecoSchemes, ", "))
  }

  /** Clean scheme codes: non-empty, without surrounding blanks, without commas. */
  ghost predicate CleanCodes(l: seq<string>) {
    forall i :: 0 <= i < |l| ==> l[i] != [] && IsTrimmed(l[i]) && ',' !in l[i]
  }

  /** Opening the form and reading its scheme text back gives the parcel's schemes again. */
  lemma EditFormRoundTrip(f: Field, year: int)
    requires CropDataForYear(f, year).Some? ==> CleanCodes(CropDataForYear(f, year).value.ecoSchemes)
    ensures CommaList(StartEditing(f, year).ecoSchemes) ==
      match CropDataForYear(f, year) case None => [] case Some(d) => d.ecoSchemes
  {
    match CropDataForYear(f, year)
    case None => CommaListJoin([]);
    case Some(d) => CommaListJoin(d.ecoSchemes);
  }

  /** The entry a save adds for a year the parcel had no entry for. */
  function NewEntry(year: int, crop: string, schemes: seq<string>): HistoryEntry {
    HistoryEntry(year, crop, schemes, None, None, None, None, None, map[])
  }

  /** The merge a save applies to an existing entry: crop and schemes replaced, the rest kept. */
  function Merge(crop: string, schemes: seq<string>): HistoryEntry -> HistoryEntry {
    (h: HistoryEntry) => h.(crop := crop, appliedEcoSchemes := schemes)
  }

  /**
   Saving the form on one parcel: in the plan year only the parcel's crop
   changes; otherwise the year's first entry gets the crop and schemes, or a
   new entry is added and the history re-sorted newest first.
   */
  function SaveField(f: Field, year: int, form: EditForm): (r: Field)
    ensures r.id == f.id
    ensures year == PlanYear ==> r == f.(crop := form.crop)
    ensures year != PlanYear ==> r == f.(history := r.history)
    ensures year != PlanYear && HasYear(f.history, year) ==>
      r.history == PutYear(f.history, year, Merge(form.crop, CommaList(form.ecoSchemes)), NewEntry(year, form.crop, []))
    ensures year != PlanYear && !HasYear(f.history, year) ==>
      NewestFirst(r.history) && multiset(r.history) == multiset(f.history) + multiset{NewEntry(year, form.crop, CommaList(form.ecoSchemes))}
  {
    SaveCrop(f, year, form.crop, CommaList(form.ecoSchemes))
  }

  /** `SaveField` with the schemes already parsed from the form's text. */
  function SaveCrop(f: Field, year: int, crop: string, schemes: seq<string>): (r: Field)
    ensures r.id == f.id
    ensures year == PlanYear ==> r == f.(crop := crop)
    ensures year != PlanYear ==> r == f.(history := r.history)
    ensures year != PlanYear && HasYear(f.history, year) ==>
      r.history == PutYear(f.history, year, Merge(crop, schemes), NewEntry(year, crop, []))
    ensures year != PlanYear && !HasYear(f.history, year) ==>
      NewestFirst(r.history) && multiset(r.history) == multiset(f.history) + multiset{NewEntry(year, crop, schemes)}
  {
    if year == PlanYear then f.(crop := crop)
    else if HasYear(f.history, year) then
      f.(history := PutYear(f.history, year, Merge(crop, schemes), NewEntry(year, crop, [])))
    else
      f.(history := SortHistory(f.history + [NewEntry(year, crop, schemes)]))
  }

  /**
   Reading the crop data back after a save gives what the form held: the
   crop, and outside the plan year the schemes parsed from the form's text.
   */
  lemma SaveThenRead(f: Field, year: int, form: EditForm)
    requires form.crop != UnknownCrop
    ensures CropDataForYear(SaveField(f, year, form), year) ==
      if year == PlanYear then Some(CropData(form.crop, [], true))
      else Some(CropData(form.crop, CommaList(form.ecoSchemes), false))
  {
    SaveCropThenRead(f, year, form.crop, CommaList(form.ecoSchemes));
  }

  lemma SaveCropThenRead(f: Field, year: int, crop: string, schemes: seq<string>)
    requires crop != UnknownCrop
    ensures CropDataForYear(SaveCrop(f, year, crop, schemes), year) ==
      if year == PlanYear then Some(CropData(crop, [], true)) else Some(CropData(crop, schemes, false))
  {
    if year != PlanYear {
      var r := SaveCrop(f, year, crop, schemes);
      if HasYear(f.history, year) {
        var i := YearIndex(f.history, year);
        assert r.history[i] == Merge(crop, schemes)(f.history[i]);
        assert FirstInYear(r.history, year, i);
        FirstYearFound(r.history, year, i);
      } else {
        var e := NewEntry(year, crop, schemes);
        var h := f.history + [e];
        assert h[|f.history|] == e;
        assert e in multiset(r.history);
        var j :| 0 <= j < |r.history| && r.history[j] == e;
        assert forall k :: 0 <= k < |r.history| && r.history[k].year == year ==> r.history[k] == e by {
          forall k | 0 <= k < |r.history| && r.history[k].year == year ensures r.history[k] == e {
            assert r.history[k] in multiset(h);
            assert r.history[k] in h;
          }
        }
        var fy := FindYear(r.history, year);
        assert fy.Some?;
      }
    }
  }

  /** A save outside the plan year keeps every entry of every other year. */
  lemma SaveKeepsOtherYears(f: Field, year: int, form: EditForm, e: HistoryEntry)
    requires year != PlanYear && e.year != year
    ensures multiset(SaveField(f, year, form).history)[e] == multiset(f.history)[e]
  {
    var schemes := CommaList(form.ecoSchemes);
    if HasYear(f.history, year) {
      PutYearOthers(f.history, year, Merge(form.crop, schemes), NewEntry(year, form.crop, []), e);
    }
  }

  /** `fields.map(f => f.id === id ? saved(f) : f)`: every parcel with the id is saved, no other changes. */
  function SaveEditing(fields: seq<Field>, id: string, year: int, form: EditForm): (r: seq<Field>)
    ensures |r| == |fields|
    ensures forall i :: 0 <= i < |fields| && fields[i].id != id ==> r[i] == fields[i]
    ensures forall i :: 0 <= i < |fields| && fields[i].id == id ==> r[i] == SaveField(fields[i], year, form)
  {
    MapIf(fields, (f: Field) => f.id == id, (f: Field) => SaveField(f, year, form))
  }

  // ----- Removal -----

  /**
   After confirmation, drops every entry of `year` from the parcels with id
   `fieldId`; the others are untouched. A refused confirmation changes nothing.
   */
  function RemoveHistoryEntry(fields: seq<Field>, fieldId: string, year: int, confirmed: bool): (r: seq<Field>)
    ensures !confirmed ==> r == fields
    ensures |r| == |fields|
    ensures forall i :: 0 <= i < |fields| && fields[i].id != fieldId ==> r[i] == fields[i]
    ensures confirmed ==> forall i :: 0 <= i < |fields| && fields[i].id == fieldId ==>
      r[i] == fields[i].(history := r[i].history) && !HasYear(r[i].history, year) &&
      forall h: HistoryEntry :: h.year != year ==> (h in r[i].history <==> h in fields[i].history)
  {
    if !confirmed then fields
    else
      MapIf(fields, (f: Field) => f.id == fieldId,
        (f: Field) => f.(history := Filter(f.history, (h: HistoryEntry) => h.year != year)))
  }

  /** Once confirmed, removes exactly the parcels with the id; a refused confirmation changes nothing. */
  function RemoveField(fields: seq<Field>, id: string, confirmed: bool): (r: seq<Field>)
    ensures !confirmed ==> r == fields
    ensures confirmed ==> forall f :: f in r <==> f in fields && f.id != id
  {
    if !confirmed then fields else Filter(fields, (f: Field) => f.id != id)
  }

  /** Without "show all", the parcels that have crop data for the year. */
  function VisibleFields(fields: seq<Field>, year: int, showAll: bool): (r: seq<Field>)
    ensures showAll ==> r == fields
    ensures !showAll ==> forall f :: f in r <==> f in fields && CropDataForYear(f, year).Some?
  {
    if showAll then fields else Filter(fields, (f: Field) => CropDataForYear(f, year).Some?)
  }
}

=== FILE: csv.dfy ===
/**
 The text helpers of the spreadsheet import: the quote-aware line splitter,
 separator detection, line splitting, the Polish number reader, crop-name
 normalisation, and the matching of template headers against a file's header
 line.
 */
module Csv {
  import opened Wrappers
  import opened Seqs
  import opened Text
  import opened FarmTypes

  const Quote: char := '"'

  // ----- The line splitter -----

  /**
   The raw pieces of `s` as the splitter collects them when it starts in quote
   mode `inQuotes`: a quote only toggles the mode and is dropped, a separator
   outside quotes ends a piece, every other character is kept.
   */
  function Pieces(s: string, sep: char, inQuotes: bool): (r: seq<string>)
    ensures |r| >= 1
  {
    if s == [] then [[]]
    else if s[0] == Quote then Pieces(s[1..], sep, !inQuotes)
    else
      var rest := Pieces(s[1..], sep, inQuotes);
      if s[0] == sep && !inQuotes then [[]] + rest
      else [[s[0]] + rest[0]] + rest[1..]
  }

  /** No piece holds a quote. */
  lemma {:induction false} PiecesUnquoted(s: string, sep: char, q: bool)
    ensures forall i :: 0 <= i < |Pieces(s, sep, q)| ==> Quote !in Pieces(s, sep, q)[i]
  {
    if s != [] {
      if s[0] == Quote {
        PiecesUnquoted(s[1..], sep, !q);
      } else {
        PiecesUnquoted(s[1..], sep, q);
      }
    }
  }

  /** The separators of `s` met outside quotes, starting in quote mode `inQuotes`. */
  function UnquotedSeps(s: string, sep: char, inQuotes: bool): nat {
    if s == [] then 0
    else if s[0] == Quote then UnquotedSeps(s[1..], sep, !inQuotes)
    else (if s[0] == sep && !inQuotes then 1 else 0) + UnquotedSeps(s[1..], sep, inQuotes)
  }

  /** `p.replace(/^"|"$/g, '')`: one leading and one trailing quote removed. */
  function StripEndQuotes(p: string): (r: string)
    ensures Quote !in p ==> r == p
  {
    var a := if p != [] && p[0] == Quote then p[1..] else p;
    if a != [] && a[|a| - 1] == Quote then a[..|a| - 1] else a
  }

  /** How one collected piece is cleaned before it is returned; a piece without quotes is only trimmed. */
  function CleanPiece(p: string): (r: string)
    ensures IsTrimmed(r)
    ensures Quote !in p ==> r == Trim(p) && Quote !in r
  {
    if Quote !in p then
      TrimKeepsAbsent(p, Quote);
      TrimOfTrimmed(Trim(p));
      Trim(StripEndQuotes(Trim(p)))
    else Trim(StripEndQuotes(Trim(p)))
  }

  /** `splitCSV(line, separator)`. */
  function SplitLine(line: string, sep: char): (r: seq<string>)
    ensures |r| >= 1
    ensures forall i :: 0 <= i < |r| ==> Quote !in r[i] && IsTrimmed(r[i])
  {
    var ps := Pieces(line, sep, false);
    PiecesUnquoted(line, sep, false);
    Map(ps, CleanPiece)
  }

  /**
   The splitter as the import runs it: one pass over the line with the piece
   being collected and the quote mode, returning exactly `SplitLine`.
   */
  method SplitCsv(line: string, sep: char) returns (res: seq<string>)
    ensures res == SplitLine(line, sep)
  {
    res := [];
    ghost var raw: seq<string> := [];
    var current: string := [];
    var inQuotes := false;
    var i := 0;
    while i < |line|
      invariant 0 <= i <= |line|
      invariant res == Map(raw, CleanPiece)
      invariant Scan(line, sep, 0, false, [], []) == Scan(line, sep, i, inQuotes, current, raw)
    {
      var c := line[i];
      if c == Quote {
        inQuotes := !inQuotes;
      } else if c == sep && !inQuotes {
        MapSnoc(raw, current, CleanPiece);
        res := res + [CleanPiece(current)];
        raw := raw + [current];
        current := [];
      } else {
        current := current + [c];
      }
      i := i + 1;
    }
    assert Scan(line, sep, i, inQuotes, current, raw) == raw + [current];
    ScanPieces(line, sep, 0, false, [], []);
    assert line[0..] == line;
    GlueEmpty(Pieces(line, sep, false));
    MapSnoc(raw, current, CleanPiece);
    res := res + [CleanPiece(current)];
    raw := raw + [current];
  }

  lemma GlueEmpty(p: seq<string>)
    requires |p| >= 1
    ensures [] + [[] + p[0]] + p[1..] == p
  {
    var e: string := [];
    assert e + p[0] == p[0];
  }

  lemma MapSnoc<T, U>(s: seq<T>, x: T, f: T -> U)
    ensures Map(s + [x], f) == Map(s, f) + [f(x)]
  {
  }

  /** The scan from position `i`, with quote mode `q`, the piece `cur` being collected and the pieces `acc` already closed. */
  function Scan(line: string, sep: char, i: nat, q: bool, cur: string, acc: seq<string>): seq<string>
    decreases |line| - i
  {
    if i >= |line| then acc + [cur]
    else if line[i] == Quote then Scan(line, sep, i + 1, !q, cur, acc)
    else if line[i] == sep && !q then Scan(line, sep, i + 1, q, [], acc + [cur])
    else Scan(line, sep, i + 1, q, cur + [line[i]], acc)
  }

  /** The scan computes the pieces of the rest of the line, glued onto what it holds. */
  lemma {:induction false} ScanPieces(line: string, sep: char, i: nat, q: bool, cur: string, acc: seq<string>)
    requires i <= |line|
    ensures Scan(line, sep, i, q, cur, acc) ==
      acc + [cur + Pieces(line[i..], sep, q)[0]] + Pieces(line[i..], sep, q)[1..]
    decreases |line| - i
  {
    if i == |line| {
      assert line[i..] == [];
      assert cur + [] == cur;
    } else {
      PiecesStep(line, i, sep, q);
      if line[i] == Quote {
        ScanPieces(line, sep, i + 1, !q, cur, acc);
      } else if line[i] == sep && !q {
        ScanPieces(line, sep, i + 1, q, [], acc + [cur]);
        SepStep(acc, cur, Pieces(line[i..], sep, q), Pieces(line[i + 1..], sep, q));
      } else {
        ScanPieces(line, sep, i + 1, q, cur + [line[i]], acc);
        CharStep(acc, cur, line[i], Pieces(line[i..], sep, q), Pieces(line[i + 1..], sep, q));
      }
    }
  }

  /** A separator closes the piece being collected. */
  lemma SepStep(raw: seq<string>, current: string, p: seq<string>, p': seq<string>)
    requires |p'| >= 1 && p == [[]] + p'
    ensures raw + [current + p[0]] + p[1..] == (raw + [current]) + [[] + p'[0]] + p'[1..]
  {
    var e: string := [];
    assert current + e == current;
    assert e + p'[0] == p'[0];
    assert [e + p'[0]] + p'[1..] == p';
  }

  /** Any other character extends the piece being collected. */
  lemma CharStep(raw: seq<string>, current: string, c: char, p: seq<string>, p': seq<string>)
    requires |p'| >= 1 && p == [[c] + p'[0]] + p'[1..]
    ensures raw + [current + p[0]] + p[1..] == raw + [(current + [c]) + p'[0]] + p'[1..]
  {
    assert current + ([c] + p'[0]) == (current + [c]) + p'[0];
  }

  /** One step of the scan, as an equation on `Pieces`. */
  lemma PiecesStep(line: string, i: int, sep: char, q: bool)
    requires 0 <= i < |line|
    ensures var p := Pieces(line[i..], sep, q);
      if line[i] == Quote then p == Pieces(line[i + 1..], sep, !q)
      else if line[i] == sep && !q then p == [[]] + Pieces(line[i + 1..], sep, q)
      else p == [[line[i]] + Pieces(line[i + 1..], sep, q)[0]] + Pieces(line[i + 1..], sep, q)[1..]
  {
    assert line[i..][1..] == line[i + 1..];
  }

  /** The splitter returns one field more than there are separators outside quotes. */
  lemma {:induction false} PiecesCount(s: string, sep: char, q: bool)
    ensures |Pieces(s, sep, q)| == UnquotedSeps(s, sep, q) + 1
  {
    if s != [] {
      if s[0] == Quote {
        PiecesCount(s[1..], sep, !q);
      } else {
        PiecesCount(s[1..], sep, q);
      }
    }
  }

  lemma SplitLineCount(line: string, sep: char)
    ensures |SplitLine(line, sep)| == UnquotedSeps(line, sep, false) + 1
  {
    PiecesCount(line, sep, false);
  }

  /** Inside quotes nothing splits: the quoted text comes back as one piece. */
  lemma {:induction false} QuotedPiece(x: string, sep: char)
    requires Quote !in x
    ensures Pieces(x + [Quote], sep, true) == [x]
  {
    if x == [] {
      assert [] + [Quote] == [Quote];
    } else {
      assert (x + [Quote])[1..] == x[1..] + [Quote];
      QuotedPiece(x[1..], sep);
      assert [x[0]] + x[1..] == x;
    }
  }

  /** A field wrapped in quotes keeps every separator inside it and loses its quotes. */
  lemma QuotedFieldKeepsSeparators(x: string, sep: char)
    requires Quote !in x
    ensures SplitLine([Quote] + x + [Quote], sep) == [Trim(x)]
  {
    var s := [Quote] + x + [Quote];
    assert s[1..] == x + [Quote];
    QuotedPiece(x, sep);
  }

  /** Without quotes the splitter is `split(separator)`. */
  lemma {:induction false} PiecesNoQuotes(s: string, sep: char)
    requires Quote !in s
    ensures Pieces(s, sep, false) == SplitOn(s, sep)
  {
    if s != [] {
      PiecesNoQuotes(s[1..], sep);
    }
  }

  /**
   Fields free of quotes and of the separator, already trimmed, written with the
   separator between them, are read back unchanged.
   */
  lemma SplitLineJoin(fields: seq<string>, sep: char)
    requires |fields| >= 1 && sep != Quote
    requires forall i :: 0 <= i < |fields| ==> Quote !in fields[i] && sep !in fields[i] && IsTrimmed(fields[i])
    ensures SplitLine(Join(fields, [sep]), sep) == fields
  {
    var line := Join(fields, [sep]);
    JoinKeepsAbsent(fields, [sep], Quote);
    PiecesNoQuotes(line, sep);
    SplitOnJoin(fields, sep);
    var r := SplitLine(line, sep);
    forall i | 0 <= i < |fields| ensures r[i] == fields[i] {
      TrimOfTrimmed(fields[i]);
    }
  }

  /** Joining cannot introduce a character that neither the parts nor the glue hold. */
  lemma {:induction false} JoinKeepsAbsent(parts: seq<string>, glue: string, c: char)
    requires c !in glue
    requires forall i :: 0 <= i < |parts| ==> c !in parts[i]
    ensures c !in Join(parts, glue)
  {
    if |parts| > 1 {
      JoinKeepsAbsent(parts[1..], glue, c);
    }
  }

  // ----- Reading the file into lines -----

  const Bom: char := '\U{FEFF}'

  /** A leading byte-order mark is dropped. */
  function StripBom(text: string): (r: string)
    ensures text != [] && text[0] == Bom ==> r == text[1..]
    ensures (text == [] || text[0] != Bom) ==> r == text
  {
    if text != [] && text[0] == Bom then text[1..] else text
  }

  /** `text.split('\n')[0]`. */
  function FirstLine(text: string): (r: string)
    ensures '\n' !in r
  {
    SplitOn(text, '\n')[0]
  }

  /**
   The separator of a file: ';' when its first line has more semicolons than
   commas, ',' when it has more commas, and the template's separator on a tie.
   */
  function DetectSeparator(text: string, templateSep: char): (r: char)
    ensures Count(FirstLine(text), ';') > Count(FirstLine(text), ',') ==> r == ';'
    ensures Count(FirstLine(text), ',') > Count(FirstLine(text), ';') ==> r == ','
    ensures Count(FirstLine(text), ';') == Count(FirstLine(text), ',') ==> r == templateSep
  {
    var first := FirstLine(text);
    var semicolons := Count(first, ';');
    var commas := Count(first, ',');
    if semicolons > commas then ';' else if commas > semicolons then ',' else templateSep
  }

  /** `.replace(/\r\n/g, '\n').replace(/\r/g, '\n')`, in one pass. */
  function NormalizeNewlines(s: string): (r: string)
    ensures '\r' !in r
    ensures |r| <= |s|
  {
    if s == [] then []
    else if s[0] == '\r' && |s| > 1 && s[1] == '\n' then "\n" + NormalizeNewlines(s[2..])
    else if s[0] == '\r' then "\n" + NormalizeNewlines(s[1..])
    else [s[0]] + NormalizeNewlines(s[1..])
  }

  /** Text without carriage returns is left as it is. */
  lemma {:induction false} NormalizeNewlinesNoCr(s: string)
    requires '\r' !in s
    ensures NormalizeNewlines(s) == s
  {
    if s != [] {
      NormalizeNewlinesNoCr(s[1..]);
    }
  }

  predicate NotBlank(l: string) {
    Trim(l) != []
  }

  predicate NoBreak(l: string) {
    '\n' !in l && '\r' !in l
  }

  /** The non-blank lines of the text, whatever its line endings. */
  function Lines(text: string): (r: seq<string>)
    ensures forall i :: 0 <= i < |r| ==> NotBlank(r[i]) && '\n' !in r[i] && '\r' !in r[i]
  {
    var norm := NormalizeNewlines(text);
    var ls := SplitOn(norm, '\n');
    SplitOnAbsent(norm, '\n', '\r');
    FilterKeeps(ls, NotBlank, NoBreak);
    Filter(ls, NotBlank)
  }

  /** A character absent from the text is absent from every piece it splits into. */
  lemma {:induction false} SplitOnAbsent(s: string, c: char, d: char)
    requires d !in s
    ensures forall i :: 0 <= i < |SplitOn(s, c)| ==> d !in SplitOn(s, c)[i]
  {
    if s != [] {
      SplitOnAbsent(s[1..], c, d);
      var rest := SplitOn(s[1..], c);
      if s[0] == c {
        assert SplitOn(s, c) == [[]] + rest;
      } else {
        assert SplitOn(s, c) == [[s[0]] + rest[0]] + rest[1..];
      }
    }
  }

  /** Why a file is refused before any row is read. */
  datatype ReadError = EmptyFile | NoDataRows

  /** The separator and the non-blank lines of a file, header first. */
  datatype Sheet = Sheet(separator: char, header: seq<string>, rows: seq<seq<string>>)

  /**
   Reads an uploaded file: an empty file and a file with fewer than two
   non-blank lines are refused; otherwise the header line and each further
   line are split with the detected separator.
   */
  function ReadSheet(text: string, templateSep: char): (r: Result<Sheet, ReadError>)
    ensures text == [] <==> r == Err(EmptyFile)
    ensures r.Err? && text != [] ==> |Lines(StripBom(text))| < 2
    ensures r.Ok? ==> (|Lines(StripBom(text))| >= 2 &&
      r.value.separator == DetectSeparator(StripBom(text), templateSep) &&
      r.value.header == SplitLine(Lines(StripBom(text))[0], r.value.separator) &&
      |r.value.rows| == |Lines(StripBom(text))| - 1)
  {
    if text == [] then Err(EmptyFile)
    else
      var t := StripBom(text);
      var sep := DetectSeparator(t, templateSep);
      var lines := Lines(t);
      if |lines| < 2 then Err(NoDataRows)
      else Ok(Sheet(sep, SplitLine(lines[0], sep), SplitRows(lines[1..], sep)))
  }

  function SplitRows(lines: seq<string>, sep: char): (r: seq<seq<string>>)
    ensures |r| == |lines|
    ensures forall i :: 0 <= i < |r| ==> r[i] == SplitLine(lines[i], sep)
  {
    if lines == [] then [] else [SplitLine(lines[0], sep)] + SplitRows(lines[1..], sep)
  }

  // ----- Numbers -----

  predicate NotSpace(c: char) {
    !IsSpace(c)
  }

  function CommaToDot(c: char): char {
    if c == ',' then '.' else c
  }

  /** `.trim().replace(/\s/g, '').replace(/,/g, '.')`. */
  function CleanNumber(s: string): (r: string)
    ensures forall i :: 0 <= i < |r| ==> !IsSpace(r[i]) && r[i] != ','
    ensures |r| <= |s|
  {
    DropSpaceDots(Trim(s))
  }

  function DropSpaceDots(s: string): (r: string)
    ensures forall i :: 0 <= i < |r| ==> !IsSpace(r[i]) && r[i] != ','
    ensures |r| <= |s|
  {
    if s == [] then []
    else if IsSpace(s[0]) then DropSpaceDots(s[1..])
    else [CommaToDot(s[0])] + DropSpaceDots(s[1..])
  }

  /** The cleaned text is the input without its white space, with each comma turned into a dot. */
  lemma {:induction false} DropSpaceDotsIsFilterMap(s: string)
    ensures DropSpaceDots(s) == Map(Filter(s, NotSpace), CommaToDot)
  {
    if s != [] {
      DropSpaceDotsIsFilterMap(s[1..]);
      var f := Filter(s[1..], NotSpace);
      assert Filter(s, NotSpace) == (if NotSpace(s[0]) then [s[0]] else []) + f;
      if NotSpace(s[0]) {
        MapCons(s[0], f, CommaToDot);
      } else {
        assert Filter(s, NotSpace) == f;
      }
    }
  }

  lemma MapCons<T, U>(x: T, s: seq<T>, f: T -> U)
    ensures Map([x] + s, f) == [f(x)] + Map(s, f)
  {
  }

  lemma {:induction false} DropSpaceDotsTrim(s: string)
    ensures DropSpaceDots(Trim(s)) == DropSpaceDots(s)
  {
    DropSpaceDotsSpaces(s, TrimOffset(s), TrimOffset(s) + |Trim(s)|);
  }

  /** White space before `i` and from `j` on does not change the cleaned text. */
  lemma DropSpaceDotsSpaces(s: string, i: int, j: int)
    requires 0 <= i <= j <= |s|
    requires AllSpace(s[..i]) && AllSpace(s[j..])
    ensures DropSpaceDots(s[i..j]) == DropSpaceDots(s)
  {
    var a, m, c := s[..i], s[i..j], s[j..];
    SplitThree(s, i, j);
    DropSpaceDotsAppend(a + m, c);
    DropSpaceDotsAppend(a, m);
    DropSpaceDotsAllSpace(a);
    DropSpaceDotsAllSpace(c);
    assert DropSpaceDots(s) == DropSpaceDots(a) + DropSpaceDots(m) + DropSpaceDots(c);
  }

  lemma SplitThree<T>(s: seq<T>, i: int, j: int)
    requires 0 <= i <= j <= |s|
    ensures s == s[..i] + s[i..j] + s[j..]
  {
    assert s[..j] == s[..i] + s[i..j];
  }

  /**
   The number text is the input with all its white space removed and each comma
   turned into a dot (the leading `trim` changes nothing).
   */
  lemma CleanNumberIsFilterMap(s: string)
    ensures CleanNumber(s) == Map(Filter(s, NotSpace), CommaToDot)
  {
    DropSpaceDotsTrim(s);
    DropSpaceDotsIsFilterMap(s);
  }

  lemma {:induction false} DropSpaceDotsAppend(a: string, b: string)
    ensures DropSpaceDots(a + b) == DropSpaceDots(a) + DropSpaceDots(b)
  {
    if a != [] {
      assert (a + b)[1..] == a[1..] + b;
      DropSpaceDotsAppend(a[1..], b);
    } else {
      assert a + b == b;
    }
  }

  lemma {:induction false} DropSpaceDotsAllSpace(a: string)
    requires AllSpace(a)
    ensures DropSpaceDots(a) == []
  {
    if a != [] {
      DropSpaceDotsAllSpace(a[1..]);
    }
  }

  /** Cleaning twice is cleaning once. */
  lemma CleanNumberIdempotent(s: string)
    ensures CleanNumber(CleanNumber(s)) == CleanNumber(s)
  {
    var c := CleanNumber(s);
    TrimNoSpace(c);
    DropSpaceDotsFixed(c);
  }

  lemma {:induction false} DropSpaceDotsFixed(s: string)
    requires forall i :: 0 <= i < |s| ==> !IsSpace(s[i]) && s[i] != ','
    ensures DropSpaceDots(s) == s
  {
    if s != [] {
      DropSpaceDotsFixed(s[1..]);
      assert [s[0]] + s[1..] == s;
    }
  }

  /**
   `parsePolishNumber`: 0 for the empty string and for text the number reader
   `parse` rejects; otherwise what `parse` reads from the cleaned text.
   */
  function ParsePolishNumber(val: string, parse: string -> Option<real>): (r: real)
    ensures val == [] ==> r == 0.0
    ensures val != [] && parse(CleanNumber(val)).None? ==> r == 0.0
    ensures val != [] && parse(CleanNumber(val)).Some? ==> r == parse(CleanNumber(val)).value
  {
    if val == [] then 0.0
    else
      match parse(CleanNumber(val))
      case None => 0.0
      case Some(x) => x
  }

  /**
   Spaces anywhere and a decimal comma read the same as the compact text with a
   dot: the result depends only on the cleaned text.
   */
  lemma ParsePolishNumberClean(val: string, parse: string -> Option<real>)
    requires CleanNumber(val) != []
    ensures ParsePolishNumber(CleanNumber(val), parse) == ParsePolishNumber(val, parse)
  {
    CleanNumberIdempotent(val);
  }

  // ----- Crop names -----

  /** The crop names the application knows. */
  const CropTypes: seq<string> := ["Pszenica", "Rzepak", "Kukurydza", "Burak Cukrowy", "Jęczmień",
    "Żyto", "Ziemniaki", "Trawy", "Rośliny Bobowate", "Mieszanka"]

  /**
   The keywords of the fuzzy rules, in the order they are tried: a lower-cased
   name mentioning any keyword of list `k` is the crop `CropTypes[k]`.
   */
  const CropKeywords: seq<seq<string>> := [
    ["pszenic"],
    ["rzepak"],
    ["kukurydz"],
    ["burak"],
    ["jęczmień", "jeczmien"],
    ["żyto", "zyto"],
    ["ziemnia"],
    ["traw", "łąk", "pastwisk", "tuz"],
    ["bobowat", "strączk", "lucern", "koniczyn", "łubin", "groch", "bobik"],
    ["mieszan"]]

  predicate Mentions(lower: string, keywords: seq<string>) {
    exists k :: 0 <= k < |keywords| && Contains(lower, keywords[k])
  }

  /** The first rule whose keywords the lower-cased name mentions, or -1. */
  function MatchRule(lower: string): (k: int)
    ensures -1 <= k < |CropTypes|
    ensures k == -1 <==> forall j :: 0 <= j < |CropKeywords| ==> !Mentions(lower, CropKeywords[j])
    ensures k >= 0 ==> Mentions(lower, CropKeywords[k]) && forall j :: 0 <= j < k ==> !Mentions(lower, CropKeywords[j])
  {
    FindIndex(CropKeywords, (ks: seq<string>) => Mentions(lower, ks))
  }

  predicate SameLower(lower: string, c: string) {
    Lower(c) == lower
  }

  /** `normalizeCropName`: keyword rules, then an exact known name, then the capitalised input. */
  function NormalizeCropName(input: string): (r: string)
    ensures input == [] ==> r == UnknownCrop
    ensures r in CropTypes || r == UnknownCrop || (|Trim(input)| > 2 && r == Capitalize(Trim(input)))
  {
    if input == [] then UnknownCrop
    else
      var lower := Trim(Lower(input));
      var k := MatchRule(lower);
      if k >= 0 then CropTypes[k]
      else
        var exact := Find(CropTypes, (c: string) => SameLower(lower, c));
        if exact.Some? then exact.value
        else if |Trim(input)| > 2 then Capitalize(Trim(input))
        else UnknownCrop
  }

  /** Every known crop name is non-empty. */
  lemma CropTypesNonEmpty(c: string)
    requires c in CropTypes
    ensures c != []
  {
  }

  /** The normalised name is never empty. */
  lemma NormalizeNonEmpty(input: string)
    ensures NormalizeCropName(input) != []
  {
    var r := NormalizeCropName(input);
    if r in CropTypes {
      CropTypesNonEmpty(r);
    }
  }

  /** A keyword rule, when one matches, decides the name. */
  lemma NormalizeRuleWins(input: string)
    requires input != [] && MatchRule(Trim(Lower(input))) >= 0
    ensures NormalizeCropName(input) == CropTypes[MatchRule(Trim(Lower(input)))]
  {
  }

  /**
   The name depends on the input only through its lower-cased, trimmed form
   whenever a keyword rule decides it.
   */
  lemma NormalizeCaseInsensitive(a: string, b: string)
    requires a != [] && b != []
    requires Trim(Lower(a)) == Trim(Lower(b))
    requires MatchRule(Trim(Lower(a))) >= 0
    ensures NormalizeCropName(a) == NormalizeCropName(b)
  {
  }

  /** A name kept as typed (capitalised) normalises to itself again. */
  lemma NormalizeFallbackStable(input: string)
    requires input != []
    requires MatchRule(Trim(Lower(input))) == -1
    requires Find(CropTypes, (c: string) => SameLower(Trim(Lower(input)), c)).None?
    requires |Trim(input)| > 2
    ensures NormalizeCropName(NormalizeCropName(input)) == NormalizeCropName(input)
  {
    var t := Trim(input);
    var r := Capitalize(t);
    FallbackOf(input);
    assert Trim(Lower(r)) == Trim(Lower(input)) by {
      TrimLowerCommute(input);
      CapitalizeLower(t);
      TrimLowerCommute(r);
      CapitalizeTrimmed(t);
      TrimOfTrimmed(r);
    }
    assert Trim(r) == r by {
      CapitalizeTrimmed(t);
      TrimOfTrimmed(r);
    }
    FallbackOf(r);
    CapitalizeTwice(t);
  }

  /** The fallback branch: no rule and no known crop, so the trimmed name is kept, capitalised. */
  lemma FallbackOf(s: string)
    requires s != [] && |Trim(s)| > 2
    requires MatchRule(Trim(Lower(s))) == -1
    requires Find(CropTypes, (c: string) => SameLower(Trim(Lower(s)), c)).None?
    ensures NormalizeCropName(s) == Capitalize(Trim(s))
  {
  }

  lemma CapitalizeLower(t: string)
    ensures Lower(Capitalize(t)) == Lower(t)
  {
    if t != [] {
      CaseKeepsSpace(t[0]);
    }
  }

  lemma CapitalizeTrimmed(t: string)
    requires IsTrimmed(t)
    ensures IsTrimmed(Capitalize(t))
  {
    if t != [] {
      CaseKeepsSpace(t[0]);
    }
  }

  lemma CapitalizeTwice(t: string)
    ensures Capitalize(Capitalize(t)) == Capitalize(t)
  {
    if t != [] {
      CaseKeepsSpace(t[0]);
    }
  }

  /** Lower-casing never moves white space, so it commutes with trimming. */
  lemma TrimLowerCommute(s: string)
    ensures Trim(Lower(s)) == Lower(Trim(s))
  {
    TrimStartLower(s);
    TrimEndLower(TrimStart(s));
  }

  lemma {:induction false} TrimStartLower(s: string)
    ensures TrimStart(Lower(s)) == Lower(TrimStart(s))
  {
    if s != [] {
      CaseKeepsSpace(s[0]);
      assert Lower(s)[1..] == Lower(s[1..]);
      TrimStartLower(s[1..]);
    }
  }

  lemma {:induction false} TrimEndLower(s: string)
    ensures TrimEnd(Lower(s)) == Lower(TrimEnd(s))
  {
    if s != [] {
      CaseKeepsSpace(s[|s| - 1]);
      assert Lower(s)[..|s| - 1] == Lower(s[..|s| - 1]);
      TrimEndLower(s[..|s| - 1]);
    }
  }

  // ----- Header mapping -----

  predicate IsQuoteMark(c: char) {
    c == '\'' || c == '"'
  }

  /** `/\s+/g` replaced by one space. */
  function CollapseSpace(s: string): (r: string)
    ensures |r| <= |s|
  {
    if s == [] then []
    else if IsSpace(s[0]) then
      var rest := CollapseSpace(s[1..]);
      if rest != [] && rest[0] == ' ' && IsSpace(s[1]) then rest else " " + rest
    else [s[0]] + CollapseSpace(s[1..])
  }

  /** `cleanHeader`: lower case, no quote marks, runs of white space as one space, trimmed. */
  function CleanHeader(h: string): (r: string)
    ensures IsTrimmed(r)
  {
    Trim(CollapseSpace(DropQuotes(Lower(h))))
  }

  /** `replace(/['"]/g, '')`. */
  function DropQuotes(s: string): (r: string)
    ensures forall c :: c in r <==> c in s && !IsQuoteMark(c)
  {
    if s == [] then []
    else if IsQuoteMark(s[0]) then DropQuotes(s[1..])
    else [s[0]] + DropQuotes(s[1..])
  }

  predicate HeaderMatches(search: string, h: string) {
    CleanHeader(h) == search || Contains(CleanHeader(h), search)
  }

  /** Tests a file header against a cleaned template header name. */
  function MatchesSearch(search: string): string -> bool {
    (h: string) => HeaderMatches(search, h)
  }

  /**
   The position of the first file header that, cleaned, contains the cleaned
   template header name; -1 when none does.
   */
  function ColumnOf(headers: seq<string>, templateHeader: string): (r: int)
    ensures -1 <= r < |headers|
  {
    FindIndex(headers, MatchesSearch(CleanHeader(templateHeader)))
  }

  /** The found column matches, no earlier column does, and -1 means that none matches. */
  lemma ColumnOfFirst(headers: seq<string>, templateHeader: string)
    ensures var r := ColumnOf(headers, templateHeader); var search := CleanHeader(templateHeader);
      && (r >= 0 ==> HeaderMatches(search, headers[r]))
      && (r >= 0 ==> forall j :: 0 <= j < r ==> !HeaderMatches(search, headers[j]))
      && (r == -1 <==> forall j :: 0 <= j < |headers| ==> !HeaderMatches(search, headers[j]))
  {
  }

  /** The column of one template entry's header. */
  function EntryColumn(headers: seq<string>): ((string, string)) -> int {
    (m: (string, string)) => ColumnOf(headers, m.1)
  }

  /** The column of each entry's header, or -1. */
  function HeaderColumns(mappings: seq<(string, string)>, headers: seq<string>): (r: seq<int>)
    ensures |r| == |mappings|
    ensures forall i :: 0 <= i < |r| ==> -1 <= r[i] < |headers|
    ensures forall i :: 0 <= i < |r| ==> r[i] == ColumnOf(headers, mappings[i].1)
  {
    Map(mappings, EntryColumn(headers))
  }

  /** Some entry for system key `k` has a column. */
  ghost predicate Found(mappings: seq<(string, string)>, cols: seq<int>, k: string) {
    exists i :: 0 <= i < |mappings| && i < |cols| && mappings[i].0 == k && cols[i] >= 0
  }

  /**
   The column index of each system key whose template header the file has;
   the entries are visited in order, so a later entry for the same key wins.
   */
  function ColumnMap(mappings: seq<(string, string)>, headers: seq<string>): (r: map<string, int>)
    ensures forall k :: k in r ==> 0 <= r[k] < |headers|
    ensures forall k :: k in r <==> Found(mappings, HeaderColumns(mappings, headers), k)
  {
    KeyColumns(mappings, HeaderColumns(mappings, headers), |headers|)
  }

  function KeyColumns(mappings: seq<(string, string)>, cols: seq<int>, width: int): (r: map<string, int>)
    requires |cols| == |mappings|
    requires forall i :: 0 <= i < |cols| ==> cols[i] < width
    ensures forall k :: k in r ==> 0 <= r[k] < width
    ensures forall k :: k in r <==> Found(mappings, cols, k)
  {
    if mappings == [] then map[]
    else
      var n := |mappings| - 1;
      var rest := KeyColumns(mappings[..n], cols[..n], width);
      var r := if cols[n] >= 0 then rest[mappings[n].0 := cols[n]] else rest;
      assert forall k :: k in r <==> Found(mappings, cols, k) by {
        forall k ensures k in r <==> Found(mappings, cols, k) {
          FoundLast(mappings, cols, k);
        }
      }
      r
  }

  lemma FoundLast(mappings: seq<(string, string)>, cols: seq<int>, k: string)
    requires mappings != [] && |cols| == |mappings|
    ensures Found(mappings, cols, k) <==>
      (Found(mappings[..|mappings| - 1], cols[..|mappings| - 1], k) ||
       (mappings[|mappings| - 1].0 == k && cols[|mappings| - 1] >= 0))
  {
    var n := |mappings| - 1;
    if Found(mappings, cols, k) {
      var i :| 0 <= i < |mappings| && i < |cols| && mappings[i].0 == k && cols[i] >= 0;
      if i < n {
        assert mappings[..n][i] == mappings[i] && cols[..n][i] == cols[i];
      }
    }
    if Found(mappings[..n], cols[..n], k) {
      var i :| 0 <= i < n && mappings[..n][i].0 == k && cols[..n][i] >= 0;
      assert mappings[i] == mappings[..n][i];
    }
  }

  /** A key has a column exactly when some entry for it names a header the file has. */
  lemma ColumnMapHas(mappings: seq<(string, string)>, headers: seq<string>, k: string)
    ensures k in ColumnMap(mappings, headers) <==>
      exists i :: 0 <= i < |mappings| && mappings[i].0 == k && ColumnOf(headers, mappings[i].1) >= 0
  {
    FoundThrough(mappings, HeaderColumns(mappings, headers), EntryColumn(headers), k);
  }

  /** `Found` on columns computed entry by entry, stated through the computing function. */
  lemma FoundThrough(mappings: seq<(string, string)>, cols: seq<int>, f: ((string, string)) -> int, k: string)
    requires |cols| == |mappings| && forall i :: 0 <= i < |mappings| ==> cols[i] == f(mappings[i])
    ensures Found(mappings, cols, k) <==> exists i :: 0 <= i < |mappings| && mappings[i].0 == k && f(mappings[i]) >= 0
  {
    if exists i :: 0 <= i < |mappings| && mappings[i].0 == k && f(mappings[i]) >= 0 {
      var i :| 0 <= i < |mappings| && mappings[i].0 == k && f(mappings[i]) >= 0;
      assert cols[i] >= 0;
    }
  }

  /** Without repeated keys, each found key maps to the column of its own header. */
  lemma ColumnMapDistinct(mappings: seq<(string, string)>, headers: seq<string>, i: int)
    requires 0 <= i < |mappings|
    requires forall a, b :: 0 <= a < b < |mappings| ==> mappings[a].0 != mappings[b].0
    requires ColumnOf(headers, mappings[i].1) >= 0
    ensures mappings[i].0 in ColumnMap(mappings, headers)
    ensures ColumnMap(mappings, headers)[mappings[i].0] == ColumnOf(headers, mappings[i].1)
  {
    var cols := HeaderColumns(mappings, headers);
    KeyColumnsDistinct(mappings, cols, |headers|, i);
  }

  lemma {:induction false} KeyColumnsDistinct(mappings: seq<(string, string)>, cols: seq<int>, width: int, i: int)
    requires |cols| == |mappings| && 0 <= i < |mappings|
    requires forall j :: 0 <= j < |cols| ==> cols[j] < width
    requires forall a, b :: 0 <= a < b < |mappings| ==> mappings[a].0 != mappings[b].0
    requires cols[i] >= 0
    ensures mappings[i].0 in KeyColumns(mappings, cols, width)
    ensures KeyColumns(mappings, cols, width)[mappings[i].0] == cols[i]
    decreases |mappings|
  {
    var n := |mappings| - 1;
    assert Found(mappings, cols, mappings[i].0);
    if i < n {
      assert mappings[..n][i] == mappings[i] && cols[..n][i] == cols[i];
      KeyColumnsDistinct(mappings[..n], cols[..n], width, i);
    }
  }

  /** `getVal`: the cell of a mapped column, or the empty string. */
  function GetVal(cols: seq<string>, columns: map<string, int>, key: string): (r: string)
    ensures key in columns && 0 <= columns[key] < |cols| ==> r == cols[columns[key]]
    ensures !(key in columns && 0 <= columns[key] < |cols|) ==> r == []
  {
    if key in columns && 0 <= columns[key] < |cols| then cols[columns[key]] else []
  }

  /** The kind of data a file carries. */
  datatype ImportKind = Parcels | Crops

  /**
   An import template: the file header expected for each system key (in the
   order the keys were entered), the separator, and the campaign year the file
   belongs to (0 when the template names none).
   */
  datatype CsvTemplate = CsvTemplate(
    id: string,
    name: string,
    kind: ImportKind,
    mappings: seq<(string, string)>,
    separator: char,
    year: int)

  /** The system keys without which a file of that kind is refused. */
  function RequiredKeys(kind: ImportKind): seq<string> {
    match kind
    case Parcels => ["name", "area"]
    case Crops => ["registrationNumber", "crop"]
  }

  /** A template entry whose key is required and whose header no file header matches. */
  predicate MissingPair(p: (string, string), headers: seq<string>, kind: ImportKind) {
    p.0 in RequiredKeys(kind) && ColumnOf(headers, p.1) == -1
  }

  /**
   The template header names of the required keys that no file header matches,
   in the template's order.
   */
  function MissingRequired(mappings: seq<(string, string)>, headers: seq<string>, kind: ImportKind): (r: seq<string>)
    ensures forall x :: x in r ==> exists p :: p in mappings && p.1 == x && MissingPair(p, headers, kind)
    ensures forall p :: p in mappings && MissingPair(p, headers, kind) ==> p.1 in r
  {
    if mappings == [] then []
    else
      var rest := MissingRequired(mappings[1..], headers, kind);
      var r := if MissingPair(mappings[0], headers, kind) then [mappings[0].1] + rest else rest;
      MissingStep(mappings, rest, r, headers, kind);
      r
  }

  /** The step of `MissingRequired`: one more template entry in front keeps both directions. */
  lemma MissingStep(mappings: seq<(string, string)>, rest: seq<string>, r: seq<string>, headers: seq<string>, kind: ImportKind)
    requires mappings != []
    requires forall x :: x in rest ==> exists p :: p in mappings[1..] && p.1 == x && MissingPair(p, headers, kind)
    requires forall p :: p in mappings[1..] && MissingPair(p, headers, kind) ==> p.1 in rest
    requires r == if MissingPair(mappings[0], headers, kind) then [mappings[0].1] + rest else rest
    ensures forall x :: x in r ==> exists p :: p in mappings && p.1 == x && MissingPair(p, headers, kind)
    ensures forall p :: p in mappings && MissingPair(p, headers, kind) ==> p.1 in r
  {
    assert mappings == [mappings[0]] + mappings[1..];
    MissingCons(mappings[0], mappings[1..], rest, r, headers, kind);
  }

  /** Every header kept after one more template entry names a missing entry of the longer template. */
  lemma MissingCons(m0: (string, string), tail: seq<(string, string)>, rest: seq<string>, r: seq<string>,
      headers: seq<string>, kind: ImportKind)
    requires forall x :: x in rest ==> exists p :: p in tail && p.1 == x && MissingPair(p, headers, kind)
    requires r == if MissingPair(m0, headers, kind) then [m0.1] + rest else rest
    ensures forall x :: x in r ==> exists p :: p in [m0] + tail && p.1 == x && MissingPair(p, headers, kind)
  {
    forall x | x in r ensures exists p :: p in [m0] + tail && p.1 == x && MissingPair(p, headers, kind) {
      if x in rest {
        var p :| p in tail && p.1 == x && MissingPair(p, headers, kind);
        assert p in [m0] + tail;
      } else {
        assert m0 in [m0] + tail;
      }
    }
  }

  /** The template header of a mapping pair. */
  function HeaderOfPair(p: (string, string)): string {
    p.1
  }

  /** `MissingPair` as a test to filter the template with. */
  function IsMissing(headers: seq<string>, kind: ImportKind): ((string, string)) -> bool {
    p => MissingPair(p, headers, kind)
  }

  /**
   The missing headers come in the template's order: they are the headers of
   the template's missing pairs, kept in place.
   */
  lemma {:induction false} MissingRequiredInOrder(mappings: seq<(string, string)>, headers: seq<string>, kind: ImportKind)
    ensures MissingRequired(mappings, headers, kind) == Map(Filter(mappings, IsMissing(headers, kind)), HeaderOfPair)
  {
    if mappings != [] {
      MissingRequiredInOrder(mappings[1..], headers, kind);
      MapFilterCons(mappings, IsMissing(headers, kind), HeaderOfPair);
      MissingRequiredUnfold(mappings, headers, kind);
    }
  }

  /** One step of `MissingRequired`: the first entry's header, if missing, then the rest. */
  lemma MissingRequiredUnfold(mappings: seq<(string, string)>, headers: seq<string>, kind: ImportKind)
    requires mappings != []
    ensures MissingRequired(mappings, headers, kind) ==
      (if MissingPair(mappings[0], headers, kind) then [mappings[0].1] else []) + MissingRequired(mappings[1..], headers, kind)
  {
  }
}

=== FILE: dashboard.dfy ===
/**
 The dashboard's figures for one campaign year: the eligible area of the
 parcels declared that year, the register of parcels with a positive eligible
 area, the area per crop, the basic direct payments (basic income support,
 redistributive payment up to 30 ha, complementary payment) priced from the
 year's rates, the eco-scheme value from the farm analysis, and the campaign
 deadline shown for the year.
 */
module Dashboard {
  import opened Wrappers
  import opened Seqs
  import opened Text
  import opened FarmTypes
  import FarmLogic

  /** The crop label that, like "Nieznana", is left out of the crop summary. */
  const NoData := "Brak danych"
  /** The redistributive payment covers at most this many hectares. */
  const RedistributiveCap: real := 30.0
  /** The name fragments that pick the three basic payment rates. */
  const BasicKeyword := "podstawowe"
  const RedistributiveKeyword := "redystrybucyjna"
  const ComplementaryKeyword := "uzupełniająca"

  // ----- Eligible area -----

  /** `histForSelected.eligibleArea || 0`. */
  function Eligible(h: HistoryEntry): real {
    OptOr(h.eligibleArea, 0.0)
  }

  /** The eligible area of the year's entry of `f`, or nothing when it has none. */
  function FieldEligible(f: Field, year: int): real {
    match FindYear(f.history, year)
    case None => 0.0
    case Some(h) => Eligible(h)
  }

  /** The summed eligible area of the parcels, over the year's entries. */
  function TotalArea(fields: seq<Field>, year: int): real {
    if fields == [] then 0.0 else TotalArea(fields[..|fields| - 1], year) + FieldEligible(fields[|fields| - 1], year)
  }

  predicate Declared(year: int, f: Field) {
    FindYear(f.history, year).Some?
  }

  /** The parcels that have an entry for the year, in order. */
  function DeclaredFields(fields: seq<Field>, year: int): (r: seq<Field>)
    ensures forall f :: f in r <==> f in fields && Declared(year, f)
  {
    if fields == [] then []
    else
      var rest := DeclaredFields(fields[..|fields| - 1], year);
      var last := fields[|fields| - 1];
      assert fields == fields[..|fields| - 1] + [last];
      if Declared(year, last) then rest + [last] else rest
  }

  /** Parcels without an entry for the year add nothing to the total. */
  lemma {:induction false} TotalAreaDeclared(fields: seq<Field>, year: int)
    ensures TotalArea(fields, year) == TotalArea(DeclaredFields(fields, year), year)
  {
    if fields != [] {
      var init := fields[..|fields| - 1];
      var last := fields[|fields| - 1];
      TotalAreaDeclared(init, year);
      if Declared(year, last) {
        var r := DeclaredFields(init, year) + [last];
        assert r[..|r| - 1] == DeclaredFields(init, year);
      }
    }
  }

  // ----- Parcel register -----

  /** A parcel is on the register when its entry for the year has a positive eligible area. */
  predicate Registered(year: int, f: Field) {
    FindYear(f.history, year).Some? && Eligible(FindYear(f.history, year).value) > 0.0
  }

  /** `(a.registrationNumber || '').localeCompare(b.registrationNumber || '') <= 0`. */
  predicate ByRegistration(a: Field, b: Field) {
    StrLe(OptOrStr(a.registrationNumber, ""), OptOrStr(b.registrationNumber, ""))
  }

  lemma ByRegistrationTotal()
    ensures TotalPreorder(ByRegistration)
  {
    forall a: Field, b: Field ensures ByRegistration(a, b) || ByRegistration(b, a) {
      StrLeTotal(OptOrStr(a.registrationNumber, ""), OptOrStr(b.registrationNumber, ""));
    }
    forall a: Field, b: Field, c: Field | ByRegistration(a, b) && ByRegistration(b, c) ensures ByRegistration(a, c) {
      StrLeTrans(OptOrStr(a.registrationNumber, ""), OptOrStr(b.registrationNumber, ""), OptOrStr(c.registrationNumber, ""));
    }
  }

  /** The register: the registered parcels, each as often as listed, by registration number. */
  function Registry(fields: seq<Field>, year: int): (r: seq<Field>)
    ensures forall f :: f in r <==> f in fields && Registered(year, f)
    ensures multiset(r) == multiset(Filter(fields, (f: Field) => Registered(year, f)))
    ensures SortedBy(r, ByRegistration)
  {
    var listed := Filter(fields, (f: Field) => Registered(year, f));
    ByRegistrationTotal();
    SortBySorted(listed, ByRegistration);
    var r := SortBy(listed, ByRegistration);
    assert forall f :: f in r <==> f in listed by {
      forall f ensures f in r <==> f in listed {
        assert f in r <==> f in multiset(r);
        assert f in listed <==> f in multiset(listed);
      }
    }
    r
  }

  // ----- Crop summary -----

  /** An area credited to a crop name. */
  datatype Share = Share(crop: string, area: real)

  /** `crop || 'Nieznana'`. */
  function CropName(crop: string): string {
    if crop == [] then UnknownCrop else crop
  }

  /** The crop names the summary leaves out. */
  predicate Unlisted(crop: string) {
    crop == UnknownCrop || crop == NoData
  }

  /**
   What an entry credits: each crop part's area to its crop when it has
   parts, else the entry's area (or the parcel's) to the entry's crop.
   */
  function EntryShares(f: Field, h: HistoryEntry): (r: seq<Share>)
    ensures h.cropParts.Some? && h.cropParts.value != [] ==>
      |r| == |h.cropParts.value| &&
      forall i :: 0 <= i < |r| ==> r[i] == Share(CropName(h.cropParts.value[i].crop), h.cropParts.value[i].area)
    ensures h.cropParts.None? || h.cropParts.value == [] ==> r == [Share(CropName(h.crop), OptOr(h.area, f.area))]
  {
    if h.cropParts.Some? && |h.cropParts.value| > 0 then
      Map(h.cropParts.value, (p: CropPart) => Share(CropName(p.crop), p.area))
    else [Share(CropName(h.crop), OptOr(h.area, f.area))]
  }

  function Shares(fields: seq<Field>, year: int): seq<Share> {
    if fields == [] then []
    else
      var rest := Shares(fields[1..], year);
      match FindYear(fields[0].history, year)
      case None => rest
      case Some(h) => EntryShares(fields[0], h) + rest
  }

  /** The area the shares credit to `crop`. */
  function CropArea(shares: seq<Share>, crop: string): real {
    if shares == [] then 0.0
    else CropArea(shares[..|shares| - 1], crop) + (if shares[|shares| - 1].crop == crop then shares[|shares| - 1].area else 0.0)
  }

  /** `summary[crop] = (summary[crop] || 0) + area`, for every share of a listed crop. */
  function Summarize(shares: seq<Share>): (r: map<string, real>)
    ensures forall c :: c in r ==> !Unlisted(c)
  {
    if shares == [] then map[]
    else
      var m := Summarize(shares[..|shares| - 1]);
      var s := shares[|shares| - 1];
      if Unlisted(s.crop) then m
      else m[s.crop := (if s.crop in m then m[s.crop] else 0.0) + s.area]
  }

  /**
   The summary has a key for exactly the listed crops some share names, and
   holds under it the summed area of that crop's shares.
   */
  lemma {:induction false} SummarizeTracks(shares: seq<Share>, c: string)
    ensures c in Summarize(shares) <==> !Unlisted(c) && exists i :: 0 <= i < |shares| && shares[i].crop == c
    ensures c in Summarize(shares) ==> Summarize(shares)[c] == CropArea(shares, c)
    ensures c !in Summarize(shares) ==> Unlisted(c) || CropArea(shares, c) == 0.0
  {
    if shares != [] {
      var init := shares[..|shares| - 1];
      SummarizeTracks(init, c);
      if exists i :: 0 <= i < |shares| && shares[i].crop == c {
        var i :| 0 <= i < |shares| && shares[i].crop == c;
        if i < |init| {
          assert init[i].crop == c;
        }
      }
      if exists i :: 0 <= i < |init| && init[i].crop == c {
        var i :| 0 <= i < |init| && init[i].crop == c;
        assert shares[i].crop == c;
      }
    }
  }

  // ----- Basic payments -----

  /** One line of the basic payments breakdown: a rate per hectare on an area. */
  datatype Payment = Payment(rate: real, amount: real)

  /** The amount a line pays. */
  function Total(p: Payment): real {
    p.amount * p.rate
  }

  /** A basic payment rate of the year: a top-up whose lower-cased name contains the keyword. */
  predicate PaymentMatch(year: int, keyword: string, r: SubsidyRate) {
    r.year == year && r.category == Doplata && Contains(Lower(r.name), keyword)
  }

  /** The rate of the first matching payment, or 0 when the year has none. */
  function PaymentRate(rates: seq<SubsidyRate>, year: int, keyword: string): (r: real)
    ensures (forall i :: 0 <= i < |rates| ==> !PaymentMatch(year, keyword, rates[i])) ==> r == 0.0
    ensures (exists i :: 0 <= i < |rates| && PaymentMatch(year, keyword, rates[i])) ==>
      exists i :: 0 <= i < |rates| && PaymentMatch(year, keyword, rates[i]) && r == rates[i].rate &&
        forall j :: 0 <= j < i ==> !PaymentMatch(year, keyword, rates[j])
  {
    match Find(rates, (x: SubsidyRate) => PaymentMatch(year, keyword, x))
    case None => 0.0
    case Some(x) => x.rate
  }

  function Min(a: real, b: real): real {
    if a <= b then a else b
  }

  /**
   The three basic payments on `area`: basic income support and the
   complementary payment on the whole area, the redistributive payment on
   at most 30 ha.
   */
  function BasicPayments(area: real, rates: seq<SubsidyRate>, year: int): (r: seq<Payment>)
    ensures |r| == 3
    ensures r[0].amount == area && r[2].amount == area
    ensures r[1].amount <= RedistributiveCap && r[1].amount <= area
    ensures r[1].amount == area || r[1].amount == RedistributiveCap
    ensures r[0].rate == PaymentRate(rates, year, BasicKeyword)
    ensures r[1].rate == PaymentRate(rates, year, RedistributiveKeyword)
    ensures r[2].rate == PaymentRate(rates, year, ComplementaryKeyword)
  {
    var bws := PaymentRate(rates, year, BasicKeyword);
    var red := PaymentRate(rates, year, RedistributiveKeyword);
    var upp := PaymentRate(rates, year, ComplementaryKeyword);
    var redArea := Min(area, RedistributiveCap);
    [Payment(bws, area), Payment(red, redArea), Payment(upp, area)]
  }

  function PaymentsTotal(ps: seq<Payment>): real {
    if ps == [] then 0.0 else PaymentsTotal(ps[..|ps| - 1]) + Total(ps[|ps| - 1])
  }

  // ----- The overview -----

  /** Some parcel has an entry of a year other than `year`. */
  predicate OtherYears(fields: seq<Field>, year: int) {
    exists i, k :: 0 <= i < |fields| && 0 <= k < |fields[i].history| && fields[i].history[k].year != year
  }

  /** An application, or any PDF, filed for the campaign of `year`. */
  predicate IsApplicationFor(d: Document, year: int) {
    (d.category == Wniosek || d.fileType == "PDF") && d.campaignYear == IntToString(year)
  }

  /** No document before position `i` is an application of the year. */
  predicate FirstApplication(documents: seq<Document>, i: int, year: int)
    requires 0 <= i <= |documents|
  {
    forall j :: 0 <= j < i ==> !IsApplicationFor(documents[j], year)
  }

  function ApplicationFor(year: int): Document -> bool {
    (d: Document) => IsApplicationFor(d, year)
  }

  /** The application document of the year: the first document that is an application or a PDF of that campaign. */
  function ApplicationDoc(documents: seq<Document>, year: int): (r: Option<Document>)
    ensures r.None? <==> forall i :: 0 <= i < |documents| ==> !IsApplicationFor(documents[i], year)
    ensures r.Some? ==> r.value in documents && IsApplicationFor(r.value, year)
    ensures r.Some? ==> exists i :: 0 <= i < |documents| && documents[i] == r.value && FirstApplication(documents, i, year)
  {
    Find(documents, ApplicationFor(year))
  }

  datatype Overview = Overview(
    totalArea: real,
    cropSummary: map<string, real>,
    applicationDoc: Option<Document>,
    analysis: FarmLogic.Report,
    payments: seq<Payment>,
    hasDataInOtherYears: bool,
    totalBasic: real,
    grandTotal: real,
    registry: seq<Field>)

  /**
   The dashboard for `year`. `rates` is the rate list of every year as
   stored; `analysisRates` is the table the farm analysis prices schemes by.
   The analysis is run with the farm's area replaced by the year's eligible area.
   */
  function Compute(farm: Farm, year: int, documents: seq<Document>, rates: seq<SubsidyRate>,
                   analysisRates: seq<SubsidyRate>): (r: Overview)
    ensures r.totalArea == TotalArea(farm.fields, year)
    ensures r.analysis == FarmLogic.Analyze(farm.(totalAreaUR := r.totalArea), year, analysisRates)
    ensures r.applicationDoc == ApplicationDoc(documents, year)
    ensures r.hasDataInOtherYears <==> OtherYears(farm.fields, year) && r.totalArea == 0.0
    ensures r.grandTotal == r.totalBasic + r.analysis.totalEstimatedValue
    ensures forall c :: c in r.cropSummary ==> !Unlisted(c)
    ensures forall f :: f in r.registry <==> f in farm.fields && Registered(year, f)
  {
    var area := TotalArea(farm.fields, year);
    var report := FarmLogic.Analyze(farm.(totalAreaUR := area), year, analysisRates);
    var payments := BasicPayments(area, rates, year);
    var basic := PaymentsTotal(payments);
    Overview(area, Summarize(Shares(farm.fields, year)), ApplicationDoc(documents, year), report, payments,
      OtherYears(farm.fields, year) && area == 0.0, basic, basic + report.totalEstimatedValue,
      Registry(farm.fields, year))
  }

  /**
   The basic total is what the three basic payments pay on the year's
   eligible area, and the grand total adds the analysis's eco-scheme value.
   */
  lemma GrandTotal(farm: Farm, year: int, documents: seq<Document>, rates: seq<SubsidyRate>,
                   analysisRates: seq<SubsidyRate>)
    ensures var r := Compute(farm, year, documents, rates, analysisRates); var area := TotalArea(farm.fields, year);
      r.payments == [Payment(PaymentRate(rates, year, BasicKeyword), area),
        Payment(PaymentRate(rates, year, RedistributiveKeyword), Min(area, RedistributiveCap)),
        Payment(PaymentRate(rates, year, ComplementaryKeyword), area)] &&
      r.totalBasic == Total(r.payments[0]) + Total(r.payments[1]) + Total(r.payments[2]) &&
      r.grandTotal == r.totalBasic + FarmLogic.Analyze(farm.(totalAreaUR := area), year, analysisRates).totalEstimatedValue
  {
    var ps := BasicPayments(TotalArea(farm.fields, year), rates, year);
    PaymentsTotalThree(ps[0], ps[1], ps[2]);
  }

  lemma PaymentsTotalThree(a: Payment, b: Payment, c: Payment)
    ensures PaymentsTotal([a, b, c]) == Total(a) + Total(b) + Total(c)
  {
    assert [a, b, c][..2] == [a, b];
    assert [a, b][..1] == [a];
    assert [a][..0] == [];
    assert PaymentsTotal([a]) == Total(a);
    assert PaymentsTotal([a, b]) == Total(a) + Total(b);
  }

  // ----- Deadline -----

  datatype Deadline = Deadline(date: string, desc: string)

  /** The campaign deadline shown for a year: open in 2026, closed in 2025, archive before. */
  function DeadlineInfo(year: int): (r: Deadline)
    ensures year == 2026 ==> r.date == "15 Maja"
    ensures year == 2025 ==> r.date == "Zakończono"
    ensures year != 2026 && year != 2025 ==> r == Deadline("Archiwum", "Dane historyczne")
  {
    if year == 2026 then Deadline("15 Maja", "Termin składania wniosków")
    else if year == 2025 then Deadline("Zakończono", "Kampania zamknięta")
    else Deadline("Archiwum", "Dane historyczne")
  }
}

=== FILE: eco_simulation.dfy ===
/**
 The eco-scheme simulator: a working copy of the parcels on which the user
 switches eco-schemes on and off per crop part, and the live totals of the
 copy for the selected year — area, points and money value per scheme, the
 farm's points against the entry-condition threshold.

 The rate tables of 2025 and 2026 are parameters.
 */
module EcoSimulation {
  import opened Wrappers
  import opened Seqs
  import opened FarmTypes
  import opened Ledger
  import opened YearHistory
  import FarmLogic

  /** The rate table in force: the 2026 one for 2026, the 2025 one for every other year. */
  function ActiveRates(year: int, rates2025: seq<SubsidyRate>, rates2026: seq<SubsidyRate>): (r: seq<SubsidyRate>)
    ensures year == 2026 ==> r == rates2026
    ensures year != 2026 ==> r == rates2025
  {
    if year == 2026 then rates2026 else rates2025
  }

  /** The schemes offered for switching: eco-scheme rates that have a short name. */
  function Offered(rates: seq<SubsidyRate>): (r: seq<SubsidyRate>)
    ensures forall x :: x in r <==> x in rates && x.category == Ekoschemat && x.shortName.Some? && x.shortName.value != []
  {
    Filter(rates, (x: SubsidyRate) => x.category == Ekoschemat && x.shortName.Some? && x.shortName.value != [])
  }

  // ----- Statistics -----

  /** The rate a scheme code is priced by: the first whose short name is the code, of any year. */
  function SimRate(rates: seq<SubsidyRate>, code: string): (r: Option<SubsidyRate>)
    ensures r.None? <==> forall i :: 0 <= i < |rates| ==> rates[i].shortName != Some(code)
    ensures r.Some? ==> r.value in rates && r.value.shortName == Some(code)
  {
    Find(rates, (x: SubsidyRate) => x.shortName == Some(code))
  }

  /** `if (rate.points)`: a rate with a non-zero point value is credited in points. */
  predicate HasPoints(r: SubsidyRate) {
    r.points.Some? && r.points.value != 0.0
  }

  /** The points one use earns: its area times the points of a points rate, else nothing. */
  function UsePoints(u: FarmLogic.Use, rates: seq<SubsidyRate>): real {
    var r := SimRate(rates, u.code);
    if r.Some? && HasPoints(r.value) then u.area * r.value.points.value else 0.0
  }

  /** The value one use earns: its points at 100 PLN each, its area times the rate otherwise. */
  function UseValue(u: FarmLogic.Use, rates: seq<SubsidyRate>): real {
    var r := SimRate(rates, u.code);
    if r.None? then 0.0
    else if HasPoints(r.value) then u.area * r.value.points.value * FarmLogic.PointValue
    else u.area * r.value.rate
  }

  /** The scheme uses of one parcel in `year`: one per code per shown crop part. */
  function FieldUses(f: Field, year: int): seq<FarmLogic.Use> {
    match FindYear(f.history, year)
    case None => []
    case Some(h) => FarmLogic.PartsUses(PartsOf(f, h))
  }

  function UsesOf(fields: seq<Field>, year: int): seq<FarmLogic.Use> {
    if fields == [] then [] else FieldUses(fields[0], year) + UsesOf(fields[1..], year)
  }

  /** Some use of `code` is priced by a rate. */
  ghost predicate RatedUse(uses: seq<FarmLogic.Use>, rates: seq<SubsidyRate>, code: string) {
    FarmLogic.HasCode(uses, code) && SimRate(rates, code).Some?
  }

  /**
   Credits the uses in order: a use whose code has no rate is skipped; any
   other adds its area, points and value to its code's record.
   */
  function Tally(uses: seq<FarmLogic.Use>, rates: seq<SubsidyRate>): (r: seq<SchemeTotal>)
    ensures Keyed(r)
  {
    if uses == [] then []
    else
      var prev := Tally(uses[..|uses| - 1], rates);
      var u := uses[|uses| - 1];
      if SimRate(rates, u.code).None? then prev
      else Credit(prev, u.code, u.area, UsePoints(u, rates), UseValue(u, rates))
  }

  /** The tally's totals are the points and the value of all uses. */
  lemma {:induction false} TallyTotals(uses: seq<FarmLogic.Use>, rates: seq<SubsidyRate>)
    ensures TotalPoints(Tally(uses, rates)) == SumOf(uses, (u: FarmLogic.Use) => UsePoints(u, rates))
    ensures TotalValue(Tally(uses, rates)) == SumOf(uses, (u: FarmLogic.Use) => UseValue(u, rates))
  {
    if uses != [] {
      TallyTotals(uses[..|uses| - 1], rates);
    }
  }

  /** The tally has a record for exactly the rated codes some use names. */
  lemma {:induction false} TallyHas(uses: seq<FarmLogic.Use>, rates: seq<SubsidyRate>, c: string)
    ensures Lookup(Tally(uses, rates), c).Some? <==> RatedUse(uses, rates, c)
  {
    if uses != [] {
      TallyHas(uses[..|uses| - 1], rates, c);
      FarmLogic.HasCodeLast(uses, c);
    }
  }

  /** The record of a rated code holds the summed area of that code's uses. */
  lemma {:induction false} TallyArea(uses: seq<FarmLogic.Use>, rates: seq<SubsidyRate>, c: string)
    requires SimRate(rates, c).Some?
    ensures Current(Tally(uses, rates), c).area == FarmLogic.AreaOf(uses, c)
  {
    if uses != [] {
      TallyArea(uses[..|uses| - 1], rates, c);
    }
  }

  /** The points the uses of `code` earn. */
  function CodePoints(uses: seq<FarmLogic.Use>, rates: seq<SubsidyRate>, code: string): real {
    if uses == [] then 0.0
    else
      var u := uses[|uses| - 1];
      CodePoints(uses[..|uses| - 1], rates, code) + (if u.code == code then UsePoints(u, rates) else 0.0)
  }

  /** The value the uses of `code` earn. */
  function CodeValue(uses: seq<FarmLogic.Use>, rates: seq<SubsidyRate>, code: string): real {
    if uses == [] then 0.0
    else
      var u := uses[|uses| - 1];
      CodeValue(uses[..|uses| - 1], rates, code) + (if u.code == code then UseValue(u, rates) else 0.0)
  }

  /** The points of a rated code's record are what that code's uses earn. */
  lemma {:induction false} TallyEarnedPoints(uses: seq<FarmLogic.Use>, rates: seq<SubsidyRate>, c: string)
    requires SimRate(rates, c).Some?
    ensures Current(Tally(uses, rates), c).points == CodePoints(uses, rates, c)
  {
    if uses != [] {
      TallyEarnedPoints(uses[..|uses| - 1], rates, c);
    }
  }

  /** The value of a rated code's record is what that code's uses earn. */
  lemma {:induction false} TallyEarnedValue(uses: seq<FarmLogic.Use>, rates: seq<SubsidyRate>, c: string)
    requires SimRate(rates, c).Some?
    ensures Current(Tally(uses, rates), c).value == CodeValue(uses, rates, c)
  {
    if uses != [] {
      TallyEarnedValue(uses[..|uses| - 1], rates, c);
    }
  }

  /** Under a points rate a code's uses earn the rate's points on each hectare. */
  lemma {:induction false} CodePointsRate(uses: seq<FarmLogic.Use>, rates: seq<SubsidyRate>, c: string)
    requires SimRate(rates, c).Some? && HasPoints(SimRate(rates, c).value)
    ensures CodePoints(uses, rates, c) == FarmLogic.AreaOf(uses, c) * SimRate(rates, c).value.points.value
  {
    if uses != [] {
      var init := uses[..|uses| - 1];
      var u := uses[|uses| - 1];
      CodePointsRate(init, rates, c);
      var p := SimRate(rates, c).value.points.value;
      var a := FarmLogic.AreaOf(init, c);
      if u.code == c {
        assert (a + u.area) * p == a * p + u.area * p;
      }
    }
  }

  /** Under a points rate a code's uses are worth 100 PLN a point. */
  lemma {:induction false} CodeValuePoints(uses: seq<FarmLogic.Use>, rates: seq<SubsidyRate>, c: string)
    requires SimRate(rates, c).Some? && HasPoints(SimRate(rates, c).value)
    ensures CodeValue(uses, rates, c) == CodePoints(uses, rates, c) * FarmLogic.PointValue
  {
    if uses != [] {
      CodeValuePoints(uses[..|uses| - 1], rates, c);
    }
  }

  /** Under a rate without points a code's uses earn no points and the rate on each hectare. */
  lemma {:induction false} CodePlain(uses: seq<FarmLogic.Use>, rates: seq<SubsidyRate>, c: string)
    requires SimRate(rates, c).Some? && !HasPoints(SimRate(rates, c).value)
    ensures CodePoints(uses, rates, c) == 0.0
    ensures CodeValue(uses, rates, c) == FarmLogic.AreaOf(uses, c) * SimRate(rates, c).value.rate
  {
    if uses != [] {
      var init := uses[..|uses| - 1];
      var u := uses[|uses| - 1];
      CodePlain(init, rates, c);
      var rate := SimRate(rates, c).value.rate;
      var a := FarmLogic.AreaOf(init, c);
      if u.code == c {
        assert (a + u.area) * rate == a * rate + u.area * rate;
      }
    }
  }

  /**
   What a rated code's record holds: with a points rate, the rate's points on
   the code's area at 100 PLN a point; otherwise no points and the area times
   the rate.
   */
  lemma TallyRecord(uses: seq<FarmLogic.Use>, rates: seq<SubsidyRate>, c: string)
    requires SimRate(rates, c).Some?
    ensures var rate := SimRate(rates, c).value; var t := Current(Tally(uses, rates), c);
      t.area == FarmLogic.AreaOf(uses, c) &&
      (HasPoints(rate) ==>
        t.points == FarmLogic.AreaOf(uses, c) * rate.points.value && t.value == t.points * FarmLogic.PointValue) &&
      (!HasPoints(rate) ==> t.points == 0.0 && t.value == FarmLogic.AreaOf(uses, c) * rate.rate)
  {
    var rate := SimRate(rates, c).value;
    var t := Current(Tally(uses, rates), c);
    TallyArea(uses, rates, c);
    TallyEarnedPoints(uses, rates, c);
    TallyEarnedValue(uses, rates, c);
    if HasPoints(rate) {
      CodePointsRate(uses, rates, c);
      CodeValuePoints(uses, rates, c);
    } else {
      CodePlain(uses, rates, c);
    }
  }

  datatype Stats = Stats(
    totalPoints: real,
    totalValue: real,
    requiredPoints: real,
    isMet: bool,
    schemes: seq<SchemeTotal>)

  /** The live totals of the simulated parcels for `year`. */
  function ComputeStats(fields: seq<Field>, year: int, rates: seq<SubsidyRate>, totalAreaUR: real): (r: Stats)
    ensures Keyed(r.schemes)
    ensures r.totalPoints == TotalPoints(r.schemes)
    ensures r.totalValue == TotalValue(r.schemes)
    ensures r.requiredPoints == FarmLogic.RequiredPoints(totalAreaUR)
    ensures r.isMet <==> r.totalPoints >= r.requiredPoints
  {
    var schemes := Tally(UsesOf(fields, year), rates);
    var required := FarmLogic.RequiredPoints(totalAreaUR);
    var points := TotalPoints(schemes);
    Stats(points, TotalValue(schemes), required, points >= required, schemes)
  }

  /** A scheme code no rate prices changes no total and gets no record. */
  lemma UnratedIgnored(fields: seq<Field>, year: int, rates: seq<SubsidyRate>, totalAreaUR: real, c: string)
    requires SimRate(rates, c).None?
    ensures Lookup(ComputeStats(fields, year, rates, totalAreaUR).schemes, c).None?
  {
    TallyHas(UsesOf(fields, year), rates, c);
  }

  // ----- Switching a scheme -----

  /** `includes ? filter(s => s !== code) : [...schemes, code]`. */
  function Toggled(schemes: seq<string>, code: string): (r: seq<string>)
    ensures code in r <==> code !in schemes
    ensures forall c :: c != code ==> (c in r <==> c in schemes)
    ensures code !in schemes ==> r == schemes + [code]
  {
    if code in schemes then Filter(schemes, (s: string) => s != code) else schemes + [code]
  }

  /**
   The parts the switch works on: the entry's crop parts when it has a list
   (even an empty one), else one part "A" with its crop, area and schemes.
   */
  function EditableParts(field: Field, hist: HistoryEntry): (r: seq<CropPart>)
    ensures hist.cropParts.Some? ==> r == hist.cropParts.value
    ensures hist.cropParts.None? ==> (|r| == 1 && r[0].designation == SyntheticPart && r[0].crop == hist.crop &&
      r[0].area == OptOr(hist.area, field.area) && r[0].ecoSchemes == hist.appliedEcoSchemes)
  {
    if hist.cropParts.Some? then hist.cropParts.value
    else [CropPart(SyntheticPart, hist.crop, OptOr(hist.area, field.area), hist.appliedEcoSchemes, None, None, None)]
  }

  /** The switch reaches for a crop part that does not exist. */
  datatype ToggleError = NoSuchPart

  /** Every scheme of every part, each once. */
  function SchemesOfParts(parts: seq<CropPart>): (r: seq<string>)
    ensures forall c :: c in r <==> exists j :: 0 <= j < |parts| && c in parts[j].ecoSchemes
    ensures forall i, j :: 0 <= i < j < |r| ==> r[i] != r[j]
  {
    var ss := Map(parts, (p: CropPart) => p.ecoSchemes);
    var r := Dedup(Flatten(ss));
    assert forall c :: c in r <==> exists j :: 0 <= j < |parts| && c in parts[j].ecoSchemes by {
      forall c ensures c in r <==> exists j :: 0 <= j < |parts| && c in parts[j].ecoSchemes {
        if c in r {
          var j :| 0 <= j < |ss| && c in ss[j];
          assert c in parts[j].ecoSchemes;
        }
        if exists j :: 0 <= j < |parts| && c in parts[j].ecoSchemes {
          var j :| 0 <= j < |parts| && c in parts[j].ecoSchemes;
          assert c in ss[j];
        }
      }
    }
    r
  }

  /**
   Switches `code` on part `partIdx` of one entry and re-derives the entry's
   scheme list from its parts; a part index outside the parts is an error.
   */
  function ToggleEntry(field: Field, hist: HistoryEntry, partIdx: int, code: string): (r: Result<HistoryEntry, ToggleError>)
    ensures r.Err? <==> !(0 <= partIdx < |EditableParts(field, hist)|)
    ensures r.Ok? ==> var parts := EditableParts(field, hist); var h := r.value;
      h.cropParts.Some? && |h.cropParts.value| == |parts| &&
      h == hist.(cropParts := h.cropParts, appliedEcoSchemes := h.appliedEcoSchemes) &&
      (forall j :: 0 <= j < |parts| && j != partIdx ==> h.cropParts.value[j] == parts[j]) &&
      h.cropParts.value[partIdx] == parts[partIdx].(ecoSchemes := h.cropParts.value[partIdx].ecoSchemes) &&
      (code in h.cropParts.value[partIdx].ecoSchemes <==> code !in parts[partIdx].ecoSchemes) &&
      (forall c :: c != code ==> (c in h.cropParts.value[partIdx].ecoSchemes <==> c in parts[partIdx].ecoSchemes)) &&
      (forall c :: c in h.appliedEcoSchemes <==> exists j :: 0 <= j < |parts| && c in h.cropParts.value[j].ecoSchemes) &&
      (forall i, j :: 0 <= i < j < |h.appliedEcoSchemes| ==> h.appliedEcoSchemes[i] != h.appliedEcoSchemes[j])
  {
    var parts := EditableParts(field, hist);
    if !(0 <= partIdx < |parts|) then Err(NoSuchPart)
    else
      var p := parts[partIdx];
      var edited := parts[partIdx := p.(ecoSchemes := Toggled(p.ecoSchemes, code))];
      Ok(hist.(cropParts := Some(edited), appliedEcoSchemes := SchemesOfParts(edited)))
  }

  /**
   Switches `code` on part `partIdx` of the first parcel with id `fieldId`, in
   that parcel's first entry of `year`. An unknown parcel or a parcel without
   an entry for the year leaves the parcels as they are.
   */
  function ToggleScheme(fields: seq<Field>, fieldId: string, partIdx: int, code: string, year: int): (r: Result<seq<Field>, ToggleError>)
    ensures (forall i :: 0 <= i < |fields| ==> fields[i].id != fieldId) ==> r == Ok(fields)
    ensures r.Ok? ==> |r.value| == |fields|
    ensures r.Ok? ==> forall i :: 0 <= i < |fields| && fields[i].id != fieldId ==> r.value[i] == fields[i]
    ensures r.Ok? ==> forall i :: 0 <= i < |fields| ==>
      r.value[i] == fields[i].(history := r.value[i].history) && |r.value[i].history| == |fields[i].history| &&
      forall k :: 0 <= k < |fields[i].history| && fields[i].history[k].year != year ==>
        r.value[i].history[k] == fields[i].history[k]
  {
    var fi := FindIndex(fields, (f: Field) => f.id == fieldId);
    if fi < 0 then Ok(fields)
    else
      var f := fields[fi];
      var hi := YearIndex(f.history, year);
      if hi < 0 then Ok(fields)
      else
        match ToggleEntry(f, f.history[hi], partIdx, code)
        case Err(e) => Err(e)
        case Ok(h) => Ok(fields[fi := f.(history := f.history[hi := h])])
  }

  /** A parcel without an entry for the year is left as it is. */
  lemma NoEntryUnchanged(fields: seq<Field>, fieldId: string, partIdx: int, code: string, year: int, f: Field)
    requires Find(fields, (g: Field) => g.id == fieldId) == Some(f)
    requires !HasYear(f.history, year)
    ensures ToggleScheme(fields, fieldId, partIdx, code, year) == Ok(fields)
  {
    FindIsFirst(fields, (g: Field) => g.id == fieldId);
  }

  /**
   The switch acts on the entry the parcel shows for the year: the first
   parcel with the id now shows the switched entry, and the switch fails
   exactly when that entry has no part `partIdx`.
   */
  lemma ToggleTarget(fields: seq<Field>, fieldId: string, partIdx: int, code: string, year: int, f: Field, h: HistoryEntry)
    requires Find(fields, (g: Field) => g.id == fieldId) == Some(f)
    requires FindYear(f.history, year) == Some(h)
    ensures ToggleScheme(fields, fieldId, partIdx, code, year).Err? <==> ToggleEntry(f, h, partIdx, code).Err?
    ensures ToggleScheme(fields, fieldId, partIdx, code, year).Ok? ==>
      var out := ToggleScheme(fields, fieldId, partIdx, code, year).value;
      exists g :: Find(out, (g: Field) => g.id == fieldId) == Some(g) &&
        FindYear(g.history, year) == Some(ToggleEntry(f, h, partIdx, code).value)
  {
    var p := (g: Field) => g.id == fieldId;
    FindIsFirst(fields, p);
    var fi := FindIndex(fields, p);
    var hi := YearIndex(f.history, year);
    FirstYearFound(f.history, year, hi);
    var r := ToggleScheme(fields, fieldId, partIdx, code, year);
    if r.Ok? {
      var e := ToggleEntry(f, h, partIdx, code).value;
      var hist := f.history[hi := e];
      var g := f.(history := hist);
      assert r.value == fields[fi := g];
      FindAtFirst(r.value, p, fi);
      assert FirstInYear(hist, year, hi);
      FirstYearFound(hist, year, hi);
    }
  }

  /** `find` returns the element at `findIndex`. */
  lemma FindIsFirst<T>(s: seq<T>, p: T -> bool)
    ensures Find(s, p).None? <==> FindIndex(s, p) < 0
    ensures Find(s, p).Some? ==> Find(s, p).value == s[FindIndex(s, p)]
  {
    FindFirstAt(s, p);
  }

  lemma {:induction false} FindFirstAt<T>(s: seq<T>, p: T -> bool)
    ensures Find(s, p) == if FindIndex(s, p) < 0 then None else Some(s[FindIndex(s, p)])
  {
    if s != [] && !p(s[0]) {
      FindFirstAt(s[1..], p);
    }
  }

  /** An element at the first index passing `p` is what `find` returns. */
  lemma {:induction false} FindAtFirst<T>(s: seq<T>, p: T -> bool, i: int)
    requires 0 <= i < |s| && p(s[i]) && forall j :: 0 <= j < i ==> !p(s[j])
    ensures Find(s, p) == Some(s[i])
  {
    if i > 0 {
      assert !p(s[0]);
      FindAtFirst(s[1..], p, i - 1);
    }
  }

  /**
   Switching the same scheme twice succeeds the second time and gives every
   part back its schemes, as a set; the entry's scheme list then holds the
   schemes of the parts it started from.
   */
  lemma ToggleTwice(field: Field, hist: HistoryEntry, partIdx: int, code: string)
    requires ToggleEntry(field, hist, partIdx, code).Ok?
    ensures var h1 := ToggleEntry(field, hist, partIdx, code).value;
      var parts := EditableParts(field, hist);
      ToggleEntry(field, h1, partIdx, code).Ok? &&
      var h2 := ToggleEntry(field, h1, partIdx, code).value;
      |h2.cropParts.value| == |parts| &&
      (forall j, c :: 0 <= j < |parts| ==> (c in h2.cropParts.value[j].ecoSchemes <==> c in parts[j].ecoSchemes)) &&
      (forall c :: c in h2.appliedEcoSchemes <==> exists j :: 0 <= j < |parts| && c in parts[j].ecoSchemes)
  {
    var h1 := ToggleEntry(field, hist, partIdx, code).value;
    var parts := EditableParts(field, hist);
    assert EditableParts(field, h1) == h1.cropParts.value;
    var p1 := h1.cropParts.value;
    var h2 := ToggleEntry(field, h1, partIdx, code).value;
    var p2 := h2.cropParts.value;
    assert ToggledAt(parts, p1, partIdx, code);
    assert ToggledAt(p1, p2, partIdx, code);
    ToggledAtTwice(parts, p1, p2, partIdx, code);
    SameSchemesSameUnion(p2, parts);
  }

  /** `after` is `before` with `code` switched on part `k` and nothing else changed. */
  ghost predicate ToggledAt(before: seq<CropPart>, after: seq<CropPart>, k: int, code: string) {
    |after| == |before| && 0 <= k < |before| &&
    (forall j :: 0 <= j < |before| && j != k ==> after[j] == before[j]) &&
    (code in after[k].ecoSchemes <==> code !in before[k].ecoSchemes) &&
    (forall c :: c != code ==> (c in after[k].ecoSchemes <==> c in before[k].ecoSchemes))
  }

  /** Part by part, the same schemes. */
  ghost predicate SameSchemes(a: seq<CropPart>, b: seq<CropPart>) {
    |a| == |b| && forall j, c :: 0 <= j < |a| ==> (c in a[j].ecoSchemes <==> c in b[j].ecoSchemes)
  }

  lemma ToggledAtTwice(p0: seq<CropPart>, p1: seq<CropPart>, p2: seq<CropPart>, k: int, code: string)
    requires ToggledAt(p0, p1, k, code) && ToggledAt(p1, p2, k, code)
    ensures SameSchemes(p2, p0)
  {
    forall j, c | 0 <= j < |p2| ensures c in p2[j].ecoSchemes <==> c in p0[j].ecoSchemes {
      if j != k {
        assert p2[j] == p1[j] == p0[j];
      }
    }
  }

  /** Some part carries scheme `c`. */
  ghost predicate InSomePart(parts: seq<CropPart>, c: string) {
    exists j :: 0 <= j < |parts| && c in parts[j].ecoSchemes
  }

  lemma SameSchemesSameUnion(a: seq<CropPart>, b: seq<CropPart>)
    requires SameSchemes(a, b)
    ensures forall c :: InSomePart(a, c) <==> InSomePart(b, c)
  {
    forall c ensures InSomePart(a, c) <==> InSomePart(b, c) {
      if InSomePart(a, c) {
        var j :| 0 <= j < |a| && c in a[j].ecoSchemes;
        assert c in b[j].ecoSchemes;
      }
      if InSomePart(b, c) {
        var j :| 0 <= j < |b| && c in b[j].ecoSchemes;
        assert c in a[j].ecoSchemes;
      }
    }
  }
}

=== FILE: farm_logic.dfy ===
/**
 The farm analysis of one campaign year: per parcel, the declared area is
 checked against the reference area with a 3% tolerance, the eco-schemes of
 each crop part are checked for mutually exclusive pairs, and every scheme use
 is credited with its area, points and money value; the farm meets the entry
 condition when its points reach 25% of its agricultural area at 5 points per
 hectare.

 The rate table of the year is a parameter.
 */
module FarmLogic {
  import opened Wrappers
  import opened Seqs
  import opened Text
  import opened FarmTypes
  import opened Ledger

  /** The money value of one point, in PLN. */
  const PointValue: real := 100.0
  /** The PLN value of one euro used for rates given in EUR. */
  const EurToPln: real := 4.3
  /** Over-declaration up to this share of the reference area is only a warning. */
  const Tolerance: real := 0.03
  /** Excess up to this many hectares is ignored. */
  const Slack: real := 0.001

  datatype IssueKind = AreaError | AreaWarning | SchemeConflict

  /** A validation issue; `related` holds the two codes of a conflict. */
  datatype Issue = Issue(kind: IssueKind, fieldId: string, fieldName: string, related: seq<string>)

  datatype Report = Report(
    validationIssues: seq<Issue>,
    ecoSchemes: seq<SchemeTotal>,
    totalPoints: real,
    requiredPoints: real,
    isEntryConditionMet: bool,
    totalEstimatedValue: real)

  /** The entry-condition threshold: 25% of the agricultural area at 5 points per hectare. */
  function RequiredPoints(totalAreaUR: real): real {
    totalAreaUR * 0.25 * 5.0
  }

  // ----- Area check -----

  function PartArea(p: CropPart): real {
    p.area
  }

  /** What the entry declares: the crop parts' areas when it has parts, else its own area. */
  function DeclaredArea(e: HistoryEntry): real {
    if e.cropParts.Some? && e.cropParts.value != [] then SumOf(e.cropParts.value, PartArea)
    else OptOr(e.area, 0.0)
  }

  /**
   The area the declaration is checked against: the first non-zero of the
   entry's eligible area, the parcel's eligible area and the entry's area, else
   the parcel's area.
   */
  function ReferenceArea(f: Field, e: HistoryEntry): (r: real)
    ensures e.eligibleArea.Some? && e.eligibleArea.value != 0.0 ==> r == e.eligibleArea.value
    ensures OptOr(e.eligibleArea, 0.0) == 0.0 && f.eligibleArea != 0.0 ==> r == f.eligibleArea
    ensures OptOr(e.eligibleArea, 0.0) == 0.0 && f.eligibleArea == 0.0 ==> r == OptOr(e.area, f.area)
  {
    OptOr(e.eligibleArea, OrReal(f.eligibleArea, OptOr(e.area, f.area)))
  }

  /** The over-declaration class of `declared` against `reference`, if any. */
  function AreaCheck(declared: real, reference: real): (r: Option<IssueKind>)
    ensures r.None? <==> declared - reference <= Slack
    ensures r == Some(AreaError) <==> declared - reference > Slack && declared - reference > reference * Tolerance
    ensures r == Some(AreaWarning) <==> Slack < declared - reference <= reference * Tolerance
  {
    var diff := declared - reference;
    if diff > Slack then
      if diff > reference * Tolerance then Some(AreaError) else Some(AreaWarning)
    else None
  }

  function AreaIssues(f: Field, e: HistoryEntry): seq<Issue> {
    match AreaCheck(DeclaredArea(e), ReferenceArea(f, e))
    case None => []
    case Some(k) => [Issue(k, f.id, f.name, [])]
  }

  /** A parcel declared within its reference area raises no area issue. */
  lemma WithinReferenceNoIssue(f: Field, e: HistoryEntry)
    requires DeclaredArea(e) <= ReferenceArea(f, e)
    ensures AreaIssues(f, e) == []
  {
  }

  // ----- Crop parts and conflicts -----

  /** `cropParts || [main part]`: an empty list is kept as it is, a missing one becomes one part. */
  function PartsToAnalyze(f: Field, e: HistoryEntry): (r: seq<CropPart>)
    ensures e.cropParts.Some? ==> r == e.cropParts.value
    ensures e.cropParts.None? ==> (|r| == 1 && r[0].designation == "Main" && r[0].crop == e.crop &&
      r[0].area == OptOr(e.area, f.area) && r[0].ecoSchemes == e.appliedEcoSchemes)
  {
    if e.cropParts.Some? then e.cropParts.value
    else [CropPart("Main", e.crop, OptOr(e.area, f.area), e.appliedEcoSchemes, None, None, None)]
  }

  /** The rate a conflict check consults for `code`: the first with that short name. */
  function ConflictRate(rates: seq<SubsidyRate>, code: string): Option<SubsidyRate> {
    Find(rates, (r: SubsidyRate) => r.shortName == Some(code))
  }

  /** The rate of `a` declares `b` as excluded. */
  predicate Excludes(rates: seq<SubsidyRate>, a: string, b: string) {
    var ra := ConflictRate(rates, a);
    ra.Some? && ra.value.conflictsWith.Some? && b in ra.value.conflictsWith.value
  }

  function ConflictIssue(f: Field, a: string, b: string): Issue {
    Issue(SchemeConflict, f.id, f.name, [a, b])
  }

  /** The conflicts `a` has with the codes `bs` the part also carries. */
  function PairsWith(f: Field, schemes: seq<string>, a: string, bs: seq<string>): (r: seq<Issue>)
    ensures forall b :: ConflictIssue(f, a, b) in r <==> b in bs && b in schemes
    ensures forall x :: x in r ==> x.kind == SchemeConflict && x.fieldId == f.id && |x.related| == 2 && x.related[0] == a
  {
    if bs == [] then []
    else
      var rest := PairsWith(f, schemes, a, bs[1..]);
      var here := if bs[0] in schemes then [ConflictIssue(f, a, bs[0])] else [];
      assert forall b :: b in bs <==> b == bs[0] || b in bs[1..];
      here + rest
  }

  /** The conflicts of each code in `codes`, in order. */
  function ConflictsOf(f: Field, schemes: seq<string>, codes: seq<string>, rates: seq<SubsidyRate>): (r: seq<Issue>)
    ensures forall a, b :: ConflictIssue(f, a, b) in r <==> a in codes && Excludes(rates, a, b) && b in schemes
    ensures forall x :: x in r ==> x.kind == SchemeConflict && x.fieldId == f.id
  {
    if codes == [] then []
    else
      var a := codes[0];
      var ra := ConflictRate(rates, a);
      var here := if ra.Some? && ra.value.conflictsWith.Some? then PairsWith(f, schemes, a, ra.value.conflictsWith.value) else [];
      var rest := ConflictsOf(f, schemes, codes[1..], rates);
      assert forall a', b :: ConflictIssue(f, a', b) in here ==> a' == a by {
        forall a', b | ConflictIssue(f, a', b) in here ensures a' == a {
          assert ConflictIssue(f, a', b).related[0] == a';
        }
      }
      assert forall c :: c in codes <==> c == codes[0] || c in codes[1..];
      here + rest
  }

  /** The conflicts of one crop part: a code `a` conflicts with `b` when `a`'s rate excludes `b` and the part carries both. */
  function PartConflicts(f: Field, part: CropPart, rates: seq<SubsidyRate>): (r: seq<Issue>)
    ensures forall a, b :: ConflictIssue(f, a, b) in r <==>
      a in part.ecoSchemes && b in part.ecoSchemes && Excludes(rates, a, b)
  {
    if |part.ecoSchemes| > 0 then ConflictsOf(f, part.ecoSchemes, part.ecoSchemes, rates) else []
  }

  function PartsConflicts(f: Field, parts: seq<CropPart>, rates: seq<SubsidyRate>): seq<Issue> {
    if parts == [] then [] else PartConflicts(f, parts[0], rates) + PartsConflicts(f, parts[1..], rates)
  }

  /** The issues one parcel contributes for `year`: none without an entry for it. */
  function FieldIssues(f: Field, year: int, rates: seq<SubsidyRate>): seq<Issue> {
    match FindYear(f.history, year)
    case None => []
    case Some(e) => AreaIssues(f, e) + PartsConflicts(f, PartsToAnalyze(f, e), rates)
  }

  function IssuesOf(fields: seq<Field>, year: int, rates: seq<SubsidyRate>): seq<Issue> {
    if fields == [] then [] else FieldIssues(fields[0], year, rates) + IssuesOf(fields[1..], year, rates)
  }

  // ----- Scheme uses and their totals -----

  /** One eco-scheme code applied on a crop part of the given area. */
  datatype Use = Use(code: string, area: real)

  function PartUses(part: CropPart): (r: seq<Use>)
    ensures |r| == |part.ecoSchemes|
    ensures forall i :: 0 <= i < |r| ==> r[i] == Use(part.ecoSchemes[i], part.area)
  {
    Map(part.ecoSchemes, (c: string) => Use(c, part.area))
  }

  function PartsUses(parts: seq<CropPart>): seq<Use> {
    if parts == [] then [] else PartUses(parts[0]) + PartsUses(parts[1..])
  }

  function FieldUses(f: Field, year: int): seq<Use> {
    match FindYear(f.history, year)
    case None => []
    case Some(e) => PartsUses(PartsToAnalyze(f, e))
  }

  function UsesOf(fields: seq<Field>, year: int): seq<Use> {
    if fields == [] then [] else FieldUses(fields[0], year) + UsesOf(fields[1..], year)
  }

  /** The rate a use is priced by: the first whose short name or name is the code. */
  function PriceRate(rates: seq<SubsidyRate>, code: string): Option<SubsidyRate> {
    Find(rates, (r: SubsidyRate) => r.shortName == Some(code) || r.name == code)
  }

  predicate PointsBased(r: SubsidyRate) {
    r.points.Some? && r.points.value > 0.0
  }

  /** The PLN rate of a per-hectare rate, converting one given in EUR. */
  function RateInPln(r: SubsidyRate): real {
    if Contains(r.unit, "EUR") then r.rate * EurToPln else r.rate
  }

  function UsePoints(u: Use, rates: seq<SubsidyRate>): real {
    var r := PriceRate(rates, u.code);
    if r.Some? && PointsBased(r.value) then u.area * r.value.points.value else 0.0
  }

  function UseValue(u: Use, rates: seq<SubsidyRate>): real {
    var r := PriceRate(rates, u.code);
    if r.None? then 0.0
    else if PointsBased(r.value) then u.area * r.value.points.value * PointValue
    else u.area * RateInPln(r.value)
  }

  /** The area the uses credit to `code`. */
  function AreaOf(uses: seq<Use>, code: string): real {
    if uses == [] then 0.0
    else AreaOf(uses[..|uses| - 1], code) + (if uses[|uses| - 1].code == code then uses[|uses| - 1].area else 0.0)
  }

  function PointsOf(uses: seq<Use>, rates: seq<SubsidyRate>): real {
    if uses == [] then 0.0 else PointsOf(uses[..|uses| - 1], rates) + UsePoints(uses[|uses| - 1], rates)
  }

  function ValueOf(uses: seq<Use>, rates: seq<SubsidyRate>): real {
    if uses == [] then 0.0 else ValueOf(uses[..|uses| - 1], rates) + UseValue(uses[|uses| - 1], rates)
  }

  datatype Tallied = Tallied(schemes: seq<SchemeTotal>, totalPoints: real)

  /** Some use is for `code`. */
  ghost predicate HasCode(uses: seq<Use>, code: string) {
    exists i :: 0 <= i < |uses| && uses[i].code == code
  }

  lemma HasCodeLast(uses: seq<Use>, code: string)
    requires uses != []
    ensures HasCode(uses, code) <==> HasCode(uses[..|uses| - 1], code) || uses[|uses| - 1].code == code
  {
    var init := uses[..|uses| - 1];
    if HasCode(uses, code) {
      var i :| 0 <= i < |uses| && uses[i].code == code;
      if i < |uses| - 1 {
        assert init[i].code == code;
      }
    }
    if HasCode(init, code) {
      var i :| 0 <= i < |init| && init[i].code == code;
      assert uses[i].code == code;
    }
  }

  /**
   Credits the uses one after another, as the analysis loop does: each use adds
   its area to its code (with or without a rate), its points to the code and to
   the running total, and its value to the code.
   */
  function Tally(uses: seq<Use>, rates: seq<SubsidyRate>): (t: Tallied)
    ensures Keyed(t.schemes)
    ensures t.totalPoints == TotalPoints(t.schemes) == PointsOf(uses, rates)
    ensures TotalValue(t.schemes) == ValueOf(uses, rates)
  {
    if uses == [] then Tallied([], 0.0)
    else
      var prev := Tally(uses[..|uses| - 1], rates);
      var u := uses[|uses| - 1];
      var pts := UsePoints(u, rates);
      Tallied(Credit(prev.schemes, u.code, u.area, pts, UseValue(u, rates)), prev.totalPoints + pts)
  }

  /**
   The tally holds a record for exactly the codes some use names, and the
   record of a code holds the summed area of that code's uses.
   */
  lemma {:induction false} TallyTracks(uses: seq<Use>, rates: seq<SubsidyRate>, c: string)
    ensures Current(Tally(uses, rates).schemes, c).area == AreaOf(uses, c)
    ensures Lookup(Tally(uses, rates).schemes, c).Some? <==> HasCode(uses, c)
  {
    if uses != [] {
      var init := uses[..|uses| - 1];
      var u := uses[|uses| - 1];
      TallyTracks(init, rates, c);
      HasCodeLast(uses, c);
      CreditTracks(Tally(init, rates).schemes, u.code, u.area, UsePoints(u, rates), UseValue(u, rates), c);
    }
  }

  /** One credit adds its area to the record of its own code only, and creates that record. */
  lemma CreditTracks(l: seq<SchemeTotal>, code: string, area: real, pts: real, value: real, c: string)
    requires Keyed(l)
    ensures Current(Credit(l, code, area, pts, value), c).area == Current(l, c).area + (if code == c then area else 0.0)
    ensures Lookup(Credit(l, code, area, pts, value), c).Some? <==> Lookup(l, c).Some? || code == c
  {
    var r := Credit(l, code, area, pts, value);
    if c != code {
      assert Lookup(r, c) == Lookup(l, c);
    }
  }

  /** The analysis report for `year`, with the year's rate table passed in. */
  function Analyze(farm: Farm, year: int, rates: seq<SubsidyRate>): (r: Report)
    ensures r.validationIssues == IssuesOf(farm.fields, year, rates)
    ensures Keyed(r.ecoSchemes)
    ensures r.totalPoints == TotalPoints(r.ecoSchemes)
    ensures r.totalEstimatedValue == TotalValue(r.ecoSchemes)
    ensures r.requiredPoints == farm.totalAreaUR * 0.25 * 5.0
    ensures r.isEntryConditionMet <==> r.totalPoints >= r.requiredPoints
  {
    var t := Tally(UsesOf(farm.fields, year), rates);
    var required := RequiredPoints(farm.totalAreaUR);
    Report(IssuesOf(farm.fields, year, rates), t.schemes, t.totalPoints, required,
      t.totalPoints >= required, TotalValue(t.schemes))
  }

  // ----- Properties of the analysis -----

  lemma {:induction false} IssuesOfAppend(a: seq<Field>, b: seq<Field>, year: int, rates: seq<SubsidyRate>)
    ensures IssuesOf(a + b, year, rates) == IssuesOf(a, year, rates) + IssuesOf(b, year, rates)
  {
    if a != [] {
      var ab := a + b;
      assert ab[0] == a[0] && ab[1..] == a[1..] + b;
      IssuesOfAppend(a[1..], b, year, rates);
      var x := FieldIssues(a[0], year, rates);
      assert IssuesOf(ab, year, rates) == x + IssuesOf(a[1..] + b, year, rates);
      assert IssuesOf(a, year, rates) == x + IssuesOf(a[1..], year, rates);
    } else {
      assert a + b == b;
    }
  }

  lemma {:induction false} UsesOfAppend(a: seq<Field>, b: seq<Field>, year: int)
    ensures UsesOf(a + b, year) == UsesOf(a, year) + UsesOf(b, year)
  {
    if a != [] {
      var ab := a + b;
      assert ab[0] == a[0] && ab[1..] == a[1..] + b;
      UsesOfAppend(a[1..], b, year);
      var x := FieldUses(a[0], year);
      assert UsesOf(ab, year) == x + UsesOf(a[1..] + b, year);
      assert UsesOf(a, year) == x + UsesOf(a[1..], year);
    } else {
      assert a + b == b;
    }
  }

  /** The scheme records of the report follow the uses of the parcels' crop parts. */
  lemma AnalyzeSchemeArea(farm: Farm, year: int, rates: seq<SubsidyRate>, c: string)
    ensures Current(Analyze(farm, year, rates).ecoSchemes, c).area == AreaOf(UsesOf(farm.fields, year), c)
    ensures Lookup(Analyze(farm, year, rates).ecoSchemes, c).Some? <==> HasCode(UsesOf(farm.fields, year), c)
  {
    TallyTracks(UsesOf(farm.fields, year), rates, c);
  }

  /** A parcel without an entry for the year changes nothing in the report, wherever it stands. */
  lemma NoEntryNoEffect(farm: Farm, i: int, f: Field, year: int, rates: seq<SubsidyRate>)
    requires 0 <= i <= |farm.fields|
    requires !HasYear(f.history, year)
    ensures Analyze(farm.(fields := farm.fields[..i] + [f] + farm.fields[i..]), year, rates) == Analyze(farm, year, rates)
  {
    var fields' := farm.fields[..i] + [f] + farm.fields[i..];
    NoEntryIssues(farm.fields, i, f, year, rates);
    NoEntryUses(farm.fields, i, f, year);
    assert IssuesOf(fields', year, rates) == IssuesOf(farm.fields, year, rates);
    assert UsesOf(fields', year) == UsesOf(farm.fields, year);
  }

  lemma NoEntryIssues(fields: seq<Field>, i: int, f: Field, year: int, rates: seq<SubsidyRate>)
    requires 0 <= i <= |fields|
    requires !HasYear(f.history, year)
    ensures IssuesOf(fields[..i] + [f] + fields[i..], year, rates) == IssuesOf(fields, year, rates)
  {
    var a := fields[..i];
    var b := fields[i..];
    assert fields == a + b;
    FindYearHas(f.history, year);
    assert IssuesOf([f], year, rates) == [];
    IssuesOfAppend(a + [f], b, year, rates);
    IssuesOfAppend(a, [f], year, rates);
    IssuesOfAppend(a, b, year, rates);
  }

  lemma NoEntryUses(fields: seq<Field>, i: int, f: Field, year: int)
    requires 0 <= i <= |fields|
    requires !HasYear(f.history, year)
    ensures UsesOf(fields[..i] + [f] + fields[i..], year) == UsesOf(fields, year)
  {
    var a := fields[..i];
    var b := fields[i..];
    assert fields == a + b;
    FindYearHas(f.history, year);
    assert UsesOf([f], year) == [];
    UsesOfAppend(a + [f], b, year);
    UsesOfAppend(a, [f], year);
    UsesOfAppend(a, b, year);
  }

  /** A present but empty crop-part list takes part in no scheme check and no scheme total. */
  lemma EmptyPartsNoSchemes(f: Field, year: int, rates: seq<SubsidyRate>)
    requires FindYear(f.history, year).Some? && FindYear(f.history, year).value.cropParts == Some([])
    ensures FieldUses(f, year) == []
    ensures FieldIssues(f, year, rates) == AreaIssues(f, FindYear(f.history, year).value)
  {
  }

  /** A use whose code has no rate adds its area, but no points and no value. */
  lemma UnpricedUseOnlyArea(u: Use, rates: seq<SubsidyRate>)
    requires PriceRate(rates, u.code).None?
    ensures UsePoints(u, rates) == 0.0 && UseValue(u, rates) == 0.0
  {
  }

  /** Each use credits exactly its part's area to its code, whether or not a rate prices it. */
  lemma {:induction false} AreaOfAppend(uses: seq<Use>, u: Use, c: string)
    ensures AreaOf(uses + [u], c) == AreaOf(uses, c) + (if u.code == c then u.area else 0.0)
  {
    assert (uses + [u])[..|uses + [u]| - 1] == uses;
  }
}

=== FILE: farm_planner.dfy ===
/**
 The farm task planner: marking a task done or pending again, adding a task
 from the form (linked to a parcel by id), and the task list filtered by
 status and ordered by date.

 `stamp` stands for `new Date(date).getTime()`: the instant a date text
 denotes, as a whole number of milliseconds.
 */
module FarmPlanner {
  import opened Wrappers
  import opened Seqs
  import opened FarmTypes

  datatype TaskStatus = Pending | Done
  datatype TaskType = Agro | Deadline | Control
  datatype TaskPriority = High | Medium | Low

  datatype FarmTask = FarmTask(
    id: string,
    title: string,
    description: string,
    date: string,
    fieldId: string,
    fieldName: Option<string>,
    priority: TaskPriority,
    status: TaskStatus,
    kind: TaskType)

  /** The other status. */
  function Flip(s: TaskStatus): (r: TaskStatus)
    ensures r != s
  {
    if s == Done then TaskStatus.Pending else Done
  }

  /** Flips the status of the tasks with the id; every other task and every other attribute is kept. */
  function ToggleStatus(tasks: seq<FarmTask>, id: string): (r: seq<FarmTask>)
    ensures |r| == |tasks|
    ensures forall i :: 0 <= i < |tasks| && tasks[i].id != id ==> r[i] == tasks[i]
    ensures forall i :: 0 <= i < |tasks| && tasks[i].id == id ==>
      r[i] == tasks[i].(status := r[i].status) && r[i].status != tasks[i].status
  {
    MapIf(tasks, (t: FarmTask) => t.id == id, (t: FarmTask) => t.(status := Flip(t.status)))
  }

  /** Toggling a task twice leaves the list as it was. */
  lemma ToggleTwice(tasks: seq<FarmTask>, id: string)
    ensures ToggleStatus(ToggleStatus(tasks, id), id) == tasks
  {
    var once := ToggleStatus(tasks, id);
    var twice := ToggleStatus(once, id);
    forall i | 0 <= i < |tasks| ensures twice[i] == tasks[i] {
      if tasks[i].id == id {
        assert once[i].id == id;
        assert twice[i].status != once[i].status && once[i].status != tasks[i].status;
      }
    }
  }

  /** The new-task form. */
  datatype TaskForm = TaskForm(title: string, description: string, date: string, priority: TaskPriority,
                               kind: TaskType, fieldId: string)

  /**
   Adds the task the form describes, pending, with the name of the parcel
   its id picks (none when no parcel has it); a form without a title or a
   date adds nothing.
   */
  function AddTask(tasks: seq<FarmTask>, fields: seq<Field>, form: TaskForm, newId: string): (r: seq<FarmTask>)
    ensures form.title == [] || form.date == [] ==> r == tasks
    ensures form.title != [] && form.date != [] ==> |r| == |tasks| + 1 && r[..|tasks|] == tasks
    ensures form.title != [] && form.date != [] ==> (var t := r[|tasks|];
      t.id == newId && t.status == TaskStatus.Pending && t.title == form.title && t.date == form.date &&
      t.fieldId == form.fieldId &&
      (t.fieldName.Some? <==> exists f :: f in fields && f.id == form.fieldId) &&
      (t.fieldName.Some? ==> exists f :: f in fields && f.id == form.fieldId && f.name == t.fieldName.value))
  {
    if form.title == [] || form.date == [] then tasks
    else
      var field := Find(fields, (f: Field) => f.id == form.fieldId);
      assert field.None? ==> forall f :: f in fields ==> f.id != form.fieldId;
      var name := if field.Some? then Some(field.value.name) else None;
      tasks + [FarmTask(newId, form.title, form.description, form.date, form.fieldId, name,
                        form.priority, TaskStatus.Pending, form.kind)]
  }

  // ----- The list -----

  datatype StatusFilter = All | PendingOnly | DoneOnly

  predicate Shown(t: FarmTask, filter: StatusFilter) {
    match filter
    case All => true
    case PendingOnly => t.status == TaskStatus.Pending
    case DoneOnly => t.status == Done
  }

  /** Earlier-or-same instant. */
  function ByDate(stamp: string -> int): (FarmTask, FarmTask) -> bool {
    (a: FarmTask, b: FarmTask) => stamp(a.date) <= stamp(b.date)
  }

  lemma ByDateTotal(stamp: string -> int)
    ensures TotalPreorder(ByDate(stamp))
  {
  }

  /** `tasks.filter(...)` on the status filter: the tasks it shows, in order. */
  function Selected(tasks: seq<FarmTask>, filter: StatusFilter): (r: seq<FarmTask>)
    ensures forall t :: t in r <==> t in tasks && Shown(t, filter)
  {
    Filter(tasks, ShownBy(filter))
  }

  function ShownBy(filter: StatusFilter): FarmTask -> bool {
    (t: FarmTask) => Shown(t, filter)
  }

  /**
   The listed tasks: the tasks the filter shows, each as often as it occurs,
   earliest first.
   */
  function Listed(tasks: seq<FarmTask>, filter: StatusFilter, stamp: string -> int): (r: seq<FarmTask>)
    ensures forall t :: t in r <==> t in tasks && Shown(t, filter)
    ensures multiset(r) == multiset(Selected(tasks, filter))
    ensures forall i, j :: 0 <= i < j < |r| ==> stamp(r[i].date) <= stamp(r[j].date)
  {
    var shown := Selected(tasks, filter);
    ByDateTotal(stamp);
    SortBySorted(shown, ByDate(stamp));
    var r := SortBy(shown, ByDate(stamp));
    assert forall t :: t in r <==> t in shown by {
      forall t ensures t in r <==> t in shown {
        assert t in r <==> t in multiset(r);
        assert t in shown <==> t in multiset(shown);
      }
    }
    r
  }

  /** The "all" list holds every task, and the pending and done lists split it. */
  lemma FiltersSplit(tasks: seq<FarmTask>, stamp: string -> int)
    ensures multiset(Listed(tasks, All, stamp)) == multiset(tasks)
    ensures multiset(Listed(tasks, PendingOnly, stamp)) + multiset(Listed(tasks, DoneOnly, stamp)) == multiset(tasks)
  {
    SelectAll(tasks);
    FilterSplit(tasks);
  }

  /** The "all" filter keeps the list as it is. */
  lemma SelectAll(tasks: seq<FarmTask>)
    ensures Selected(tasks, All) == tasks
  {
    FilterAll(tasks, ShownBy(All));
  }

  /** Every task is pending or done, so the two filters partition the list. */
  lemma FilterSplit(tasks: seq<FarmTask>)
    ensures multiset(Selected(tasks, PendingOnly)) + multiset(Selected(tasks, DoneOnly)) == multiset(tasks)
  {
    FilterSplitBy(tasks, ShownBy(PendingOnly), ShownBy(DoneOnly));
  }
}

=== FILE: farm_types.dfy ===
/**
 The records the application passes between its screens and its back end:
 parcels (`Field`), their per-year history entries and crop parts, subsidy
 rates, clients and their documents. Areas are hectares as `real`.
 */
module FarmTypes {
  import opened Wrappers
  import opened Seqs

  /** A loosely typed attribute value, as the extra history attributes carry. */
  datatype Scalar = Num(n: real) | Str(s: string) | Flag(b: bool)

  /** The names of the optional extra attributes a history entry may carry. */
  datatype Attr =
    | Designation | DesignationZal | PaymentList | IsUnreported | PlantMix
    | SeedQuantity | Organic | OnwType | OnwArea | PrskPackage | PrskPractice
    | PrskFruitTreeVariety | PrskFruitTreeCount | PrskIntercropPlant | PrskUsage
    | PrskVariety | ZrskPackage | ZrskPractice | ZrskFruitTreeVariety
    | ZrskFruitTreeCount | ZrskUsage | ZrskVariety | RePackage | Notes

  /** One crop part (sub-parcel) of a parcel in one campaign year. */
  datatype CropPart = CropPart(
    designation: string,
    crop: string,
    area: real,
    ecoSchemes: seq<string>,
    designationZal: Option<string>,
    paymentList: Option<string>,
    plantMix: Option<string>)

  /**
   The state of a parcel in one campaign year. `attrs` holds the remaining
   optional attributes of an entry (designation, payment list, agri-environment
   packages, notes, ...); an absent optional attribute is `None` or a missing key.
   */
  datatype HistoryEntry = HistoryEntry(
    year: int,
    crop: string,
    appliedEcoSchemes: seq<string>,
    limingDate: Option<string>,
    soilPh: Option<real>,
    area: Option<real>,
    eligibleArea: Option<real>,
    cropParts: Option<seq<CropPart>>,
    attrs: map<Attr, Scalar>)

  /** A land-register parcel with its cadastral location and its history. */
  datatype Field = Field(
    id: string,
    name: string,
    registrationNumber: Option<string>,
    area: real,
    eligibleArea: real,
    crop: string,
    history: seq<HistoryEntry>,
    voivodeship: Option<string>,
    district: Option<string>,
    commune: Option<string>,
    precinctName: Option<string>,
    precinctNumber: Option<string>,
    mapSheet: Option<string>)

  datatype DocCategory = Wniosek | Mapa | Rejestr | Inne

  datatype Document = Document(
    id: string,
    name: string,
    fileType: string,
    category: DocCategory,
    campaignYear: string,
    size: string,
    uploadDate: string)

  datatype ClientStatus = Active | Pending | Completed

  datatype Client = Client(
    producerId: string,
    advisorId: Option<int>,
    firstName: string,
    lastName: string,
    farmName: string,
    totalArea: real,
    status: ClientStatus,
    lastContact: string,
    documents: seq<Document>)

  datatype RateCategory = Ekoschemat | Doplata | Dobrostan

  /**
   A subsidy rate. `shortName`, `points` and `conflictsWith` are optional: the
   analysis uses them when a rate table provides them.
   */
  datatype SubsidyRate = SubsidyRate(
    id: string,
    name: string,
    rate: real,
    unit: string,
    category: RateCategory,
    year: int,
    shortName: Option<string>,
    points: Option<real>,
    conflictsWith: Option<seq<string>>)

  datatype Farm = Farm(farmName: string, producerId: string, totalAreaUR: real, fields: seq<Field>)

  /** The crop every new campaign entry starts with, and the marker of "no data". */
  const UnknownCrop := "Nieznana"

  /** The crop of an entry or parcel that holds more than one crop part. */
  const MixedCrop := "Mieszana"

  // ----- JavaScript `||` on possibly-missing values -----

  /** `x || d` on a number: zero is falsy. */
  function OrReal(x: real, d: real): (r: real)
    ensures x != 0.0 ==> r == x
    ensures x == 0.0 ==> r == d
  {
    if x != 0.0 then x else d
  }

  /** `x || d` on an optional number: a missing value and zero are falsy. */
  function OptOr(x: Option<real>, d: real): (r: real)
    ensures x.Some? && x.value != 0.0 ==> r == x.value
    ensures (x.None? || x.value == 0.0) ==> r == d
  {
    if x.Some? then OrReal(x.value, d) else d
  }

  /** `x || d` on an optional string: a missing value and the empty string are falsy. */
  function OptOrStr(x: Option<string>, d: string): (r: string)
    ensures x.Some? && x.value != [] ==> r == x.value
    ensures (x.None? || x.value == []) ==> r == d
  {
    if x.Some? && x.value != [] then x.value else d
  }

  // ----- Crop parts -----

  /** The designation of the single part a parcel without crop parts is shown with. */
  const SyntheticPart := "A"

  /**
   The parts a parcel is shown with: its crop parts, or when it has none a
   single part "A" with the entry's crop, its area (or the parcel's) and its schemes.
   */
  function PartsOf(field: Field, hist: HistoryEntry): (r: seq<CropPart>)
    ensures hist.cropParts.Some? && hist.cropParts.value != [] ==> r == hist.cropParts.value
    ensures hist.cropParts.None? || hist.cropParts.value == [] ==>
      r == [CropPart(SyntheticPart, hist.crop, OptOr(hist.area, field.area), hist.appliedEcoSchemes, None, None, None)]
  {
    if hist.cropParts.Some? && |hist.cropParts.value| > 0 then hist.cropParts.value
    else [CropPart(SyntheticPart, hist.crop, OptOr(hist.area, field.area), hist.appliedEcoSchemes, None, None, None)]
  }

  // ----- History helpers -----

  predicate InYear(year: int, h: HistoryEntry) {
    h.year == year
  }

  /** `history.find(h => h.year === year)`. */
  function FindYear(history: seq<HistoryEntry>, year: int): (r: Option<HistoryEntry>)
    ensures r.None? <==> forall i :: 0 <= i < |history| ==> history[i].year != year
    ensures r.Some? ==> r.value in history && r.value.year == year
    ensures r.Some? ==> exists i :: 0 <= i < |history| && history[i] == r.value && FirstInYear(history, year, i)
  {
    if history == [] then None
    else if history[0].year == year then Some(history[0])
    else
      var r := FindYear(history[1..], year);
      assert r.Some? ==> exists i :: 0 <= i < |history| && history[i] == r.value && FirstInYear(history, year, i) by {
        if r.Some? {
          var i :| 0 <= i < |history[1..]| && history[1..][i] == r.value && FirstInYear(history[1..], year, i);
          assert history[i + 1] == r.value;
          forall j | 0 <= j < i + 1 ensures history[j].year != year {
            if j > 0 {
              assert history[j] == history[1..][j - 1];
            }
          }
        }
      }
      r
  }

  /** No entry before position `i` is for `year`. */
  ghost predicate FirstInYear(history: seq<HistoryEntry>, year: int, i: int) {
    forall j :: 0 <= j < i && j < |history| ==> history[j].year != year
  }

  predicate HasYear(history: seq<HistoryEntry>, year: int) {
    exists i :: 0 <= i < |history| && history[i].year == year
  }

  lemma FindYearHas(history: seq<HistoryEntry>, year: int)
    ensures FindYear(history, year).Some? <==> HasYear(history, year)
  {
  }

  /** The comparator `(a, b) => b.year - a.year`: newer years first. */
  predicate YearDesc(a: HistoryEntry, b: HistoryEntry) {
    a.year >= b.year
  }

  lemma YearDescTotal()
    ensures TotalPreorder(YearDesc)
  {
  }

  ghost predicate NewestFirst(history: seq<HistoryEntry>) {
    SortedBy(history, YearDesc)
  }

  /** `history.sort((a, b) => b.year - a.year)`: a stable sort, newest year first. */
  function SortHistory(history: seq<HistoryEntry>): (r: seq<HistoryEntry>)
    ensures multiset(r) == multiset(history)
    ensures NewestFirst(r)
  {
    YearDescTotal();
    SortBySorted(history, YearDesc);
    SortBy(history, YearDesc)
  }

  lemma SortHistoryKeeps(history: seq<HistoryEntry>, h: HistoryEntry)
    ensures h in SortHistory(history) <==> h in history
  {
    var r := SortHistory(history);
    assert h in r <==> h in multiset(r);
    assert h in history <==> h in multiset(history);
  }

  /** In a newest-first history the first entry carries the largest year. */
  lemma NewestFirstHead(history: seq<HistoryEntry>)
    requires NewestFirst(history) && history != []
    ensures forall i :: 0 <= i < |history| ==> history[i].year <= history[0].year
  {
    forall i | 0 < i < |history| ensures history[i].year <= history[0].year {
      assert YearDesc(history[0], history[i]);
    }
  }

  // ----- Id-keyed collections -----

  /** `list.filter(x => key(x) !== k)`. */
  function RemoveKey<T(!new)>(s: seq<T>, key: T -> string, k: string): (r: seq<T>)
    ensures forall x :: x in r <==> x in s && key(x) != k
    ensures |r| <= |s|
  {
    Filter(s, KeyOtherThan(key, k))
  }

  /** `x => key(x) !== k`. */
  function KeyOtherThan<T>(key: T -> string, k: string): T -> bool {
    (x: T) => key(x) != k
  }

  /** Removing a key no element has changes nothing; an element with the key put in front is removed again. */
  lemma {:induction false} RemoveKeyFresh<T(!new)>(x: T, s: seq<T>, key: T -> string)
    requires forall i :: 0 <= i < |s| ==> key(s[i]) != key(x)
    ensures RemoveKey(s, key, key(x)) == s
    ensures RemoveKey([x] + s, key, key(x)) == s
  {
    var p := KeyOtherThan(key, key(x));
    FilterAll(s, p);
    assert ([x] + s)[1..] == s;
  }
}

=== FILE: farmer_list.dfy ===
/**
 The advisor's client list: the client form's save (a producer number of
 exactly nine characters, unique among the clients when the client is new),
 the search over names and producer numbers, and the digits-only producer
 number input.
 */
module FarmerList {
  import opened Wrappers
  import opened Seqs
  import opened Text
  import opened FarmTypes

  /** The length of a producer number. */
  const ProducerIdLength := 9

  /** The client form. `totalArea` is `None` where the input holds no number (NaN). */
  datatype ClientForm = ClientForm(firstName: string, lastName: string, producerId: string,
                                   totalArea: Option<real>, status: ClientStatus)

  /** Why a save is refused. */
  datatype SaveError = BadProducerId | DuplicateProducerId

  /** The form opened on a client, or empty for a new one. */
  function OpenForm(client: Option<Client>): (r: ClientForm)
    ensures client.None? ==> r == ClientForm("", "", "", Some(0.0), Active)
    ensures client.Some? ==> r.producerId == client.value.producerId && r.totalArea == Some(client.value.totalArea)
  {
    match client
    case None => ClientForm("", "", "", Some(0.0), Active)
    case Some(c) => ClientForm(c.firstName, c.lastName, c.producerId, Some(c.totalArea), c.status)
  }

  /** The area stored: the input when it is a number other than 0, else 0. */
  function SafeArea(area: Option<real>): (r: real)
    ensures area.Some? && area.value != 0.0 ==> r == area.value
    ensures area.None? || area.value == 0.0 ==> r == 0.0
  {
    if area.Some? && area.value != 0.0 then area.value else 0.0
  }

  /** The farm name shown for a client: "<last name> <first name> Farm". */
  function FarmName(firstName: string, lastName: string): (r: string)
    ensures |r| == |lastName| + |firstName| + 6
    ensures r[..|lastName|] == lastName && r[|lastName| + 1..|lastName| + 1 + |firstName|] == firstName
    ensures r[|lastName|] == ' ' && r[|r| - 5..] == " Farm"
  {
    lastName + " " + firstName + " Farm"
  }

  /**
   Saving the form: refused unless the producer number has nine characters,
   and for a new client refused when another client has that number. An edit
   keeps the client's last contact and documents; a new client gets `today`
   and no documents.
   */
  function SaveClient(clients: seq<Client>, editing: Option<Client>, form: ClientForm, today: string): (r: Result<Client, SaveError>)
    ensures r == Err(BadProducerId) <==> |form.producerId| != ProducerIdLength
    ensures r == Err(DuplicateProducerId) <==>
      (|form.producerId| == ProducerIdLength && editing.None? && exists c :: c in clients && c.producerId == form.producerId)
    ensures r.Ok? ==> (r.value.producerId == form.producerId && r.value.firstName == form.firstName &&
      r.value.lastName == form.lastName && r.value.status == form.status &&
      r.value.totalArea == SafeArea(form.totalArea) && r.value.farmName == FarmName(form.firstName, form.lastName))
    ensures r.Ok? && editing.Some? ==> r.value.lastContact == editing.value.lastContact && r.value.documents == editing.value.documents
    ensures r.Ok? && editing.None? ==> (r.value.lastContact == today && r.value.documents == [] &&
      forall c :: c in clients ==> c.producerId != r.value.producerId)
  {
    if |form.producerId| != ProducerIdLength then Err(BadProducerId)
    else if editing.None? && Any(clients, (c: Client) => c.producerId == form.producerId) then Err(DuplicateProducerId)
    else
      Ok(Client(form.producerId, None, form.firstName, form.lastName, FarmName(form.firstName, form.lastName),
        SafeArea(form.totalArea), form.status,
        if editing.Some? then editing.value.lastContact else today,
        if editing.Some? then editing.value.documents else []))
  }

  /**
   Opening the form on a client with a valid producer number and saving it
   unchanged gives the client back, with its farm name rebuilt from its
   names and no advisor recorded.
   */
  lemma EditUnchanged(clients: seq<Client>, c: Client, today: string)
    requires |c.producerId| == ProducerIdLength
    ensures SaveClient(clients, Some(c), OpenForm(Some(c)), today) ==
      Ok(c.(farmName := FarmName(c.firstName, c.lastName), advisorId := None))
  {
  }

  /** A new client's producer number can be saved only once. */
  lemma NoDuplicateAdd(clients: seq<Client>, form: ClientForm, today: string, form2: ClientForm, today2: string)
    requires SaveClient(clients, None, form, today).Ok?
    requires form2.producerId == form.producerId
    ensures SaveClient(clients + [SaveClient(clients, None, form, today).value], None, form2, today2) == Err(DuplicateProducerId)
  {
    var c := SaveClient(clients, None, form, today).value;
    assert c in clients + [c];
  }

  // ----- Search -----

  /** A client matches a term when its lower-cased full name, or its producer number, holds the lower-cased term. */
  predicate Matches(c: Client, term: string) {
    Contains(Lower(c.firstName + " " + c.lastName), Lower(term)) || Contains(c.producerId, Lower(term))
  }

  /** The clients the search keeps, in order. */
  function Search(clients: seq<Client>, term: string): (r: seq<Client>)
    ensures forall c :: c in r <==> c in clients && Matches(c, term)
  {
    Filter(clients, (c: Client) => Matches(c, term))
  }

  /** An empty search keeps every client. */
  lemma SearchEmpty(clients: seq<Client>)
    ensures forall c :: c in clients ==> c in Search(clients, "")
  {
    forall c | c in clients ensures Matches(c, "") {
      assert Lower("") == "";
    }
  }

  /** Searching for a client's digits-only producer number finds it. */
  lemma SearchFindsProducerId(clients: seq<Client>, c: Client)
    requires c in clients && AllDigits(c.producerId)
    ensures c in Search(clients, c.producerId)
  {
    var p := c.producerId;
    assert Lower(p) == p;
    assert p[..|p|] == p;
  }

  // ----- Producer number input -----

  predicate IsDigit(ch: char) {
    '0' <= ch <= '9'
  }

  predicate AllDigits(s: string) {
    forall i :: 0 <= i < |s| ==> IsDigit(s[i])
  }

  /** `s.replace(/\D/g, '')`: the digits of `s`, in order. */
  function DigitsOnly(s: string): (r: string)
    ensures AllDigits(r) && |r| <= |s|
    ensures forall ch :: ch in r <==> ch in s && IsDigit(ch)
    ensures AllDigits(s) ==> r == s
  {
    if s == [] then []
    else
      var rest := DigitsOnly(s[1..]);
      assert forall ch :: ch in s <==> ch == s[0] || ch in s[1..];
      if IsDigit(s[0]) then [s[0]] + rest else rest
  }

  /** Cleaning the input twice is cleaning it once. */
  lemma DigitsOnlyIdempotent(s: string)
    ensures DigitsOnly(DigitsOnly(s)) == DigitsOnly(s)
  {
  }
}

=== FILE: field_manager.dfy ===
/**
 The parcel screen's bulk edits: copying one campaign year's state into the
 selected year, and applying an imported CSV file (parcel geometry or crop
 declarations) to the farm's parcels.
 */
module FieldManager {
  import opened Wrappers
  import opened Seqs
  import opened Text
  import opened FarmTypes
  import opened YearHistory
  import opened Csv
  import FarmLogic

  // ----- Copy from another year -----

  /** What a copy carries over: the parcel geometry only, or the whole crop declaration. */
  datatype CopyKind = CopyParcels | CopyCrops

  /**
   `{ ...existing, ...patch }` for history entries: every attribute the patch
   carries replaces the existing one; attributes the patch lacks are kept.
   */
  function Overlay(existing: HistoryEntry, patch: HistoryEntry): (r: HistoryEntry)
    ensures r.year == patch.year && r.crop == patch.crop && r.appliedEcoSchemes == patch.appliedEcoSchemes
    ensures patch.area.Some? ==> r.area == patch.area
    ensures patch.area.None? ==> r.area == existing.area
    ensures patch.cropParts.Some? ==> r.cropParts == patch.cropParts
    ensures patch.cropParts.None? ==> r.cropParts == existing.cropParts
    ensures forall a :: a in r.attrs <==> a in existing.attrs || a in patch.attrs
    ensures forall a :: a in patch.attrs ==> r.attrs[a] == patch.attrs[a]
  {
    HistoryEntry(
      patch.year,
      patch.crop,
      patch.appliedEcoSchemes,
      if patch.limingDate.Some? then patch.limingDate else existing.limingDate,
      if patch.soilPh.Some? then patch.soilPh else existing.soilPh,
      if patch.area.Some? then patch.area else existing.area,
      if patch.eligibleArea.Some? then patch.eligibleArea else existing.eligibleArea,
      if patch.cropParts.Some? then patch.cropParts else existing.cropParts,
      existing.attrs + patch.attrs)
  }

  /**
   The entry a copy writes into the target year: in parcel mode only the
   geometry (falling back to the parcel's own areas) with the crop reset and no
   schemes or parts; in crop mode the whole source entry under the new year.
   */
  function CopiedEntry(f: Field, source: HistoryEntry, target: int, kind: CopyKind): (r: HistoryEntry)
    ensures r.year == target
    ensures kind == CopyParcels ==> r.crop == UnknownCrop && r.appliedEcoSchemes == [] && r.cropParts == Some([])
    ensures kind == CopyParcels ==> (r.area == Some(OptOr(source.area, f.area)) &&
      r.eligibleArea == Some(OptOr(source.eligibleArea, f.eligibleArea)))
    ensures kind == CopyCrops ==> r == source.(year := target)
  {
    match kind
    case CopyParcels =>
      HistoryEntry(target, UnknownCrop, [], None, None, Some(OptOr(source.area, f.area)),
        Some(OptOr(source.eligibleArea, f.eligibleArea)), Some([]), map[])
    case CopyCrops => source.(year := target)
  }

  /** `handleCopyFromYear` on one parcel. */
  function CopyFieldFromYear(f: Field, source: int, target: int, kind: CopyKind): (r: Field)
    ensures !HasYear(f.history, source) ==> r == f
    ensures r.(history := f.history) == f
  {
    match FindYear(f.history, source)
    case None => f
    case Some(src) =>
      var patch := CopiedEntry(f, src, target, kind);
      f.(history := PutYearSorted(f.history, target, (e: HistoryEntry) => Overlay(e, patch), patch))
  }

  /**
   `handleCopyFromYear`: once confirmed, every parcel with an entry for the
   source year gets one for the target year; a refused confirmation changes nothing.
   */
  function CopyFromYear(fields: seq<Field>, source: int, target: int, kind: CopyKind, confirmed: bool): (r: seq<Field>)
    ensures !confirmed ==> r == fields
    ensures |r| == |fields|
    ensures confirmed ==> forall i :: 0 <= i < |r| ==> r[i] == CopyFieldFromYear(fields[i], source, target, kind)
  {
    if !confirmed then fields else Map(fields, (f: Field) => CopyFieldFromYear(f, source, target, kind))
  }

  /**
   A parcel with an entry for the source year ends with a newest-first history
   holding an entry for the target year; no entry of another year changes.
   */
  lemma CopyFieldResult(f: Field, source: int, target: int, kind: CopyKind, e: HistoryEntry)
    requires HasYear(f.history, source)
    requires e.year != target
    ensures NewestFirst(CopyFieldFromYear(f, source, target, kind).history)
    ensures HasYear(CopyFieldFromYear(f, source, target, kind).history, target)
    ensures multiset(CopyFieldFromYear(f, source, target, kind).history)[e] == multiset(f.history)[e]
  {
    var src := FindYear(f.history, source).value;
    var patch := CopiedEntry(f, src, target, kind);
    var update := (x: HistoryEntry) => Overlay(x, patch);
    assert KeepsYear(update, target);
    PutYearSortedOthers(f.history, target, update, patch, e);
  }

  /**
   In parcel mode the target year's entry, whether rewritten or added, has the
   crop reset and no eco-schemes and no crop parts.
   */
  lemma CopyParcelsResets(f: Field, source: int, target: int)
    requires HasYear(f.history, source)
    ensures exists e :: (e in CopyFieldFromYear(f, source, target, CopyParcels).history &&
      e.year == target && e.crop == UnknownCrop && e.appliedEcoSchemes == [] && e.cropParts == Some([]))
  {
    var src := FindYear(f.history, source).value;
    var patch := CopiedEntry(f, src, target, CopyParcels);
    var update := (x: HistoryEntry) => Overlay(x, patch);
    PutYearHolds(f.history, target, update, patch);
    var u := PutYear(f.history, target, update, patch);
    var r := PutYearSorted(f.history, target, update, patch);
    if HasYear(f.history, target) {
      var x := update(FindYear(f.history, target).value);
      assert x in multiset(u);
      assert x in r;
    } else {
      assert patch in multiset(u);
      assert patch in r;
    }
  }

  // ----- Import: shared pieces -----

  /** The campaign year of an import: the template's year, or the selected one. */
  function ImportYear(template: CsvTemplate, selectedYear: int): (r: int)
    ensures template.year != 0 ==> r == template.year
    ensures template.year == 0 ==> r == selectedYear
  {
    if template.year != 0 then template.year else selectedYear
  }

  /** `reg.replace(/\s/g, '').toLowerCase()`: the form in which registration numbers are compared. */
  function RegKey(reg: string): (r: string)
    ensures NoSpace(r)
  {
    var d := DropSpaces(reg);
    assert forall i :: 0 <= i < |d| ==> !IsSpace(LowerChar(d[i])) by {
      forall i | 0 <= i < |d| ensures !IsSpace(LowerChar(d[i])) {
        CaseKeepsSpace(d[i]);
      }
    }
    Lower(d)
  }

  /** `a && b && clean(a) === clean(b)` for an optional stored number and an incoming one. */
  predicate SameReg(stored: Option<string>, incoming: string) {
    stored.Some? && stored.value != [] && incoming != [] && RegKey(stored.value) == RegKey(incoming)
  }

  /** The name given to a parcel known only by its registration number. */
  const ParcelPrefix := "Działka "

  /** The placeholder registration number of a row without one. */
  const TempRegPrefix := "T_"

  // ----- Import: parcel rows -----

  datatype Cadastre = Cadastre(
    voivodeship: string, district: string, commune: string,
    precinctName: string, precinctNumber: string, mapSheet: string)

  /** One parcel row of the file, after the fall-backs for missing names and numbers. */
  datatype ParcelItem = ParcelItem(name: string, reg: string, area: real, eligibleArea: real, cadastre: Cadastre)

  /**
   The parcel a data row (line `i` of the file) describes: none when the row has
   neither a name nor a registration number; a row with only one of them gets a
   placeholder for the other; the eligible area falls back to the area.
   */
  function ParcelItemOf(cols: seq<string>, columns: map<string, int>, i: nat,
                        parse: string -> Option<real>): (r: Option<ParcelItem>)
    ensures r.None? <==> GetVal(cols, columns, "name") == [] && GetVal(cols, columns, "registrationNumber") == []
    ensures r.Some? ==> r.value.name != [] && r.value.reg != []
    ensures r.Some? && GetVal(cols, columns, "name") != [] ==> r.value.name == GetVal(cols, columns, "name")
    ensures r.Some? && GetVal(cols, columns, "name") == [] ==>
      r.value.name == ParcelPrefix + GetVal(cols, columns, "registrationNumber")
    ensures r.Some? && GetVal(cols, columns, "registrationNumber") != [] ==>
      r.value.reg == GetVal(cols, columns, "registrationNumber")
    ensures r.Some? ==> r.value.area == ParsePolishNumber(GetVal(cols, columns, "area"), parse)
    ensures r.Some? ==>
      r.value.eligibleArea == OrReal(ParsePolishNumber(GetVal(cols, columns, "eligibleArea"), parse), r.value.area)
  {
    var name := GetVal(cols, columns, "name");
    var reg := GetVal(cols, columns, "registrationNumber");
    if name == [] && reg == [] then None
    else
      var finalName := if name != [] then name
        else if reg != [] then ParcelPrefix + reg else ParcelPrefix + NatToString(i);
      var finalReg := if reg != [] then reg else TempRegPrefix + NatToString(i);
      var area := ParsePolishNumber(GetVal(cols, columns, "area"), parse);
      var eligible := OrReal(ParsePolishNumber(GetVal(cols, columns, "eligibleArea"), parse), area);
      Some(ParcelItem(finalName, finalReg, area, eligible, Cadastre(
        GetVal(cols, columns, "voivodeship"), GetVal(cols, columns, "district"),
        GetVal(cols, columns, "commune"), GetVal(cols, columns, "precinctName"),
        GetVal(cols, columns, "precinctNumber"), GetVal(cols, columns, "mapSheet"))))
  }

  /**
   The in-batch duplicate test: the same name, or, for an unnamed entry, the
   same registration number.
   */
  predicate BatchSame(f: ParcelItem, item: ParcelItem) {
    (f.name != [] && f.name == item.name) || (f.name == [] && f.reg == item.reg)
  }

  function BatchIndex(batch: seq<ParcelItem>, item: ParcelItem): (r: int)
    ensures -1 <= r < |batch|
    ensures r >= 0 ==> BatchSame(batch[r], item)
    ensures r >= 0 ==> forall j :: 0 <= j < r ==> !BatchSame(batch[j], item)
    ensures r == -1 ==> forall j :: 0 <= j < |batch| ==> !BatchSame(batch[j], item)
  {
    if batch == [] then -1
    else if BatchSame(batch[0], item) then 0
    else
      var k := BatchIndex(batch[1..], item);
      assert forall j :: 0 < j < |batch| ==> batch[j] == batch[1..][j - 1];
      if k < 0 then -1 else k + 1
  }

  /** Every entry of the batch is named, and no name occurs twice. */
  ghost predicate NamedDistinct(batch: seq<ParcelItem>) {
    (forall j :: 0 <= j < |batch| ==> batch[j].name != []) &&
    (forall j, k :: 0 <= j < k < |batch| ==> batch[j].name != batch[k].name)
  }

  /**
   Adds a parcel row to the batch: a row for a parcel already in the batch adds
   its areas to that entry (keeping the entry's other data), any other row is
   appended.
   */
  function AddToBatch(batch: seq<ParcelItem>, item: ParcelItem): (r: seq<ParcelItem>)
    requires NamedDistinct(batch) && item.name != []
    ensures NamedDistinct(r)
    ensures Names(r) == Names(batch) + {item.name}
  {
    var k := BatchIndex(batch, item);
    if k >= 0 then
      var r := batch[k := batch[k].(area := batch[k].area + item.area,
        eligibleArea := batch[k].eligibleArea + item.eligibleArea)];
      assert forall j :: 0 <= j < |r| ==> r[j].name == batch[j].name;
      assert Names(r) == Names(batch);
      r
    else
      var r := batch + [item];
      assert forall j :: 0 <= j < |batch| ==> r[j] == batch[j];
      assert forall j :: 0 <= j < |batch| ==> batch[j].name != item.name;
      assert r[|batch|] == item;
      assert Names(r) == Names(batch) + {item.name};
      r
  }

  /** The names in a batch. */
  function Names(batch: seq<ParcelItem>): set<string> {
    set j | 0 <= j < |batch| :: batch[j].name
  }

  /** The total area of the entries with name `nm`. */
  function NameArea(items: seq<ParcelItem>, nm: string): real {
    if items == [] then 0.0
    else
      var last := items[|items| - 1];
      NameArea(items[..|items| - 1], nm) + (if last.name == nm then last.area else 0.0)
  }

  /** The total eligible area of the entries with name `nm`. */
  function NameEligible(items: seq<ParcelItem>, nm: string): real {
    if items == [] then 0.0
    else
      var last := items[|items| - 1];
      NameEligible(items[..|items| - 1], nm) + (if last.name == nm then last.eligibleArea else 0.0)
  }

  lemma {:induction false} NameAreaUpdate(items: seq<ParcelItem>, k: int, x: ParcelItem, nm: string)
    requires 0 <= k < |items| && x.name == items[k].name
    ensures NameArea(items[k := x], nm) == NameArea(items, nm) +
      (if x.name == nm then x.area - items[k].area else 0.0)
    ensures NameEligible(items[k := x], nm) == NameEligible(items, nm) +
      (if x.name == nm then x.eligibleArea - items[k].eligibleArea else 0.0)
  {
    var n := |items| - 1;
    if k < n {
      assert items[k := x][..n] == items[..n][k := x];
      NameAreaUpdate(items[..n], k, x, nm);
    } else {
      assert items[k := x][..n] == items[..n];
    }
  }

  /** Adding a row to the batch adds its areas to its name's totals and to no other name's. */
  lemma AddToBatchArea(batch: seq<ParcelItem>, item: ParcelItem, nm: string)
    requires NamedDistinct(batch) && item.name != []
    ensures NameArea(AddToBatch(batch, item), nm) == NameArea(batch, nm) + (if item.name == nm then item.area else 0.0)
    ensures NameEligible(AddToBatch(batch, item), nm) ==
      NameEligible(batch, nm) + (if item.name == nm then item.eligibleArea else 0.0)
  {
    var k := BatchIndex(batch, item);
    var r := AddToBatch(batch, item);
    if k >= 0 {
      var x := batch[k].(area := batch[k].area + item.area, eligibleArea := batch[k].eligibleArea + item.eligibleArea);
      assert x.name == item.name;
      assert r == batch[k := x];
      NameAreaUpdate(batch, k, x, nm);
    } else {
      assert r == batch + [item];
      assert r[..|batch|] == batch;
      assert r[|batch|] == item;
    }
  }

  /** The parcel entries of the file's data rows, after in-batch aggregation, and the count of skipped rows. */
  datatype ParcelBatch = ParcelBatch(items: seq<ParcelItem>, skipped: nat)

  /**
   The accepted parcel rows in file order, before aggregation (line `k + 1` of
   the file is data row `k`; rows with fewer than two cells are passed over).
   */
  function AcceptedParcels(rows: seq<seq<string>>, columns: map<string, int>, parse: string -> Option<real>): (r: seq<ParcelItem>)
    ensures forall j :: 0 <= j < |r| ==> r[j].name != []
  {
    if rows == [] then []
    else
      var n := |rows| - 1;
      var prev := AcceptedParcels(rows[..n], columns, parse);
      if |rows[n]| < 2 then prev
      else match ParcelItemOf(rows[n], columns, n + 1, parse)
        case None => prev
        case Some(item) => prev + [item]
  }

  /** The data rows, folded into the batch one by one. */
  function ParcelRows(rows: seq<seq<string>>, columns: map<string, int>, parse: string -> Option<real>): (r: ParcelBatch)
    ensures NamedDistinct(r.items)
    ensures forall nm :: NameArea(r.items, nm) == NameArea(AcceptedParcels(rows, columns, parse), nm)
    ensures forall nm :: NameEligible(r.items, nm) == NameEligible(AcceptedParcels(rows, columns, parse), nm)
  {
    if rows == [] then ParcelBatch([], 0)
    else
      var n := |rows| - 1;
      var prev := ParcelRows(rows[..n], columns, parse);
      if |rows[n]| < 2 then prev
      else match ParcelItemOf(rows[n], columns, n + 1, parse)
        case None => prev.(skipped := prev.skipped + 1)
        case Some(item) =>
          var r := prev.(items := AddToBatch(prev.items, item));
          var acc := AcceptedParcels(rows[..n], columns, parse);
          assert AcceptedParcels(rows, columns, parse) == acc + [item];
          assert (acc + [item])[..|acc|] == acc;
          assert forall nm :: NameArea(r.items, nm) == NameArea(acc + [item], nm) by {
            forall nm ensures NameArea(r.items, nm) == NameArea(acc + [item], nm) {
              AddToBatchArea(prev.items, item, nm);
            }
          }
          assert forall nm :: NameEligible(r.items, nm) == NameEligible(acc + [item], nm) by {
            forall nm ensures NameEligible(r.items, nm) == NameEligible(acc + [item], nm) {
              AddToBatchArea(prev.items, item, nm);
            }
          }
          r
  }

  /**
   Rows for the same parcel are merged: the batch entry named `nm` carries the
   summed area and eligible area of every accepted row with that name.
   */
  lemma BatchEntrySums(rows: seq<seq<string>>, columns: map<string, int>, parse: string -> Option<real>, j: int)
    requires 0 <= j < |ParcelRows(rows, columns, parse).items|
    ensures var b := ParcelRows(rows, columns, parse).items;
      b[j].area == NameArea(AcceptedParcels(rows, columns, parse), b[j].name) &&
      b[j].eligibleArea == NameEligible(AcceptedParcels(rows, columns, parse), b[j].name)
  {
    var b := ParcelRows(rows, columns, parse).items;
    DistinctNameArea(b, j);
  }

  /** In a batch without repeated names, a name's total is its one entry's area. */
  lemma {:induction false} DistinctNameArea(b: seq<ParcelItem>, j: int)
    requires NamedDistinct(b) && 0 <= j < |b|
    ensures NameArea(b, b[j].name) == b[j].area
    ensures NameEligible(b, b[j].name) == b[j].eligibleArea
  {
    var n := |b| - 1;
    var nm := b[j].name;
    assert NamedDistinct(b[..n]);
    if j < n {
      assert b[..n][j] == b[j];
      DistinctNameArea(b[..n], j);
    } else {
      AbsentNameArea(b[..n], nm);
    }
  }

  lemma {:induction false} AbsentNameArea(b: seq<ParcelItem>, nm: string)
    requires forall j :: 0 <= j < |b| ==> b[j].name != nm
    ensures NameArea(b, nm) == 0.0 && NameEligible(b, nm) == 0.0
  {
    if b != [] {
      AbsentNameArea(b[..|b| - 1], nm);
    }
  }

  // ----- Import: applying parcel rows -----

  /**
   An existing parcel is the incoming one when the names agree, or else when the
   registration numbers agree ignoring white space and case.
   */
  predicate ParcelMatches(f: Field, item: ParcelItem) {
    (f.name != [] && item.name != [] && f.name == item.name) || SameReg(f.registrationNumber, item.reg)
  }

  /** The entry a parcel row writes for the import year when the parcel has none. */
  function ParcelEntry(item: ParcelItem, year: int): (r: HistoryEntry)
    ensures r.year == year && r.crop == UnknownCrop && r.appliedEcoSchemes == []
    ensures r.area == Some(item.area) && r.eligibleArea == Some(item.eligibleArea)
    ensures r.cropParts.None? && r.attrs == map[]
  {
    HistoryEntry(year, UnknownCrop, [], None, None, Some(item.area), Some(item.eligibleArea), None, map[])
  }

  /** Rewrites the areas of an existing entry of the import year, keeping everything else. */
  function NewGeometry(item: ParcelItem): HistoryEntry -> HistoryEntry {
    (e: HistoryEntry) => e.(area := Some(item.area), eligibleArea := Some(item.eligibleArea))
  }

  /** No entry of the history is newer than `year`. */
  ghost predicate NoLaterYear(history: seq<HistoryEntry>, year: int) {
    forall j :: 0 <= j < |history| ==> history[j].year <= year
  }

  /**
   A matched parcel takes the row's areas for the import year; the parcel's own
   name and areas follow the row only when no other year in its history is newer;
   the cadastral location is always replaced.
   */
  function UpdateParcel(f: Field, item: ParcelItem, year: int): (r: Field)
    ensures r.id == f.id && r.crop == f.crop && r.registrationNumber == f.registrationNumber
    ensures NewestFirst(r.history) && HasYear(r.history, year)
    ensures NoLaterYear(f.history, year) ==>
      r.name == item.name && r.area == item.area && r.eligibleArea == item.eligibleArea
    ensures !NoLaterYear(f.history, year) ==>
      r.name == f.name && r.area == f.area && r.eligibleArea == f.eligibleArea
    ensures r.voivodeship == Some(item.cadastre.voivodeship) && r.district == Some(item.cadastre.district) &&
      r.commune == Some(item.cadastre.commune) && r.precinctName == Some(item.cadastre.precinctName) &&
      r.precinctNumber == Some(item.cadastre.precinctNumber) && r.mapSheet == Some(item.cadastre.mapSheet)
  {
    var entry := ParcelEntry(item, year);
    var h := PutYearSorted(f.history, year, NewGeometry(item), entry);
    NewestIff(f.history, year, NewGeometry(item), entry);
    var newest := year >= (if h != [] then h[0].year else 0);
    f.(name := if newest then item.name else f.name,
      area := if newest then item.area else f.area,
      eligibleArea := if newest then item.eligibleArea else f.eligibleArea,
      voivodeship := Some(item.cadastre.voivodeship),
      district := Some(item.cadastre.district),
      commune := Some(item.cadastre.commune),
      precinctName := Some(item.cadastre.precinctName),
      precinctNumber := Some(item.cadastre.precinctNumber),
      mapSheet := Some(item.cadastre.mapSheet),
      history := h)
  }

  /**
   `importYear >= updatedHistory[0].year` after the sort holds exactly when no
   entry of the history before the edit is newer than the import year; the
   edited history has an entry for the year.
   */
  lemma NewestIff(history: seq<HistoryEntry>, year: int, update: HistoryEntry -> HistoryEntry, added: HistoryEntry)
    requires KeepsYear(update, year) && added.year == year
    ensures var h := PutYearSorted(history, year, update, added);
      h != [] && HasYear(h, year) && (year >= h[0].year <==> NoLaterYear(history, year))
  {
    var h := PutYearSorted(history, year, update, added);
    PutYearSortedOthers(history, year, update, added, added.(year := year + 1));
    var i :| 0 <= i < |h| && h[i].year == year;
    NewestFirstHead(h);
    if NoLaterYear(history, year) {
      forall j | 0 <= j < |h| ensures h[j].year <= year {
        if h[j].year != year {
          PutYearSortedOthers(history, year, update, added, h[j]);
          assert h[j] in multiset(h);
          assert h[j] in multiset(history);
        }
      }
    } else {
      var j :| 0 <= j < |history| && history[j].year > year;
      PutYearSortedOthers(history, year, update, added, history[j]);
      assert history[j] in multiset(history);
      assert history[j] in multiset(h);
      var m :| 0 <= m < |h| && h[m] == history[j];
    }
  }

  /**
   The matched parcel's entry of the import year carries the row's areas (its
   other attributes kept), and no entry of another year changes.
   */
  lemma UpdateParcelHistory(f: Field, item: ParcelItem, year: int, e: HistoryEntry)
    requires e.year != year
    ensures multiset(UpdateParcel(f, item, year).history)[e] == multiset(f.history)[e]
    ensures exists x :: (x in UpdateParcel(f, item, year).history && x.year == year &&
      x.area == Some(item.area) && x.eligibleArea == Some(item.eligibleArea))
  {
    var entry := ParcelEntry(item, year);
    var update := NewGeometry(item);
    PutYearSortedOthers(f.history, year, update, entry, e);
    PutYearHolds(f.history, year, update, entry);
    var u := PutYear(f.history, year, update, entry);
    var h := PutYearSorted(f.history, year, update, entry);
    var x := if HasYear(f.history, year) then update(FindYear(f.history, year).value) else entry;
    assert x in multiset(u);
    assert x in h;
  }

  /** A parcel of the file that matches no existing one. */
  function NewParcel(item: ParcelItem, year: int, id: string): (r: Field)
    ensures r.id == id && r.name == item.name && r.registrationNumber == Some(item.reg)
    ensures r.area == item.area && r.eligibleArea == item.eligibleArea && r.crop == UnknownCrop
    ensures r.history == [ParcelEntry(item, year)]
  {
    Field(id, item.name, Some(item.reg), item.area, item.eligibleArea, UnknownCrop, [ParcelEntry(item, year)],
      Some(item.cadastre.voivodeship), Some(item.cadastre.district), Some(item.cadastre.commune),
      Some(item.cadastre.precinctName), Some(item.cadastre.precinctNumber), Some(item.cadastre.mapSheet))
  }

  /**
   Applies one aggregated parcel row: the first matching parcel is updated and
   no other changes; without a match the row becomes a new parcel at the end.
   */
  function ApplyParcel(fields: seq<Field>, item: ParcelItem, year: int, newId: string): (r: seq<Field>)
    ensures (exists j :: 0 <= j < |fields| && ParcelMatches(fields[j], item)) ==>
      (exists k :: 0 <= k < |fields| && ParcelMatches(fields[k], item) &&
        (forall j :: 0 <= j < k ==> !ParcelMatches(fields[j], item)) &&
        r == fields[k := UpdateParcel(fields[k], item, year)])
    ensures (forall j :: 0 <= j < |fields| ==> !ParcelMatches(fields[j], item)) ==>
      r == fields + [NewParcel(item, year, newId)]
  {
    var k := FindIndex(fields, (f: Field) => ParcelMatches(f, item));
    if k >= 0 then fields[k := UpdateParcel(fields[k], item, year)]
    else fields + [NewParcel(item, year, newId)]
  }

  /** The aggregated rows applied in order; `ids` supplies the id of each newly created parcel. */
  function ApplyParcels(fields: seq<Field>, items: seq<ParcelItem>, year: int, ids: nat -> string): (r: seq<Field>)
    ensures |fields| <= |r| <= |fields| + |items|
    ensures forall j :: 0 <= j < |fields| ==> r[j].id == fields[j].id
  {
    if items == [] then fields
    else
      var n := |items| - 1;
      var prev := ApplyParcels(fields, items[..n], year, ids);
      ApplyParcel(prev, items[n], year, ids(n))
  }

  // ----- Import: crop rows -----

  /** The system key of each extra attribute a crop row may fill. */
  function AttrKey(a: Attr): string {
    match a
    case Designation => "designation"
    case DesignationZal => "designationZal"
    case PaymentList => "paymentList"
    case IsUnreported => "isUnreported"
    case PlantMix => "plantMix"
    case SeedQuantity => "seedQuantity"
    case Organic => "organic"
    case OnwType => "onwType"
    case OnwArea => "onwArea"
    case PrskPackage => "prskPackage"
    case PrskPractice => "prskPractice"
    case PrskFruitTreeVariety => "prskFruitTreeVariety"
    case PrskFruitTreeCount => "prskFruitTreeCount"
    case PrskIntercropPlant => "prskIntercropPlant"
    case PrskUsage => "prskUsage"
    case PrskVariety => "prskVariety"
    case ZrskPackage => "zrskPackage"
    case ZrskPractice => "zrskPractice"
    case ZrskFruitTreeVariety => "zrskFruitTreeVariety"
    case ZrskFruitTreeCount => "zrskFruitTreeCount"
    case ZrskUsage => "zrskUsage"
    case ZrskVariety => "zrskVariety"
    case RePackage => "rePackage"
    case Notes => "notes"
  }

  /** The attributes read as numbers; every other attribute keeps the cell text. */
  predicate NumericAttr(a: Attr) {
    a == OnwArea || a == PrskFruitTreeCount || a == ZrskFruitTreeCount
  }

  const AllAttrs: set<Attr> := {
    Designation, DesignationZal, PaymentList, IsUnreported, PlantMix, SeedQuantity, Organic, OnwType,
    OnwArea, PrskPackage, PrskPractice, PrskFruitTreeVariety, PrskFruitTreeCount, PrskIntercropPlant,
    PrskUsage, PrskVariety, ZrskPackage, ZrskPractice, ZrskFruitTreeVariety, ZrskFruitTreeCount,
    ZrskUsage, ZrskVariety, RePackage, Notes}

  function AttrValue(cols: seq<string>, columns: map<string, int>, a: Attr, parse: string -> Option<real>): (r: Scalar)
    ensures NumericAttr(a) ==> r == Num(ParsePolishNumber(GetVal(cols, columns, AttrKey(a)), parse))
    ensures !NumericAttr(a) ==> r == Str(GetVal(cols, columns, AttrKey(a)))
  {
    var v := GetVal(cols, columns, AttrKey(a));
    if NumericAttr(a) then Num(ParsePolishNumber(v, parse)) else Str(v)
  }

  /** The part letter given to a row without a designation. */
  const DefaultDesignation := "A"

  /**
   One crop row: the parcel it names, the history entry it declares for the
   import year, the crop part it adds, and its designation as the file has it.
   */
  datatype CropItem = CropItem(name: string, reg: string, entry: HistoryEntry, part: CropPart, designation: string)

  /** `parsePolishNumber(specificArea) > 0 ? specific : generic`. */
  function RowArea(cols: seq<string>, columns: map<string, int>, parse: string -> Option<real>): (r: real)
    ensures ParsePolishNumber(GetVal(cols, columns, "specificArea"), parse) > 0.0 ==>
      r == ParsePolishNumber(GetVal(cols, columns, "specificArea"), parse)
    ensures ParsePolishNumber(GetVal(cols, columns, "specificArea"), parse) <= 0.0 ==>
      r == ParsePolishNumber(GetVal(cols, columns, "area"), parse)
  {
    var specific := ParsePolishNumber(GetVal(cols, columns, "specificArea"), parse);
    if specific > 0.0 then specific else ParsePolishNumber(GetVal(cols, columns, "area"), parse)
  }

  /** The eco-scheme cell: a comma list, or none for an empty cell. */
  function SchemeCell(cell: string): (r: seq<string>)
    ensures cell == [] ==> r == []
    ensures forall i :: 0 <= i < |r| ==> r[i] != [] && IsTrimmed(r[i]) && ',' !in r[i]
  {
    if cell != [] then CommaList(cell) else []
  }

  /**
   The crop declaration of a data row for the import year: none for a row
   without a registration number; the crop name normalised; the part named
   by the designation, or "A" without one.
   */
  function CropItemOf(cols: seq<string>, columns: map<string, int>, year: int,
                      parse: string -> Option<real>): (r: Option<CropItem>)
    ensures r.None? <==> GetVal(cols, columns, "registrationNumber") == []
    ensures r.Some? ==> r.value.reg == GetVal(cols, columns, "registrationNumber") && r.value.reg != []
    ensures r.Some? ==> r.value.entry.year == year && r.value.entry.cropParts.None?
    ensures r.Some? ==> r.value.entry.crop == NormalizeCropName(GetVal(cols, columns, "crop"))
    ensures r.Some? ==> r.value.entry.area == Some(r.value.part.area)
    ensures r.Some? ==>
      r.value.part.crop == r.value.entry.crop && r.value.part.ecoSchemes == r.value.entry.appliedEcoSchemes
    ensures r.Some? ==> r.value.part.area == RowArea(cols, columns, parse)
    ensures r.Some? ==> r.value.part.designation == OrStr(r.value.designation, DefaultDesignation)
    ensures r.Some? ==> r.value.entry.attrs.Keys == AllAttrs
    ensures r.Some? ==> forall a :: a in AllAttrs ==> r.value.entry.attrs[a] == AttrValue(cols, columns, a, parse)
  {
    var reg := GetVal(cols, columns, "registrationNumber");
    if reg == [] then None
    else
      var crop := NormalizeCropName(GetVal(cols, columns, "crop"));
      var schemes := SchemeCell(GetVal(cols, columns, "ecoSchemes"));
      var area := RowArea(cols, columns, parse);
      var designation := GetVal(cols, columns, "designation");
      var attrs := map a | a in AllAttrs :: AttrValue(cols, columns, a, parse);
      var entry := HistoryEntry(year, crop, schemes, None, None, Some(area), None, None, attrs);
      var part := CropPart(OrStr(designation, DefaultDesignation), crop, area, schemes,
        Some(GetVal(cols, columns, "designationZal")), Some(GetVal(cols, columns, "paymentList")),
        Some(GetVal(cols, columns, "plantMix")));
      Some(CropItem(GetVal(cols, columns, "name"), reg, entry, part, designation))
  }

  /** `s || d` on strings. */
  function OrStr(s: string, d: string): (r: string)
    ensures s != [] ==> r == s
    ensures s == [] ==> r == d
  {
    if s != [] then s else d
  }

  /** The crop rows of the file and the count of rows without a registration number. */
  datatype CropBatch = CropBatch(items: seq<CropItem>, skipped: nat)

  function CropRows(rows: seq<seq<string>>, columns: map<string, int>, year: int,
                    parse: string -> Option<real>): (r: CropBatch)
    ensures |r.items| + r.skipped <= |rows|
    ensures forall j :: 0 <= j < |r.items| ==> r.items[j].reg != [] && r.items[j].entry.year == year
  {
    if rows == [] then CropBatch([], 0)
    else
      var n := |rows| - 1;
      var prev := CropRows(rows[..n], columns, year, parse);
      if |rows[n]| < 2 then prev
      else
        var item := CropItemOf(rows[n], columns, year, parse);
        if item.None? then prev.(skipped := prev.skipped + 1)
        else
          assert item.value.reg != [] && item.value.entry.year == year;
          CropItemsAppend(prev.items, item.value, year);
          prev.(items := prev.items + [item.value])
  }

  lemma CropItemsAppend(items: seq<CropItem>, item: CropItem, year: int)
    requires forall j :: 0 <= j < |items| ==> items[j].reg != [] && items[j].entry.year == year
    requires item.reg != [] && item.entry.year == year
    ensures forall j :: 0 <= j < |items + [item]| ==> (items + [item])[j].reg != [] && (items + [item])[j].entry.year == year
  {
  }

  // ----- Import: applying crop rows -----

  /** The planning campaign, whose crop is shown on the parcel itself. */
  const PlanYear := 2026

  /** A land-register identifier (TERYT) is written with dots or underscores. */
  predicate IsTeryt(name: string) {
    Contains(name, ".") || Contains(name, "_")
  }

  /**
   A crop row belongs to an existing parcel when both names agree, or when the
   registration numbers agree, unless both sides carry different TERYT names.
   */
  predicate CropMatches(f: Field, item: CropItem) {
    if item.name != [] && f.name != [] && f.name == item.name then true
    else if SameReg(f.registrationNumber, item.reg) then
      !(IsTeryt(f.name) && item.name != [] && IsTeryt(item.name) && f.name != item.name)
    else false
  }

  /** `partToAdd.paymentList || existingPart.paymentList`. */
  function OptStrOr(a: Option<string>, b: Option<string>): (r: Option<string>)
    ensures a.Some? && a.value != [] ==> r == a
    ensures !(a.Some? && a.value != []) ==> r == b
  {
    if a.Some? && a.value != [] then a else b
  }

  /** Folds a second row for the same part into it: areas add up, eco-schemes are united. */
  function MergeInto(existing: CropPart, part: CropPart): (r: CropPart)
    ensures r.designation == existing.designation && r.crop == existing.crop
    ensures r.area == existing.area + part.area
    ensures forall c :: c in r.ecoSchemes <==> c in existing.ecoSchemes || c in part.ecoSchemes
    ensures forall i, j :: 0 <= i < j < |r.ecoSchemes| ==> r.ecoSchemes[i] != r.ecoSchemes[j]
    ensures r.paymentList == OptStrOr(part.paymentList, existing.paymentList)
  {
    existing.(area := existing.area + part.area, ecoSchemes := Dedup(existing.ecoSchemes + part.ecoSchemes),
      paymentList := OptStrOr(part.paymentList, existing.paymentList))
  }

  function PartIndex(parts: seq<CropPart>, key: string): (r: int)
    ensures -1 <= r < |parts|
    ensures r >= 0 ==> parts[r].designation == key
    ensures r >= 0 ==> forall j :: 0 <= j < r ==> parts[j].designation != key
    ensures r == -1 <==> forall j :: 0 <= j < |parts| ==> parts[j].designation != key
  {
    if parts == [] then -1
    else if parts[0].designation == key then 0
    else
      var k := PartIndex(parts[1..], key);
      assert forall j :: 0 < j < |parts| ==> parts[j] == parts[1..][j - 1];
      if k < 0 then -1 else k + 1
  }

  /**
   Adds a row's part to the parts of an entry: merged into the first part whose
   designation is `key`, appended when there is none.
   */
  function MergeRow(parts: seq<CropPart>, key: string, part: CropPart): (r: seq<CropPart>)
    ensures PartIndex(parts, key) >= 0 ==> (|r| == |parts| &&
      r[PartIndex(parts, key)] == MergeInto(parts[PartIndex(parts, key)], part) &&
      forall j :: 0 <= j < |parts| && j != PartIndex(parts, key) ==> r[j] == parts[j])
    ensures PartIndex(parts, key) < 0 ==> r == parts + [part]
    ensures forall k :: 0 <= k < |parts| && parts[k].designation == key && FirstWithKey(parts, k, key) ==>
      r == parts[k := MergeInto(parts[k], part)]
  {
    var k := PartIndex(parts, key);
    if k >= 0 then parts[k := MergeInto(parts[k], part)] else parts + [part]
  }

  /** No part before `k` carries the designation `key`. */
  predicate FirstWithKey(parts: seq<CropPart>, k: int, key: string)
    requires 0 <= k <= |parts|
  {
    forall j :: 0 <= j < k ==> parts[j].designation != key
  }

  /** No two parts share a designation. */
  ghost predicate DistinctParts(parts: seq<CropPart>) {
    forall i, j :: 0 <= i < j < |parts| ==> parts[i].designation != parts[j].designation
  }

  /** Merging under the part's own designation keeps the designations distinct. */
  lemma MergeRowDistinct(parts: seq<CropPart>, part: CropPart)
    requires DistinctParts(parts)
    ensures DistinctParts(MergeRow(parts, part.designation, part))
  {
  }

  /** Merging a row never loses a designation that was already there, and adds its own. */
  lemma MergeRowKeeps(parts: seq<CropPart>, key: string, part: CropPart, d: string)
    ensures (exists j :: 0 <= j < |parts| && parts[j].designation == d) ==>
      exists j :: 0 <= j < |MergeRow(parts, key, part)| && MergeRow(parts, key, part)[j].designation == d
  {
    if exists j :: 0 <= j < |parts| && parts[j].designation == d {
      var j :| 0 <= j < |parts| && parts[j].designation == d;
      assert MergeRow(parts, key, part)[j].designation == d;
    }
  }

  /**
   The entry of the import year after a row: the parts start afresh the first
   time the parcel is touched in this import; the crop is "Mieszana" for more
   than one part; the eco-schemes are the union of the old ones and the row's.
   */
  function RowEntry(existing: HistoryEntry, reset: bool, item: CropItem, key: string): (r: HistoryEntry)
    ensures r.year == existing.year
    ensures r.cropParts == Some(MergeRow(if reset then [] else existing.cropParts.GetOr([]), key, item.part))
    ensures |r.cropParts.value| > 1 ==> r.crop == MixedCrop
    ensures |r.cropParts.value| <= 1 ==> r.crop == item.entry.crop
    ensures forall c :: c in r.appliedEcoSchemes <==> c in existing.appliedEcoSchemes || c in item.entry.appliedEcoSchemes
  {
    var parts := MergeRow(if reset then [] else existing.cropParts.GetOr([]), key, item.part);
    existing.(cropParts := Some(parts),
      crop := if |parts| > 1 then MixedCrop else item.entry.crop,
      appliedEcoSchemes := Dedup(existing.appliedEcoSchemes + item.entry.appliedEcoSchemes))
  }

  /** The parcels during a crop import, and the ids of the parcels touched so far. */
  datatype CropState = CropState(fields: seq<Field>, touched: set<string>)

  /** A parcel created from a crop row, when no parcel matches. */
  function CropParcel(item: CropItem, id: string): (r: Field)
    ensures r.id == id && r.registrationNumber == Some(item.reg)
    ensures r.name == OrStr(item.name, ParcelPrefix + item.reg)
    ensures r.area == item.part.area && r.eligibleArea == item.part.area
    ensures r.crop == if item.entry.year == PlanYear then item.entry.crop else UnknownCrop
    ensures r.history == [item.entry.(cropParts := Some([item.part]))]
  {
    Field(id, OrStr(item.name, ParcelPrefix + item.reg), Some(item.reg), item.part.area, item.part.area,
      if item.entry.year == PlanYear then item.entry.crop else UnknownCrop,
      [item.entry.(cropParts := Some([item.part]))], None, None, None, None, None, None)
  }

  /**
   The parcel's crop after a row: in the plan year, or when no other year is
   newer, "Mieszana" as soon as the newest entry has any part, else the row's
   crop; otherwise unchanged.
   */
  function ParcelCrop(f: Field, history: seq<HistoryEntry>, item: CropItem): (r: string)
    requires history != []
    ensures ((item.entry.year == PlanYear || item.entry.year >= history[0].year) &&
      history[0].cropParts.Some? && history[0].cropParts.value != []) ==> r == MixedCrop
    ensures ((item.entry.year == PlanYear || item.entry.year >= history[0].year) &&
      !(history[0].cropParts.Some? && history[0].cropParts.value != [])) ==> r == item.entry.crop
    ensures !(item.entry.year == PlanYear || item.entry.year >= history[0].year) ==> r == f.crop
  {
    if item.entry.year == PlanYear || item.entry.year >= history[0].year then
      if history[0].cropParts.Some? && history[0].cropParts.value != [] then MixedCrop else item.entry.crop
    else f.crop
  }

  /** Applies a crop row to a matched parcel. */
  function UpdateCropParcel(f: Field, touched: bool, item: CropItem, key: string): (r: Field)
    ensures r.id == f.id && r.name == f.name && r.registrationNumber == f.registrationNumber
    ensures r.area == f.area && r.eligibleArea == f.eligibleArea
    ensures NewestFirst(r.history) && HasYear(r.history, item.entry.year)
  {
    var year := item.entry.year;
    var added := item.entry.(cropParts := Some([item.part]));
    var update := (e: HistoryEntry) => RowEntry(e, !touched, item, key);
    var h := PutYearSorted(f.history, year, update, added);
    PutYearSortedOthers(f.history, year, update, added, added.(year := year + 1));
    f.(history := h, crop := ParcelCrop(f, h, item))
  }

  /** The parcels a crop row belongs to. */
  function MatchesItem(item: CropItem): Field -> bool {
    (f: Field) => CropMatches(f, item)
  }

  /**
   One crop row, with the parcel match, the part key and the treatment of a
   newly created parcel as parameters: `matches` says which parcels the row
   belongs to, `key` is the designation parts are matched on, and `markNew`
   says whether a parcel created here counts as touched.
   */
  function ApplyCropStep(st: CropState, item: CropItem, newId: string, matches: Field -> bool, key: string,
                         markNew: bool): (r: CropState)
    ensures (exists j :: 0 <= j < |st.fields| && matches(st.fields[j])) ==>
      (exists k :: 0 <= k < |st.fields| && matches(st.fields[k]) &&
        (forall j :: 0 <= j < k ==> !matches(st.fields[j])) &&
        r.fields == st.fields[k := UpdateCropParcel(st.fields[k], st.fields[k].id in st.touched, item, key)] &&
        r.touched == st.touched + {st.fields[k].id})
    ensures (forall j :: 0 <= j < |st.fields| ==> !matches(st.fields[j])) ==>
      r.fields == st.fields + [CropParcel(item, newId)] &&
      r.touched == if markNew then st.touched + {newId} else st.touched
  {
    var k := FindIndex(st.fields, matches);
    if k >= 0 then
      var f := st.fields[k];
      CropState(st.fields[k := UpdateCropParcel(f, f.id in st.touched, item, key)], st.touched + {f.id})
    else
      CropState(st.fields + [CropParcel(item, newId)], if markNew then st.touched + {newId} else st.touched)
  }

  /**
   A crop row as the import applies it: parts are matched on the raw
   designation cell, and a parcel created from a row is not marked as touched.
   */
  function ApplyCropAsWritten(st: CropState, item: CropItem, newId: string): (r: CropState)
    ensures |r.fields| == |st.fields| || r.fields == st.fields + [CropParcel(item, newId)]
    ensures forall j :: 0 <= j < |st.fields| ==> r.fields[j].id == st.fields[j].id
    ensures r.touched >= st.touched
  {
    ApplyCropStep(st, item, newId, MatchesItem(item), item.designation, false)
  }

  /**
   A crop row as evidently intended: parts are matched on the designation they
   are stored under ("A" for a blank cell), and a parcel created from a row is
   touched, so later rows of the same import add to its parts.
   */
  function ApplyCrop(st: CropState, item: CropItem, newId: string): (r: CropState)
    ensures |r.fields| == |st.fields| || r.fields == st.fields + [CropParcel(item, newId)]
    ensures forall j :: 0 <= j < |st.fields| ==> r.fields[j].id == st.fields[j].id
    ensures r.touched >= st.touched
  {
    ApplyCropStep(st, item, newId, MatchesItem(item), item.part.designation, true)
  }

  /**
   The crop rows applied in order, as the import does it; `ids` supplies the id
   of each newly created parcel.
   */
  function ApplyCrops(st: CropState, items: seq<CropItem>, ids: nat -> string): (r: CropState)
    ensures |st.fields| <= |r.fields| <= |st.fields| + |items|
    ensures forall j :: 0 <= j < |st.fields| ==> r.fields[j].id == st.fields[j].id
  {
    if items == [] then st
    else
      var n := |items| - 1;
      ApplyCropAsWritten(ApplyCrops(st, items[..n], ids), items[n], ids(n))
  }

  /** The crop rows applied in order with the intended step. */
  function ApplyCropsIntended(st: CropState, items: seq<CropItem>, ids: nat -> string): (r: CropState)
    ensures |st.fields| <= |r.fields| <= |st.fields| + |items|
    ensures forall j :: 0 <= j < |st.fields| ==> r.fields[j].id == st.fields[j].id
  {
    if items == [] then st
    else
      var n := |items| - 1;
      ApplyCrop(ApplyCropsIntended(st, items[..n], ids), items[n], ids(n))
  }

  /**
   Every parcel is either one the import started from or one it has touched:
   so resetting the parts of an untouched parcel only ever discards parts that
   were there before the import.
   */
  ghost predicate TouchedCover(orig: seq<Field>, st: CropState) {
    forall j :: 0 <= j < |st.fields| ==> st.fields[j].id in st.touched || st.fields[j] in orig
  }

  lemma ApplyCropCover(orig: seq<Field>, st: CropState, item: CropItem, newId: string)
    requires TouchedCover(orig, st)
    ensures TouchedCover(orig, ApplyCrop(st, item, newId))
  {
    var r := ApplyCrop(st, item, newId);
    var m := MatchesItem(item);
    if exists j :: 0 <= j < |st.fields| && m(st.fields[j]) {
      var k :| 0 <= k < |st.fields| && m(st.fields[k]) &&
        r.fields == st.fields[k := UpdateCropParcel(st.fields[k], st.fields[k].id in st.touched, item, item.part.designation)] &&
        r.touched == st.touched + {st.fields[k].id};
      forall j | 0 <= j < |r.fields| ensures r.fields[j].id in r.touched || r.fields[j] in orig {
        if j != k {
          assert r.fields[j] == st.fields[j];
        }
      }
    } else {
      forall j | 0 <= j < |r.fields| ensures r.fields[j].id in r.touched || r.fields[j] in orig {
        if j < |st.fields| {
          assert r.fields[j] == st.fields[j];
        }
      }
    }
  }

  lemma {:induction false} ApplyCropsCover(st: CropState, items: seq<CropItem>, ids: nat -> string)
    ensures TouchedCover(st.fields, ApplyCropsIntended(st, items, ids))
  {
    if items == [] {
      assert forall j :: 0 <= j < |st.fields| ==> st.fields[j] in st.fields;
    } else {
      var n := |items| - 1;
      ApplyCropsCover(st, items[..n], ids);
      ApplyCropCover(st.fields, ApplyCropsIntended(st, items[..n], ids), items[n], ids(n));
    }
  }

  /**
   Two rows with blank designations for the same entry, applied as written:
   the second is not matched against the "A" part stored for the first, so the
   entry ends with two parts both called "A" (and the crop "Mieszana").
   */
  lemma BlankDesignationDuplicates(e: HistoryEntry, x: CropItem, y: CropItem)
    requires x.designation == [] && y.designation == []
    requires x.part.designation == DefaultDesignation && y.part.designation == DefaultDesignation
    ensures var e1 := RowEntry(e, true, x, x.designation);
      var e2 := RowEntry(e1, false, y, y.designation);
      e2.cropParts == Some([x.part, y.part]) && !DistinctParts(e2.cropParts.value) && e2.crop == MixedCrop
  {
    var e1 := RowEntry(e, true, x, x.designation);
    assert PartIndex([], x.designation) == -1;
    assert MergeRow([], x.designation, x.part) == [x.part];
    assert PartIndex([x.part], y.designation) == -1;
    assert MergeRow([x.part], y.designation, y.part) == [x.part, y.part];
    var ps := [x.part, y.part];
    assert ps[0].designation == ps[1].designation;
  }

  /** The same two rows applied as intended end in one part "A" holding both areas. */
  lemma BlankDesignationMerged(e: HistoryEntry, x: CropItem, y: CropItem)
    requires x.part.designation == DefaultDesignation && y.part.designation == DefaultDesignation
    ensures var e1 := RowEntry(e, true, x, x.part.designation);
      var e2 := RowEntry(e1, false, y, y.part.designation);
      e2.cropParts == Some([MergeInto(x.part, y.part)]) && e2.cropParts.value[0].area == x.part.area + y.part.area
  {
    var e1 := RowEntry(e, true, x, x.part.designation);
    assert PartIndex([], x.part.designation) == -1;
    assert MergeRow([], x.part.designation, x.part) == [x.part];
    assert PartIndex([x.part], y.part.designation) == 0;
    assert MergeRow([x.part], y.part.designation, y.part) == [MergeInto(x.part, y.part)];
  }

  /** Applied as intended, an entry's parts keep distinct designations. */
  lemma RowEntryDistinct(e: HistoryEntry, reset: bool, item: CropItem)
    requires DistinctParts(e.cropParts.GetOr([]))
    ensures DistinctParts(RowEntry(e, reset, item, item.part.designation).cropParts.value)
  {
    MergeRowDistinct(if reset then [] else e.cropParts.GetOr([]), item.part);
  }

  /** Sorting a one-entry history leaves it as it is. */
  lemma SortSingle(e: HistoryEntry)
    ensures SortHistory([e]) == [e]
  {
    var r := SortHistory([e]);
    assert |r| == |multiset(r)| == 1;
    assert r[0] in multiset(r);
  }

  /** A row applied to no parcels creates one. */
  lemma FirstRowCreates(x: CropItem, id0: string, key: string, markNew: bool)
    ensures ApplyCropStep(CropState([], {}), x, id0, MatchesItem(x), key, markNew) ==
      CropState([CropParcel(x, id0)], if markNew then {id0} else {})
  {
  }

  /** A row naming no parcel matches the parcel created from an earlier row with the same number. */
  lemma SameRegMatches(x: CropItem, y: CropItem, id0: string)
    requires y.name == [] && x.reg == y.reg && x.reg != []
    ensures CropMatches(CropParcel(x, id0), y)
  {
    assert SameReg(Some(x.reg), y.reg);
  }

  /** The second row on a one-parcel state updates that parcel. */
  lemma SecondRowUpdates(f: Field, touched: set<string>, y: CropItem, id1: string, key: string, markNew: bool)
    requires CropMatches(f, y)
    ensures ApplyCropStep(CropState([f], touched), y, id1, MatchesItem(y), key, markNew).fields ==
      [UpdateCropParcel(f, f.id in touched, y, key)]
  {
    assert MatchesItem(y)(f);
  }

  /** The update of a one-entry history for the same year rewrites that entry. */
  lemma UpdateSingleEntry(f: Field, touched: bool, y: CropItem, key: string)
    requires |f.history| == 1 && f.history[0].year == y.entry.year
    ensures UpdateCropParcel(f, touched, y, key).history == [RowEntry(f.history[0], !touched, y, key)]
  {
    var h0 := f.history;
    var e1 := RowEntry(h0[0], !touched, y, key);
    assert YearIndex(h0, y.entry.year) == 0;
    assert PutYear(h0, y.entry.year, (e: HistoryEntry) => RowEntry(e, !touched, y, key),
      y.entry.(cropParts := Some([y.part]))) == [e1];
    SortSingle(e1);
  }

  /**
   A parcel the import creates from a crop row, followed by a second row for
   the same parcel and year: applied as written, the parcel was never marked
   touched, so the second row resets its parts and the first row's part is lost.
   */
  lemma NewParcelLosesPart(x: CropItem, y: CropItem, id0: string, id1: string)
    requires x.name == [] && y.name == [] && x.reg == y.reg && x.reg != []
    requires x.entry.year == y.entry.year
    ensures var st := ApplyCropAsWritten(ApplyCropAsWritten(CropState([], {}), x, id0), y, id1);
      |st.fields| == 1 && |st.fields[0].history| == 1 && st.fields[0].history[0].cropParts == Some([y.part])
  {
    var f1 := CropParcel(x, id0);
    FirstRowCreates(x, id0, x.designation, false);
    SameRegMatches(x, y, id0);
    SecondRowUpdates(f1, {}, y, id1, y.designation, false);
    UpdateSingleEntry(f1, false, y, y.designation);
    assert PartIndex([], y.designation) == -1;
    assert MergeRow([], y.designation, y.part) == [y.part];
  }

  /** The same two rows applied as intended keep both parts. */
  lemma NewParcelKeepsParts(x: CropItem, y: CropItem, id0: string, id1: string)
    requires x.name == [] && y.name == [] && x.reg == y.reg && x.reg != []
    requires x.entry.year == y.entry.year
    requires x.part.designation != y.part.designation
    ensures var st := ApplyCrop(ApplyCrop(CropState([], {}), x, id0), y, id1);
      |st.fields| == 1 && |st.fields[0].history| == 1 && st.fields[0].history[0].cropParts == Some([x.part, y.part])
  {
    var f1 := CropParcel(x, id0);
    FirstRowCreates(x, id0, x.part.designation, true);
    SameRegMatches(x, y, id0);
    SecondRowUpdates(f1, {id0}, y, id1, y.part.designation, true);
    UpdateSingleEntry(f1, true, y, y.part.designation);
    MergeNewKey(x.part, y.part);
  }

  /** A part under a new designation is appended after the existing one. */
  lemma MergeNewKey(p: CropPart, q: CropPart)
    requires p.designation != q.designation
    ensures MergeRow([p], q.designation, q) == [p, q]
  {
    assert PartIndex([p], q.designation) == -1;
  }

  // ----- Import: the whole file -----

  /** Why an import is refused before any parcel changes. */
  datatype ImportError = Unreadable(reason: ReadError) | MissingColumns(headers: seq<string>)

  /** Rows applied, rows skipped, and whether the check afterwards found validation issues. */
  datatype ImportReport = ImportReport(success: nat, skipped: nat, warned: bool)

  /** The parcels after an import, its report, and the year the screen switches to. */
  datatype Imported = Imported(fields: seq<Field>, report: ImportReport, selectedYear: int)

  /** `hist?.area || f.area` summed over the parcels: the area the check afterwards assumes. */
  function ImportTotalArea(fields: seq<Field>, year: int): real {
    if fields == [] then 0.0
    else
      var f := fields[0];
      var h := FindYear(f.history, year);
      OptOr(if h.Some? then h.value.area else None, f.area) + ImportTotalArea(fields[1..], year)
  }

  /**
   `handleFileUpload` after the file is read: refuse an empty file, a file
   without data rows, or a header lacking a required column; otherwise apply the
   rows of the template's kind for the import year, run the farm analysis on
   the result, and switch the screen to the import year.
   */
  function ImportFile(text: string, template: CsvTemplate, selectedYear: int, fields: seq<Field>,
                      parse: string -> Option<real>, ids: nat -> string,
                      rates: seq<SubsidyRate>): (r: Result<Imported, ImportError>)
    ensures ReadSheet(text, template.separator).Err? <==> r.Err? && r.error.Unreadable?
    ensures r.Err? && r.error.Unreadable? ==> r.error.reason == ReadSheet(text, template.separator).error
    ensures ReadSheet(text, template.separator).Ok? ==>
      var sheet := ReadSheet(text, template.separator).value;
      (r.Err? <==> MissingRequired(template.mappings, sheet.header, template.kind) != []) &&
      (r.Err? ==> r.error == MissingColumns(MissingRequired(template.mappings, sheet.header, template.kind)))
    ensures r.Ok? ==> r.value.selectedYear == ImportYear(template, selectedYear)
    ensures r.Ok? ==> (r.value.report.warned <==>
      FarmLogic.IssuesOf(r.value.fields, ImportYear(template, selectedYear), rates) != [])
    ensures r.Ok? ==> |fields| <= |r.value.fields|
    ensures r.Ok? ==> forall j :: 0 <= j < |fields| ==> r.value.fields[j].id == fields[j].id
  {
    match ReadSheet(text, template.separator)
    case Err(e) => Err(Unreadable(e))
    case Ok(sheet) =>
      var missing := MissingRequired(template.mappings, sheet.header, template.kind);
      if missing != [] then Err(MissingColumns(missing))
      else
        var columns := ColumnMap(template.mappings, sheet.header);
        var year := ImportYear(template, selectedYear);
        var (newFields, success, skipped) :=
          match template.kind
          case Parcels =>
            var b := ParcelRows(sheet.rows, columns, parse);
            (ApplyParcels(fields, b.items, year, ids), |b.items|, b.skipped)
          case Crops =>
            var b := CropRows(sheet.rows, columns, year, parse);
            (ApplyCrops(CropState(fields, {}), b.items, ids).fields, |b.items|, b.skipped);
        var farm := Farm("Temp", "Temp", ImportTotalArea(newFields, year), newFields);
        var warned := |FarmLogic.Analyze(farm, year, rates).validationIssues| > 0;
        Ok(Imported(newFields, ImportReport(success, skipped, warned), year))
  }

  /**
   An accepted import applies the rows the file holds: parcel rows are read and
   batched, then applied for the import year; crop rows are read for the import
   year and applied in order, as the import does it. The report counts the
   applied rows and the skipped ones.
   */
  lemma ImportFileApplies(text: string, template: CsvTemplate, selectedYear: int, fields: seq<Field>,
                          parse: string -> Option<real>, ids: nat -> string, rates: seq<SubsidyRate>)
    requires ImportFile(text, template, selectedYear, fields, parse, ids, rates).Ok?
    ensures var r := ImportFile(text, template, selectedYear, fields, parse, ids, rates).value;
      var sheet := ReadSheet(text, template.separator).value;
      var columns := ColumnMap(template.mappings, sheet.header);
      var year := ImportYear(template, selectedYear);
      (template.kind == Parcels ==>
        var b := ParcelRows(sheet.rows, columns, parse);
        r.fields == ApplyParcels(fields, b.items, year, ids) && r.report.success == |b.items| &&
        r.report.skipped == b.skipped) &&
      (template.kind == Crops ==>
        var b := CropRows(sheet.rows, columns, year, parse);
        r.fields == ApplyCrops(CropState(fields, {}), b.items, ids).fields && r.report.success == |b.items| &&
        r.report.skipped == b.skipped)
  {
  }
}

=== FILE: hierarchy.dfy ===
/**
 The campaign hierarchy: a tree rooted at the campaign of one farm and one
 year, with the application-document check, one node per commune, the
 parcels declared that year under their commune, their crop parts, and the
 eco-schemes applied to each part. Every level carries its own status rule.
 */
module Hierarchy {
  import opened Wrappers
  import opened Seqs
  import opened Text
  import opened FarmTypes

  /** The commune a parcel without one is filed under. */
  const Unassigned := "Nieprzypisane"

  datatype NodeKind = FarmRoot | FinancialResult | CommuneNode | ParcelRef | AgriParcel | EcoScheme

  datatype NodeStatus = Valid | Warning | Error

  datatype HNode = HNode(id: string, kind: NodeKind, status: NodeStatus, children: seq<string>)

  datatype Tree = Tree(nodes: seq<HNode>, rootId: string)

  // ----- Ids -----

  function CampaignId(year: int, producerId: string): string {
    "camp_" + IntToString(year) + "_" + producerId
  }

  function DocNodeId(cid: string): string {
    "doc_" + cid
  }

  /** `s.replace(/\s/g, '_')`. */
  function Underscored(s: string): (r: string)
    ensures |r| == |s|
    ensures forall i :: 0 <= i < |s| ==> r[i] == if IsSpace(s[i]) then '_' else s[i]
  {
    if s == [] then [] else [if IsSpace(s[0]) then '_' else s[0]] + Underscored(s[1..])
  }

  function CommuneId(name: string, cid: string): string {
    "commune_" + Underscored(name) + "_" + cid
  }

  function ParcelId(fieldId: string, cid: string): string {
    "parcel_ref_" + fieldId + "_" + cid
  }

  function AgriId(fieldId: string, idx: nat, cid: string): string {
    "agri_" + fieldId + "_" + NatToString(idx) + "_" + cid
  }

  function SchemeId(agriId: string, code: string): string {
    "scheme_" + agriId + "_" + code
  }

  // ----- Closure of the child lists -----

  function Ids(ns: seq<HNode>): set<string> {
    set n | n in ns :: n.id
  }

  /** Every id listed as a child is the id of a node of `ns`. */
  ghost predicate Closed(ns: seq<HNode>) {
    forall i :: 0 <= i < |ns| ==> forall c :: c in ns[i].children ==> c in Ids(ns)
  }

  lemma ClosedAppend(a: seq<HNode>, b: seq<HNode>)
    requires Closed(a) && Closed(b)
    ensures Closed(a + b) && Ids(a + b) == Ids(a) + Ids(b)
  {
    assert Ids(a + b) == Ids(a) + Ids(b) by {
      forall x | x in Ids(a + b) ensures x in Ids(a) + Ids(b) {
        var n :| n in a + b && n.id == x;
      }
    }
    forall i | 0 <= i < |a + b| ensures forall c :: c in (a + b)[i].children ==> c in Ids(a + b) {
      if i < |a| {
        assert (a + b)[i] == a[i];
      } else {
        assert (a + b)[i] == b[i - |a|];
      }
    }
  }

  /** A node on top of a closed forest holding its children is closed. */
  lemma ClosedCons(n: HNode, rest: seq<HNode>)
    requires Closed(rest)
    requires forall c :: c in n.children ==> c in Ids(rest)
    ensures Closed([n] + rest) && Ids([n] + rest) == {n.id} + Ids(rest)
  {
    var r := [n] + rest;
    assert Ids(r) == {n.id} + Ids(rest) by {
      forall x | x in Ids(r) ensures x in {n.id} + Ids(rest) {
        var m :| m in r && m.id == x;
      }
      assert r[0] == n;
      forall x | x in Ids(rest) ensures x in Ids(r) {
        var m :| m in rest && m.id == x;
        assert m in r;
      }
    }
    forall i | 0 <= i < |r| ensures forall c :: c in r[i].children ==> c in Ids(r) {
      if i > 0 {
        assert r[i] == rest[i - 1];
      }
    }
  }

  // ----- Schemes -----

  /** `rates.find(r => r.shortName === code && r.year === year)`. */
  function RateFor(rates: seq<SubsidyRate>, code: string, year: int): (r: Option<SubsidyRate>)
    ensures r.Some? <==> exists i :: 0 <= i < |rates| && rates[i].shortName == Some(code) && rates[i].year == year
  {
    Find(rates, (rt: SubsidyRate) => rt.shortName == Some(code) && rt.year == year)
  }

  /** A scheme leaf is valid when a rate of that short name exists for the year, an error otherwise. */
  function SchemeNode(agriId: string, code: string, rates: seq<SubsidyRate>, year: int): (r: HNode)
    ensures r.id == SchemeId(agriId, code) && r.kind == EcoScheme && r.children == []
    ensures r.status == Valid <==> exists i :: 0 <= i < |rates| && rates[i].shortName == Some(code) && rates[i].year == year
    ensures r.status != Warning
  {
    HNode(SchemeId(agriId, code), EcoScheme, if RateFor(rates, code, year).Some? then Valid else Error, [])
  }

  function SchemeNodes(agriId: string, codes: seq<string>, rates: seq<SubsidyRate>, year: int): (r: seq<HNode>)
    ensures Closed(r)
    ensures forall k :: 0 <= k < |codes| ==> SchemeId(agriId, codes[k]) in Ids(r)
  {
    if codes == [] then []
    else
      var rest := SchemeNodes(agriId, codes[1..], rates, year);
      var n := SchemeNode(agriId, codes[0], rates, year);
      ClosedCons(n, rest);
      assert forall k :: 0 < k < |codes| ==> codes[k] == codes[1..][k - 1];
      [n] + rest
  }

  function AgriTree(fieldId: string, part: CropPart, idx: nat, cid: string, rates: seq<SubsidyRate>, year: int): (r: seq<HNode>)
    ensures Closed(r) && r != [] && r[0].id == AgriId(fieldId, idx, cid)
    ensures r[0].kind == AgriParcel && r[0].status == Valid
    ensures r[0].children == Map(part.ecoSchemes, (c: string) => SchemeId(AgriId(fieldId, idx, cid), c))
  {
    var aid := AgriId(fieldId, idx, cid);
    var schemes := SchemeNodes(aid, part.ecoSchemes, rates, year);
    var n := HNode(aid, AgriParcel, Valid, Map(part.ecoSchemes, (c: string) => SchemeId(aid, c)));
    ClosedCons(n, schemes);
    [n] + schemes
  }

  /** The part trees of one parcel, numbered from `idx`. */
  function AgriForest(fieldId: string, parts: seq<CropPart>, idx: nat, cid: string, rates: seq<SubsidyRate>,
                      year: int): (r: seq<HNode>)
    ensures Closed(r)
    ensures forall x :: x in AgriIds(fieldId, idx, |parts|, cid) ==> x in Ids(r)
  {
    if parts == [] then []
    else
      var t := AgriTree(fieldId, parts[0], idx, cid, rates, year);
      var rest := AgriForest(fieldId, parts[1..], idx + 1, cid, rates, year);
      ClosedAppend(t, rest);
      assert t[0] in t;
      AgriIdsCons(fieldId, idx, |parts|, cid);
      t + rest
  }

  /** The ids of `n` parts numbered from `idx`. */
  function AgriIds(fieldId: string, idx: nat, n: nat, cid: string): (r: seq<string>)
    ensures |r| == n && forall k :: 0 <= k < n ==> r[k] == AgriId(fieldId, idx + k, cid)
  {
    seq(n, (k: int) requires 0 <= k < n => AgriId(fieldId, idx + k, cid))
  }

  lemma AgriIdsCons(fieldId: string, idx: nat, n: nat, cid: string)
    requires n > 0
    ensures forall x :: x in AgriIds(fieldId, idx, n, cid) ==>
      x == AgriId(fieldId, idx, cid) || x in AgriIds(fieldId, idx + 1, n - 1, cid)
  {
    var a := AgriIds(fieldId, idx, n, cid);
    var b := AgriIds(fieldId, idx + 1, n - 1, cid);
    forall x | x in a ensures x == AgriId(fieldId, idx, cid) || x in b {
      var k :| 0 <= k < n && a[k] == x;
      if k > 0 {
        assert idx + 1 + (k - 1) == idx + k;
        assert b[k - 1] == x;
      }
    }
  }

  // ----- Parcels -----

  /** A parcel is valid when its entry for the year declares a positive eligible area, a warning otherwise. */
  function ParcelStatus(hist: HistoryEntry): (r: NodeStatus)
    ensures r == Valid <==> hist.eligibleArea.Some? && hist.eligibleArea.value > 0.0
    ensures r != Error
  {
    if OptOr(hist.eligibleArea, 0.0) > 0.0 then Valid else Warning
  }

  function ParcelTree(field: Field, hist: HistoryEntry, cid: string, rates: seq<SubsidyRate>, year: int): (r: seq<HNode>)
    ensures Closed(r) && r != [] && r[0].id == ParcelId(field.id, cid)
    ensures r[0].kind == ParcelRef && r[0].status == ParcelStatus(hist)
    ensures r[0].children == AgriIds(field.id, 0, |PartsOf(field, hist)|, cid)
  {
    var parts := PartsOf(field, hist);
    var forest := AgriForest(field.id, parts, 0, cid, rates, year);
    var n := HNode(ParcelId(field.id, cid), ParcelRef, ParcelStatus(hist), AgriIds(field.id, 0, |parts|, cid));
    ClosedCons(n, forest);
    [n] + forest
  }

  /** The fields of a commune that have an entry for the year: the ones that get a parcel node. */
  predicate Declared(f: Field, year: int) {
    FindYear(f.history, year).Some?
  }

  function ParcelIds(fields: seq<Field>, cid: string, year: int): (r: seq<string>)
    ensures forall x :: x in r <==> exists i :: 0 <= i < |fields| && Declared(fields[i], year) && x == ParcelId(fields[i].id, cid)
  {
    if fields == [] then []
    else
      var rest := ParcelIds(fields[1..], cid, year);
      assert forall i :: 0 < i < |fields| ==> fields[i] == fields[1..][i - 1];
      (if Declared(fields[0], year) then [ParcelId(fields[0].id, cid)] else []) + rest
  }

  /** The parcel trees of the declared fields among `fields`, in order; the others are skipped. */
  function ParcelForest(fields: seq<Field>, cid: string, rates: seq<SubsidyRate>, year: int): (r: seq<HNode>)
    ensures Closed(r)
    ensures forall x :: x in ParcelIds(fields, cid, year) ==> x in Ids(r)
  {
    if fields == [] then []
    else
      var rest := ParcelForest(fields[1..], cid, rates, year);
      var hist := FindYear(fields[0].history, year);
      if hist.None? then rest
      else
        var t := ParcelTree(fields[0], hist.value, cid, rates, year);
        ClosedAppend(t, rest);
        assert t[0] in t;
        t + rest
  }

  // ----- Communes -----

  function CommuneOf(f: Field): string {
    OptOrStr(f.commune, Unassigned)
  }

  /** The distinct communes of the fields, in order of first appearance. */
  function Communes(fields: seq<Field>): (r: seq<string>)
    ensures forall c :: c in r <==> exists i :: 0 <= i < |fields| && CommuneOf(fields[i]) == c
    ensures forall i, j :: 0 <= i < j < |r| ==> r[i] != r[j]
  {
    var all := Map(fields, CommuneOf);
    assert forall c :: c in all <==> exists i :: 0 <= i < |fields| && CommuneOf(fields[i]) == c by {
      forall c | c in all ensures exists i :: 0 <= i < |fields| && CommuneOf(fields[i]) == c {
        var i :| 0 <= i < |all| && all[i] == c;
      }
    }
    Dedup(all)
  }

  /** The communes are listed in the order their first field appears. */
  lemma CommunesOrder(fields: seq<Field>)
    ensures var all := Map(fields, CommuneOf); var r := Communes(fields);
      forall i, j :: 0 <= i < j < |r| ==> Position(all, r[i]) < Position(all, r[j])
  {
    var all := Map(fields, CommuneOf);
    assert Communes(fields) == Dedup(all);
    DedupOrder(all);
  }

  function InCommune(fields: seq<Field>, name: string): (r: seq<Field>)
    ensures forall f :: f in r <==> f in fields && CommuneOf(f) == name
  {
    Filter(fields, (f: Field) => CommuneOf(f) == name)
  }

  function CommuneTree(name: string, fields: seq<Field>, cid: string, rates: seq<SubsidyRate>, year: int): (r: seq<HNode>)
    ensures Closed(r) && r != [] && r[0].id == CommuneId(name, cid)
    ensures r[0].kind == CommuneNode && r[0].status == Valid
    ensures r[0].children == ParcelIds(InCommune(fields, name), cid, year)
  {
    var members := InCommune(fields, name);
    var forest := ParcelForest(members, cid, rates, year);
    var n := HNode(CommuneId(name, cid), CommuneNode, Valid, ParcelIds(members, cid, year));
    ClosedCons(n, forest);
    [n] + forest
  }

  function CommuneForest(names: seq<string>, fields: seq<Field>, cid: string, rates: seq<SubsidyRate>, year: int): (r: seq<HNode>)
    ensures Closed(r)
    ensures forall k :: 0 <= k < |names| ==> CommuneId(names[k], cid) in Ids(r)
  {
    if names == [] then []
    else
      var t := CommuneTree(names[0], fields, cid, rates, year);
      var rest := CommuneForest(names[1..], fields, cid, rates, year);
      ClosedAppend(t, rest);
      assert forall k :: 0 < k < |names| ==> names[k] == names[1..][k - 1];
      assert t[0] in t;
      t + rest
  }

  // ----- The whole tree -----

  /** The application document of the campaign: the first of the year with the application category. */
  function Application(documents: seq<Document>, year: int): (r: Option<Document>)
    ensures r.Some? <==> exists i :: (0 <= i < |documents| && documents[i].campaignYear == IntToString(year) &&
      documents[i].category == Wniosek)
  {
    Find(documents, (d: Document) => d.campaignYear == IntToString(year) && d.category == Wniosek)
  }

  /**
   `extractHierarchy(farm, year, documents, rates)`: the root, the document
   node as its first child, then one commune tree per distinct commune.
   */
  function Extract(farm: Farm, year: int, documents: seq<Document>, rates: seq<SubsidyRate>): (r: Tree)
    ensures r.rootId == CampaignId(year, farm.producerId)
    ensures |r.nodes| >= 2 && r.nodes[0].id == r.rootId && r.nodes[0].kind == FarmRoot && r.nodes[0].status == Valid
    ensures r.nodes[0].children == [DocNodeId(r.rootId)] + Map(Communes(farm.fields), (n: string) => CommuneId(n, r.rootId))
    ensures r.nodes[1].id == DocNodeId(r.rootId) && r.nodes[1].kind == FinancialResult
    ensures r.nodes[1].status == Valid <==> exists i :: (0 <= i < |documents| &&
      documents[i].campaignYear == IntToString(year) && documents[i].category == Wniosek)
    ensures r.nodes[1].status != Valid ==> r.nodes[1].status == Error
  {
    var cid := CampaignId(year, farm.producerId);
    var forest := CommuneForest(Communes(farm.fields), farm.fields, cid, rates, year);
    Tree([RootNode(cid, farm.fields)] + ([DocNode(cid, documents, year)] + forest), cid)
  }

  function RootNode(cid: string, fields: seq<Field>): HNode {
    HNode(cid, FarmRoot, Valid, [DocNodeId(cid)] + Map(Communes(fields), (n: string) => CommuneId(n, cid)))
  }

  function DocNode(cid: string, documents: seq<Document>, year: int): HNode {
    HNode(DocNodeId(cid), FinancialResult, if Application(documents, year).Some? then Valid else Error, [])
  }

  /** Every id in a child list of the tree is the id of one of its nodes. */
  lemma ExtractClosed(farm: Farm, year: int, documents: seq<Document>, rates: seq<SubsidyRate>)
    ensures Closed(Extract(farm, year, documents, rates).nodes)
  {
    var cid := CampaignId(year, farm.producerId);
    var forest := CommuneForest(Communes(farm.fields), farm.fields, cid, rates, year);
    var doc := DocNode(cid, documents, year);
    TreeClosed(RootNode(cid, farm.fields), doc, forest, Communes(farm.fields), cid);
  }

  lemma TreeClosed(root: HNode, doc: HNode, forest: seq<HNode>, communes: seq<string>, cid: string)
    requires Closed(forest) && doc.children == []
    requires doc.id == DocNodeId(cid)
    requires root.children == [DocNodeId(cid)] + Map(communes, (n: string) => CommuneId(n, cid))
    requires forall k :: 0 <= k < |communes| ==> CommuneId(communes[k], cid) in Ids(forest)
    ensures Closed([root] + ([doc] + forest))
  {
    ClosedCons(doc, forest);
    RootChildrenListed(communes, cid, doc, forest);
    ClosedCons(root, [doc] + forest);
  }

  lemma RootChildrenListed(communes: seq<string>, cid: string, doc: HNode, forest: seq<HNode>)
    requires doc.id == DocNodeId(cid)
    requires forall k :: 0 <= k < |communes| ==> CommuneId(communes[k], cid) in Ids(forest)
    requires Ids([doc] + forest) == {doc.id} + Ids(forest)
    ensures forall c :: c in [DocNodeId(cid)] + Map(communes, (n: string) => CommuneId(n, cid)) ==> c in Ids([doc] + forest)
  {
    var kids := [DocNodeId(cid)] + Map(communes, (n: string) => CommuneId(n, cid));
    forall c | c in kids ensures c in Ids([doc] + forest) {
      var k :| 0 <= k < |kids| && kids[k] == c;
      if k > 0 {
        assert c == CommuneId(communes[k - 1], cid);
      }
    }
  }

  /**
   A field gets a parcel node under a commune exactly when the commune is its
   own and it has an entry for the year.
   */
  lemma ParcelUnderCommune(fields: seq<Field>, name: string, cid: string, rates: seq<SubsidyRate>, year: int, f: Field)
    requires f in fields
    ensures var kids := CommuneTree(name, fields, cid, rates, year)[0].children;
      CommuneOf(f) == name && Declared(f, year) ==> ParcelId(f.id, cid) in kids
    ensures var kids := CommuneTree(name, fields, cid, rates, year)[0].children;
      ParcelId(f.id, cid) in kids ==> exists g :: g in fields && g.id == f.id && CommuneOf(g) == name && Declared(g, year)
  {
    var members := InCommune(fields, name);
    var kids := CommuneTree(name, fields, cid, rates, year)[0].children;
    if CommuneOf(f) == name && Declared(f, year) {
      assert f in members;
      var i :| 0 <= i < |members| && members[i] == f;
    }
    if ParcelId(f.id, cid) in kids {
      var i :| 0 <= i < |members| && Declared(members[i], year) && ParcelId(f.id, cid) == ParcelId(members[i].id, cid);
      ParcelIdInjective(f.id, members[i].id, cid);
      assert members[i] in members;
    }
  }

  lemma ParcelIdInjective(a: string, b: string, cid: string)
    requires ParcelId(a, cid) == ParcelId(b, cid)
    ensures a == b
  {
    var p := "parcel_ref_";
    assert ParcelId(a, cid) == p + (a + "_" + cid);
    assert ParcelId(b, cid) == p + (b + "_" + cid);
    assert a + "_" + cid == ParcelId(a, cid)[|p|..];
    assert b + "_" + cid == ParcelId(b, cid)[|p|..];
    assert |a| == |b|;
    assert a == (a + "_" + cid)[..|a|];
    assert b == (b + "_" + cid)[..|b|];
  }
}

=== FILE: ledger.dfy ===
/**
 The per-scheme running totals both subsidy calculations keep: one record per
 eco-scheme code, in the order the codes were first met (the order in which
 the keys of the accumulating object are listed), with the declared area, the
 points and the money value credited to that code.
 */
module Ledger {
  import opened Wrappers

  datatype SchemeTotal = SchemeTotal(code: string, area: real, points: real, value: real)

  /** Each code has at most one record. */
  ghost predicate Keyed(l: seq<SchemeTotal>) {
    forall i, j :: 0 <= i < j < |l| ==> l[i].code != l[j].code
  }

  function Codes(l: seq<SchemeTotal>): (r: seq<string>)
    ensures |r| == |l| && forall i :: 0 <= i < |l| ==> r[i] == l[i].code
  {
    if l == [] then [] else [l[0].code] + Codes(l[1..])
  }

  /** The position of the record for `code`, or -1. */
  function IndexOfCode(l: seq<SchemeTotal>, code: string): (r: int)
    ensures -1 <= r < |l|
    ensures r == -1 <==> forall i :: 0 <= i < |l| ==> l[i].code != code
    ensures r >= 0 ==> l[r].code == code && forall j :: 0 <= j < r ==> l[j].code != code
  {
    if l == [] then -1
    else if l[0].code == code then 0
    else
      var k := IndexOfCode(l[1..], code);
      if k == -1 then -1 else k + 1
  }

  function Lookup(l: seq<SchemeTotal>, code: string): (r: Option<SchemeTotal>)
    ensures r.None? <==> forall i :: 0 <= i < |l| ==> l[i].code != code
    ensures r.Some? ==> r.value in l && r.value.code == code
    ensures r.Some? ==> exists i :: 0 <= i < |l| && l[i] == r.value && forall j :: 0 <= j < i ==> l[j].code != code
  {
    var i := IndexOfCode(l, code);
    if i < 0 then None else Some(l[i])
  }

  /** The record of `code`, or the all-zero record a new code starts from. */
  function Current(l: seq<SchemeTotal>, code: string): SchemeTotal {
    Lookup(l, code).GetOr(SchemeTotal(code, 0.0, 0.0, 0.0))
  }

  function TotalPoints(l: seq<SchemeTotal>): real {
    if l == [] then 0.0 else l[0].points + TotalPoints(l[1..])
  }

  function TotalValue(l: seq<SchemeTotal>): real {
    if l == [] then 0.0 else l[0].value + TotalValue(l[1..])
  }

  lemma {:induction false} TotalsAppend(l: seq<SchemeTotal>, x: SchemeTotal)
    ensures TotalPoints(l + [x]) == TotalPoints(l) + x.points
    ensures TotalValue(l + [x]) == TotalValue(l) + x.value
  {
    if l != [] {
      assert (l + [x])[1..] == l[1..] + [x];
      TotalsAppend(l[1..], x);
    }
  }

  lemma {:induction false} TotalsUpdate(l: seq<SchemeTotal>, i: int, x: SchemeTotal)
    requires 0 <= i < |l|
    ensures TotalPoints(l[i := x]) == TotalPoints(l) - l[i].points + x.points
    ensures TotalValue(l[i := x]) == TotalValue(l) - l[i].value + x.value
  {
    if i > 0 {
      assert l[i := x][1..] == l[1..][i - 1 := x];
      TotalsUpdate(l[1..], i - 1, x);
    }
  }

  /**
   `calc[code] ??= zero; calc[code].area += area; .points += pts; .value += value`:
   credits one use of a scheme.
   */
  function Credit(l: seq<SchemeTotal>, code: string, area: real, pts: real, value: real): (r: seq<SchemeTotal>)
    requires Keyed(l)
    ensures Keyed(r)
    ensures Lookup(r, code) == Some(SchemeTotal(code, Current(l, code).area + area,
      Current(l, code).points + pts, Current(l, code).value + value))
    ensures forall c :: c != code ==> Lookup(r, c) == Lookup(l, c)
    ensures Codes(r) == if Lookup(l, code).Some? then Codes(l) else Codes(l) + [code]
    ensures TotalPoints(r) == TotalPoints(l) + pts
    ensures TotalValue(r) == TotalValue(l) + value
  {
    var i := IndexOfCode(l, code);
    var cur := Current(l, code);
    var x := SchemeTotal(code, cur.area + area, cur.points + pts, cur.value + value);
    if i < 0 then
      assert cur == SchemeTotal(code, 0.0, 0.0, 0.0);
      CreditNew(l, x);
      l + [x]
    else
      assert cur == l[i];
      CreditExisting(l, i, x);
      l[i := x]
  }

  /** Appending the record of a new code. */
  lemma CreditNew(l: seq<SchemeTotal>, x: SchemeTotal)
    requires Keyed(l) && forall i :: 0 <= i < |l| ==> l[i].code != x.code
    ensures Keyed(l + [x])
    ensures Lookup(l + [x], x.code) == Some(x)
    ensures forall c :: c != x.code ==> Lookup(l + [x], c) == Lookup(l, c)
    ensures Codes(l + [x]) == Codes(l) + [x.code]
    ensures TotalPoints(l + [x]) == TotalPoints(l) + x.points
    ensures TotalValue(l + [x]) == TotalValue(l) + x.value
  {
    TotalsAppend(l, x);
    NewIndexAppend(l, x);
    KeyedAppend(l, x);
    CodesAppend(l, x);
    forall c | c != x.code ensures Lookup(l + [x], c) == Lookup(l, c) {
      LookupAppend(l, x, c);
    }
  }

  lemma CodesAppend(l: seq<SchemeTotal>, x: SchemeTotal)
    ensures Codes(l + [x]) == Codes(l) + [x.code]
  {
  }

  lemma LookupAppend(l: seq<SchemeTotal>, x: SchemeTotal, c: string)
    requires c != x.code
    ensures Lookup(l + [x], c) == Lookup(l, c)
  {
    FirstIndexAppend(l, x, c);
  }

  lemma KeyedAppend(l: seq<SchemeTotal>, x: SchemeTotal)
    requires Keyed(l) && forall i :: 0 <= i < |l| ==> l[i].code != x.code
    ensures Keyed(l + [x])
  {
    forall i, j | 0 <= i < j < |l + [x]| ensures (l + [x])[i].code != (l + [x])[j].code {
      if j == |l| {
        assert (l + [x])[i] == l[i];
      }
    }
  }

  /** Rewriting the record found for a code. */
  lemma CreditExisting(l: seq<SchemeTotal>, i: int, x: SchemeTotal)
    requires Keyed(l) && 0 <= i < |l| && IndexOfCode(l, x.code) == i
    ensures Keyed(l[i := x])
    ensures Lookup(l[i := x], x.code) == Some(x)
    ensures forall c :: c != x.code ==> Lookup(l[i := x], c) == Lookup(l, c)
    ensures Codes(l[i := x]) == Codes(l)
    ensures TotalPoints(l[i := x]) == TotalPoints(l) - l[i].points + x.points
    ensures TotalValue(l[i := x]) == TotalValue(l) - l[i].value + x.value
  {
    TotalsUpdate(l, i, x);
    FirstIndexUpdate(l, i, x);
  }

  lemma {:induction false} FirstIndexAppend(l: seq<SchemeTotal>, x: SchemeTotal, c: string)
    requires c != x.code
    ensures IndexOfCode(l + [x], c) == IndexOfCode(l, c)
  {
    if l != [] {
      assert (l + [x])[1..] == l[1..] + [x];
      FirstIndexAppend(l[1..], x, c);
    }
  }

  lemma {:induction false} NewIndexAppend(l: seq<SchemeTotal>, x: SchemeTotal)
    requires forall i :: 0 <= i < |l| ==> l[i].code != x.code
    ensures IndexOfCode(l + [x], x.code) == |l|
  {
    if l != [] {
      assert (l + [x])[1..] == l[1..] + [x];
      NewIndexAppend(l[1..], x);
    }
  }

  /** Replacing a record by one with the same code moves no code. */
  lemma {:induction false} FirstIndexUpdate(l: seq<SchemeTotal>, i: int, x: SchemeTotal)
    requires 0 <= i < |l| && x.code == l[i].code
    ensures forall c :: IndexOfCode(l[i := x], c) == IndexOfCode(l, c)
  {
    if i > 0 {
      assert l[i := x][1..] == l[1..][i - 1 := x];
      FirstIndexUpdate(l[1..], i - 1, x);
    }
  }
}

=== FILE: operations_log.dfy ===
/**
 The field operations log: recording an operation on a parcel from the form,
 the search over parcel and product names, the list ordered newest date
 first, and the colour each operation type is shown in.

 `String.prototype.localeCompare` on dates is modelled as code-point order
 (`StrLe`), which agrees with it on `YYYY-MM-DD` texts.
 */
module OperationsLog {
  import opened Wrappers
  import opened Seqs
  import opened Text
  import opened FarmTypes

  datatype FieldOperation = FieldOperation(
    id: string,
    fieldId: string,
    fieldName: string,
    date: string,
    kind: string,
    productName: string,
    dosage: string,
    unit: string,
    isEcoSchemeRelevant: bool,
    linkedEcoScheme: Option<string>)

  /** The operation form; `isEcoSchemeRelevant` is `None` while the box was never touched. */
  datatype OperationForm = OperationForm(
    date: string,
    kind: string,
    fieldId: string,
    productName: string,
    dosage: string,
    unit: string,
    isEcoSchemeRelevant: Option<bool>,
    linkedEcoScheme: Option<string>)

  /**
   The operation a submit records: on the first parcel with the form's id,
   copying that parcel's id and name, not relevant to eco-schemes unless
   ticked; none when no parcel has the id.
   */
  function Submit(fields: seq<Field>, form: OperationForm, newId: string): (r: Option<FieldOperation>)
    ensures r.None? <==> forall f :: f in fields ==> f.id != form.fieldId
    ensures r.Some? ==> exists f :: f in fields && f.id == form.fieldId && r.value.fieldId == f.id && r.value.fieldName == f.name
    ensures r.Some? ==> (r.value.id == newId && r.value.date == form.date && r.value.kind == form.kind &&
      r.value.productName == form.productName && r.value.dosage == form.dosage && r.value.unit == form.unit &&
      r.value.linkedEcoScheme == form.linkedEcoScheme && r.value.isEcoSchemeRelevant == form.isEcoSchemeRelevant.GetOr(false))
  {
    match Find(fields, (f: Field) => f.id == form.fieldId)
    case None => None
    case Some(f) =>
      Some(FieldOperation(newId, f.id, f.name, form.date, form.kind, form.productName, form.dosage, form.unit,
        form.isEcoSchemeRelevant.GetOr(false), form.linkedEcoScheme))
  }

  // ----- The list -----

  /** An operation matches when its parcel name or its product name holds the term, ignoring case. */
  predicate Matches(op: FieldOperation, term: string) {
    Contains(Lower(op.fieldName), Lower(term)) || Contains(Lower(op.productName), Lower(term))
  }

  /** The operations matching the term, in order. */
  function Selected(ops: seq<FieldOperation>, term: string): (r: seq<FieldOperation>)
    ensures forall op :: op in r <==> op in ops && Matches(op, term)
  {
    if ops == [] then []
    else
      assert forall op :: op in ops <==> op == ops[0] || op in ops[1..];
      (if Matches(ops[0], term) then [ops[0]] else []) + Selected(ops[1..], term)
  }

  /** Newer-or-same date: `b.date.localeCompare(a.date) <= 0` for the pair (a, b). */
  predicate NewerFirst(a: FieldOperation, b: FieldOperation) {
    StrLe(b.date, a.date)
  }

  lemma NewerFirstTotal()
    ensures TotalPreorder(NewerFirst)
  {
    forall a: FieldOperation, b: FieldOperation ensures NewerFirst(a, b) || NewerFirst(b, a) {
      StrLeTotal(a.date, b.date);
    }
    forall a: FieldOperation, b: FieldOperation, c: FieldOperation | NewerFirst(a, b) && NewerFirst(b, c)
      ensures NewerFirst(a, c)
    {
      StrLeTrans(c.date, b.date, a.date);
    }
  }

  /** The listed operations: the matching ones, each as often as it occurs, latest date first. */
  function Listed(ops: seq<FieldOperation>, term: string): (r: seq<FieldOperation>)
    ensures forall op :: op in r <==> op in ops && Matches(op, term)
    ensures multiset(r) == multiset(Selected(ops, term))
    ensures forall i, j :: 0 <= i < j < |r| ==> StrLe(r[j].date, r[i].date)
  {
    var shown := Selected(ops, term);
    NewerFirstTotal();
    SortBySorted(shown, NewerFirst);
    var r := SortBy(shown, NewerFirst);
    assert forall op :: op in r <==> op in shown by {
      forall op ensures op in r <==> op in shown {
        assert op in r <==> op in multiset(r);
        assert op in shown <==> op in multiset(shown);
      }
    }
    r
  }

  /** An empty search term matches every operation. */
  lemma EmptyTermMatchesAll(ops: seq<FieldOperation>)
    ensures forall op :: op in ops ==> op in Listed(ops, "")
  {
    forall op | op in ops ensures Matches(op, "") {
      assert Lower("") == "";
    }
  }

  /**
   Wherever the parent stores a recorded operation, the list finds it again
   under its parcel's name and under its product, with the recorded parcel
   being the one the form chose.
   */
  lemma SubmittedIsListed(fields: seq<Field>, form: OperationForm, newId: string, ops: seq<FieldOperation>)
    requires Submit(fields, form, newId).Some? && Submit(fields, form, newId).value in ops
    ensures Submit(fields, form, newId).value.fieldId == form.fieldId
    ensures Submit(fields, form, newId).value in Listed(ops, Submit(fields, form, newId).value.fieldName)
    ensures Submit(fields, form, newId).value in Listed(ops, form.productName)
  {
    var op := Submit(fields, form, newId).value;
    ContainsSelf(Lower(op.fieldName));
    ContainsSelf(Lower(op.productName));
    assert Matches(op, op.fieldName);
    assert Matches(op, form.productName);
  }

  // ----- Type colours -----

  /** The operation types with a colour of their own. */
  const KnownTypes := ["NAWOZENIE", "OPRYSK", "SIEW", "ZBIOR"]
  const DefaultColor := "bg-slate-100 text-slate-700"

  /** The badge colour of an operation type: one per known type, the default for the rest. */
  function TypeColor(kind: string): (r: string)
    ensures r == DefaultColor <==> kind !in KnownTypes
  {
    if kind == "NAWOZENIE" then "bg-blue-100 text-blue-700"
    else if kind == "OPRYSK" then "bg-purple-100 text-purple-700"
    else if kind == "SIEW" then "bg-emerald-100 text-emerald-700"
    else if kind == "ZBIOR" then "bg-amber-100 text-amber-700"
    else DefaultColor
  }

  /** Different known types are shown in different colours. */
  lemma TypeColorsDistinct(a: string, b: string)
    requires a in KnownTypes && b in KnownTypes && a != b
    ensures TypeColor(a) != TypeColor(b)
  {
  }
}

=== FILE: parcel_manager.dfy ===
/**
 The parcel register screen: the edit form over a parcel's name, registration
 number, areas and cadastral location, its save (numbers read with a decimal
 comma, the eligible area falling back to the area), parcel removal, and the
 parcels listed for the selected year.

 JavaScript's `parseFloat` and `Number.prototype.toString` are parameters:
 `parse` gives `None` where `parseFloat` gives NaN, `render` is the decimal text.
 */
module ParcelManager {
  import opened Wrappers
  import opened Seqs
  import opened FarmTypes
  import opened Csv
  import opened Text

  /** The edit form: every value as the text in its input. */
  datatype ParcelForm = ParcelForm(
    name: string,
    registrationNumber: string,
    area: string,
    eligibleArea: string,
    commune: string,
    precinctName: string,
    precinctNumber: string,
    mapSheet: string,
    voivodeship: string,
    district: string)

  /** `s.replace('.', ',')`: the first dot becomes a comma. */
  function FirstDotToComma(s: string): (r: string)
    ensures |r| == |s|
    ensures forall i :: 0 <= i < |s| ==> r[i] == s[i] || (s[i] == '.' && r[i] == ',')
    ensures '.' !in s ==> r == s
    ensures forall k :: 0 <= k < |s| && s[k] == '.' && '.' !in s[..k] ==> r == s[..k] + [','] + s[k + 1..]
  {
    var k := IndexOf(s, ".");
    DotOccurs(s);
    if k < 0 then s
    else
      var r := s[..k] + [','] + s[k + 1..];
      SpliceComma(s, k, r);
      r
  }

  /** The text "." occurs exactly where `s` holds a dot. */
  lemma DotOccurs(s: string)
    ensures forall j :: 0 <= j < |s| ==> (OccursAt(s, ".", j) <==> s[j] == '.')
  {
    forall j | 0 <= j < |s| ensures OccursAt(s, ".", j) <==> s[j] == '.' {
      assert s[j..j + 1] == [s[j]];
    }
  }

  /** Replacing the first dot, at `k`, by a comma changes that character only. */
  lemma SpliceComma(s: string, k: int, r: string)
    requires 0 <= k < |s| && s[k] == '.' && forall j :: 0 <= j < k ==> s[j] != '.'
    requires r == s[..k] + [','] + s[k + 1..]
    ensures |r| == |s|
    ensures forall i :: 0 <= i < |s| ==> r[i] == s[i] || (s[i] == '.' && r[i] == ',')
    ensures forall j :: 0 <= j < |s| && s[j] == '.' && '.' !in s[..j] ==> r == s[..j] + [','] + s[j + 1..]
  {
    FirstDotUnique(s, k);
    forall i | 0 <= i < |s| ensures r[i] == (if i == k then ',' else s[i]) {
      if i < k {
        assert r[i] == s[..k][i];
      } else if i > k {
        assert r[i] == s[k + 1..][i - k - 1];
      }
    }
  }

  /** A dot with no dot before it is the first dot. */
  lemma FirstDotUnique(s: string, k: int)
    requires 0 <= k < |s| && s[k] == '.' && forall j :: 0 <= j < k ==> s[j] != '.'
    ensures forall j :: 0 <= j < |s| && s[j] == '.' && '.' !in s[..j] ==> j == k
  {
  }

  /** A number as the form shows it: its decimal text with a comma. */
  function Shown(x: real, render: real -> string): string {
    FirstDotToComma(render(x))
  }

  /** The form opened on a parcel: missing texts shown empty, areas with a decimal comma. */
  function StartEditing(f: Field, render: real -> string): (r: ParcelForm)
    ensures r.name == f.name && r.registrationNumber == OptOrStr(f.registrationNumber, "")
    ensures r.area == Shown(f.area, render) && r.eligibleArea == Shown(f.eligibleArea, render)
    ensures r.commune == OptOrStr(f.commune, "") && r.precinctName == OptOrStr(f.precinctName, "")
    ensures r.precinctNumber == OptOrStr(f.precinctNumber, "") && r.mapSheet == OptOrStr(f.mapSheet, "")
    ensures r.voivodeship == OptOrStr(f.voivodeship, "") && r.district == OptOrStr(f.district, "")
  {
    ParcelForm(f.name, OptOrStr(f.registrationNumber, ""), Shown(f.area, render), Shown(f.eligibleArea, render),
      OptOrStr(f.commune, ""), OptOrStr(f.precinctName, ""), OptOrStr(f.precinctNumber, ""),
      OptOrStr(f.mapSheet, ""), OptOrStr(f.voivodeship, ""), OptOrStr(f.district, ""))
  }

  /**
   The parcel after a save: the form's texts and parsed areas, an eligible
   area of 0 replaced by the area; id, crop and history are kept.
   */
  function SaveField(f: Field, form: ParcelForm, parse: string -> Option<real>): (r: Field)
    ensures r.id == f.id && r.crop == f.crop && r.history == f.history
    ensures r.area == ParsePolishNumber(form.area, parse)
    ensures ParsePolishNumber(form.eligibleArea, parse) != 0.0 ==> r.eligibleArea == ParsePolishNumber(form.eligibleArea, parse)
    ensures ParsePolishNumber(form.eligibleArea, parse) == 0.0 ==> r.eligibleArea == r.area
    ensures r.name == form.name && r.registrationNumber == Some(form.registrationNumber)
    ensures r.commune == Some(form.commune) && r.precinctName == Some(form.precinctName)
    ensures r.precinctNumber == Some(form.precinctNumber) && r.mapSheet == Some(form.mapSheet)
    ensures r.voivodeship == Some(form.voivodeship) && r.district == Some(form.district)
  {
    var area := ParsePolishNumber(form.area, parse);
    f.(name := form.name, registrationNumber := Some(form.registrationNumber), area := area,
       eligibleArea := OrReal(ParsePolishNumber(form.eligibleArea, parse), area),
       commune := Some(form.commune), precinctName := Some(form.precinctName),
       precinctNumber := Some(form.precinctNumber), mapSheet := Some(form.mapSheet),
       voivodeship := Some(form.voivodeship), district := Some(form.district))
  }

  /** Every text of the location is present. */
  predicate Located(f: Field) {
    f.registrationNumber.Some? && f.commune.Some? && f.precinctName.Some? && f.precinctNumber.Some? &&
    f.mapSheet.Some? && f.voivodeship.Some? && f.district.Some?
  }

  /** `parse` reads back what `render` wrote, once the comma has been put back. */
  predicate ReadsBack(x: real, parse: string -> Option<real>, render: real -> string) {
    Shown(x, render) != [] && parse(CleanNumber(Shown(x, render))) == Some(x)
  }

  /**
   Opening the form and saving it unchanged leaves a parcel as it was, when
   its texts are all present, its numbers read back and its eligible area is
   not 0.
   */
  lemma EditUnchanged(f: Field, parse: string -> Option<real>, render: real -> string)
    requires Located(f)
    requires ReadsBack(f.area, parse, render) && ReadsBack(f.eligibleArea, parse, render)
    requires f.eligibleArea != 0.0
    ensures SaveField(f, StartEditing(f, render), parse) == f
  {
  }

  /** `fields.map(f => f.id === id ? saved(f) : f)`. */
  function SaveEditing(fields: seq<Field>, id: string, form: ParcelForm, parse: string -> Option<real>): (r: seq<Field>)
    ensures |r| == |fields|
    ensures forall i :: 0 <= i < |fields| && fields[i].id != id ==> r[i] == fields[i]
    ensures forall i :: 0 <= i < |fields| && fields[i].id == id ==> r[i] == SaveField(fields[i], form, parse)
  {
    MapIf(fields, (f: Field) => f.id == id, (f: Field) => SaveField(f, form, parse))
  }

  /** Once confirmed, removes exactly the parcels with the id; a refused confirmation changes nothing. */
  function RemoveField(fields: seq<Field>, id: string, confirmed: bool): (r: seq<Field>)
    ensures !confirmed ==> r == fields
    ensures confirmed ==> forall f :: f in r <==> f in fields && f.id != id
  {
    if !confirmed then fields else RemoveKey(fields, (f: Field) => f.id, id)
  }

  /** Without "show all", the parcels with an entry for the year. */
  function VisibleFields(fields: seq<Field>, year: int, showAll: bool): (r: seq<Field>)
    ensures showAll ==> r == fields
    ensures !showAll ==> forall f :: f in r <==> f in fields && HasYear(f.history, year)
  {
    if showAll then fields else Filter(fields, (f: Field) => HasYear(f.history, year))
  }
}

=== FILE: rag.dfy ===
/**
 The keyword retrieval store behind the assistant: documents are cut into
 overlapping fixed-width windows, each non-blank window becomes a chunk tagged
 with a coarse section, and a query ranks the chunks by how many of its longer
 words they contain.
 */
module Rag {
  import opened Wrappers
  import opened Seqs
  import opened Text
  import opened FarmTypes

  const ChunkSize: nat := 1000
  const ChunkOverlap: nat := 200
  /** How far each window starts after the previous one. */
  const Stride: nat := ChunkSize - ChunkOverlap
  /** The number of chunks a search returns when the caller gives no limit. */
  const DefaultLimit: nat := 5

  const SectionApplication := "Wniosek"
  const SectionLand := "Grunty"
  const SectionSchemes := "Ekoschematy"
  const SectionGeneral := "Dane ogólne"

  datatype Chunk = Chunk(
    id: string,
    documentId: string,
    documentName: string,
    content: string,
    category: DocCategory,
    section: string,
    tokens: nat)

  datatype Store = Store(chunks: seq<Chunk>)

  function Min(a: int, b: int): int {
    if a <= b then a else b
  }

  // ----- Sections -----

  predicate Mentions(t: string, a: string, b: string) {
    Contains(t, a) || Contains(t, b)
  }

  /** The section a chunk is filed under, by the first keyword group its text mentions. */
  function DetectSection(text: string): (r: string)
    ensures r in {SectionApplication, SectionLand, SectionSchemes, SectionGeneral}
    ensures r == SectionApplication <==> Mentions(Lower(text), "wniosek", "przyznanie")
    ensures r == SectionLand <==> (!Mentions(Lower(text), "wniosek", "przyznanie") &&
      Mentions(Lower(text), "działka", "parcele"))
    ensures r == SectionSchemes <==> (!Mentions(Lower(text), "wniosek", "przyznanie") &&
      !Mentions(Lower(text), "działka", "parcele") && Mentions(Lower(text), "ekoschemat", "praktyk"))
  {
    var t := Lower(text);
    if Mentions(t, "wniosek", "przyznanie") then SectionApplication
    else if Mentions(t, "działka", "parcele") then SectionLand
    else if Mentions(t, "ekoschemat", "praktyk") then SectionSchemes
    else SectionGeneral
  }

  // ----- Windows -----

  /** The window of at most `ChunkSize` characters starting at `start`. */
  function Window(text: string, start: nat): (r: string)
    requires start <= |text|
    ensures |r| == Min(ChunkSize, |text| - start)
    ensures forall p :: start <= p < start + |r| ==> p < |text| && r[p - start] == text[p]
  {
    text[start..Min(start + ChunkSize, |text|)]
  }

  /** Where window `k` begins when the first begins at `start`. */
  function WindowStart(start: nat, k: nat): nat {
    start + 800 * k
  }

  /** The windows starting at `start`, `start + Stride`, ... while the start is inside the text. */
  function WindowsFrom(text: string, start: nat): (r: seq<string>)
    ensures start >= |text| ==> r == []
    ensures forall k: nat :: k < |r| ==> (WindowStart(start, k) < |text| &&
      r[k] == Window(text, WindowStart(start, k)))
    decreases |text| - start
  {
    if start >= |text| then []
    else
      var rest := WindowsFrom(text, start + Stride);
      var r := [Window(text, start)] + rest;
      assert forall k: nat :: 0 < k < |r| ==> (r[k] == rest[k - 1] &&
        WindowStart(start + Stride, k - 1) == WindowStart(start, k));
      r
  }

  /** There is one window per `Stride` characters, the last one possibly short. */
  lemma {:induction false} WindowCount(text: string, start: nat)
    requires start <= |text|
    ensures |WindowsFrom(text, start)| == (|text| - start + Stride - 1) / Stride
    decreases |text| - start
  {
    if start < |text| {
      if start + Stride < |text| {
        WindowCount(text, start + Stride);
      }
    }
  }

  /**
   Every character of the text lies in some window: the window numbered
   `p / Stride` holds position `p` at offset `p % Stride`.
   */
  lemma WindowsCover(text: string, p: nat)
    requires p < |text|
    ensures var w := WindowsFrom(text, 0);
      p / Stride < |w| && p % Stride < |w[p / Stride]| && w[p / Stride][p % Stride] == text[p]
  {
    var w := WindowsFrom(text, 0);
    var k := p / 800;
    WindowCount(text, 0);
    assert WindowStart(0, k) == p - p % 800;
    assert k < |w|;
    assert w[k] == Window(text, WindowStart(0, k));
  }

  /** Successive windows share `ChunkOverlap` characters when the first is full. */
  lemma WindowsOverlap(text: string, k: nat)
    requires k + 1 < |WindowsFrom(text, 0)|
    requires |WindowsFrom(text, 0)[k]| == ChunkSize
    ensures var w := WindowsFrom(text, 0);
      w[k][Stride..] == w[k + 1][..Min(ChunkOverlap, |w[k + 1]|)]
  {
    var w := WindowsFrom(text, 0);
    var s := WindowStart(0, k);
    assert WindowStart(0, k + 1) == s + Stride;
    assert w[k] == text[s..s + ChunkSize];
    assert w[k + 1] == text[s + Stride..Min(s + Stride + ChunkSize, |text|)];
  }

  // ----- Chunks -----

  /** Some character of `s` is not white space: `s.trim().length > 0`. */
  predicate NonBlank(s: string) {
    s != [] && (!IsSpace(s[0]) || NonBlank(s[1..]))
  }

  lemma {:induction false} NonBlankTrim(s: string)
    ensures NonBlank(s) <==> Trim(s) != []
  {
    TrimEmpty(s);
    if s != [] && IsSpace(s[0]) {
      NonBlankTrim(s[1..]);
      TrimEmpty(s[1..]);
      assert forall i :: 0 < i < |s| ==> s[i] == s[1..][i - 1];
    }
  }

  /** `chunk_<document id>_<n>`, the three parts joined by underscores. */
  function ChunkId(docId: string, n: nat): string {
    Join(["chunk", docId, NatToString(n)], "_")
  }

  /** `Math.ceil(length / 4)`. */
  function Tokens(content: string): (r: nat)
    ensures 4 * r >= |content| && 4 * (r - 1) < |content|
  {
    (|content| + 3) / 4
  }

  function MakeChunk(doc: Document, content: string, n: nat): Chunk {
    Chunk(ChunkId(doc.id, n), doc.id, doc.name, content, doc.category, DetectSection(content), Tokens(content))
  }

  /**
   The chunks made from `windows`, numbered from `n` in the order they are
   kept; blank windows are skipped without using a number.
   */
  function ChunksOf(doc: Document, windows: seq<string>, n: nat): seq<Chunk> {
    if windows == [] then []
    else if NonBlank(windows[0]) then [MakeChunk(doc, windows[0], n)] + ChunksOf(doc, windows[1..], n + 1)
    else ChunksOf(doc, windows[1..], n)
  }

  /** The non-blank windows, in order (`Filter(windows, NonBlank)`). */
  function Kept(windows: seq<string>): seq<string> {
    if windows == [] then []
    else (if NonBlank(windows[0]) then [windows[0]] else []) + Kept(windows[1..])
  }

  lemma {:induction false} KeptIsFilter(windows: seq<string>)
    ensures Kept(windows) == Filter(windows, NonBlank)
  {
    if windows != [] {
      KeptIsFilter(windows[1..]);
    }
  }

  /** The chunks are the non-blank windows, in order, numbered from `n`. */
  lemma {:induction false} ChunksOfKept(doc: Document, windows: seq<string>, n: nat)
    ensures Numbered(Maker(doc), ChunksOf(doc, windows, n), Kept(windows), n)
  {
    if windows != [] {
      if NonBlank(windows[0]) {
        ChunksOfKept(doc, windows[1..], n + 1);
        NumberedCons(Maker(doc), ChunksOf(doc, windows[1..], n + 1), Kept(windows[1..]), windows[0], n);
      } else {
        ChunksOfKept(doc, windows[1..], n);
      }
    }
  }

  /** `MakeChunk` for one document, as a function of the content and the number. */
  function Maker(doc: Document): (string, nat) -> Chunk {
    (x: string, k: nat) => MakeChunk(doc, x, k)
  }

  /** `r` holds the chunks `mk` makes of `kept`, numbered from `n`. */
  ghost predicate Numbered(mk: (string, nat) -> Chunk, r: seq<Chunk>, kept: seq<string>, n: nat) {
    |r| == |kept| && forall i :: 0 <= i < |r| ==> r[i] == mk(kept[i], n + i)
  }

  lemma NumberedCons(mk: (string, nat) -> Chunk, r: seq<Chunk>, kept: seq<string>, x: string, n: nat)
    requires Numbered(mk, r, kept, n + 1)
    ensures Numbered(mk, [mk(x, n)] + r, [x] + kept, n)
  {
    var r' := [mk(x, n)] + r;
    var k' := [x] + kept;
    forall i | 0 < i < |r'| ensures r'[i] == mk(k'[i], n + i) {
      assert r'[i] == r[i - 1] && k'[i] == kept[i - 1];
      assert n + 1 + (i - 1) == n + i;
    }
  }

  /** The store after indexing `text` as the content of `doc`. */
  function Reindex(store: Store, doc: Document, text: string): Store {
    if !NonBlank(text) then store
    else Store(WithoutDoc(store.chunks, doc.id) + ChunksOf(doc, WindowsFrom(text, 0), 0))
  }

  /**
   `indexDocument`: blank text leaves the store alone; otherwise the
   document's previous chunks are dropped and one chunk per non-blank window
   is appended.
   */
  method IndexDocument(store: Store, doc: Document, text: string) returns (r: Store)
    ensures r == Reindex(store, doc, text)
  {
    if !NonBlank(text) {
      return store;
    }
    var kept := WithoutDoc(store.chunks, doc.id);
    var added: seq<Chunk> := [];
    var start: nat := 0;
    while start < |text|
      invariant added + ChunksOf(doc, WindowsFrom(text, start), |added|) == ChunksOf(doc, WindowsFrom(text, 0), 0)
      decreases |text| - start
    {
      var content := text[start..Min(start + ChunkSize, |text|)];
      IndexStep(doc, text, start, added, content);
      if NonBlank(content) {
        added := added + [MakeChunk(doc, content, |added|)];
      }
      start := start + Stride;
    }
    r := Store(kept + added);
  }

  /** One window of the indexing loop: the chunks made so far plus those still to come stay the same. */
  lemma IndexStep(doc: Document, text: string, start: nat, added: seq<Chunk>, content: string)
    requires start < |text| && content == text[start..Min(start + ChunkSize, |text|)]
    ensures var added' := if NonBlank(content) then added + [MakeChunk(doc, content, |added|)] else added;
      added' + ChunksOf(doc, WindowsFrom(text, start + Stride), |added'|) == added + ChunksOf(doc, WindowsFrom(text, start), |added|)
  {
    var w := WindowsFrom(text, start);
    var rest := WindowsFrom(text, start + Stride);
    assert w == [content] + rest;
    assert w[0] == content && w[1..] == rest;
    if NonBlank(content) {
      var c := MakeChunk(doc, content, |added|);
      assert ChunksOf(doc, w, |added|) == [c] + ChunksOf(doc, rest, |added| + 1);
      assert (added + [c]) + ChunksOf(doc, rest, |added| + 1) == added + ([c] + ChunksOf(doc, rest, |added| + 1));
    }
  }

  /** Chunk numbers are rendered injectively, so chunk ids of one document never clash. */
  lemma ChunkIdInjective(docId: string, m: nat, n: nat)
    requires ChunkId(docId, m) == ChunkId(docId, n)
    ensures m == n
  {
    var p := "chunk_" + docId + "_";
    JoinThree("chunk", docId, NatToString(m), "_");
    JoinThree("chunk", docId, NatToString(n), "_");
    assert ChunkId(docId, m) == p + NatToString(m);
    assert NatToString(m) == ChunkId(docId, m)[|p|..];
    assert NatToString(n) == ChunkId(docId, n)[|p|..];
    NatToStringValue(m);
    NatToStringValue(n);
  }

  /** Chunk ids made from one run of windows are pairwise distinct. */
  lemma ChunkIdsDistinct(doc: Document, windows: seq<string>, n: nat)
    ensures var r := ChunksOf(doc, windows, n);
      forall i, j :: 0 <= i < j < |r| ==> r[i].id != r[j].id
  {
    var r := ChunksOf(doc, windows, n);
    ChunksOfKept(doc, windows, n);
    forall i, j | 0 <= i < j < |r| ensures r[i].id != r[j].id {
      if r[i].id == r[j].id {
        assert r[i].id == ChunkId(doc.id, n + i);
        assert r[j].id == ChunkId(doc.id, n + j);
        ChunkIdInjective(doc.id, n + i, n + j);
      }
    }
  }

  /** Every window, and so every chunk's content, is at most `ChunkSize` long. */
  lemma ChunkContentBound(doc: Document, text: string)
    ensures var r := ChunksOf(doc, WindowsFrom(text, 0), 0);
      forall i :: 0 <= i < |r| ==> |r[i].content| <= ChunkSize && NonBlank(r[i].content)
  {
    var w := WindowsFrom(text, 0);
    assert forall k :: 0 <= k < |w| ==> Short(w[k]) by {
      forall k | 0 <= k < |w| ensures Short(w[k]) {
        assert w[k] == Window(text, WindowStart(0, k));
      }
    }
    KeptIsFilter(w);
    FilterKeeps(w, NonBlank, Short);
    ChunkContents(doc, w, 0);
  }

  predicate Short(x: string) {
    |x| <= ChunkSize
  }

  /** The content of chunk `i` is the `i`-th kept window. */
  lemma ChunkContents(doc: Document, windows: seq<string>, n: nat)
    ensures |ChunksOf(doc, windows, n)| == |Kept(windows)|
    ensures forall i :: 0 <= i < |Kept(windows)| ==> ChunksOf(doc, windows, n)[i].content == Kept(windows)[i]
  {
    ChunksOfKept(doc, windows, n);
  }

  /** `chunks.filter(c => c.documentId !== id)`. */
  function WithoutDoc(chunks: seq<Chunk>, id: string): seq<Chunk> {
    if chunks == [] then []
    else (if chunks[0].documentId != id then [chunks[0]] else []) + WithoutDoc(chunks[1..], id)
  }

  /** `chunks.filter(c => c.documentId === id)`. */
  function OfDoc(chunks: seq<Chunk>, id: string): seq<Chunk> {
    if chunks == [] then []
    else (if chunks[0].documentId == id then [chunks[0]] else []) + OfDoc(chunks[1..], id)
  }

  lemma {:induction false} WithoutDocAppend(a: seq<Chunk>, b: seq<Chunk>, id: string)
    ensures WithoutDoc(a + b, id) == WithoutDoc(a, id) + WithoutDoc(b, id)
  {
    if a == [] {
      assert a + b == b;
    } else {
      var ab := a + b;
      assert ab[0] == a[0] && ab[1..] == a[1..] + b;
      WithoutDocAppend(a[1..], b, id);
      var x := if a[0].documentId == id then [] else [a[0]];
      assert WithoutDoc(ab, id) == x + (WithoutDoc(a[1..], id) + WithoutDoc(b, id));
      assert WithoutDoc(a, id) == x + WithoutDoc(a[1..], id);
    }
  }

  lemma {:induction false} OfDocAppend(a: seq<Chunk>, b: seq<Chunk>, id: string)
    ensures OfDoc(a + b, id) == OfDoc(a, id) + OfDoc(b, id)
  {
    if a == [] {
      assert a + b == b;
    } else {
      var ab := a + b;
      assert ab[0] == a[0] && ab[1..] == a[1..] + b;
      OfDocAppend(a[1..], b, id);
      var x := if a[0].documentId == id then [a[0]] else [];
      assert OfDoc(ab, id) == x + (OfDoc(a[1..], id) + OfDoc(b, id));
      assert OfDoc(a, id) == x + OfDoc(a[1..], id);
    }
  }

  /** A run whose chunks all belong to `id`. */
  lemma {:induction false} ByDocAll(s: seq<Chunk>, id: string)
    requires forall c :: c in s ==> c.documentId == id
    ensures OfDoc(s, id) == s && WithoutDoc(s, id) == []
  {
    if s != [] {
      ByDocAll(s[1..], id);
    }
  }

  /** What `WithoutDoc` keeps has no chunk of `id`. */
  lemma {:induction false} WithoutDocClean(s: seq<Chunk>, id: string)
    ensures OfDoc(WithoutDoc(s, id), id) == [] && WithoutDoc(WithoutDoc(s, id), id) == WithoutDoc(s, id)
  {
    if s != [] {
      WithoutDocClean(s[1..], id);
      var head := if s[0].documentId != id then [s[0]] else [];
      WithoutDocAppend(head, WithoutDoc(s[1..], id), id);
      OfDocAppend(head, WithoutDoc(s[1..], id), id);
    }
  }

  /**
   After indexing non-blank text, the document's chunks are exactly the
   chunks made from the text's non-blank windows, in order and numbered from
   0; other documents' chunks are untouched.
   */
  lemma ReindexContents(store: Store, doc: Document, text: string)
    requires NonBlank(text)
    ensures var r := Reindex(store, doc, text).chunks;
      && WithoutDoc(r, doc.id) == WithoutDoc(store.chunks, doc.id)
      && OfDoc(r, doc.id) == ChunksOf(doc, WindowsFrom(text, 0), 0)
  {
    var others := WithoutDoc(store.chunks, doc.id);
    var made := ChunksOf(doc, WindowsFrom(text, 0), 0);
    ChunksOfDoc(doc, WindowsFrom(text, 0), 0);
    WithoutDocAppend(others, made, doc.id);
    OfDocAppend(others, made, doc.id);
    ByDocAll(made, doc.id);
    WithoutDocClean(store.chunks, doc.id);
  }

  lemma {:induction false} ChunksOfDoc(doc: Document, windows: seq<string>, n: nat)
    ensures forall c :: c in ChunksOf(doc, windows, n) ==> c.documentId == doc.id
  {
    if windows != [] {
      var m := if NonBlank(windows[0]) then n + 1 else n;
      ChunksOfDoc(doc, windows[1..], m);
      var r := ChunksOf(doc, windows, n);
      var rest := ChunksOf(doc, windows[1..], m);
      var head := if NonBlank(windows[0]) then [MakeChunk(doc, windows[0], n)] else [];
      assert r == head + rest;
      assert forall c :: c in head ==> c.documentId == doc.id;
    }
  }

  lemma JoinThree(a: string, b: string, c: string, sep: string)
    ensures Join([a, b, c], sep) == a + sep + b + sep + c
  {
    assert [a, b, c][1..] == [b, c];
    assert [b, c][1..] == [c];
    assert Join([b, c], sep) == b + sep + c;
    assert Join([a, b, c], sep) == a + sep + (b + sep + c);
  }

  /** Indexing the same text again replaces the chunks it made with equal ones. */
  lemma ReindexIdempotent(store: Store, doc: Document, text: string)
    ensures Reindex(Reindex(store, doc, text), doc, text) == Reindex(store, doc, text)
  {
    if NonBlank(text) {
      var others := WithoutDoc(store.chunks, doc.id);
      var added := ChunksOf(doc, WindowsFrom(text, 0), 0);
      var once := Reindex(store, doc, text);
      assert once.chunks == others + added;
      assert WithoutDoc(once.chunks, doc.id) == others by {
        ChunksOfDoc(doc, WindowsFrom(text, 0), 0);
        WithoutDocAppend(others, added, doc.id);
        ByDocAll(added, doc.id);
        WithoutDocClean(store.chunks, doc.id);
        assert others + [] == others;
      }
    }
  }

  // ----- Search -----

  /** The query words the search uses: lower-cased, split at white space, longer than three characters. */
  function Terms(query: string): (r: seq<string>)
    ensures forall i :: 0 <= i < |r| ==> |r[i]| > 3 && NoSpace(r[i])
    ensures forall t :: t in r <==> t in SplitWhere(Lower(query), IsSpace) && |t| > 3
  {
    var words := SplitWhere(Lower(query), IsSpace);
    var r := Filter(words, (t: string) => |t| > 3);
    assert forall i :: 0 <= i < |r| ==> r[i] in words;
    r
  }

  /** One point for a term the text contains, half a point more when the text starts with it. */
  function TermScore(term: string, text: string): (r: real)
    ensures r == 0.0 || r == 1.0 || r == 1.5
    ensures r > 0.0 <==> Contains(text, term)
  {
    if Contains(text, term) then 1.0 + (if IndexOf(text, term) == 0 then 0.5 else 0.0) else 0.0
  }

  function ScoreText(terms: seq<string>, text: string): real {
    if terms == [] then 0.0 else ScoreText(terms[..|terms| - 1], text) + TermScore(terms[|terms| - 1], text)
  }

  function Score(terms: seq<string>, c: Chunk): real {
    ScoreText(terms, Lower(c.content))
  }

  /** A chunk scores above zero exactly when its lower-cased text contains one of the terms. */
  lemma {:induction false} ScorePositive(terms: seq<string>, text: string)
    ensures ScoreText(terms, text) >= 0.0
    ensures ScoreText(terms, text) > 0.0 <==> exists i :: 0 <= i < |terms| && Contains(text, terms[i])
  {
    if terms != [] {
      var init := terms[..|terms| - 1];
      ScorePositive(init, text);
      assert forall i :: 0 <= i < |init| ==> init[i] == terms[i];
    }
  }

  /** The most relevant first; equal scores keep the store's order. */
  function ByScore(terms: seq<string>): (Chunk, Chunk) -> bool {
    (a: Chunk, b: Chunk) => Score(terms, a) >= Score(terms, b)
  }

  /** `getRelevantContextSemantic(query, limit)`. */
  function Search(store: Store, query: string, limit: nat): (r: seq<Chunk>)
    ensures query == [] || store.chunks == [] ==> r == []
    ensures |r| <= limit
  {
    if query == [] || store.chunks == [] then []
    else
      var terms := Terms(query);
      var ranked := SortBy(Filter(store.chunks, (c: Chunk) => Score(terms, c) > 0.0), ByScore(terms));
      ranked[..Min(limit, |ranked|)]
  }

  /**
   Every result comes from the store and matches some term, and the results
   are in non-increasing order of score.
   */
  lemma SearchSound(store: Store, query: string, limit: nat)
    ensures var r := Search(store, query, limit);
      var terms := Terms(query);
      && (forall i :: 0 <= i < |r| ==> r[i] in store.chunks && Score(terms, r[i]) > 0.0)
      && (forall i, j :: 0 <= i < j < |r| ==> Score(terms, r[i]) >= Score(terms, r[j]))
  {
    if query != [] && store.chunks != [] {
      var terms := Terms(query);
      var hits := Filter(store.chunks, (c: Chunk) => Score(terms, c) > 0.0);
      var ranked := SortBy(hits, ByScore(terms));
      SortBySorted(hits, ByScore(terms));
      RankedPrefix(store, terms, hits, ranked, Search(store, query, limit));
    }
  }

  /** A prefix of the ranked hits holds hits only, in non-increasing order of score. */
  lemma RankedPrefix(store: Store, terms: seq<string>, hits: seq<Chunk>, ranked: seq<Chunk>, r: seq<Chunk>)
    requires hits == Filter(store.chunks, (c: Chunk) => Score(terms, c) > 0.0)
    requires ranked == SortBy(hits, ByScore(terms)) && SortedBy(ranked, ByScore(terms))
    requires |r| <= |ranked| && r == ranked[..|r|]
    ensures forall i :: 0 <= i < |r| ==> r[i] in store.chunks && Score(terms, r[i]) > 0.0
    ensures forall i, j :: 0 <= i < j < |r| ==> Score(terms, r[i]) >= Score(terms, r[j])
  {
    forall i | 0 <= i < |r| ensures r[i] in store.chunks && Score(terms, r[i]) > 0.0 {
      assert r[i] == ranked[i];
      assert ranked[i] in multiset(hits);
    }
    forall i, j | 0 <= i < j < |r| ensures Score(terms, r[i]) >= Score(terms, r[j]) {
      assert r[i] == ranked[i] && r[j] == ranked[j];
      assert ByScore(terms)(ranked[i], ranked[j]);
    }
  }

  /**
   Nothing relevant is passed over for something less relevant: a matching
   chunk left out of the results means the limit was reached by chunks that
   score at least as high.
   */
  lemma SearchTopK(store: Store, query: string, limit: nat, c: Chunk)
    requires query != []
    requires c in store.chunks && Score(Terms(query), c) > 0.0
    ensures var r := Search(store, query, limit);
      c !in r ==> |r| == limit && forall i :: 0 <= i < |r| ==> Score(Terms(query), r[i]) >= Score(Terms(query), c)
  {
    var terms := Terms(query);
    var hits := Filter(store.chunks, (c: Chunk) => Score(terms, c) > 0.0);
    var ranked := SortBy(hits, ByScore(terms));
    SortBySorted(hits, ByScore(terms));
    var r := Search(store, query, limit);
    assert c in multiset(ranked);
    var j :| 0 <= j < |ranked| && ranked[j] == c;
    if c !in r {
      assert j >= |r|;
      forall i | 0 <= i < |r| ensures Score(terms, r[i]) >= Score(terms, c) {
        assert r[i] == ranked[i];
      }
    }
  }

  /** `clearStore`. */
  function ClearStore(store: Store): (r: Store)
    ensures r.chunks == []
    ensures forall q, l :: Search(r, q, l) == []
  {
    Store([])
  }
}

=== FILE: rule_graph.dfy ===
/**
 The eligibility-rule editor: a directed graph of condition and consequence
 nodes hanging off a fixed start node, edited by adding, deleting, dragging
 and connecting nodes, and audited by a depth-first search that rejects any
 graph with a cycle reachable from one of its nodes.
 */
module RuleGraph {
  import opened Wrappers
  import opened Seqs

  /** The id of the node every graph starts with; it cannot be deleted. */
  const StartId := "start"
  const ConditionLabel := "Nowy Warunek"
  const ConsequenceLabel := "Nowy Skutek"

  datatype NodeKind = Condition | Consequence | Start

  datatype RuleNode = RuleNode(id: string, kind: NodeKind, caption: string, x: real, y: real)

  datatype RuleEdge = RuleEdge(id: string, source: string, target: string)

  datatype Graph = Graph(nodes: seq<RuleNode>, edges: seq<RuleEdge>)

  datatype Status = Idle | Valid | Invalid

  /** The editor's state: the graph, the selected node, and the source of a pending connection. */
  datatype Editor = Editor(graph: Graph, selected: Option<string>, connectSource: Option<string>, status: Status)

  /** The graph a new editor shows. */
  function InitialGraph(): (g: Graph)
    ensures |g.nodes| == 1 && g.nodes[0].id == StartId && g.edges == []
  {
    Graph([RuleNode(StartId, Start, "Start Kampanii", 50.0, 300.0)], [])
  }

  // ----- Editing -----

  /**
   `addNode(kind)`: appends a node with the kind's default label at
   `200 + 100 * rx, 200 + 100 * ry` and selects it. The id and the two
   fractions in [0, 1) are the random draws.
   */
  function AddNode(ed: Editor, kind: NodeKind, id: string, rx: real, ry: real): (r: Editor)
    requires kind != Start
    requires 0.0 <= rx < 1.0 && 0.0 <= ry < 1.0
    ensures |r.graph.nodes| == |ed.graph.nodes| + 1
    ensures r.graph.nodes[..|ed.graph.nodes|] == ed.graph.nodes
    ensures var n := r.graph.nodes[|ed.graph.nodes|];
      && n.id == id && n.kind == kind
      && n.caption == (if kind == Condition then ConditionLabel else ConsequenceLabel)
      && n.x == 200.0 + 100.0 * rx && n.y == 200.0 + 100.0 * ry
      && 200.0 <= n.x < 300.0 && 200.0 <= n.y < 300.0
    ensures r.graph.edges == ed.graph.edges
    ensures r.selected == Some(id) && r.connectSource == ed.connectSource
  {
    var caption := if kind == Condition then ConditionLabel else ConsequenceLabel;
    var n := RuleNode(id, kind, caption, 200.0 + rx * 100.0, 200.0 + ry * 100.0);
    ed.(graph := Graph(ed.graph.nodes + [n], ed.graph.edges), selected := Some(id))
  }

  predicate Touches(e: RuleEdge, id: string) {
    e.source == id || e.target == id
  }

  /**
   `deleteNode(id)`: the start node stays; any other id loses its nodes and
   every edge into or out of it, and the selection is cleared.
   */
  function DeleteNode(ed: Editor, id: string): (r: Editor)
    ensures id == StartId ==> r == ed
    ensures id != StartId ==> (
      && (forall n :: n in r.graph.nodes <==> n in ed.graph.nodes && n.id != id)
      && (forall e :: e in r.graph.edges <==> e in ed.graph.edges && !Touches(e, id))
      && r.selected == None && r.connectSource == ed.connectSource && r.status == ed.status)
  {
    if id == StartId then ed
    else
      ed.(graph := Graph(Filter(ed.graph.nodes, (n: RuleNode) => n.id != id),
                         Filter(ed.graph.edges, (e: RuleEdge) => !Touches(e, id))),
          selected := None)
  }

  /** Deleting keeps the order of the nodes and edges that remain. */
  lemma DeleteKeepsOrder(ed: Editor, id: string)
    requires id != StartId
    ensures DeleteNode(ed, id).graph.nodes == Filter(ed.graph.nodes, (n: RuleNode) => n.id != id)
    ensures DeleteNode(ed, id).graph.edges == Filter(ed.graph.edges, (e: RuleEdge) => !Touches(e, id))
  {
  }

  /** A node added and then deleted leaves the graph as it was, when its id was unused. */
  lemma AddThenDelete(ed: Editor, kind: NodeKind, id: string, rx: real, ry: real)
    requires kind != Start && 0.0 <= rx < 1.0 && 0.0 <= ry < 1.0
    requires id != StartId
    requires forall i :: 0 <= i < |ed.graph.nodes| ==> ed.graph.nodes[i].id != id
    requires forall i :: 0 <= i < |ed.graph.edges| ==> !Touches(ed.graph.edges[i], id)
    ensures DeleteNode(AddNode(ed, kind, id, rx, ry), id).graph == ed.graph
  {
    var a := AddNode(ed, kind, id, rx, ry);
    var n := a.graph.nodes[|ed.graph.nodes|];
    assert a.graph.nodes == ed.graph.nodes + [n];
    FilterAppend(ed.graph.nodes, [n], (m: RuleNode) => m.id != id);
    FilterAll(ed.graph.nodes, (m: RuleNode) => m.id != id);
    FilterAll(ed.graph.edges, (e: RuleEdge) => !Touches(e, id));
  }

  /** `handleDrag(id, dx, dy)`: shifts the nodes with that id and no others. */
  function Drag(g: Graph, id: string, dx: real, dy: real): (r: Graph)
    ensures |r.nodes| == |g.nodes| && r.edges == g.edges
    ensures forall i :: 0 <= i < |g.nodes| && g.nodes[i].id != id ==> r.nodes[i] == g.nodes[i]
    ensures forall i :: 0 <= i < |g.nodes| && g.nodes[i].id == id ==>
      r.nodes[i] == g.nodes[i].(x := g.nodes[i].x + dx, y := g.nodes[i].y + dy)
  {
    g.(nodes := MapIf(g.nodes, (n: RuleNode) => n.id == id, (n: RuleNode) => n.(x := n.x + dx, y := n.y + dy)))
  }

  /** Dragging back by the opposite offset undoes a drag. */
  lemma DragBack(g: Graph, id: string, dx: real, dy: real)
    ensures Drag(Drag(g, id, dx, dy), id, -dx, -dy) == g
  {
    var r := Drag(Drag(g, id, dx, dy), id, -dx, -dy);
    assert forall i :: 0 <= i < |g.nodes| ==> r.nodes[i] == g.nodes[i];
  }

  /** The link button: the clicked node becomes the source of the next edge. */
  function StartConnect(ed: Editor, id: string): (r: Editor)
    ensures r.connectSource == Some(id) && r.graph == ed.graph && r.selected == ed.selected
  {
    ed.(connectSource := Some(id))
  }

  /**
   `handleNodeClick(id)`: outside connect mode the node is selected; in
   connect mode a click on another node appends one edge from the source to
   it (with the random id `edgeId`) and ends connect mode, while a click on
   the source itself changes nothing.
   */
  function NodeClick(ed: Editor, id: string, edgeId: string): (r: Editor)
    ensures ed.connectSource.None? ==> r == ed.(selected := Some(id))
    ensures ed.connectSource == Some(id) ==> r == ed
    ensures ed.connectSource.Some? && ed.connectSource.value != id ==> (
      && r.graph.nodes == ed.graph.nodes
      && r.graph.edges == ed.graph.edges + [RuleEdge(edgeId, ed.connectSource.value, id)]
      && r.connectSource == None && r.selected == ed.selected)
  {
    match ed.connectSource
    case None => ed.(selected := Some(id))
    case Some(src) =>
      if src == id then ed
      else ed.(graph := ed.graph.(edges := ed.graph.edges + [RuleEdge(edgeId, src, id)]), connectSource := None)
  }

  /** No click creates an edge from a node to itself. */
  lemma NoSelfLoops(ed: Editor, id: string, edgeId: string)
    requires forall i :: 0 <= i < |ed.graph.edges| ==> ed.graph.edges[i].source != ed.graph.edges[i].target
    ensures var es := NodeClick(ed, id, edgeId).graph.edges;
      forall i :: 0 <= i < |es| ==> es[i].source != es[i].target
  {
  }

  // ----- The audit -----

  /** The targets of the edges leaving `u`, in edge order (the adjacency list the audit builds). */
  function Children(edges: seq<RuleEdge>, u: string): (r: seq<string>)
    ensures forall v :: v in r <==> exists i :: 0 <= i < |edges| && edges[i].source == u && edges[i].target == v
  {
    if edges == [] then []
    else
      var rest := Children(edges[1..], u);
      var r := (if edges[0].source == u then [edges[0].target] else []) + rest;
      assert forall i :: 0 < i < |edges| ==> edges[i] == edges[1..][i - 1];
      r
  }

  /** `p` follows edges: each element is a child of the one before. */
  ghost predicate Walk(edges: seq<RuleEdge>, p: seq<string>) {
    |p| >= 1 && forall i :: 0 <= i < |p| - 1 ==> p[i + 1] in Children(edges, p[i])
  }

  /** Some walk from `root` comes back to a node it has already passed: a cycle is reachable. */
  ghost predicate CycleFrom(edges: seq<RuleEdge>, root: string) {
    exists p :: Walk(edges, p) && |p| >= 2 && p[0] == root && p[|p| - 1] in p[..|p| - 1]
  }

  /** Every id the search can reach: the listed nodes and the edge targets. */
  function Universe(g: Graph): set<string> {
    (set n | n in g.nodes :: n.id) + (set e | e in g.edges :: e.target)
  }

  function Elems(s: seq<string>): set<string> {
    set x | x in s
  }

  /** The position of the first `x` in `s`. */
  function Rank(s: seq<string>, x: string): (r: nat)
    requires x in s
    ensures r < |s| && s[r] == x && x !in s[..r]
  {
    if s[0] == x then 0
    else
      var k := Rank(s[1..], x);
      assert s[1..][..k] == s[1..k + 1];
      k + 1
  }

  /**
   Every finished node's children finished before it: the finishing order of
   a search that found no back edge.
   */
  ghost predicate Ranked(edges: seq<RuleEdge>, done: seq<string>) {
    forall i :: 0 <= i < |done| ==> forall v :: v in Children(edges, done[i]) ==> v in done[..i]
  }

  /**
   `isCyclic(curr)`: visits `curr` with `stack` as the recursion stack (the
   path from `root`); reports a back edge to a node on the stack, and
   otherwise finishes `curr` after all its unvisited children. `done` is the
   finishing order so far.
   */
  method Dfs(g: Graph, curr: string, ghost root: string, stack: seq<string>, visited: set<string>,
             ghost done: seq<string>) returns (cyc: bool, visited': set<string>, ghost done': seq<string>)
    requires curr in Universe(g) && curr !in visited
    requires Walk(g.edges, stack + [curr]) && (stack + [curr])[0] == root
    requires visited == Elems(stack) + Elems(done)
    requires Ranked(g.edges, done)
    ensures cyc ==> CycleFrom(g.edges, root)
    ensures !cyc ==> (
      && visited' == Elems(stack) + Elems(done')
      && Ranked(g.edges, done')
      && curr in done'
      && Elems(done) <= Elems(done')
      && visited <= visited')
    decreases Universe(g) - visited
  {
    var path := stack + [curr];
    var now := visited + {curr};
    ghost var fin := done;
    var children := Children(g.edges, curr);
    var k := 0;
    while k < |children|
      invariant 0 <= k <= |children|
      invariant now == Elems(path) + Elems(fin)
      invariant visited + {curr} <= now
      invariant Ranked(g.edges, fin) && Elems(done) <= Elems(fin)
      invariant forall j :: 0 <= j < k ==> children[j] in Elems(fin)
    {
      var child := children[k];
      if child !in now {
        assert child in Universe(g) by {
          assert child in children;
          var i :| 0 <= i < |g.edges| && g.edges[i].source == curr && g.edges[i].target == child;
          assert g.edges[i] in g.edges;
        }
        WalkSnoc(g.edges, path, child);
        var c;
        c, now, fin := Dfs(g, child, root, path, now, fin);
        if c {
          return true, now, fin;
        }
      } else if child in path {
        BackEdge(g.edges, path, child, root);
        return true, now, fin;
      } else {
        assert child in Elems(fin);
      }
      k := k + 1;
    }
    assert forall v :: v in Children(g.edges, curr) ==> v in fin by {
      forall v | v in children ensures v in fin {
        var j :| 0 <= j < |children| && children[j] == v;
        assert v in Elems(fin);
      }
    }
    RankedSnoc(g.edges, fin, curr);
    cyc, visited' := false, now;
    done' := fin + [curr];
    assert Elems(done') == Elems(fin) + {curr};
  }

  lemma WalkSnoc(edges: seq<RuleEdge>, p: seq<string>, v: string)
    requires Walk(edges, p) && v in Children(edges, p[|p| - 1])
    ensures Walk(edges, p + [v]) && (p + [v])[0] == p[0]
  {
    var q := p + [v];
    forall i | 0 <= i < |q| - 1 ensures q[i + 1] in Children(edges, q[i]) {
      if i < |p| - 1 {
        assert q[i] == p[i] && q[i + 1] == p[i + 1];
      }
    }
  }

  /** An edge from the top of the stack back into the stack closes a cycle reachable from the root. */
  lemma BackEdge(edges: seq<RuleEdge>, path: seq<string>, child: string, root: string)
    requires Walk(edges, path) && path[0] == root
    requires child in Children(edges, path[|path| - 1]) && child in path
    ensures CycleFrom(edges, root)
  {
    WalkSnoc(edges, path, child);
    var p := path + [child];
    assert p[..|p| - 1] == path;
  }

  lemma RankedSnoc(edges: seq<RuleEdge>, done: seq<string>, u: string)
    requires Ranked(edges, done)
    requires forall v :: v in Children(edges, u) ==> v in done
    ensures Ranked(edges, done + [u])
  {
    var d := done + [u];
    forall i | 0 <= i < |d| ensures forall v :: v in Children(edges, d[i]) ==> v in d[..i] {
      if i < |done| {
        assert d[..i] == done[..i];
      } else {
        assert d[..i] == done;
      }
    }
  }

  /** Along a walk through finished nodes the rank strictly falls at every step. */
  lemma {:induction false} WalkDescends(edges: seq<RuleEdge>, done: seq<string>, p: seq<string>, k: nat)
    requires Ranked(edges, done) && Walk(edges, p) && p[0] in done
    requires k < |p|
    ensures forall j :: 0 <= j <= k ==> p[j] in done
    ensures forall j :: 0 <= j < k ==> Rank(done, p[k]) < Rank(done, p[j])
  {
    if k > 0 {
      WalkDescends(edges, done, p, k - 1);
      var u := p[k - 1];
      var i := Rank(done, u);
      assert p[k] in Children(edges, p[k - 1]);
      assert p[k] in done[..i];
      var m :| 0 <= m < i && done[..i][m] == p[k];
      RankAtMost(done, p[k], m);
    }
  }

  lemma {:induction false} RankAtMost(s: seq<string>, x: string, m: nat)
    requires m < |s| && s[m] == x
    ensures Rank(s, x) <= m
  {
    if s[0] != x {
      RankAtMost(s[1..], x, m - 1);
    }
  }

  /** No cycle is reachable from a node finished by a search that found no back edge. */
  lemma NoCycleFromRanked(edges: seq<RuleEdge>, done: seq<string>, root: string)
    requires Ranked(edges, done) && root in done
    ensures !CycleFrom(edges, root)
  {
    if CycleFrom(edges, root) {
      var p :| Walk(edges, p) && |p| >= 2 && p[0] == root && p[|p| - 1] in p[..|p| - 1];
      var last := |p| - 1;
      var j :| 0 <= j < last && p[..last][j] == p[last];
      assert p[j] == p[last];
      WalkDescends(edges, done, p, last);
      assert false;
    }
  }

  /**
   `validateGraph`: searches from every listed node not yet visited, in
   order, and stops at the first cycle. The graph is valid exactly when no
   listed node reaches a cycle.
   */
  method ValidateGraph(g: Graph) returns (valid: bool)
    ensures valid <==> forall i :: 0 <= i < |g.nodes| ==> !CycleFrom(g.edges, g.nodes[i].id)
  {
    var visited: set<string> := {};
    ghost var done: seq<string> := [];
    var i := 0;
    while i < |g.nodes|
      invariant 0 <= i <= |g.nodes|
      invariant visited == Elems(done) && Ranked(g.edges, done)
      invariant forall j :: 0 <= j < i ==> g.nodes[j].id in visited
    {
      var id := g.nodes[i].id;
      if id !in visited {
        assert g.nodes[i] in g.nodes;
        assert Walk(g.edges, [] + [id]);
        var cyc;
        cyc, visited, done := Dfs(g, id, id, [], visited, done);
        if cyc {
          return false;
        }
      }
      i := i + 1;
    }
    forall j | 0 <= j < |g.nodes| ensures !CycleFrom(g.edges, g.nodes[j].id) {
      assert g.nodes[j].id in Elems(done);
      NoCycleFromRanked(g.edges, done, g.nodes[j].id);
    }
    return true;
  }

  /** The audit button: records the verdict in the editor. */
  method Audit(ed: Editor) returns (r: Editor)
    ensures r.graph == ed.graph && r.selected == ed.selected && r.connectSource == ed.connectSource
    ensures r.status == Valid <==> forall i :: 0 <= i < |ed.graph.nodes| ==> !CycleFrom(ed.graph.edges, ed.graph.nodes[i].id)
    ensures r.status != Idle
  {
    var ok := ValidateGraph(ed.graph);
    r := ed.(status := if ok then Valid else Invalid);
  }
}

=== FILE: semantic_dictionary.dfy ===
/**
 The semantic dictionary: the terms that map a name used in the legislation
 to the system's name and the optimiser's name, with adding, deleting,
 editing one term at a time, and the search over all three names.
 */
module SemanticDictionary {
  import opened Wrappers
  import opened Seqs
  import opened Text
  import opened FarmTypes

  datatype TermCategory = CropTerm | SchemeTerm | ParamTerm | OtherTerm

  datatype SemanticTerm = SemanticTerm(
    id: string,
    sourceTerm: string,
    systemTerm: string,
    optimizerTerm: string,
    category: TermCategory,
    description: Option<string>)

  /** The edit form: a partial term, `None` where an attribute is absent. */
  datatype TermPatch = TermPatch(
    id: Option<string>,
    sourceTerm: Option<string>,
    systemTerm: Option<string>,
    optimizerTerm: Option<string>,
    category: Option<TermCategory>,
    description: Option<string>)

  const EmptyPatch := TermPatch(None, None, None, None, None, None)

  /** The dictionary, the id of the term being edited, and the edit form. */
  datatype Dictionary = Dictionary(terms: seq<SemanticTerm>, editing: Option<string>, form: TermPatch)

  /** The term a click on "add" creates. */
  function NewTerm(id: string): SemanticTerm {
    SemanticTerm(id, "Nowe Pojęcie", "new_term", "NEW_TERM", OtherTerm, Some(""))
  }

  /** `{ ...term }`: the form holding every attribute of the term. */
  function PatchOf(t: SemanticTerm): (p: TermPatch)
    ensures Apply(SemanticTerm("", "", "", "", OtherTerm, None), p) == t
    ensures forall x :: Apply(x, p) == t.(description := if t.description.Some? then t.description else x.description)
    ensures t.description.Some? ==> forall x :: Apply(x, p) == t
  {
    TermPatch(Some(t.id), Some(t.sourceTerm), Some(t.systemTerm), Some(t.optimizerTerm), Some(t.category), t.description)
  }

  /** `{ ...t, ...patch }`: the patch's attributes over the term's. */
  function Apply(t: SemanticTerm, p: TermPatch): (r: SemanticTerm)
    ensures p == EmptyPatch ==> r == t
    ensures p.id.Some? ==> r.id == p.id.value
    ensures p.id.None? ==> r.id == t.id
    ensures p.sourceTerm.Some? ==> r.sourceTerm == p.sourceTerm.value
    ensures p.sourceTerm.None? ==> r.sourceTerm == t.sourceTerm
    ensures p.systemTerm.Some? ==> r.systemTerm == p.systemTerm.value
    ensures p.systemTerm.None? ==> r.systemTerm == t.systemTerm
    ensures p.optimizerTerm.Some? ==> r.optimizerTerm == p.optimizerTerm.value
    ensures p.optimizerTerm.None? ==> r.optimizerTerm == t.optimizerTerm
    ensures p.category.Some? ==> r.category == p.category.value
    ensures p.category.None? ==> r.category == t.category
    ensures p.description.Some? ==> r.description == p.description
    ensures p.description.None? ==> r.description == t.description
  {
    SemanticTerm(p.id.GetOr(t.id), p.sourceTerm.GetOr(t.sourceTerm), p.systemTerm.GetOr(t.systemTerm),
      p.optimizerTerm.GetOr(t.optimizerTerm), p.category.GetOr(t.category),
      if p.description.Some? then p.description else t.description)
  }

  /** Opens the editor on a term. */
  function StartEdit(d: Dictionary, t: SemanticTerm): (r: Dictionary)
    ensures r.terms == d.terms && r.editing == Some(t.id) && r.form == PatchOf(t)
  {
    Dictionary(d.terms, Some(t.id), PatchOf(t))
  }

  /** Closes the editor without saving. */
  function CancelEdit(d: Dictionary): (r: Dictionary)
    ensures r.terms == d.terms && r.editing.None? && r.form == EmptyPatch
  {
    Dictionary(d.terms, None, EmptyPatch)
  }

  /** Prepends a new term with the default names and opens the editor on it. */
  function Add(d: Dictionary, newId: string): (r: Dictionary)
    ensures r.terms == [NewTerm(newId)] + d.terms
    ensures r.editing == Some(newId) && r.form == PatchOf(NewTerm(newId))
  {
    StartEdit(d.(terms := [NewTerm(newId)] + d.terms), NewTerm(newId))
  }

  /** After confirmation, removes exactly the terms with the id. */
  function Delete(d: Dictionary, id: string, confirmed: bool): (r: Dictionary)
    ensures !confirmed ==> r == d
    ensures confirmed ==> r.editing == d.editing && forall t :: t in r.terms <==> t in d.terms && t.id != id
  {
    if confirmed then d.(terms := RemoveKey(d.terms, (t: SemanticTerm) => t.id, id)) else d
  }

  /** Adding a term under a fresh id and deleting it again gives the terms back. */
  lemma AddThenDelete(d: Dictionary, newId: string)
    requires forall t :: t in d.terms ==> t.id != newId
    ensures Delete(Add(d, newId), newId, true).terms == d.terms
  {
    RemoveKeyFresh(NewTerm(newId), d.terms, (t: SemanticTerm) => t.id);
  }

  /**
   Merges the form into every term with the edited id and closes the editor;
   with nothing being edited, nothing changes.
   */
  function SaveEdit(d: Dictionary): (r: Dictionary)
    ensures d.editing.None? ==> r == d
    ensures d.editing.Some? ==> r.editing.None? && r.form == EmptyPatch && |r.terms| == |d.terms|
    ensures d.editing.Some? ==> forall i :: 0 <= i < |d.terms| ==>
      r.terms[i] == if d.terms[i].id == d.editing.value then Apply(d.terms[i], d.form) else d.terms[i]
  {
    match d.editing
    case None => d
    case Some(id) =>
      Dictionary(MapIf(d.terms, (t: SemanticTerm) => t.id == id, (t: SemanticTerm) => Apply(t, d.form)), None, EmptyPatch)
  }

  /** Opening a term and saving the form unchanged keeps the dictionary, when ids are unique. */
  lemma EditUnchanged(d: Dictionary, t: SemanticTerm)
    requires t in d.terms
    requires forall i, j :: 0 <= i < j < |d.terms| ==> d.terms[i].id != d.terms[j].id
    ensures SaveEdit(StartEdit(d, t)).terms == d.terms
  {
    var r := SaveEdit(StartEdit(d, t)).terms;
    forall i | 0 <= i < |d.terms| ensures r[i] == d.terms[i] {
      if d.terms[i].id == t.id {
        var k :| 0 <= k < |d.terms| && d.terms[k] == t;
        assert k == i;
      }
    }
  }

  // ----- Search -----

  /** A term matches when one of its three names holds the search text, ignoring case. */
  predicate Matches(t: SemanticTerm, search: string) {
    Contains(Lower(t.sourceTerm), Lower(search)) || Contains(Lower(t.systemTerm), Lower(search)) ||
    Contains(Lower(t.optimizerTerm), Lower(search))
  }

  /** The terms the search keeps, in order. */
  function Search(terms: seq<SemanticTerm>, search: string): (r: seq<SemanticTerm>)
    ensures forall t :: t in r <==> t in terms && Matches(t, search)
  {
    Filter(terms, (t: SemanticTerm) => Matches(t, search))
  }

  /** Searching for a term's own optimiser name finds it. */
  lemma SearchFindsOptimizerName(terms: seq<SemanticTerm>, t: SemanticTerm)
    requires t in terms
    ensures t in Search(terms, t.optimizerTerm)
  {
    var s := Lower(t.optimizerTerm);
    assert s[..|s|] == s;
  }
}

=== FILE: seqs.dfy ===
/**
 Generic operations on sequences that the components apply to their lists of
 records: `filter`, conditional `map`, `findIndex`, replace-or-append,
 de-duplication through a `Set`, sums and a stable insertion sort.
 */
module Seqs {
  import opened Wrappers

  /** The elements of `s` that satisfy `p`, in their original order. */
  function Filter<T(!new)>(s: seq<T>, p: T -> bool): (r: seq<T>)
    ensures |r| <= |s|
    ensures forall x :: x in r <==> x in s && p(x)
    ensures forall i :: 0 <= i < |r| ==> p(r[i])
  {
    if s == [] then []
    else
      assert s == [s[0]] + s[1..];
      (if p(s[0]) then [s[0]] else []) + Filter(s[1..], p)
  }

  lemma {:induction false} FilterAppend<T(!new)>(a: seq<T>, b: seq<T>, p: T -> bool)
    ensures Filter(a + b, p) == Filter(a, p) + Filter(b, p)
  {
    if a == [] {
      assert a + b == b;
    } else {
      assert (a + b)[1..] == a[1..] + b;
      FilterAppend(a[1..], b, p);
    }
  }

  /** Filtering keeps a sequence whose every element passes. */
  lemma {:induction false} FilterAll<T(!new)>(s: seq<T>, p: T -> bool)
    requires forall i :: 0 <= i < |s| ==> p(s[i])
    ensures Filter(s, p) == s
  {
    if s != [] {
      FilterAll(s[1..], p);
    }
  }

  /** Two complementary filters split a sequence between them, element for element. */
  lemma {:induction false} FilterSplitBy<T(!new)>(s: seq<T>, p: T -> bool, q: T -> bool)
    requires forall i :: 0 <= i < |s| ==> (p(s[i]) <==> !q(s[i]))
    ensures multiset(Filter(s, p)) + multiset(Filter(s, q)) == multiset(s)
  {
    if s != [] {
      var h, t := s[0], s[1..];
      FilterSplitBy(t, p, q);
      assert s == [h] + t;
      if p(h) {
        assert Filter(s, p) == [h] + Filter(t, p);
      } else {
        assert Filter(s, q) == [h] + Filter(t, q);
      }
    }
  }

  /** Filtering drops a sequence no element of which passes. */
  lemma FilterNone<T(!new)>(s: seq<T>, p: T -> bool)
    requires forall x :: x in s ==> !p(x)
    ensures Filter(s, p) == []
  {
  }

  /** A property every element has, every filtered element has. */
  lemma FilterKeeps<T(!new)>(s: seq<T>, p: T -> bool, q: T -> bool)
    requires forall i :: 0 <= i < |s| ==> q(s[i])
    ensures forall i :: 0 <= i < |Filter(s, p)| ==> q(Filter(s, p)[i])
  {
    var r := Filter(s, p);
    forall i | 0 <= i < |r| ensures q(r[i]) {
      assert r[i] in s;
    }
  }

  /** `s.map(x => p(x) ? f(x) : x)`: only the elements satisfying `p` change. */
  function MapIf<T>(s: seq<T>, p: T -> bool, f: T -> T): (r: seq<T>)
    ensures |r| == |s|
    ensures forall i :: 0 <= i < |s| && !p(s[i]) ==> r[i] == s[i]
    ensures forall i :: 0 <= i < |s| && p(s[i]) ==> r[i] == f(s[i])
  {
    seq(|s|, i requires 0 <= i < |s| => if p(s[i]) then f(s[i]) else s[i])
  }

  /** `s.map(f)`. */
  function Map<T, U>(s: seq<T>, f: T -> U): (r: seq<U>)
    ensures |r| == |s|
    ensures forall i :: 0 <= i < |s| ==> r[i] == f(s[i])
  {
    seq(|s|, i requires 0 <= i < |s| => f(s[i]))
  }

  /** Mapping distributes over concatenation. */
  lemma MapAppend<T, U>(a: seq<T>, b: seq<T>, f: T -> U)
    ensures Map(a + b, f) == Map(a, f) + Map(b, f)
  {
    assert forall i :: 0 <= i < |a| + |b| ==> (Map(a, f) + Map(b, f))[i] == f((a + b)[i]);
  }

  /** Filtering then mapping a non-empty sequence: the head's image when it passes, then the tail's. */
  lemma MapFilterCons<T(!new), U>(s: seq<T>, p: T -> bool, f: T -> U)
    requires s != []
    ensures Map(Filter(s, p), f) == (if p(s[0]) then [f(s[0])] else []) + Map(Filter(s[1..], p), f)
  {
    var keep := if p(s[0]) then [s[0]] else [];
    assert Filter(s, p) == keep + Filter(s[1..], p);
    MapAppend(keep, Filter(s[1..], p), f);
  }

  /** `s.findIndex(p)`: the first index satisfying `p`, or -1. */
  function FindIndex<T>(s: seq<T>, p: T -> bool): (r: int)
    ensures -1 <= r < |s|
    ensures r == -1 <==> forall i :: 0 <= i < |s| ==> !p(s[i])
    ensures r >= 0 ==> p(s[r]) && forall i :: 0 <= i < r ==> !p(s[i])
  {
    if s == [] then -1
    else if p(s[0]) then 0
    else
      var k := FindIndex(s[1..], p);
      if k == -1 then -1 else k + 1
  }

  /** `s.find(p)`: the first element satisfying `p`. */
  function Find<T>(s: seq<T>, p: T -> bool): (r: Option<T>)
    ensures r.None? <==> forall i :: 0 <= i < |s| ==> !p(s[i])
    ensures r.Some? ==> r.value in s && p(r.value)
    ensures r.Some? ==> exists i :: 0 <= i < |s| && s[i] == r.value && forall j :: 0 <= j < i ==> !p(s[j])
  {
    var k := FindIndex(s, p);
    if k == -1 then None else Some(s[k])
  }

  /** `s.some(p)`. */
  predicate Any<T>(s: seq<T>, p: T -> bool) {
    exists i :: 0 <= i < |s| && p(s[i])
  }

  /**
   Replace-or-append by key: when some element has the key of `x`, every element
   with that key is replaced by `x` in place; otherwise `x` is appended.
   */
  function Upsert<T, K(==)>(s: seq<T>, x: T, key: T -> K): (r: seq<T>)
    ensures Any(s, (y: T) => key(y) == key(x)) ==>
      |r| == |s| && forall i :: 0 <= i < |s| ==> r[i] == (if key(s[i]) == key(x) then x else s[i])
    ensures !Any(s, (y: T) => key(y) == key(x)) ==> r == s + [x]
  {
    if FindIndex(s, (y: T) => key(y) == key(x)) >= 0
    then MapIf(s, (y: T) => key(y) == key(x), _ => x)
    else s + [x]
  }

  /** After a replace-or-append, looking the key up finds exactly `x`. */
  lemma UpsertThenFind<T, K>(s: seq<T>, x: T, key: T -> K)
    ensures Find(Upsert(s, x, key), (y: T) => key(y) == key(x)) == Some(x)
  {
    var r := Upsert(s, x, key);
    var p := (y: T) => key(y) == key(x);
    assert p(x);
    if Any(s, p) {
      var i :| 0 <= i < |s| && p(s[i]);
      assert r[i] == x;
    } else {
      assert r[|s|] == x;
    }
    var f := Find(r, p);
    if f.Some? {
      var j :| 0 <= j < |r| && r[j] == f.value;
      assert p(r[j]);
    }
  }

  /** Replacing or appending the same record twice changes nothing the second time. */
  lemma UpsertIdempotent<T, K>(s: seq<T>, x: T, key: T -> K)
    ensures Upsert(Upsert(s, x, key), x, key) == Upsert(s, x, key)
  {
    var r := Upsert(s, x, key);
    var p := (y: T) => key(y) == key(x);
    assert p(x);
    if Any(s, p) {
      var i :| 0 <= i < |s| && p(s[i]);
      assert r[i] == x;
      assert Any(r, p);
      var r2 := Upsert(r, x, key);
      forall k | 0 <= k < |r| ensures r2[k] == r[k] {
        assert r[k] == (if key(s[k]) == key(x) then x else s[k]);
      }
    } else {
      assert r[|s|] == x;
      assert Any(r, p);
      var r2 := Upsert(r, x, key);
      forall k | 0 <= k < |r| ensures r2[k] == r[k] {
        if k < |s| {
          assert r[k] == s[k];
          assert !p(s[k]);
        }
      }
    }
  }

  /** `Array.from(new Set(s))`: first occurrences, in order, without repeats. */
  function Dedup<T(==,!new)>(s: seq<T>): (r: seq<T>)
    ensures forall x :: x in r <==> x in s
    ensures forall i, j :: 0 <= i < j < |r| ==> r[i] != r[j]
    ensures |r| <= |s|
  {
    if s == [] then []
    else
      var d := Dedup(s[..|s| - 1]);
      if s[|s| - 1] in d then d else d + [s[|s| - 1]]
  }

  /** A sequence without repeats is its own de-duplication. */
  lemma {:induction false} DedupDistinct<T(!new)>(s: seq<T>)
    requires forall i, j :: 0 <= i < j < |s| ==> s[i] != s[j]
    ensures Dedup(s) == s
  {
    if s != [] {
      var init := s[..|s| - 1];
      DedupDistinct(init);
      assert s[|s| - 1] !in init;
      assert init + [s[|s| - 1]] == s;
    }
  }

  /** `s.indexOf(x)`, with `|s|` standing for "absent": the first position holding `x`. */
  function Position<T(==)>(s: seq<T>, x: T): (r: nat)
    ensures r <= |s|
    ensures r < |s| <==> x in s
    ensures r < |s| ==> s[r] == x
    ensures forall k :: 0 <= k < r ==> s[k] != x
  {
    if s == [] then 0
    else if s[0] == x then 0
    else 1 + Position(s[1..], x)
  }

  /** Appending after the first occurrence of `x` keeps its position; a new last element sits at the end. */
  lemma PositionAppend<T>(s: seq<T>, y: T, x: T)
    ensures x in s ==> Position(s + [y], x) == Position(s, x)
    ensures x !in s && x == y ==> Position(s + [y], x) == |s|
  {
    var t := s + [y];
    var p, q := Position(s, x), Position(t, x);
    if x in s {
      assert t[p] == x;
    } else if x == y {
      assert t[|s|] == x;
    }
  }

  /**
   The de-duplication keeps first-occurrence order: an element listed before
   another first occurs before it.
   */
  lemma {:induction false} DedupOrder<T(!new)>(s: seq<T>)
    ensures forall i, j :: 0 <= i < j < |Dedup(s)| ==> Position(s, Dedup(s)[i]) < Position(s, Dedup(s)[j])
  {
    if s != [] {
      var init, last := s[..|s| - 1], s[|s| - 1];
      var d := Dedup(init);
      DedupOrder(init);
      SplitLast(s);
      forall x | x in init ensures Position(s, x) == Position(init, x) {
        PositionAppend(init, last, x);
      }
      if last !in d {
        PositionAppend(init, last, last);
        DedupOrderStep(s, d, d + [last]);
      }
    }
  }

  /** Appending a new last element behind the de-duplicated prefix keeps the order. */
  lemma DedupOrderStep<T>(s: seq<T>, d: seq<T>, r: seq<T>)
    requires s != [] && r == d + [s[|s| - 1]]
    requires forall x :: x in d ==> x in s[..|s| - 1] && Position(s, x) < |s| - 1
    requires forall i, j :: 0 <= i < j < |d| ==> Position(s, d[i]) < Position(s, d[j])
    requires Position(s, s[|s| - 1]) == |s| - 1
    ensures forall i, j :: 0 <= i < j < |r| ==> Position(s, r[i]) < Position(s, r[j])
  {
    forall i, j | 0 <= i < j < |r| ensures Position(s, r[i]) < Position(s, r[j]) {
      assert r[i] == d[i];
      if j < |d| {
        assert r[j] == d[j];
      }
    }
  }

  /** The left-to-right sum of `f` over `s` (`s.reduce((acc, x) => acc + f(x), 0)`). */
  function SumOf<T>(s: seq<T>, f: T -> real): real {
    if s == [] then 0.0 else SumOf(s[..|s| - 1], f) + f(s[|s| - 1])
  }

  lemma {:induction false} SumOfAppend<T>(a: seq<T>, b: seq<T>, f: T -> real)
    ensures SumOf(a + b, f) == SumOf(a, f) + SumOf(b, f)
  {
    if b != [] {
      assert (a + b)[..|a + b| - 1] == a + b[..|b| - 1];
      SumOfAppend(a, b[..|b| - 1], f);
    } else {
      assert a + b == a;
    }
  }

  /** `ss.flat()`. */
  function Flatten<T(!new)>(ss: seq<seq<T>>): (r: seq<T>)
    ensures forall x :: x in r <==> exists i :: 0 <= i < |ss| && x in ss[i]
  {
    if ss == [] then [] else
      var r := ss[0] + Flatten(ss[1..]);
      assert forall x :: x in r <==> exists i :: 0 <= i < |ss| && x in ss[i] by {
        forall x | x in r ensures exists i :: 0 <= i < |ss| && x in ss[i] {
          if x !in ss[0] {
            var i :| 0 <= i < |ss[1..]| && x in ss[1..][i];
            assert x in ss[i + 1];
          }
        }
        forall x | exists i :: 0 <= i < |ss| && x in ss[i] ensures x in r {
          var i :| 0 <= i < |ss| && x in ss[i];
          if i > 0 {
            assert x in ss[1..][i - 1];
          }
        }
      }
      r
  }

  // ----- Sorting -----

  /** `le` is a total preorder: any two elements compare, and it is transitive. */
  ghost predicate TotalPreorder<T(!new)>(le: (T, T) -> bool) {
    && (forall a, b :: le(a, b) || le(b, a))
    && (forall a, b, c :: le(a, b) && le(b, c) ==> le(a, c))
  }

  ghost predicate SortedBy<T>(s: seq<T>, le: (T, T) -> bool) {
    forall i, j :: 0 <= i < j < |s| ==> le(s[i], s[j])
  }

  /** Inserts `x` after every leading element that is `le` it, so equal keys keep arrival order. */
  function Insert<T>(x: T, s: seq<T>, le: (T, T) -> bool): (r: seq<T>)
    ensures |r| == |s| + 1
    ensures multiset(r) == multiset(s) + multiset{x}
  {
    if s == [] then [x]
    else
      assert s == [s[0]] + s[1..];
      if le(s[0], x) then [s[0]] + Insert(x, s[1..], le)
    else [x] + s
  }

  /** Stable insertion sort (`Array.prototype.sort` is stable since ES2019). */
  function SortBy<T>(s: seq<T>, le: (T, T) -> bool): (r: seq<T>)
    ensures |r| == |s|
    ensures multiset(r) == multiset(s)
  {
    if s == [] then []
    else
      assert s == s[..|s| - 1] + [s[|s| - 1]];
      Insert(s[|s| - 1], SortBy(s[..|s| - 1], le), le)
  }

  lemma {:induction false} InsertSorted<T(!new)>(x: T, s: seq<T>, le: (T, T) -> bool)
    requires TotalPreorder(le)
    requires SortedBy(s, le)
    ensures SortedBy(Insert(x, s, le), le)
  {
    if s != [] {
      if le(s[0], x) {
        InsertSorted(x, s[1..], le);
        InsertBehind(x, s, le);
      } else {
        InsertInFront(x, s, le);
      }
    }
  }

  /** `x` goes behind a head that is `le` it, so the head stays least. */
  lemma InsertBehind<T(!new)>(x: T, s: seq<T>, le: (T, T) -> bool)
    requires SortedBy(s, le) && s != [] && le(s[0], x)
    requires SortedBy(Insert(x, s[1..], le), le)
    ensures SortedBy(Insert(x, s, le), le)
  {
    var t := Insert(x, s[1..], le);
    assert Insert(x, s, le) == [s[0]] + t;
    InsertMembers(x, s[1..], le);
    forall j | 0 <= j < |t| ensures le(s[0], t[j]) {
      if t[j] != x {
        var k :| 0 <= k < |s[1..]| && s[1..][k] == t[j];
        assert s[k + 1] == t[j];
      }
    }
    SortedCons(s[0], t, le);
  }

  /** A sorted sequence stays sorted under a head that is `le` all of it. */
  lemma SortedCons<T>(a: T, t: seq<T>, le: (T, T) -> bool)
    requires SortedBy(t, le)
    requires forall j :: 0 <= j < |t| ==> le(a, t[j])
    ensures SortedBy([a] + t, le)
  {
    var r := [a] + t;
    forall i, j | 0 <= i < j < |r| ensures le(r[i], r[j]) {
      assert r[j] == t[j - 1];
      if i > 0 {
        assert r[i] == t[i - 1];
      }
    }
  }

  /** The inserted sequence holds `x` and the elements of `s`, and nothing else. */
  lemma {:induction false} InsertMembers<T>(x: T, s: seq<T>, le: (T, T) -> bool)
    ensures forall i :: 0 <= i < |Insert(x, s, le)| ==> Insert(x, s, le)[i] == x || Insert(x, s, le)[i] in s
  {
    if s != [] && le(s[0], x) {
      InsertMembers(x, s[1..], le);
      var t := Insert(x, s[1..], le);
      assert Insert(x, s, le) == [s[0]] + t;
      forall i | 0 < i < |t| + 1 ensures ([s[0]] + t)[i] == x || ([s[0]] + t)[i] in s {
        assert ([s[0]] + t)[i] == t[i - 1];
        if t[i - 1] != x {
          assert t[i - 1] in s[1..];
        }
      }
    }
  }

  /** `x` goes in front of a head it is strictly below. */
  lemma InsertInFront<T(!new)>(x: T, s: seq<T>, le: (T, T) -> bool)
    requires TotalPreorder(le)
    requires SortedBy(s, le) && s != [] && !le(s[0], x)
    ensures SortedBy(Insert(x, s, le), le)
  {
    assert le(x, s[0]);
    var r := [x] + s;
    assert Insert(x, s, le) == r;
    forall i, j | 0 <= i < j < |r| ensures le(r[i], r[j]) {
      if i == 0 {
        assert r[j] == s[j - 1];
        if j - 1 > 0 {
          assert le(s[0], s[j - 1]);
        }
      } else {
        assert r[i] == s[i - 1] && r[j] == s[j - 1];
      }
    }
  }

  lemma {:induction false} SortBySorted<T(!new)>(s: seq<T>, le: (T, T) -> bool)
    requires TotalPreorder(le)
    ensures SortedBy(SortBy(s, le), le)
  {
    if s != [] {
      SortBySorted(s[..|s| - 1], le);
      InsertSorted(s[|s| - 1], SortBy(s[..|s| - 1], le), le);
    }
  }

  /** The elements `le` ranks equal to `z`. */
  function SameRank<T>(le: (T, T) -> bool, z: T): T -> bool {
    (y: T) => le(y, z) && le(z, y)
  }

  /**
   Inserting into a sorted sequence puts `x` behind every element of its own
   rank: the elements ranked like any `z` are those of `s`, in order, followed
   by `x` when it is one of them.
   */
  lemma {:induction false} InsertStable<T(!new)>(x: T, s: seq<T>, le: (T, T) -> bool, z: T)
    requires TotalPreorder(le)
    requires SortedBy(s, le)
    ensures Filter(Insert(x, s, le), SameRank(le, z)) ==
      Filter(s, SameRank(le, z)) + (if SameRank(le, z)(x) then [x] else [])
  {
    var p := SameRank(le, z);
    if s == [] {
      assert Insert(x, s, le) == [x];
      FilterSingle(x, p);
    } else if le(s[0], x) {
      InsertStable(x, s[1..], le, z);
      InsertBehindStable(x, s, le, p);
    } else {
      if p(x) {
        forall y | y in s ensures !p(y) {
          var k :| 0 <= k < |s| && s[k] == y;
          assert le(s[0], y) by {
            if k > 0 {
              assert le(s[0], s[k]);
            }
          }
        }
        FilterNone(s, p);
      }
      InsertFrontStable(x, s, le, p);
    }
  }

  /** Behind the head, the head's rank-mates stay in front of `x`. */
  lemma InsertBehindStable<T(!new)>(x: T, s: seq<T>, le: (T, T) -> bool, p: T -> bool)
    requires s != [] && le(s[0], x)
    requires Filter(Insert(x, s[1..], le), p) == Filter(s[1..], p) + (if p(x) then [x] else [])
    ensures Filter(Insert(x, s, le), p) == Filter(s, p) + (if p(x) then [x] else [])
  {
    var t := Insert(x, s[1..], le);
    var head, rest, tail := if p(s[0]) then [s[0]] else [], Filter(s[1..], p), if p(x) then [x] else [];
    assert Insert(x, s, le) == [s[0]] + t;
    assert ([s[0]] + t)[1..] == t;
    assert Filter([s[0]] + t, p) == head + (rest + tail);
    assert Filter(s, p) == head + rest;
    AppendAssoc(head, rest, tail);
  }

  lemma AppendAssoc<T>(a: seq<T>, b: seq<T>, c: seq<T>)
    ensures a + (b + c) == (a + b) + c
  {
  }

  /** In front of the head, `x` has no rank-mate behind it when it passes. */
  lemma InsertFrontStable<T(!new)>(x: T, s: seq<T>, le: (T, T) -> bool, p: T -> bool)
    requires s != [] && !le(s[0], x)
    requires p(x) ==> Filter(s, p) == []
    ensures Filter(Insert(x, s, le), p) == Filter(s, p) + (if p(x) then [x] else [])
  {
    assert Insert(x, s, le) == [x] + s;
    assert ([x] + s)[1..] == s;
  }

  /**
   The sort is stable: the elements it ranks equal to any `z` come out in the
   order they went in.
   */
  lemma {:induction false} SortByStable<T(!new)>(s: seq<T>, le: (T, T) -> bool, z: T)
    requires TotalPreorder(le)
    ensures Filter(SortBy(s, le), SameRank(le, z)) == Filter(s, SameRank(le, z))
  {
    if s != [] {
      var init := s[..|s| - 1];
      SortByStable(init, le, z);
      SortBySorted(init, le);
      InsertStable(s[|s| - 1], SortBy(init, le), le, z);
      SortStep(s, le, SameRank(le, z));
    }
  }

  /** One insertion step of the sort keeps the filtered order, given it for the prefix. */
  lemma SortStep<T(!new)>(s: seq<T>, le: (T, T) -> bool, p: T -> bool)
    requires s != []
    requires Filter(SortBy(s[..|s| - 1], le), p) == Filter(s[..|s| - 1], p)
    requires Filter(Insert(s[|s| - 1], SortBy(s[..|s| - 1], le), le), p) ==
      Filter(SortBy(s[..|s| - 1], le), p) + (if p(s[|s| - 1]) then [s[|s| - 1]] else [])
    ensures Filter(SortBy(s, le), p) == Filter(s, p)
  {
    var init, last := s[..|s| - 1], s[|s| - 1];
    SplitLast(s);
    FilterAppend(init, [last], p);
    FilterSingle(last, p);
  }

  lemma SplitLast<T>(s: seq<T>)
    requires s != []
    ensures s == s[..|s| - 1] + [s[|s| - 1]]
  {
  }

  lemma FilterSingle<T(!new)>(x: T, p: T -> bool)
    ensures Filter([x], p) == if p(x) then [x] else []
  {
    assert [x][1..] == [];
  }
}

=== FILE: text.dfy ===
/**
 The JavaScript string operations the components rely on, over Dafny strings
 (sequences of Unicode scalar values): the `\s` class, `trim`, `toLowerCase` and
 `toUpperCase` (for ASCII letters and the Polish diacritics), `includes`,
 `indexOf`, `split`, `join`, and decimal rendering of integers.
 */
module Text {
  import opened Seqs

  /** The characters matched by the JavaScript `\s` class and removed by `trim()`. */
  predicate IsSpace(c: char) {
    || c == ' ' || c == '\t' || c == '\n' || c == '\r'
    || c == '\U{000B}' || c == '\U{000C}' || c == '\U{00A0}' || c == '\U{1680}'
    || ('\U{2000}' <= c <= '\U{200A}')
    || c == '\U{2028}' || c == '\U{2029}' || c == '\U{202F}' || c == '\U{205F}'
    || c == '\U{3000}' || c == '\U{FEFF}'
  }

  ghost predicate AllSpace(s: string) {
    forall i :: 0 <= i < |s| ==> IsSpace(s[i])
  }

  ghost predicate NoSpace(s: string) {
    forall i :: 0 <= i < |s| ==> !IsSpace(s[i])
  }

  /** `replace(/\s/g, '')`. */
  function DropSpaces(s: string): (r: string)
    ensures NoSpace(r)
    ensures forall c :: c in r <==> c in s && !IsSpace(c)
  {
    if s == [] then []
    else if IsSpace(s[0]) then DropSpaces(s[1..])
    else [s[0]] + DropSpaces(s[1..])
  }

  /** Neither end of `s` is white space. */
  ghost predicate IsTrimmed(s: string) {
    s == [] || (!IsSpace(s[0]) && !IsSpace(s[|s| - 1]))
  }

  function TrimStart(s: string): (r: string)
    ensures |r| <= |s| && r == s[|s| - |r|..]
    ensures r == [] || !IsSpace(r[0])
    ensures AllSpace(s[..|s| - |r|])
  {
    if s != [] && IsSpace(s[0]) then
      var r := TrimStart(s[1..]);
      DropSpaceStep(s, r);
      r
    else
      assert s[..0] == [];
      s
  }

  /** Dropping one more leading space keeps `r` a suffix after white space only. */
  lemma DropSpaceStep(s: string, r: string)
    requires s != [] && IsSpace(s[0])
    requires |r| <= |s[1..]| && r == s[1..][|s[1..]| - |r|..] && AllSpace(s[1..][..|s[1..]| - |r|])
    ensures |r| <= |s| && r == s[|s| - |r|..] && AllSpace(s[..|s| - |r|])
  {
    assert s[1..][|s[1..]| - |r|..] == s[|s| - |r|..];
    assert s[..|s| - |r|] == [s[0]] + s[1..][..|s[1..]| - |r|];
  }

  function TrimEnd(s: string): (r: string)
    ensures |r| <= |s| && r == s[..|r|]
    ensures r == [] || !IsSpace(r[|r| - 1])
    ensures AllSpace(s[|r|..])
  {
    if s != [] && IsSpace(s[|s| - 1]) then
      var r := TrimEnd(s[..|s| - 1]);
      DropTrailingSpaceStep(s, r);
      r
    else
      assert s[|s|..] == [];
      s
  }

  /** Dropping one more trailing space keeps `r` a prefix before white space only. */
  lemma DropTrailingSpaceStep(s: string, r: string)
    requires s != [] && IsSpace(s[|s| - 1])
    requires |r| <= |s| - 1 && r == s[..|s| - 1][..|r|] && AllSpace(s[..|s| - 1][|r|..])
    ensures |r| <= |s| && r == s[..|r|] && AllSpace(s[|r|..])
  {
    assert s[..|s| - 1][..|r|] == s[..|r|];
    assert s[|r|..] == s[..|s| - 1][|r|..] + [s[|s| - 1]];
  }

  /** `s.trim()`: the slice of `s` between its leading and its trailing white space. */
  function Trim(s: string): (r: string)
    ensures IsTrimmed(r)
    ensures |r| <= |s| - TrimOffset(s)
    ensures r == s[TrimOffset(s)..TrimOffset(s) + |r|]
  {
    TrimEnd(TrimStart(s))
  }

  /** Where the trimmed slice starts: the number of leading white-space characters. */
  function TrimOffset(s: string): (k: nat)
    ensures k <= |s|
  {
    |s| - |TrimStart(s)|
  }

  /** What `Trim` removes is white space, at both ends. */
  lemma TrimRemovesSpace(s: string)
    ensures AllSpace(s[..TrimOffset(s)])
    ensures AllSpace(s[TrimOffset(s) + |Trim(s)|..])
  {
    var a := TrimStart(s);
    assert s[TrimOffset(s) + |Trim(s)|..] == a[|Trim(s)|..];
  }

  lemma TrimOfTrimmed(s: string)
    requires IsTrimmed(s)
    ensures Trim(s) == s
  {
  }

  /** Every character `Trim` keeps comes from its argument. */
  lemma TrimChars(s: string, c: char)
    requires c in Trim(s)
    ensures c in s
  {
    var r := Trim(s);
    var k := TrimOffset(s);
    var i :| 0 <= i < |r| && r[i] == c;
    assert s[k + i] == c;
  }

  /** A string without white space trims to itself. */
  lemma TrimNoSpace(s: string)
    requires NoSpace(s)
    ensures Trim(s) == s
  {
  }

  /** A trimmed string is empty exactly when its argument is all white space. */
  lemma TrimEmpty(s: string)
    ensures Trim(s) == [] <==> AllSpace(s)
  {
    var r := Trim(s);
    var k := TrimOffset(s);
    TrimRemovesSpace(s);
    TrimEndKeepsVisible(TrimStart(s));
    if r == [] {
      assert s[..k] == s;
    } else {
      assert !IsSpace(s[k]);
    }
  }

  lemma {:induction false} TrimEndKeepsVisible(a: string)
    ensures a != [] && !IsSpace(a[0]) ==> TrimEnd(a) != []
  {
    if a != [] && !IsSpace(a[0]) && IsSpace(a[|a| - 1]) {
      TrimEndKeepsVisible(a[..|a| - 1]);
    }
  }

  /** Trimming cannot introduce a character that was absent. */
  lemma TrimKeepsAbsent(s: string, c: char)
    requires c !in s
    ensures c !in Trim(s)
  {
    if c in Trim(s) {
      TrimChars(s, c);
    }
  }

  // ----- Case mapping -----

  /** `toLowerCase` on one character: ASCII letters and the Polish capitals. */
  function LowerChar(c: char): char {
    if 'A' <= c <= 'Z' then (c as int + 32) as char
    else if c == 'Ą' then 'ą' else if c == 'Ć' then 'ć' else if c == 'Ę' then 'ę'
    else if c == 'Ł' then 'ł' else if c == 'Ń' then 'ń' else if c == 'Ó' then 'ó'
    else if c == 'Ś' then 'ś' else if c == 'Ź' then 'ź' else if c == 'Ż' then 'ż'
    else c
  }

  /** `toUpperCase` on one character, the inverse mapping of `LowerChar`. */
  function UpperChar(c: char): char {
    if 'a' <= c <= 'z' then (c as int - 32) as char
    else if c == 'ą' then 'Ą' else if c == 'ć' then 'Ć' else if c == 'ę' then 'Ę'
    else if c == 'ł' then 'Ł' else if c == 'ń' then 'Ń' else if c == 'ó' then 'Ó'
    else if c == 'ś' then 'Ś' else if c == 'ź' then 'Ź' else if c == 'ż' then 'Ż'
    else c
  }

  /** Changing case never turns white space into a visible character or back. */
  lemma CaseKeepsSpace(c: char)
    ensures IsSpace(LowerChar(c)) <==> IsSpace(c)
    ensures IsSpace(UpperChar(c)) <==> IsSpace(c)
    ensures LowerChar(UpperChar(c)) == LowerChar(c)
    ensures UpperChar(UpperChar(c)) == UpperChar(c)
  {
  }

  function Lower(s: string): (r: string)
    ensures |r| == |s|
    ensures forall i :: 0 <= i < |s| ==> r[i] == LowerChar(s[i])
  {
    Map(s, LowerChar)
  }

  /** `s.charAt(0).toUpperCase() + s.slice(1)`. */
  function Capitalize(s: string): (r: string)
    ensures |r| == |s|
    ensures s != [] ==> r[0] == UpperChar(s[0]) && r[1..] == s[1..]
  {
    if s == [] then [] else [UpperChar(s[0])] + s[1..]
  }

  // ----- Searching -----

  /** `sub` occurs in `s` starting at position `k`. */
  ghost predicate OccursAt(s: string, sub: string, k: int) {
    0 <= k && k + |sub| <= |s| && s[k..k + |sub|] == sub
  }

  /** `s.indexOf(sub)`: the first position where `sub` occurs, or -1. */
  function IndexOf(s: string, sub: string): (r: int)
    ensures -1 <= r <= |s|
    ensures r >= 0 ==> OccursAt(s, sub, r)
    ensures r >= 0 ==> forall k :: 0 <= k < r ==> !OccursAt(s, sub, k)
    ensures r == -1 ==> forall k :: !OccursAt(s, sub, k)
  {
    if |sub| > |s| then -1
    else if s[..|sub|] == sub then 0
    else
      var k := IndexOf(s[1..], sub);
      assert forall j :: 0 < j && OccursAt(s, sub, j) ==> OccursAt(s[1..], sub, j - 1) by {
        forall j | 0 < j && OccursAt(s, sub, j) ensures OccursAt(s[1..], sub, j - 1) {
          assert s[1..][j - 1..j - 1 + |sub|] == s[j..j + |sub|];
        }
      }
      if k == -1 then -1
      else
        assert s[1..][k..k + |sub|] == s[k + 1..k + 1 + |sub|];
        k + 1
  }

  /** `s.includes(sub)`: `sub` is a prefix of some suffix of `s`. */
  predicate Contains(s: string, sub: string) {
    |sub| <= |s| && (s[..|sub|] == sub || Contains(s[1..], sub))
  }

  /** `includes` holds exactly when `indexOf` finds a position. */
  lemma {:induction false} ContainsIndexOf(s: string, sub: string)
    ensures Contains(s, sub) <==> IndexOf(s, sub) >= 0
  {
    if |sub| <= |s| && s[..|sub|] != sub {
      ContainsIndexOf(s[1..], sub);
    }
  }

  lemma ContainsIff(s: string, sub: string)
    ensures Contains(s, sub) <==> exists k :: OccursAt(s, sub, k)
  {
    ContainsIndexOf(s, sub);
  }

  /** Every text includes itself. */
  lemma ContainsSelf(s: string)
    ensures Contains(s, s)
  {
    assert s[..|s|] == s;
  }

  /** `s.startsWith(p)`, i.e. `s.indexOf(p) === 0`. */
  lemma IndexOfZero(s: string, p: string)
    ensures IndexOf(s, p) == 0 <==> |p| <= |s| && s[..|p|] == p
  {
    if |p| <= |s| && s[..|p|] == p {
      assert OccursAt(s, p, 0);
    }
  }

  /** The number of occurrences of `c` in `s` (`(s.match(/c/g) || []).length`). */
  function Count(s: string, c: char): nat {
    if s == [] then 0 else (if s[0] == c then 1 else 0) + Count(s[1..], c)
  }

  // ----- Splitting and joining -----

  /** `s.split(sep)` where every character satisfying `isSep` ends a piece. */
  function SplitWhere(s: string, isSep: char -> bool): (r: seq<string>)
    ensures |r| >= 1
    ensures forall i, k :: 0 <= i < |r| && 0 <= k < |r[i]| ==> !isSep(r[i][k])
  {
    if s == [] then [[]]
    else
      var rest := SplitWhere(s[1..], isSep);
      if isSep(s[0]) then [[]] + rest
      else [[s[0]] + rest[0]] + rest[1..]
  }

  /** `s.split(c)` for a one-character separator. */
  function SplitOn(s: string, c: char): (r: seq<string>)
    ensures |r| >= 1
    ensures forall i :: 0 <= i < |r| ==> c !in r[i]
  {
    SplitWhere(s, x => x == c)
  }

  lemma {:induction false} SplitOnCount(s: string, c: char)
    ensures |SplitOn(s, c)| == Count(s, c) + 1
  {
    if s != [] {
      SplitOnCount(s[1..], c);
    }
  }

  /** `parts.join(sep)`. */
  function Join(parts: seq<string>, sep: string): string {
    if parts == [] then []
    else if |parts| == 1 then parts[0]
    else parts[0] + sep + Join(parts[1..], sep)
  }

  /** Splitting on a character and joining with it again restores the string. */
  lemma {:induction false} JoinSplitOn(s: string, c: char)
    ensures Join(SplitOn(s, c), [c]) == s
  {
    if s != [] {
      JoinSplitOn(s[1..], c);
      var rest := SplitOn(s[1..], c);
      if s[0] == c {
        assert SplitOn(s, c) == [[]] + rest;
      } else {
        assert SplitOn(s, c) == [[s[0]] + rest[0]] + rest[1..];
        if |rest| == 1 {
        } else {
          assert Join(rest, [c]) == rest[0] + [c] + Join(rest[1..], [c]);
        }
      }
    }
  }

  /** Joining pieces free of `c` with `c` and splitting on `c` gives the pieces back. */
  lemma {:induction false} SplitOnJoin(parts: seq<string>, c: char)
    requires |parts| >= 1
    requires forall i :: 0 <= i < |parts| ==> c !in parts[i]
    ensures SplitOn(Join(parts, [c]), c) == parts
  {
    if |parts| == 1 {
      SplitOnFree(parts[0], c);
    } else {
      SplitOnJoin(parts[1..], c);
      SplitOnPrefix(parts[0], Join(parts[1..], [c]), c);
    }
  }

  lemma {:induction false} SplitOnFree(s: string, c: char)
    requires c !in s
    ensures SplitOn(s, c) == [s]
  {
    if s != [] {
      SplitOnFree(s[1..], c);
      assert [s[0]] + s[1..] == s;
    }
  }

  lemma {:induction false} SplitOnPrefix(a: string, b: string, c: char)
    requires c !in a
    ensures SplitOn(a + [c] + b, c) == [a] + SplitOn(b, c)
  {
    if a == [] {
      assert a + [c] + b == [c] + b;
      assert ([c] + b)[1..] == b;
    } else {
      assert (a + [c] + b)[1..] == a[1..] + [c] + b;
      SplitOnPrefix(a[1..], b, c);
      assert [a[0]] + a[1..] == a;
    }
  }

  /** `s.split(',').map(x => x.trim()).filter(x => x.length > 0)`. */
  function CommaList(s: string): (r: seq<string>)
    ensures forall i :: 0 <= i < |r| ==> r[i] != [] && IsTrimmed(r[i]) && ',' !in r[i]
  {
    var split := SplitOn(s, ',');
    var pieces := TrimAll(split);
    assert forall i :: 0 <= i < |pieces| ==> Clean(pieces[i]) by {
      forall i | 0 <= i < |pieces| ensures Clean(pieces[i]) {
        TrimKeepsAbsent(split[i], ',');
      }
    }
    FilterKeeps(pieces, NonEmpty, Clean);
    Filter(pieces, NonEmpty)
  }

  /** `x` is a non-empty piece of `split`, trimmed. */
  ghost predicate TrimmedPiece(x: string, split: seq<string>) {
    x != [] && exists i :: 0 <= i < |split| && x == Trim(split[i])
  }

  /** The listed codes are exactly the non-empty trimmed pieces between the commas. */
  lemma CommaListMembers(s: string)
    ensures forall x :: x in CommaList(s) <==> TrimmedPiece(x, SplitOn(s, ','))
  {
    var split := SplitOn(s, ',');
    var pieces := TrimAll(split);
    var r := CommaList(s);
    assert r == Filter(pieces, NonEmpty);
    TrimAllMembers(split);
    forall x ensures x in r <==> TrimmedPiece(x, split) {
      assert x in r <==> x in pieces && NonEmpty(x);
    }
  }

  lemma TrimAllMembers(ps: seq<string>)
    ensures forall x :: x in TrimAll(ps) <==> exists i :: 0 <= i < |ps| && x == Trim(ps[i])
  {
    var r := TrimAll(ps);
    forall x ensures x in r <==> exists i :: 0 <= i < |ps| && x == Trim(ps[i]) {
      if x in r {
        var i :| 0 <= i < |r| && r[i] == x;
      }
      if exists i :: 0 <= i < |ps| && x == Trim(ps[i]) {
        var i :| 0 <= i < |ps| && x == Trim(ps[i]);
        assert r[i] == x;
      }
    }
  }

  predicate NonEmpty(x: string) {
    |x| > 0
  }

  /** Trimmed and free of `,`. */
  ghost predicate Clean(x: string) {
    IsTrimmed(x) && ',' !in x
  }

  /** Trims every piece. */
  function TrimAll(ps: seq<string>): (r: seq<string>)
    ensures |r| == |ps|
    ensures forall i :: 0 <= i < |r| ==> r[i] == Trim(ps[i]) && IsTrimmed(r[i])
  {
    if ps == [] then [] else [Trim(ps[0])] + TrimAll(ps[1..])
  }

  /** Joining a clean list with ", " (as an edit form does) and reading it back with `CommaList` restores the list. */
  lemma CommaListJoin(l: seq<string>)
    requires forall i :: 0 <= i < |l| ==> l[i] != [] && IsTrimmed(l[i]) && ',' !in l[i]
    ensures CommaList(Join(l, ", ")) == l
  {
    if l == [] {
      assert SplitOn([], ',') == [[]];
      assert TrimAll([[]]) == [[]];
      assert Filter([[]], NonEmpty) == [];
    } else {
      var pieces := [l[0]] + Spaced(l[1..]);
      JoinSpaced(l);
      SpacedCommaFree(l);
      SplitOnJoin(pieces, ',');
      TrimAllPieces(l);
      FilterAll(l, NonEmpty);
    }
  }

  lemma SpacedCommaFree(l: seq<string>)
    requires l != []
    requires forall i :: 0 <= i < |l| ==> ',' !in l[i]
    ensures forall i :: 0 <= i < |l| ==> ',' !in ([l[0]] + Spaced(l[1..]))[i]
  {
    var pieces := [l[0]] + Spaced(l[1..]);
    forall i | 0 <= i < |l| ensures ',' !in pieces[i] {
      if i > 0 {
        assert pieces[i] == " " + l[i];
      }
    }
  }

  lemma TrimAllPieces(l: seq<string>)
    requires l != []
    requires forall i :: 0 <= i < |l| ==> l[i] != [] && IsTrimmed(l[i])
    ensures TrimAll([l[0]] + Spaced(l[1..])) == l
  {
    var pieces := [l[0]] + Spaced(l[1..]);
    var r := TrimAll(pieces);
    forall i | 0 <= i < |l| ensures r[i] == l[i] {
      TrimPiece(l, pieces, i);
    }
  }

  /** The `i`-th piece of a joined list trims to the `i`-th item. */
  lemma TrimPiece(l: seq<string>, pieces: seq<string>, i: nat)
    requires l != [] && pieces == [l[0]] + Spaced(l[1..]) && i < |l|
    requires l[i] != [] && IsTrimmed(l[i])
    ensures Trim(pieces[i]) == l[i]
  {
    if i == 0 {
      TrimOfTrimmed(l[0]);
    } else {
      assert pieces[i] == " " + l[i];
      TrimLeadingBlank(l[i]);
    }
  }

  lemma TrimLeadingBlank(x: string)
    requires IsTrimmed(x) && x != []
    ensures Trim(" " + x) == x
  {
    assert (" " + x)[1..] == x;
    assert TrimStart(" " + x) == TrimStart(x) == x;
  }

  /** Every item preceded by one blank, as `join(", ")` lays them out after the comma. */
  function Spaced(l: seq<string>): (r: seq<string>)
    ensures |r| == |l|
    ensures forall i :: 0 <= i < |l| ==> r[i] == " " + l[i]
  {
    if l == [] then [] else [" " + l[0]] + Spaced(l[1..])
  }

  lemma {:induction false} JoinSpaced(l: seq<string>)
    requires l != []
    ensures Join(l, ", ") == Join([l[0]] + Spaced(l[1..]), [','])
  {
    if |l| > 1 {
      JoinSpaced(l[1..]);
      var m := Spaced(l[1..]);
      var m2 := Spaced(l[2..]);
      assert m == [" " + l[1]] + m2;
      assert ([l[0]] + m)[1..] == m;
      assert ([l[1]] + m2) == [l[1]] + Spaced(l[1..][1..]);
      calc {
        Join([l[0]] + m, [',']);
        l[0] + [','] + Join(m, [',']);
        { JoinHeadSpace(l[1], m2); }
        l[0] + [','] + (" " + Join([l[1]] + m2, [',']));
        { assert l[0] + [','] + (" " + Join([l[1]] + m2, [','])) == l[0] + ", " + Join([l[1]] + m2, [',']); }
        l[0] + ", " + Join(l[1..], ", ");
      }
    }
  }

  lemma JoinHeadSpace(x: string, rest: seq<string>)
    ensures Join([" " + x] + rest, [',']) == " " + Join([x] + rest, [','])
  {
    if rest != [] {
      assert ([" " + x] + rest)[1..] == rest;
      assert ([x] + rest)[1..] == rest;
    }
  }

  // ----- Ordering and rendering -----

  /** Code-point lexicographic order on strings, used for `localeCompare`. */
  predicate StrLe(a: string, b: string) {
    if a == [] then true
    else if b == [] then false
    else if a[0] != b[0] then a[0] < b[0]
    else StrLe(a[1..], b[1..])
  }

  lemma {:induction false} StrLeTotal(a: string, b: string)
    ensures StrLe(a, b) || StrLe(b, a)
  {
    if a != [] && b != [] && a[0] == b[0] {
      StrLeTotal(a[1..], b[1..]);
    }
  }

  lemma {:induction false} StrLeTrans(a: string, b: string, c: string)
    requires StrLe(a, b) && StrLe(b, c)
    ensures StrLe(a, c)
  {
    if a != [] && b != [] && c != [] && a[0] == b[0] && b[0] == c[0] {
      StrLeTrans(a[1..], b[1..], c[1..]);
    }
  }

  function DigitChar(d: int): char
    requires 0 <= d < 10
  {
    "0123456789"[d]
  }

  /** The decimal rendering of `n` (`String(n)` for a non-negative integer). */
  function NatToString(n: nat): (r: string)
    ensures |r| >= 1
    ensures forall i :: 0 <= i < |r| ==> '0' <= r[i] <= '9'
  {
    if n < 10 then [DigitChar(n)] else NatToString(n / 10) + [DigitChar(n % 10)]
  }

  /** The decimal value of a string of digits. */
  function DigitsValue(s: string): nat
    requires forall i :: 0 <= i < |s| ==> '0' <= s[i] <= '9'
  {
    if s == [] then 0 else DigitsValue(s[..|s| - 1]) * 10 + (s[|s| - 1] as int - '0' as int)
  }

  /** Rendering is injective: reading the digits back gives the number. */
  lemma {:induction false} NatToStringValue(n: nat)
    ensures DigitsValue(NatToString(n)) == n
  {
    if n >= 10 {
      NatToStringValue(n / 10);
      var r := NatToString(n);
      assert r[..|r| - 1] == NatToString(n / 10);
    }
  }

  /** `String(i)` for any integer. */
  function IntToString(i: int): string {
    if i < 0 then "-" + NatToString(-i) else NatToString(i)
  }
}

=== FILE: wrappers.dfy ===
/** Failure-carrying datatypes shared by every module of the model. */
module Wrappers {

  /** A value that may be absent: JavaScript `undefined`, Python `None`. */
  datatype Option<T> = None | Some(value: T) {

    /** The wrapped value, or `default` when absent. */
    function GetOr(default: T): T {
      match this
      case Some(v) => v
      case None => default
    }
  }

  /** The outcome of an operation that can fail with an error of type `E`. */
  datatype Result<T, E> = Ok(value: T) | Err(error: E)
}

=== FILE: year_history.dfy ===
/**
 The year-keyed edit every screen applies to a parcel's history: find the
 first entry of the campaign year, rewrite it if there is one, append a added
 entry otherwise, and (where the screen does so) re-sort newest year first.
 */
module YearHistory {
  import opened Wrappers
  import opened Seqs
  import opened FarmTypes

  /** `history.findIndex(h => h.year === year)`. */
  function YearIndex(history: seq<HistoryEntry>, year: int): (r: int)
    ensures -1 <= r < |history|
    ensures r == -1 <==> !HasYear(history, year)
    ensures r >= 0 ==> history[r].year == year && FirstInYear(history, year, r)
  {
    if history == [] then -1
    else if history[0].year == year then 0
    else
      var k := YearIndex(history[1..], year);
      assert forall j :: 0 < j < |history| ==> history[j] == history[1..][j - 1];
      if k < 0 then -1 else k + 1
  }

  /**
   Rewrites the first entry of `year` with `update`, or appends `added` when the
   history has no entry for that year.
   */
  function PutYear(history: seq<HistoryEntry>, year: int, update: HistoryEntry -> HistoryEntry,
                   added: HistoryEntry): (r: seq<HistoryEntry>)
    ensures !HasYear(history, year) ==> r == history + [added]
    ensures HasYear(history, year) ==> exists i :: (0 <= i < |history| && history[i].year == year &&
      FirstInYear(history, year, i) && r == history[i := update(history[i])])
  {
    var i := YearIndex(history, year);
    if i >= 0 then history[i := update(history[i])] else history + [added]
  }

  /** An update that leaves an entry of `year` in `year`. */
  ghost predicate KeepsYear(update: HistoryEntry -> HistoryEntry, year: int) {
    forall e: HistoryEntry :: e.year == year ==> update(e).year == year
  }

  /**
   After the edit the history has an entry for the year, and no entry of any
   other year was added, removed or changed.
   */
  lemma PutYearOthers(history: seq<HistoryEntry>, year: int, update: HistoryEntry -> HistoryEntry,
                      added: HistoryEntry, e: HistoryEntry)
    requires KeepsYear(update, year) && added.year == year
    requires e.year != year
    ensures HasYear(PutYear(history, year, update, added), year)
    ensures multiset(PutYear(history, year, update, added))[e] == multiset(history)[e]
  {
    var r := PutYear(history, year, update, added);
    var i := YearIndex(history, year);
    if i >= 0 {
      assert r[i].year == year;
      UpdateCount(history, i, update(history[i]), e);
    } else {
      assert r[|history|] == added;
    }
  }

  lemma UpdateCount<T>(s: seq<T>, i: int, x: T, e: T)
    requires 0 <= i < |s| && x != e && s[i] != e
    ensures multiset(s[i := x])[e] == multiset(s)[e]
  {
    assert s == s[..i] + [s[i]] + s[i + 1..];
    assert s[i := x] == s[..i] + [x] + s[i + 1..];
  }

  /** The edit followed by the newest-first sort. */
  function PutYearSorted(history: seq<HistoryEntry>, year: int, update: HistoryEntry -> HistoryEntry,
                         added: HistoryEntry): (r: seq<HistoryEntry>)
    ensures NewestFirst(r)
    ensures multiset(r) == multiset(PutYear(history, year, update, added))
  {
    SortHistory(PutYear(history, year, update, added))
  }

  /** The sorted edit keeps the same entries as the unsorted one, so the same facts hold. */
  lemma PutYearSortedOthers(history: seq<HistoryEntry>, year: int, update: HistoryEntry -> HistoryEntry,
                            added: HistoryEntry, e: HistoryEntry)
    requires KeepsYear(update, year) && added.year == year
    requires e.year != year
    ensures HasYear(PutYearSorted(history, year, update, added), year)
    ensures multiset(PutYearSorted(history, year, update, added))[e] == multiset(history)[e]
  {
    PutYearOthers(history, year, update, added, e);
    var u := PutYear(history, year, update, added);
    var i :| 0 <= i < |u| && u[i].year == year;
    assert u[i] in multiset(PutYearSorted(history, year, update, added));
  }

  /** The rewritten (or added) entry is in the result. */
  lemma PutYearHolds(history: seq<HistoryEntry>, year: int, update: HistoryEntry -> HistoryEntry,
                     added: HistoryEntry)
    ensures var r := PutYear(history, year, update, added);
      (HasYear(history, year) ==> update(FindYear(history, year).value) in r) &&
      (!HasYear(history, year) ==> added in r)
  {
    var r := PutYear(history, year, update, added);
    if HasYear(history, year) {
      var i := YearIndex(history, year);
      FirstYearFound(history, year, i);
      assert r[i] == update(history[i]);
    } else {
      assert r[|history|] == added;
    }
  }

  /** `find` returns the entry at the first position of the year. */
  lemma {:induction false} FirstYearFound(history: seq<HistoryEntry>, year: int, i: int)
    requires 0 <= i < |history| && history[i].year == year && FirstInYear(history, year, i)
    ensures FindYear(history, year) == Some(history[i])
  {
    if i > 0 {
      assert history[0].year != year;
      FirstYearFound(history[1..], year, i - 1);
    }
  }
}
